=== FILE: README.md ===
# A Dafny model of the CyanogenMod experimental packages' core logic

This project models the sequential, self-contained logic of several tools and
sample apps from `android_packages_experimental`, and proves what the code
promises about it. Each modelled source file has its own module. The pieces are:

- **The Eclipse workspace generator** (`PixelPerfect/scripts/eclipse_builder.py`),
  in `EclipseEntries`, `EclipseTemplates`, `EclipsePaths` and `EclipseResults`,
  over `PyPath` (Python's POSIX path functions) and `PosixFs` (a filesystem as
  a map from normalized paths to nodes). It covers:
  - the descriptors a project description lists (`Create`, `Link`, `LinkTree`, `Mkdir`);
  - the classpath, `.project` and launch-configuration templates, and the google3 projects;
  - the third-party library entries;
  - `RelativePath` and `AppendNameSuffix`;
  - `HandleResults`, which validates every entry and then lays out the project directory.
- **mDNS / DNS-SD printer discovery.** It covers:
  - `DnsSdParser`: TXT-record attributes, as in section 6 of RFC 6763, and the assembly of services;
  - `MDnsQuery`: query packets, as in sections 4.1.1, 4.1.2 and 4.1.4 of RFC 1035, with the QU bit of section 5.4 and the known answers of section 7.1 of RFC 6762;
  - `VendorMatch`, `MDnsUtils` and `MDNSUtils`: the vendor tests;
  - `NetworkDevice`: identity, instance merging and the parcel form;
  - `QueryBackoff`: the Fibonacci wait between query rounds.
- **procstatlog** (`ProcStatLog`): parsing `/proc/stat` and `/proc/yaffs` into
  name-sorted records, and the `+`/`-`/`=` diff of two snapshots.
- **The print sample** (`PrintPages`): `containsPage`, the pages `onWrite` draws
  until the task is cancelled, and what the write callback is told.
- **PixelPerfect:**
  - `ExcludedPackages`: the hardcoded and custom exclusion sets and the CSV file;
  - `PackageItem`: normalization and matching;
  - `PlatformClient`: the reconnect throttle of `PlatformServiceClient`.
- **`NotificationOrder`**: the ranking comparator of `OrderedNotificationsHelper`.
- **`StubProvider`**: the query, filter and sort of `PrintServiceStubProvider`, and its refused mutators.
- **`LoginData`**: the `Parcelable` round trip and the copy constructor.
- **`MopriaPlugin` and `RemotePlugin`**: the Mopria printer count, and the
  running/stopped wrapper of `RemotePrinterDiscoveryPlugin`.
- **`TraceLogger`**: the line format, de-duplication by dots, and `getFunctionName` of the UI automation provider.
- **`DroidDream`**: `strstrip`, `package_installed`, prefix stripping and the choice of packages to uninstall in `droiddreamclean`.

`Wrappers`, `Text`, `Bytes`, `Seqs`, `Parcel` and `AndroidTypes` are shared helpers. The model uses these conventions:
- A null reference or a Python `None` is an `Option`.
- A thrown exception or a raised `Error` is a `Result` failure carrying the exception's text.
- A Java `int`, `short` or `byte` is wrapped explicitly where the code narrows it.
- Clocks, random draws, the package manager's output, file contents and the directory listing `os.walk` yields are parameters.

Behaviour of `HandleResults` worth noting:
- `HandleResults` creates the project directory before it validates the
  entries (eclipse_builder.py:824-825). A failed validation therefore leaves
  that directory behind.
- A `Create` entry opens its file without creating parent directories
  (eclipse_builder.py:922-929). A missing parent is an error.
- Launcher files are named after the launcher with the path separator
  replaced by a space, and no suffix is added (eclipse_builder.py:948-955).
  Only the project name receives the suffix.
- A `LinkTree` entry ignores its glob. It links every file `os.walk` lists
  (eclipse_builder.py:881-914).
- The run is parameterised by a `Reading`. `AsWritten` is the source: its
  `RelativePath` raises `IndexError` when one path lies inside the other
  (eclipse_builder.py:687-697), and the tree loop tests the relative link
  text, not the listed file, for being a directory
  (eclipse_builder.py:900-905). `Intended` is the corrected run, used for
  the findings below.

Three other operations are modelled the same way, in the source's version
and in a corrected one: the page ranges of the print sample
(`PrintPages.OnPostExecute` and `PrintPages.OnPostExecuteIntended`), the
mDNS query packets (`MDnsQuery.QueryPacket` and
`MDnsQuery.QueryPacketIntended`), and the notification comparator
(`NotificationOrder.CompareAsWritten` and `NotificationOrder.Compare`).

## Model

| member | source | states |
|---|---|---|
| PrintPages.ContainsPage | PrintApp/src/foo/bar/print/PrintActivity.java:271-280 | true exactly when some requested range holds the page, both ends included |
| PrintPages.SelectPages | PrintApp/src/foo/bar/print/PrintActivity.java:190-203 | the pages drawn are in ascending order, and a page is drawn exactly when it is one of the document's five pages, the loop reached it before `isCancelled()` held, and a requested range holds it |
| PrintPages.DrawLimit | PrintApp/src/foo/bar/print/PrintActivity.java:190-193 | the loop stops at the page before which the task is first seen cancelled, and goes through all five pages when it is not cancelled in time |
| PrintPages.AsWrittenJoinsRuns | PrintApp/src/foo/bar/print/PrintActivity.java:229-245 | the reporting loop as written turns the written pages 0, 1, 3, 4 into the one range 0-3 |
| PrintPages.AsWrittenReportsUnwritten | PrintApp/src/foo/bar/print/PrintActivity.java:229-245 | the reporting loop as written reports pages 0 and 2 as the range 0-2, which covers page 1 that was never written |
| PrintPages.Coalesce | PrintApp/src/foo/bar/print/PrintActivity.java:229-245 | the intended reporting gives no more ranges than written pages, and the first range starts at the first written page |
| PrintPages.CoalesceInside | PrintApp/src/foo/bar/print/PrintActivity.java:232-244 | every reported range starts and ends at a written page |
| PrintPages.CoalesceLast | PrintApp/src/foo/bar/print/PrintActivity.java:232-244 | the last reported range ends at the last written page |
| PrintPages.CoalesceSeparated | PrintApp/src/foo/bar/print/PrintActivity.java:232-244 | for ascending written pages the ranges are non-empty, ascending, and have an unwritten page between any two |
| PrintPages.CoalesceCovers | PrintApp/src/foo/bar/print/PrintActivity.java:229-245 | for ascending written pages a page lies in a reported range exactly when it was written |
| PrintPages.ContiguousIsOneRange | PrintApp/src/foo/bar/print/PrintActivity.java:229-245 | consecutive written pages are reported as the single range from the first to the last |
| PrintPages.InnerAsWritten | PrintApp/src/foo/bar/print/PrintActivity.java:237-241 | the inner `while` never moves the index back |
| PrintPages.InnerAsWrittenEnd | PrintApp/src/foo/bar/print/PrintActivity.java:237-241 | the inner `while` stops where it began or just past the page it made the range end, and never past the written pages |
| PrintPages.OuterAsWrittenInside | PrintApp/src/foo/bar/print/PrintActivity.java:232-244 | every range the source's loop reports is ordered and begins and ends at a written page, and some range is reported exactly when some page was written |
| PrintPages.InnerContiguous | PrintApp/src/foo/bar/print/PrintActivity.java:237-241 | on consecutive written pages the inner `while` runs to the last written page |
| PrintPages.AsWrittenContiguousAgrees | PrintApp/src/foo/bar/print/PrintActivity.java:229-245 | when the written pages are consecutive, the source's reporting loop gives the same ranges as the intended one-range-per-run reporting |
| PrintPages.OnPostExecute | PrintApp/src/foo/bar/print/PrintActivity.java:218-261 | a cancelled task reports `onWriteCancelled` and only then, never `onWriteFinished`; an uncancelled failed write reports `onWriteFailed` and only then; otherwise the ranges passed to `onWriteFinished` by the source's loop are ordered, begin and end at requested pages of the document, and are empty exactly when no requested page lies in the document |
| PrintPages.OnPostExecuteIntended | PrintApp/src/foo/bar/print/PrintActivity.java:218-261 | with the intended reporting: cancellation and a failed write report as the source does; otherwise the ranges cover exactly the requested pages of the document, are ascending and separated, and lie within the page count |
| LoginData.ValueOf | AndroidVendorSecurityTool/src/com/google/android/googleapps/LoginData.java:145-150 | a status string decodes to the constant with exactly that name; any other string fails with `IllegalArgumentException` |
| LoginData.ValueOfName | AndroidVendorSecurityTool/src/com/google/android/googleapps/LoginData.java:101-105 | `valueOf` inverts `name()` for each of the twelve constants |
| LoginData.Copy | AndroidVendorSecurityTool/src/com/google/android/googleapps/LoginData.java:60-74 | the copy constructor gives a record equal to the original in all thirteen fields |
| LoginData.CaptchaItems | AndroidVendorSecurityTool/src/com/google/android/googleapps/LoginData.java:92-97 | no captcha is written as one item (-1); captcha bytes take two items, the length and the array |
| LoginData.Write | AndroidVendorSecurityTool/src/com/google/android/googleapps/LoginData.java:86-109 | `writeToParcel` writes twelve items plus the captcha items |
| LoginData.ReadCaptcha | AndroidVendorSecurityTool/src/com/google/android/googleapps/LoginData.java:135-141 | a successful captcha read consumes as many items as writing the result takes, and no captcha means the item read was -1 |
| LoginData.ReadStatus | AndroidVendorSecurityTool/src/com/google/android/googleapps/LoginData.java:145-150 | a successful status read consumes one item, and that item is what writing the status gives |
| LoginData.Read | AndroidVendorSecurityTool/src/com/google/android/googleapps/LoginData.java:129-154 | a successful `readFromParcel` consumes exactly as many items as writing the record back takes |
| LoginData.ReadCaptchaWritten | AndroidVendorSecurityTool/src/com/google/android/googleapps/LoginData.java:135-141 | reading captcha items where they were written gives back the captcha data and stops right after them |
| LoginData.ReadStatusWritten | AndroidVendorSecurityTool/src/com/google/android/googleapps/LoginData.java:145-150 | reading a written status gives back the same status, null included |
| LoginData.ReadWritten | AndroidVendorSecurityTool/src/com/google/android/googleapps/LoginData.java:129-154 | reading a written record, wherever it sits in the parcel, gives back the same record and stops right after it |
| LoginData.ParcelRoundTrip | AndroidVendorSecurityTool/src/com/google/android/googleapps/LoginData.java:112-126 | `createFromParcel` of a fresh parcel written by `writeToParcel` gives back the record |
| LoginData.NullCaptchaRoundTrip | AndroidVendorSecurityTool/src/com/google/android/googleapps/LoginData.java:135-137 | a length of -1 reads back as no captcha |
| LoginData.UnknownStatusFails | AndroidVendorSecurityTool/src/com/google/android/googleapps/LoginData.java:149 | a status name that is not a constant's exact name, such as "success", makes the read throw |
| NotificationOrder.RanksMeaning | NotificationListenerSample/src/com/android/example/notificationlistener/OrderedNotificationsHelper.java:59-64 | the cache `fillCache` builds maps exactly the ordered keys, each to its last position in the order |
| NotificationOrder.New | NotificationListenerSample/src/com/android/example/notificationlistener/OrderedNotificationsHelper.java:30-33 | a new helper holds the given order with an empty cache |
| NotificationOrder.Filled | NotificationListenerSample/src/com/android/example/notificationlistener/OrderedNotificationsHelper.java:40-42 | after the emptiness check the cache is a ranking of the current order, and the order is unchanged |
| NotificationOrder.GetIndex | NotificationListenerSample/src/com/android/example/notificationlistener/OrderedNotificationsHelper.java:39-45 | the index is -1 exactly when the key is not in the order; otherwise it is the key's last position in the order |
| NotificationOrder.UpdateKeyOrder | NotificationListenerSample/src/com/android/example/notificationlistener/OrderedNotificationsHelper.java:52-57 | the helper holds the new order and no cache, so later lookups rank by the new order |
| NotificationOrder.UpdateThenIndex | NotificationListenerSample/src/com/android/example/notificationlistener/OrderedNotificationsHelper.java:52-57 | after `updateKeyOrder` a key's index is its last position in the new order, whatever the cache held before |
| NotificationOrder.IntCompare | NotificationListenerSample/src/com/android/example/notificationlistener/OrderedNotificationsHelper.java:92 | `Integer.compare` is negative, zero or positive as the first value is below, equal to or above the second |
| NotificationOrder.AsWrittenNotAntisymmetric | NotificationListenerSample/src/com/android/example/notificationlistener/OrderedNotificationsHelper.java:83-92 | the comparison as written gives 0 for a known key against an unknown one and 1 in the other direction, so it is not antisymmetric |
| NotificationOrder.CompareRanksAntisymmetric | NotificationListenerSample/src/com/android/example/notificationlistener/OrderedNotificationsHelper.java:83-92 | the intended comparison changes sign when its arguments are swapped |
| NotificationOrder.CompareRanksTransitive | NotificationListenerSample/src/com/android/example/notificationlistener/OrderedNotificationsHelper.java:83-92 | the intended comparison is transitive |
| NotificationOrder.UnknownLast | NotificationListenerSample/src/com/android/example/notificationlistener/OrderedNotificationsHelper.java:86-91 | with the intended comparison unknown keys sort after known ones, in both directions |
| NotificationOrder.Compare | NotificationListenerSample/src/com/android/example/notificationlistener/OrderedNotificationsHelper.java:74-93 | `compare` with the intended test fails exactly on a null argument; a known key sorts before an unknown one, two unknown keys tie, and an unknown key sorts after a known one |
| NotificationOrder.CompareAsWritten | NotificationListenerSample/src/com/android/example/notificationlistener/OrderedNotificationsHelper.java:74-93 | `compare` as written fails exactly on a null argument, gives 0 whenever the right key is unknown, and gives 1 when only the left key is unknown |
| NotificationOrder.KnownByPosition | NotificationListenerSample/src/com/android/example/notificationlistener/OrderedNotificationsHelper.java:81-92 | two known keys compare as their indices do |
| NotificationOrder.AsWrittenTiesUnknown | NotificationListenerSample/src/com/android/example/notificationlistener/OrderedNotificationsHelper.java:83-88 | with the order ["a"], comparing "a" with the unranked "b" gives 0, and comparing "b" with "a" gives 1 |
| PackageItem.Normalized | PixelPerfect/src/com/google/android/apps/pixelperfect/preferences/PackageItem.java:42-44 | null stays null; otherwise the result is the input's run between its leading and trailing characters `trim` removes, with each ASCII upper-case letter lower-cased: no upper-case ASCII letter is left, and it neither starts nor ends with such a character |
| PackageItem.New | PixelPerfect/src/com/google/android/apps/pixelperfect/preferences/PackageItem.java:22-27 | the item keeps both names, and its normalized application name is null exactly when the application name is |
| PackageItem.ToString | PixelPerfect/src/com/google/android/apps/pixelperfect/preferences/PackageItem.java:52-54 | the text shown is the package name |
| PackageItem.Matches | PixelPerfect/src/com/google/android/apps/pixelperfect/preferences/PackageItem.java:60-64 | `matches` throws exactly on a null input or a null package name; otherwise it is true exactly when the input occurs in the package name or in the normalized application name, and with no application name only the package name is searched |
| PackageItem.NormalizedIdempotent | PixelPerfect/src/com/google/android/apps/pixelperfect/preferences/PackageItem.java:42-44 | normalizing twice is normalizing once |
| PackageItem.LowerKeepsOccurrence | PixelPerfect/src/com/google/android/apps/pixelperfect/preferences/PackageItem.java:43 | lower-casing keeps an occurrence of a substring at its position |
| PackageItem.AppNamePartMatches | PixelPerfect/src/com/google/android/apps/pixelperfect/preferences/PackageItem.java:60-64 | any part of the trimmed application name, typed in any letter case and normalized, matches the item |
| PackageItem.FoldedAtMeans | PixelPerfect/src/com/google/android/apps/pixelperfect/preferences/PackageItem.java:42-44 | the typed text occurs at a position of the lower-cased text exactly when it lines up there with the original text lower-cased character by character |
| PackageItem.MatchesFolded | PixelPerfect/src/com/google/android/apps/pixelperfect/preferences/PackageItem.java:22-64 | an item built from a package name and an application name matches exactly when the typed text occurs in the package name or lines up with the trimmed application name lower-cased character by character |
| PackageItem.ShownTextMatches | PixelPerfect/src/com/google/android/apps/pixelperfect/preferences/PackageItem.java:52-62 | the text shown for an item matches that item |
| PackageItem.EmptyInputMatches | PixelPerfect/src/com/google/android/apps/pixelperfect/preferences/PackageItem.java:61 | the empty input matches every item with a package name |
| ExcludedPackages.LineLength | PixelPerfect/src/com/google/android/apps/pixelperfect/ExcludedPackages.java:111 | the first line's length: no line terminator before it, and one at it unless the text ends there |
| ExcludedPackages.ReadLine | PixelPerfect/src/com/google/android/apps/pixelperfect/ExcludedPackages.java:111 | `readLine` gives null exactly at the end of the text; otherwise it gives a prefix of the text with no line terminator in it |
| ExcludedPackages.ReadFromFile | PixelPerfect/src/com/google/android/apps/pixelperfect/ExcludedPackages.java:104-122 | a missing or unreadable file leaves the custom set as it was, and an empty file empties it |
| ExcludedPackages.New | PixelPerfect/src/com/google/android/apps/pixelperfect/ExcludedPackages.java:87-98 | the store keeps the hardcoded set given; with no file the custom set starts empty |
| ExcludedPackages.Construct | PixelPerfect/src/com/google/android/apps/pixelperfect/ExcludedPackages.java:87-98 | the constructor's store is read from the file over the given hardcoded set, and it replaces whatever store was shared |
| ExcludedPackages.Instance | PixelPerfect/src/com/google/android/apps/pixelperfect/ExcludedPackages.java:75-84 | `getInstance` returns the shared store when there is one; otherwise it builds one over the two hardcoded packages, so the key guard is excluded, with the custom set read from the file; either way the store returned is the one shared afterwards |
| ExcludedPackages.AfterWrite | PixelPerfect/src/com/google/android/apps/pixelperfect/ExcludedPackages.java:193-201 | a completed write leaves the names joined by commas; a failed `openFileOutput` leaves the file as it was; a write that fails after opening leaves a prefix of the text, as long as the characters written |
| ExcludedPackages.AddCustom | PixelPerfect/src/com/google/android/apps/pixelperfect/ExcludedPackages.java:151-165 | `addCustom` succeeds exactly when the name is new and the write completes; success adds the name, and failure leaves the set as it was; the file is untouched when the name was present, and otherwise is as the write left it; the hardcoded set never changes |
| ExcludedPackages.RemoveFirst | PixelPerfect/src/com/google/android/apps/pixelperfect/ExcludedPackages.java:182 | `List.remove` drops one element when the name is present and nothing otherwise |
| ExcludedPackages.RemoveCustom | PixelPerfect/src/com/google/android/apps/pixelperfect/ExcludedPackages.java:177-190 | `removeCustom` succeeds exactly when the name is in the custom set and the write completes, so a hardcoded-only name is refused; success removes the name, and failure leaves the set as it was; the file is untouched when the name was absent, and otherwise is as the write left it |
| ExcludedPackages.WrittenReadsBack | PixelPerfect/src/com/google/android/apps/pixelperfect/ExcludedPackages.java:193-201 | names without commas or line breaks, joined by commas, read back as the same set |
| ExcludedPackages.AddKeepsSync | PixelPerfect/src/com/google/android/apps/pixelperfect/ExcludedPackages.java:151-165 | when the file held the custom set before `addCustom`, it holds the set afterwards too, unless a write that opened the file failed part way |
| ExcludedPackages.RemoveKeepsSync | PixelPerfect/src/com/google/android/apps/pixelperfect/ExcludedPackages.java:177-190 | `removeCustom` likewise keeps the file in step with the set, unless a write that opened the file failed part way |
| ExcludedPackages.InterruptedWriteEmptiesFile | PixelPerfect/src/com/google/android/apps/pixelperfect/ExcludedPackages.java:151-201 | a write that opens the file and fails before writing anything makes `addCustom` fail with the set unchanged, but leaves an empty file that no longer reads back as the set |
| ExcludedPackages.AddThenRemove | PixelPerfect/tests/src/com/google/android/apps/pixelperfect/ExcludedPackagesTest.java:53-57 | adding a new package and removing it again, with both writes succeeding, leaves it not excluded and the custom set as it was |
| ExcludedPackages.ExclusionScenario | PixelPerfect/tests/src/com/google/android/apps/pixelperfect/ExcludedPackagesTest.java:46-60 | the exclusion test: hardcoded packages are excluded, YouTube can be added and removed again, and Gmail cannot be removed |
| ExcludedPackages.PairReadsBack | PixelPerfect/tests/src/com/google/android/apps/pixelperfect/ExcludedPackagesTest.java:62-72 | a file holding two names separated by a comma gives exactly those two names |
| ExcludedPackages.ReadFileScenario | PixelPerfect/tests/src/com/google/android/apps/pixelperfect/ExcludedPackagesTest.java:62-72 | the read test: the file "maps,youtube" gives those two packages |
| ExcludedPackages.RemoveFirstEnumerates | PixelPerfect/src/com/google/android/apps/pixelperfect/ExcludedPackages.java:181-182 | removing the name from a listing of the set lists the set without it |
| ExcludedPackages.AppendEnumerates | PixelPerfect/src/com/google/android/apps/pixelperfect/ExcludedPackages.java:155-156 | appending a new name to a listing of the set lists the set with it |
| StubProvider.RowOf | PrintServiceStubs/src/com/android/printservicestubs/PrintServiceStubProvider.java:151-157 | a row carries the stub's name, printer count and install URI, 1 or 0 for the multi-vendor flag, and the stub's list index as its id |
| StubProvider.RowsFrom | PrintServiceStubs/src/com/android/printservicestubs/PrintServiceStubProvider.java:144-159 | the collected rows are rows of stubs with a nonzero printer count, each for its own index, in increasing index order |
| StubProvider.Insert | PrintServiceStubs/src/com/android/printservicestubs/PrintServiceStubProvider.java:161-179 | inserting a row into the sorted rows adds exactly that row |
| StubProvider.Sort | PrintServiceStubs/src/com/android/printservicestubs/PrintServiceStubProvider.java:161-179 | sorting permutes the rows |
| StubProvider.Query | PrintServiceStubs/src/com/android/printservicestubs/PrintServiceStubProvider.java:119-186 | `query` fails with `IllegalArgumentException` exactly when the URI, projection, selection, selection arguments or sort order differ from the one allowed query; otherwise it returns a permutation of the collected rows |
| StubProvider.InsertRow | PrintServiceStubs/src/com/android/printservicestubs/PrintServiceStubProvider.java:193-196 | `insert` always throws |
| StubProvider.Delete | PrintServiceStubs/src/com/android/printservicestubs/PrintServiceStubProvider.java:198-202 | `delete` always throws |
| StubProvider.Update | PrintServiceStubs/src/com/android/printservicestubs/PrintServiceStubProvider.java:204-208 | `update` always throws, with the message `delete` uses |
| StubProvider.BeforeTransitive | PrintServiceStubs/src/com/android/printservicestubs/PrintServiceStubProvider.java:161-179 | the row order is transitive |
| StubProvider.InsertSorted | PrintServiceStubs/src/com/android/printservicestubs/PrintServiceStubProvider.java:161-179 | inserting a row with a smaller index than every sorted row keeps the rows sorted |
| StubProvider.SortSorted | PrintServiceStubs/src/com/android/printservicestubs/PrintServiceStubProvider.java:161-179 | rows in increasing index order come out sorted, stubs that tie keeping their list order as `Collections.sort` does |
| StubProvider.QueryRows | PrintServiceStubs/src/com/android/printservicestubs/PrintServiceStubProvider.java:144-183 | an accepted query returns each stub with printers exactly once, as its own row, sorted by printer count descending, then by multi-vendor flag ascending, with ties in list order |
| StubProvider.RowsFromHas | PrintServiceStubs/src/com/android/printservicestubs/PrintServiceStubProvider.java:146-158 | every stub with a nonzero printer count has its row collected |
| StubProvider.SortedOrder | PrintServiceStubs/src/com/android/printservicestubs/PrintServiceStubProvider.java:169-177 | in sorted rows an earlier row has at least as many printers, and on a tie a multi-vendor flag no higher |
| PlatformClient.ConnectAndBind | PixelPerfect/src/com/google/android/apps/pixelperfect/PlatformServiceClient.java:176-184 | a connection attempt records its time and creates the connection object, leaving the rest of the state as it was |
| PlatformClient.New | PixelPerfect/src/com/google/android/apps/pixelperfect/PlatformServiceClient.java:30-40 | a new client has no service, no connect or disconnect time, the configured minimum and a first attempt at construction time |
| PlatformClient.OnConnected | PixelPerfect/src/com/google/android/apps/pixelperfect/PlatformServiceClient.java:90-94 | a connect callback marks the service bound at that time and changes nothing else |
| PlatformClient.OnDisconnected | PixelPerfect/src/com/google/android/apps/pixelperfect/PlatformServiceClient.java:97-101 | a disconnect callback drops the service at that time and changes nothing else |
| PlatformClient.RetryOkay | PixelPerfect/src/com/google/android/apps/pixelperfect/PlatformServiceClient.java:203-217 | a reconnect is allowed exactly when the minimum time has passed since the last attempt and, if there was a disconnect, since that disconnect |
| PlatformClient.GetService | PixelPerfect/src/com/google/android/apps/pixelperfect/PlatformServiceClient.java:144-170 | the service is returned exactly when it is bound; otherwise the call throws, after starting a reconnect when the throttle allows and leaving the state alone when it does not |
| PlatformClient.ObtainScreenshot | PixelPerfect/src/com/google/android/apps/pixelperfect/PlatformServiceClient.java:52-61 | the reply, possibly null, is returned exactly when the service is bound, with the same state change as getting the service |
| PlatformClient.RetryStaysOkay | PixelPerfect/src/com/google/android/apps/pixelperfect/PlatformServiceClient.java:203-217 | once a reconnect is allowed it stays allowed as time goes on |
| PlatformClient.AttemptThrottles | PixelPerfect/src/com/google/android/apps/pixelperfect/PlatformServiceClient.java:144-184 | a reconnect attempt blocks another attempt until the minimum time has passed |
| PlatformClient.DisconnectThrottles | PixelPerfect/src/com/google/android/apps/pixelperfect/PlatformServiceClient.java:97-101 | after a disconnect no reconnect starts until the minimum time has passed |
| PlatformClient.UnboundAlwaysThrows | PixelPerfect/src/com/google/android/apps/pixelperfect/PlatformServiceClient.java:144-170 | without a bound service every call throws, whatever the time |
| RemotePlugin.New | PrinterVendorDiscovery/src/com/android/printerdiscovery/RemotePrinterDiscoveryPlugin.java:66-81 | construction succeeds exactly when the plugin gives both a name and an action, caching them with the wrapper not running and no printers; otherwise it throws "Cannot cache simple properties" |
| RemotePlugin.Start | PrinterVendorDiscovery/src/com/android/printerdiscovery/RemotePrinterDiscoveryPlugin.java:105-116 | starting succeeds exactly when the plugin starts, and then only marks the wrapper running; otherwise it throws "Cannot start" |
| RemotePlugin.Stop | PrinterVendorDiscovery/src/com/android/printerdiscovery/RemotePrinterDiscoveryPlugin.java:121-131 | stopping succeeds exactly when the plugin stops, and then only marks the wrapper not running; otherwise it throws "Cannot stop" |
| RemotePlugin.OnChanged | PrinterVendorDiscovery/src/com/android/printerdiscovery/RemotePrinterDiscoveryPlugin.java:142-152 | a report is taken exactly when the wrapper is running and the count is not negative, storing the count and notifying the listener once; the two failures throw the state and argument exceptions |
| RemotePlugin.StoppedRefuses | PrinterVendorDiscovery/src/com/android/printerdiscovery/RemotePrinterDiscoveryPlugin.java:121-152 | a stopped wrapper refuses every report |
| RemotePlugin.StartThenReport | PrinterVendorDiscovery/src/com/android/printerdiscovery/RemotePrinterDiscoveryPlugin.java:66-152 | a new wrapper refuses reports until started, then holds the last count it was given |
| MopriaPlugin.New | PrinterVendorDiscovery/src/com/android/printerdiscovery/plugins/mopria/MopriaPlugin.java:60-69 | a new plugin knows no printers and has no callback |
| MopriaPlugin.Start | PrinterVendorDiscovery/src/com/android/printerdiscovery/plugins/mopria/MopriaPlugin.java:76-81 | starting hands over the callback and keeps the printers known |
| MopriaPlugin.OnDeviceFound | PrinterVendorDiscovery/src/com/android/printerdiscovery/plugins/mopria/MopriaPlugin.java:145-156 | a device that is not a Mopria printer changes nothing; a Mopria printer's identifier joins the set, and the callback hears the new set size exactly when the identifier was new and a callback was handed over |
| MopriaPlugin.OnDeviceRemoved | PrinterVendorDiscovery/src/com/android/printerdiscovery/plugins/mopria/MopriaPlugin.java:132-143 | a device that is not a Mopria printer changes nothing; a Mopria printer's identifier leaves the set, and the callback hears the new set size exactly when the identifier was there and a callback was handed over |
| MopriaPlugin.FoundKeepsShown | PrinterVendorDiscovery/src/com/android/printerdiscovery/plugins/mopria/MopriaPlugin.java:145-156 | with the wrapper holding the plugin's count, a found device keeps it so, and the wrapper is told exactly when the set grew |
| MopriaPlugin.RemovedKeepsShown | PrinterVendorDiscovery/src/com/android/printerdiscovery/plugins/mopria/MopriaPlugin.java:132-143 | with the wrapper holding the plugin's count, a removed device keeps it so, and the wrapper is told exactly when the set shrank |
| MopriaPlugin.FoundThenRemoved | PrinterVendorDiscovery/src/com/android/printerdiscovery/plugins/mopria/MopriaPlugin.java:132-156 | a new Mopria printer found and then removed leaves the set as it was |
| MopriaPlugin.PdlExamples | PrinterVendorDiscovery/src/com/android/printerdiscovery/plugins/mopria/MopriaPlugin.java:119-130 | an IPP device listing PDF among its formats is a Mopria printer; an empty format list, or no IPP service, is not |
| TraceLogger.FunctionNamesDistinct | UiAutomation/library/src/com/android/testing/uiautomation/AutomationProvider.java:381-408 | each of the eleven function ids has a name of its own, and exactly the other ids are "unknown" |
| TraceLogger.SetOutput | UiAutomation/library/src/com/android/testing/uiautomation/AutomationProvider.java:315-317 | setting a writer sends later output to it and keeps the previous line and the dot flag |
| TraceLogger.Emit | UiAutomation/library/src/com/android/testing/uiautomation/AutomationProvider.java:356-369 | a line equal to the previous one adds exactly one dot; any other line adds the timestamped line and clears the dot flag; the output only grows and the line becomes the previous one |
| TraceLogger.LogTrace | UiAutomation/library/src/com/android/testing/uiautomation/AutomationProvider.java:324-373 | without a writer a call logs nothing; with one it writes that call's line |
| TraceLogger.RenderedLength | UiAutomation/library/src/com/android/testing/uiautomation/AutomationProvider.java:332-343 | the rendered arguments take one comma per argument beyond the argument texts |
| TraceLogger.RenderedPlaces | UiAutomation/library/src/com/android/testing/uiautomation/AutomationProvider.java:334-341 | each argument's text, followed by its comma, sits at its place in the rendered list |
| TraceLogger.EmitTidy | UiAutomation/library/src/com/android/testing/uiautomation/AutomationProvider.java:360-368 | writing a line keeps the output ending in a newline or a dot, with the dot flag saying which |
| TraceLogger.LogTraceTidy | UiAutomation/library/src/com/android/testing/uiautomation/AutomationProvider.java:324-373 | every call keeps the output ending in a newline or a dot, with the dot flag saying which |
| TraceLogger.RepeatsAreDots | UiAutomation/library/src/com/android/testing/uiautomation/AutomationProvider.java:357-369 | a new line written several times appears once, with the first timestamp, followed by one dot per repeat |
| TraceLogger.CallsEmit | UiAutomation/library/src/com/android/testing/uiautomation/AutomationProvider.java:324-325 | repeated calls write their line each time when there is a writer, and nothing when there is none |
| TraceLogger.RepeatedCallDots | UiAutomation/library/src/com/android/testing/uiautomation/AutomationProvider.java:324-373 | the same call repeated with a writer logs its line once and then one dot per repeat |
| TraceLogger.NewLineAfterDots | UiAutomation/library/src/com/android/testing/uiautomation/AutomationProvider.java:364-366 | after a run of dots, the next two different lines each start a line of their own, the first after a newline ending the dots |
| TraceLogger.ArgListExample | UiAutomation/library/src/com/android/testing/uiautomation/AutomationProvider.java:329-344 | the argument list leaves out the last value, which is the result |
| TraceLogger.ThrownResult | UiAutomation/library/src/com/android/testing/uiautomation/AutomationProvider.java:350-352 | a thrown result is shown by its class and its message, "null" when it has none |
| TraceLogger.Dots | UiAutomation/library/src/com/android/testing/uiautomation/AutomationProvider.java:361 | the run of dots has the given length and holds only dots |
| TraceLogger.EmitAll | UiAutomation/library/src/com/android/testing/uiautomation/AutomationProvider.java:324-373 | writing a line many times never changes whether there is a writer |
| DroidDream.StrStrip | droiddreamclean/droiddreamclean.c:88-106 | the buffer loses exactly its trailing whitespace, and the returned pointer starts the string with whitespace removed at both ends; the empty string is returned as it is |
| DroidDream.StripShape | droiddreamclean/droiddreamclean.c:88-106 | stripping keeps a middle part of the string, cuts only whitespace on either side, and leaves no whitespace at either end |
| DroidDream.StripIdempotent | droiddreamclean/droiddreamclean.c:88-106 | stripping a stripped string changes nothing |
| DroidDream.ShortLineOverreads | droiddreamclean/droiddreamclean.c:125 | for a line shorter than the 8-character prefix, the unsigned length wraps and the full 512-character copy is asked for |
| DroidDream.CopyLength | droiddreamclean/droiddreamclean.c:125-126 | the intended copy stays inside the line after the prefix, never exceeds 512 characters, is the whole rest of a line that fits, and is nothing for a line shorter than the prefix |
| DroidDream.CopyLengthAgrees | droiddreamclean/droiddreamclean.c:125 | on every line at least as long as the prefix, the source's length and the intended length agree |
| DroidDream.InstalledName | droiddreamclean/droiddreamclean.c:125-128 | a name is the line after its prefix with trailing whitespace removed, and nothing for a line shorter than the prefix |
| DroidDream.Installed | droiddreamclean/droiddreamclean.c:108-134 | at most 512 lines are read, and each gives the name of its own line |
| DroidDream.PackageInstalled | droiddreamclean/droiddreamclean.c:136-147 | the result is -1 exactly when the name is not installed, and otherwise the first index holding it |
| DroidDream.Terminator | droiddreamclean/droiddreamclean.c:211 | the loop stops at the first empty entry of the list |
| DroidDream.Removals | droiddreamclean/droiddreamclean.c:149-216 | the indices printed rise, are exactly those before the terminator whose name is installed, and each is uninstalled with its own "pm uninstall" command |
| DroidDream.TerminatorAfter | droiddreamclean/droiddreamclean.c:10-72 | a list of non-empty names ended by the empty entry is visited in full |
| DroidDream.Clean | droiddreamclean/droiddreamclean.c:197-216 | only listed malware packages that are installed are uninstalled, each by its own command, and every installed one before the terminator is, in list order |
| DroidDream.InstalledNameExample | droiddreamclean/droiddreamclean.c:121-128 | a package manager line "package:com.bubble" with its newline gives the bare name |
| ProcStatLog.ReadAtMost | procstatlog/procstatlog.c:68 | one read returns the start of the file, at most the buffer's size, and the whole file when it is shorter |
| ProcStatLog.ReadData | procstatlog/procstatlog.c:59-81 | a record keeps the file name; its value is NULL exactly when the file cannot be read, and otherwise the start of what one read returned, losing exactly its trailing whitespace |
| ProcStatLog.Lines | procstatlog/procstatlog.c:101-103 | splitting on newlines gives only non-empty pieces without newlines |
| ProcStatLog.LinesOfTerminated | procstatlog/procstatlog.c:101-103 | lines written out one per line split back into the same lines |
| ProcStatLog.AllStatEntries | procstatlog/procstatlog.c:104-105 | at most one record per line |
| ProcStatLog.StatEntries | procstatlog/procstatlog.c:99-118 | the loop writes at most one record per line and never more than the slots left, each named under "/proc/stat:" with a value |
| ProcStatLog.ReadProcStat | procstatlog/procstatlog.c:85-119 | an unreadable /proc/stat gives no records, and a readable one never more than the slots given |
| ProcStatLog.StatEntryOf | procstatlog/procstatlog.c:104-115 | a line "key value" gives the record "/proc/stat:key" with that value |
| ProcStatLog.StatEntriesCapped | procstatlog/procstatlog.c:101-103 | with a capacity, the records are the first ones the uncapped loop would give |
| ProcStatLog.DeviceName | procstatlog/procstatlog.c:142-148 | a Device line names a device exactly when it has a double quote, and the name holds no quote |
| ProcStatLog.DeviceNameOf | procstatlog/procstatlog.c:143-147 | a Device line quoting a name makes that name the current device |
| ProcStatLog.FieldEnd | procstatlog/procstatlog.c:153 | the field name ends at the first space or dot, or at the end of the line |
| ProcStatLog.FieldEndAt | procstatlog/procstatlog.c:153 | the field name ends at the first space or dot |
| ProcStatLog.YaffsEntries | procstatlog/procstatlog.c:137-169 | the loop writes at most one record per line and never more than the slots left, each named under "/proc/yaffs:" with a value |
| ProcStatLog.ReadProcYaffs | procstatlog/procstatlog.c:123-170 | an unreadable /proc/yaffs gives no records, and a readable one never more than the slots given |
| ProcStatLog.YaffsSkipsBeforeDevice | procstatlog/procstatlog.c:151 | field lines before the first Device line give nothing |
| ProcStatLog.YaffsFieldOf | procstatlog/procstatlog.c:153-166 | a field followed by dots or spaces and a value gives "/proc/yaffs:<device>:<field>" with that value |
| ProcStatLog.StrCmp | procstatlog/procstatlog.c:173-177 | the comparison of names is -1, 0 or 1 |
| ProcStatLog.StrCmpZero | procstatlog/procstatlog.c:173-177 | two names compare equal exactly when they are the same |
| ProcStatLog.StrCmpFlip | procstatlog/procstatlog.c:173-177 | swapping the names flips the sign |
| ProcStatLog.StrCmpTrans | procstatlog/procstatlog.c:173-177 | "sorts before" is transitive |
| ProcStatLog.StrCmpTransLe | procstatlog/procstatlog.c:173-177 | "sorts before or equal" is transitive |
| ProcStatLog.StrCmpPrefix | procstatlog/procstatlog.c:173-177 | a name sorts before every longer name it begins |
| ProcStatLog.Insert | procstatlog/procstatlog.c:222 | inserting adds exactly that record |
| ProcStatLog.Sort | procstatlog/procstatlog.c:222 | sorting permutes the records |
| ProcStatLog.InsertSorted | procstatlog/procstatlog.c:222 | inserting into records in name order keeps them in name order |
| ProcStatLog.SortSorted | procstatlog/procstatlog.c:222 | sorted records are in name order |
| ProcStatLog.SortKeeps | procstatlog/procstatlog.c:222 | sorting keeps every record and the count |
| ProcStatLog.DecimalString | procstatlog/procstatlog.c:209 | the "%d" text of a pid is non-empty and all digits |
| ProcStatLog.DecimalValue | procstatlog/procstatlog.c:209 | the digits spell the number back |
| ProcStatLog.AtoiDecimal | procstatlog/procstatlog.c:194 | atoi reads back what "%d" writes |
| ProcStatLog.PositivePids | procstatlog/procstatlog.c:193-202 | the pids found are positive, at most one per directory entry |
| ProcStatLog.ScanPids | procstatlog/procstatlog.c:182-203 | the scan keeps the positive atoi values of the entries, in order, up to the 4096 the array holds |
| ProcStatLog.PidsFull | procstatlog/procstatlog.c:196-199 | once the array is full, the pids found so far are all that is kept |
| ProcStatLog.PositivePrefix | procstatlog/procstatlog.c:193-202 | the pids of the first entries are the first pids of all entries |
| ProcStatLog.PidRecords | procstatlog/procstatlog.c:208-214 | each pid gives two records, its stat file and then its wchan file, in pid order |
| ProcStatLog.StatRecords | procstatlog/procstatlog.c:216 | /proc/stat fills at most the 200 shared slots |
| ProcStatLog.YaffsRecords | procstatlog/procstatlog.c:205-217 | /proc/yaffs fills at most the shared slots /proc/stat left |
| ProcStatLog.ReadStatsFailure | procstatlog/procstatlog.c:185-219 | a /proc that cannot be listed ends the scan; any other failure is the array assertion, and then /proc/stat and /proc/yaffs filled all 200 shared slots |
| ProcStatLog.ReadStatsSorted | procstatlog/procstatlog.c:181-224 | a snapshot is in name order, holds exactly the records read, and is smaller than the array |
| ProcStatLog.ParseLine | procstatlog/procstatlog.c:241-259 | a parsed log line has a name without a space |
| ProcStatLog.ParseRender | procstatlog/procstatlog.c:241-259 | each log line reads back as the change it reports, when the name has no space |
| ProcStatLog.Compared | procstatlog/procstatlog.c:250-262 | a name in both snapshots prints at most one line |
| ProcStatLog.Diff | procstatlog/procstatlog.c:227-265 | the merge prints at most one line per record of the two snapshots |
| ProcStatLog.ApplyAppend | procstatlog/procstatlog.c:227-265 | replaying two logs in a row is replaying their concatenation |
| ProcStatLog.DiffSelf | procstatlog/procstatlog.c:227-265 | nothing is printed between a snapshot and itself |
| ProcStatLog.DiffFromEmpty | procstatlog/procstatlog.c:294-296 | the first snapshot, compared with the empty one, logs every record with a value as added |
| ProcStatLog.AllAdded | procstatlog/procstatlog.c:244-249 | against the empty snapshot every line printed is an addition |
| ProcStatLog.DiffReplaysOver | procstatlog/procstatlog.c:227-265 | replaying the log on the older snapshot's values, over values of names in neither, gives the newer snapshot's values |
| ProcStatLog.DiffReplays | procstatlog/procstatlog.c:227-265 | replaying the log of two sorted snapshots on the older one's values gives exactly the newer one's values |
| DnsSdParser.AsciiDecode | PrinterVendorDiscovery/src/com/android/printerdiscovery/servicediscovery/mdns/DnsSdParser.java:139 | decoding keeps the length, maps each byte 0..127 to its character and any other byte to U+FFFD |
| DnsSdParser.FindSeparator | PrinterVendorDiscovery/src/com/android/printerdiscovery/servicediscovery/mdns/DnsSdParser.java:158-165 | the result is -1 when the entry has no "=", and otherwise the index of its first "=" |
| DnsSdParser.SeparatorIn | PrinterVendorDiscovery/src/com/android/printerdiscovery/servicediscovery/mdns/DnsSdParser.java:158-165 | the search gives -1 when the entry has no "=", and otherwise the index of its first "=" |
| DnsSdParser.SeparatorInFirst | PrinterVendorDiscovery/src/com/android/printerdiscovery/servicediscovery/mdns/DnsSdParser.java:158-165 | the first "=" of the range is found |
| DnsSdParser.SeparatorInAbsent | PrinterVendorDiscovery/src/com/android/printerdiscovery/servicediscovery/mdns/DnsSdParser.java:158-165 | a range without "=" gives -1 |
| DnsSdParser.ReadEntry | PrinterVendorDiscovery/src/com/android/printerdiscovery/servicediscovery/mdns/DnsSdParser.java:120-153 | an entry read lies inside the data, spans at least two bytes, and has a non-empty key without "=" |
| DnsSdParser.ReadEntryMeaning | PrinterVendorDiscovery/src/com/android/printerdiscovery/servicediscovery/mdns/DnsSdParser.java:121-153 | an entry spans its unsigned length byte's count of bytes; its key is the ASCII text before the first "=", or of the whole entry when there is none, with a null value; its value is the bytes after that "=" |
| DnsSdParser.Entries | PrinterVendorDiscovery/src/com/android/printerdiscovery/servicediscovery/mdns/DnsSdParser.java:116-156 | every attribute read has a non-empty key without "=" |
| DnsSdParser.ParseAttributes | PrinterVendorDiscovery/src/com/android/printerdiscovery/servicediscovery/mdns/DnsSdParser.java:116-156 | the loop stores the entries in order, a later key replacing an earlier one, up to the first entry that overruns the data or has an empty key |
| DnsSdParser.ReadAttribute | PrinterVendorDiscovery/src/com/android/printerdiscovery/servicediscovery/mdns/DnsSdParser.java:121-153 | one turn of the loop reads the entry at the offset |
| DnsSdParser.StoreStep | PrinterVendorDiscovery/src/com/android/printerdiscovery/servicediscovery/mdns/DnsSdParser.java:152-153 | one turn of the loop stores the entry it read and moves past it |
| DnsSdParser.ReadEncoded | PrinterVendorDiscovery/src/com/android/printerdiscovery/servicediscovery/mdns/DnsSdParser.java:121-153 | an entry written as its length byte and "key=value" or "key" reads back as that attribute and ends after its body |
| DnsSdParser.EntriesEncode | PrinterVendorDiscovery/src/com/android/printerdiscovery/servicediscovery/mdns/DnsSdParser.java:116-156 | a TXT record built from attributes reads back as those attributes, in order |
| DnsSdParser.ParseEncoded | PrinterVendorDiscovery/src/com/android/printerdiscovery/servicediscovery/mdns/DnsSdParser.java:116-156 | parsing a TXT record built from attributes gives each key the value of its last entry |
| DnsSdParser.StoreLastWins | PrinterVendorDiscovery/src/com/android/printerdiscovery/servicediscovery/mdns/DnsSdParser.java:152 | after storing, a key holds the value of its last entry |
| DnsSdParser.StoreUntouched | PrinterVendorDiscovery/src/com/android/printerdiscovery/servicediscovery/mdns/DnsSdParser.java:152 | keys no entry mentions keep their value |
| DnsSdParser.OverrunStops | PrinterVendorDiscovery/src/com/android/printerdiscovery/servicediscovery/mdns/DnsSdParser.java:130-132 | an entry whose length runs past the end of the data ends parsing |
| DnsSdParser.EmptyKeyStops | PrinterVendorDiscovery/src/com/android/printerdiscovery/servicediscovery/mdns/DnsSdParser.java:134-137 | an entry of length zero, or one that starts with "=", ends parsing |
| DnsSdParser.FindSrv | PrinterVendorDiscovery/src/com/android/printerdiscovery/servicediscovery/mdns/DnsSdParser.java:71-82 | the result is the first SRV record for the name, and none when there is none |
| DnsSdParser.FindTxt | PrinterVendorDiscovery/src/com/android/printerdiscovery/servicediscovery/mdns/DnsSdParser.java:84-95 | the result is the first TXT record for the name, and none when there is none |
| DnsSdParser.FindAddresses | PrinterVendorDiscovery/src/com/android/printerdiscovery/servicediscovery/mdns/DnsSdParser.java:97-114 | the addresses are exactly those of the A and AAAA records for the host, and there are some exactly when such a record exists |
| DnsSdParser.BuildService | PrinterVendorDiscovery/src/com/android/printerdiscovery/servicediscovery/mdns/DnsSdParser.java:54-69 | a service is built exactly when its SRV record, its TXT record and an address of the SRV target exist; it carries the pointed name, the PTR name as suffix, the first SRV record's target and port, the attributes parsed from the first TXT record, and exactly the addresses recorded for the SRV target (at least one) |
| DnsSdParser.BuildFromRecords | PrinterVendorDiscovery/src/com/android/printerdiscovery/servicediscovery/mdns/DnsSdParser.java:54-69 | a response with one SRV, one TXT and one address record for the pointed name builds the service with that host, port and address and with the attributes encoded in the TXT record |
| DnsSdParser.ParseServices | PrinterVendorDiscovery/src/com/android/printerdiscovery/servicediscovery/mdns/DnsSdParser.java:38-52 | at most one service per answer, each built from a PTR answer and with an address |
| DnsSdParser.ParseServicesComplete | PrinterVendorDiscovery/src/com/android/printerdiscovery/servicediscovery/mdns/DnsSdParser.java:41-50 | every PTR answer whose service can be built contributes that service |
| DnsSdParser.NonPtrIgnored | PrinterVendorDiscovery/src/com/android/printerdiscovery/servicediscovery/mdns/DnsSdParser.java:42 | answers that are not PTR records contribute nothing |
| MDnsQuery.Initial | PrinterVendorDiscovery/src/com/android/printerdiscovery/servicediscovery/mdns/MDnsDiscovery.java:45-63 | a new discovery object has no queries counted and no printers |
| MDnsQuery.Clear | PrinterVendorDiscovery/src/com/android/printerdiscovery/servicediscovery/mdns/MDnsDiscovery.java:65-71 | clearing forgets every printer and restarts the query count |
| MDnsQuery.Put | PrinterVendorDiscovery/src/com/android/printerdiscovery/servicediscovery/mdns/MDnsDiscovery.java:187-188 | storing a printer keeps the keys unique, holds the new entry, keeps every entry for other keys, and adds at most one entry |
| MDnsQuery.ServiceLabels | PrinterVendorDiscovery/src/com/android/printerdiscovery/servicediscovery/mdns/MDnsDiscovery.java:111-117 | the question labels are the UTF-8 bytes of each dot-separated part of the service type |
| MDnsQuery.KnownFor | PrinterVendorDiscovery/src/com/android/printerdiscovery/servicediscovery/mdns/MDnsDiscovery.java:92-100 | the known answers of a service are exactly the names remembered for that service |
| MDnsQuery.CreateQueryPackets | PrinterVendorDiscovery/src/com/android/printerdiscovery/servicediscovery/mdns/MDnsDiscovery.java:73-134 | the count goes up, and past three every printer is forgotten; the call throws exactly when a remembered printer's service is not configured, and otherwise gives one packet per service with consecutive transaction ids; the `i`-th packet is the query for the `i`-th service over the printers remembered after the count |
| MDnsQuery.Packets | PrinterVendorDiscovery/src/com/android/printerdiscovery/servicediscovery/mdns/MDnsDiscovery.java:99-130 | one packet per configured service, in order; the `i`-th is the source's query for that service with transaction id `id + i` and the names remembered for that service as known answers, whose lengths are those of `addAnswer` as written |
| MDnsQuery.PacketHeaders | PrinterVendorDiscovery/src/com/android/printerdiscovery/servicediscovery/mdns/MDnsDiscovery.java:99-110 | each packet `createQueryPackets` sends has its own transaction id, one question, and as many answers as printers are remembered for its service |
| MDnsQuery.DecodeEncodedLabels | PrinterVendorDiscovery/src/com/android/printerdiscovery/servicediscovery/mdns/MDnsDiscovery.java:111-118 | labels of 1 to 63 bytes, written with their length bytes and the root label, read back as the same labels |
| Bytes.ShortToBytes | PrinterVendorDiscovery/src/com/android/printerdiscovery/servicediscovery/mdns/MDnsDiscovery.java:168-170 | a `short` is written as two bytes, high byte first, that read back as the value's low 16 bits |
| Bytes.IntToBytes | PrinterVendorDiscovery/src/com/android/printerdiscovery/servicediscovery/mdns/MDnsDiscovery.java:172-174 | an `int` is written as four big-endian bytes that read back as the value modulo 2^32 |
| MDnsQuery.QueryHeader | PrinterVendorDiscovery/src/com/android/printerdiscovery/servicediscovery/mdns/MDnsDiscovery.java:104-110 | the header carries the transaction id, zero flags, one question, one answer count per known answer, and no authority or additional records |
| MDnsQuery.QueryQuestion | PrinterVendorDiscovery/src/com/android/printerdiscovery/servicediscovery/mdns/MDnsDiscovery.java:111-120 | the question at offset 12 reads back as the service labels and "local", followed by type PTR and class IN with the unicast-response bit |
| MDnsQuery.AnswerHeadBytes | PrinterVendorDiscovery/src/com/android/printerdiscovery/servicediscovery/mdns/MDnsDiscovery.java:153-163 | the 13 bytes before a known answer's name are the pointer 0xC00C, type PTR, class IN, the TTL 3600, the data length and the name length |
| MDnsQuery.FixedFieldsRead | PrinterVendorDiscovery/src/com/android/printerdiscovery/servicediscovery/mdns/MDnsDiscovery.java:153-157 | those fixed bytes read back as the pointer, PTR, IN and 3600 |
| MDnsQuery.AnswerLayout | PrinterVendorDiscovery/src/com/android/printerdiscovery/servicediscovery/mdns/MDnsDiscovery.java:136-166 | with lengths taken from the bytes written, a known answer points at offset 12, has type PTR, class IN, TTL 3600, a data length equal to the data that follows, and the name's bytes after its length byte |
| MDnsQuery.RecordLayout | PrinterVendorDiscovery/src/com/android/printerdiscovery/servicediscovery/mdns/MDnsDiscovery.java:153-165 | a known answer record holds its fields at their offsets, whatever lengths are given |
| MDnsQuery.AnswerAsWrittenLengthMismatch | PrinterVendorDiscovery/src/com/android/printerdiscovery/servicediscovery/mdns/MDnsDiscovery.java:160-164 | for the name "é" the source writes a data length of 4 while 5 bytes of data follow |
| MDnsQuery.AnswerAsciiAgrees | PrinterVendorDiscovery/src/com/android/printerdiscovery/servicediscovery/mdns/MDnsDiscovery.java:160-164 | for ASCII names the source's lengths and the byte lengths agree |
| MDnsQuery.AnswersAsciiAgree | PrinterVendorDiscovery/src/com/android/printerdiscovery/servicediscovery/mdns/MDnsDiscovery.java:136-166 | when every known name is ASCII, the known-answer section the source writes is the one with byte lengths |
| MDnsQuery.QueryPacketAsciiAgrees | PrinterVendorDiscovery/src/com/android/printerdiscovery/servicediscovery/mdns/MDnsDiscovery.java:99-134 | a query whose known names are all ASCII is the corrected query |
| MDnsQuery.AnswerAsWrittenDiffers | PrinterVendorDiscovery/src/com/android/printerdiscovery/servicediscovery/mdns/MDnsDiscovery.java:160-164 | the source's known answer for "é" is not the corrected one |
| MDnsQuery.QueryPacketAsWrittenDiffers | PrinterVendorDiscovery/src/com/android/printerdiscovery/servicediscovery/mdns/MDnsDiscovery.java:99-166 | the source's query with the known name "é" differs from the corrected query |
| MDnsQuery.FourthQueryForgets | PrinterVendorDiscovery/src/com/android/printerdiscovery/servicediscovery/mdns/MDnsDiscovery.java:86-91 | from a cleared count, three queries keep the known printers and the fourth forgets them |
| QueryBackoff.QueryDelayInMillis | PrinterVendorDiscovery/src/com/android/printerdiscovery/servicediscovery/NetworkDiscovery.java:272-302 | past ten queries the wait is a minute and active discovery ends; otherwise the wait is one second for up to two queries and then the Fibonacci number of the query count in seconds, with the thread left alone; every wait is whole seconds between one second and a minute |
| QueryBackoff.StartCount | PrinterVendorDiscovery/src/com/android/printerdiscovery/servicediscovery/NetworkDiscovery.java:306 | active discovery starts counting from zero, passive discovery from ten |
| QueryBackoff.FibBelowCap | PrinterVendorDiscovery/src/com/android/printerdiscovery/servicediscovery/NetworkDiscovery.java:279-299 | within the active queries the Fibonacci wait never reaches the minute cap |
| QueryBackoff.ActiveSchedule | PrinterVendorDiscovery/src/com/android/printerdiscovery/servicediscovery/NetworkDiscovery.java:279-292 | the waits for 0 to 10 queries are 1, 1, 1, 2, 3, 5, 8, 13, 21, 34 and 55 seconds |
| QueryBackoff.BackoffMonotone | PrinterVendorDiscovery/src/com/android/printerdiscovery/servicediscovery/NetworkDiscovery.java:272-302 | more queries never shorten the wait |
| QueryBackoff.PassiveStartsCapped | PrinterVendorDiscovery/src/com/android/printerdiscovery/servicediscovery/NetworkDiscovery.java:306-323 | in passive discovery the first wait is already the full minute |
| QueryBackoff.Fib | PrinterVendorDiscovery/src/com/android/printerdiscovery/servicediscovery/NetworkDiscovery.java:283-291 | each Fibonacci number from the first on is at least one |
| VendorMatch.VendorAttributes | PrinterVendorDiscovery/src/com/android/printerdiscovery/servicediscovery/mdns/MDnsUtils.java:44-48 | the attributes tried are product, ty, usb_MFG and mfg, in that order |
| VendorMatch.MatchesIsCaseless | PrinterVendorDiscovery/src/com/android/printerdiscovery/servicediscovery/mdns/MDnsUtils.java:75-84 | the three attempts on the attribute as given, lower-cased and upper-cased amount to one test: equal ignoring ASCII case, or containing the name and a space ignoring ASCII case |
| VendorMatch.LowerContains | PrinterVendorDiscovery/src/com/android/printerdiscovery/servicediscovery/mdns/MDnsUtils.java:76 | lower-casing keeps an occurrence |
| VendorMatch.EqualsIgnoreCaseMapped | PrinterVendorDiscovery/src/com/android/printerdiscovery/servicediscovery/mdns/MDnsUtils.java:76-77 | comparing ignoring case is blind to case-mapping both sides first |
| MDnsUtils.ContainsString | PrinterVendorDiscovery/src/com/android/printerdiscovery/servicediscovery/mdns/MDnsUtils.java:83-85 | a null string never matches; two strings match exactly when they are equal ignoring case or the container holds the name followed by a space |
| MDnsUtils.ScanNames | PrinterVendorDiscovery/src/com/android/printerdiscovery/servicediscovery/mdns/MDnsUtils.java:74-80 | the scan is true exactly when a name matches before any null name, throws exactly when a null name comes first, and is false when every name is non-null and none matches |
| MDnsUtils.MissesShift | PrinterVendorDiscovery/src/com/android/printerdiscovery/servicediscovery/mdns/MDnsUtils.java:74-80 | the first name neither null nor matching, the scan goes on with the rest |
| MDnsUtils.ContainsVendor | PrinterVendorDiscovery/src/com/android/printerdiscovery/servicediscovery/mdns/MDnsUtils.java:72-81 | a null attribute or a null name array gives false; otherwise the scan over the names |
| MDnsUtils.AnyAttribute | PrinterVendorDiscovery/src/com/android/printerdiscovery/servicediscovery/mdns/MDnsUtils.java:49 | the four tests stop at the first true or the first throw; without null names the result is whether some attribute names a vendor |
| MDnsUtils.IsVendorPrinter | PrinterVendorDiscovery/src/com/android/printerdiscovery/servicediscovery/mdns/MDnsUtils.java:38-55 | a null name array gives false; a throw needs a null name; without null names the result is whether some attribute of some instance names a vendor |
| MDnsUtils.VendorOf | PrinterVendorDiscovery/src/com/android/printerdiscovery/servicediscovery/mdns/MDnsUtils.java:62-67 | an instance announces its non-empty mfg, else its non-empty usb_MFG, else nothing |
| MDnsUtils.GetVendor | PrinterVendorDiscovery/src/com/android/printerdiscovery/servicediscovery/mdns/MDnsUtils.java:57-70 | the vendor is that of the first instance announcing one, and null exactly when none does |
| MDnsUtils.NullNameThrows | PrinterVendorDiscovery/src/com/android/printerdiscovery/servicediscovery/mdns/MDnsUtils.java:74-77 | a null name ahead of every match makes the test throw |
| MDnsUtils.NamesUpToCase | PrinterVendorDiscovery/src/com/android/printerdiscovery/servicediscovery/mdns/MDnsUtils.java:75-77 | a name matches exactly when its lower-case form does |
| MDnsUtils.EqualsIgnoreCaseLower | PrinterVendorDiscovery/src/com/android/printerdiscovery/servicediscovery/mdns/MDnsUtils.java:84 | comparing ignoring case is blind to lower-casing the name |
| MDNSUtils.ScanInstances | PrinterVendorDiscovery/src/com/android/printerdiscovery/servicediscovery/mdns/MDNSUtils.java:52-68 | the scan is true exactly when some attribute of some instance names a vendor |
| MDNSUtils.IsVendorPrinter | PrinterVendorDiscovery/src/com/android/printerdiscovery/servicediscovery/mdns/MDNSUtils.java:47-69 | the call throws exactly when the device, the name set or a name in it is null; otherwise it is true exactly when some attribute of some instance matches some name |
| MDNSUtils.NonNull | PrinterVendorDiscovery/src/com/android/printerdiscovery/servicediscovery/mdns/MDNSUtils.java:50 | the names kept are exactly the non-null ones |
| MDNSUtils.AgreesWithArrayVersion | PrinterVendorDiscovery/src/com/android/printerdiscovery/servicediscovery/mdns/MDNSUtils.java:47-91 | without null names, the array version and the set version give the same answer for any listing of the names |
| MDNSUtils.NameCaseIrrelevant | PrinterVendorDiscovery/src/com/android/printerdiscovery/servicediscovery/mdns/MDNSUtils.java:79-91 | lower-casing every vendor name changes no answer |
| NetworkDevice.MethodAt | PrinterVendorDiscovery/src/main/java/org/mopria/servicediscovery/NetworkDevice.java:114 | `DiscoveryMethod.values()[i]` succeeds exactly for the three ordinals and gives back the constant with that ordinal |
| NetworkDevice.FromParser | PrinterVendorDiscovery/src/main/java/org/mopria/servicediscovery/NetworkDevice.java:71-94 | a parser without an address is refused; otherwise every reported field is kept, a Bonjour parser supplying the Bonjour name, domain (its host name) and service, any other parser leaving name and domain null and giving its service name, and no other instances are held |
| NetworkDevice.Equals | PrinterVendorDiscovery/src/main/java/org/mopria/servicediscovery/NetworkDevice.java:128-144 | a null argument is unequal; a device without an address throws; otherwise two devices are equal exactly when address, Bonjour domain, Bonjour service and device identifier agree |
| NetworkDevice.StringHash | PrinterVendorDiscovery/src/main/java/org/mopria/servicediscovery/NetworkDevice.java:155-157 | `String.hashCode` is a 32-bit value |
| NetworkDevice.HashCode | PrinterVendorDiscovery/src/main/java/org/mopria/servicediscovery/NetworkDevice.java:151-159 | the hash throws exactly when there is no address, and is otherwise a 32-bit value |
| NetworkDevice.EqualsHash | PrinterVendorDiscovery/src/main/java/org/mopria/servicediscovery/NetworkDevice.java:128-159 | equal devices have equal hash codes, for every address hash |
| NetworkDevice.EqualsEquivalence | PrinterVendorDiscovery/src/main/java/org/mopria/servicediscovery/NetworkDevice.java:128-144 | on devices with an address, equality is reflexive, symmetric and transitive |
| NetworkDevice.AllInstances | PrinterVendorDiscovery/src/main/java/org/mopria/servicediscovery/NetworkDevice.java:161-166 | the instances are the device itself followed by the other instances in the order they were added |
| NetworkDevice.ListContains | PrinterVendorDiscovery/src/main/java/org/mopria/servicediscovery/NetworkDevice.java:170 | the list lookup throws exactly when the list is non-empty and the probe has no address, and otherwise finds the probe exactly when some element has the same identifying fields |
| NetworkDevice.AddInstance | PrinterVendorDiscovery/src/main/java/org/mopria/servicediscovery/NetworkDevice.java:168-173 | a null device changes nothing; the call throws exactly when this device has no address, or the list is non-empty and the new device has none; otherwise the device is appended exactly when it differs from this device and from every instance already held, and nothing else changes |
| NetworkDevice.AddKeepsDistinct | PrinterVendorDiscovery/src/main/java/org/mopria/servicediscovery/NetworkDevice.java:168-173 | adding an instance keeps all instances pairwise unequal |
| NetworkDevice.TxtAttributesFor | PrinterVendorDiscovery/src/main/java/org/mopria/servicediscovery/NetworkDevice.java:226-232 | the attributes are those of the first instance whose service matches (null matching null), or empty when none does |
| NetworkDevice.FirstTxt | PrinterVendorDiscovery/src/main/java/org/mopria/servicediscovery/NetworkDevice.java:228-231 | the search over the instances returns the attributes of the first match and the empty bundle when there is none |
| NetworkDevice.ByAddress | PrinterVendorDiscovery/src/main/java/org/mopria/servicediscovery/NetworkDevice.java:103 | `getByAddress` refuses lengths other than 4 and 16, keeps a valid address unchanged and turns an IPv4-mapped IPv6 address into the IPv4 address it holds |
| NetworkDevice.ReadAddress | PrinterVendorDiscovery/src/main/java/org/mopria/servicediscovery/NetworkDevice.java:98-106 | reading the address consumes at least the size and never runs past the parcel |
| NetworkDevice.Read | PrinterVendorDiscovery/src/main/java/org/mopria/servicediscovery/NetworkDevice.java:97-117 | a successful read consumes at least one value and stays within the parcel |
| NetworkDevice.ReadFields | PrinterVendorDiscovery/src/main/java/org/mopria/servicediscovery/NetworkDevice.java:107-115 | the nine values after the address fill the fields in write order, with the address given and no instances |
| NetworkDevice.ReadList | PrinterVendorDiscovery/src/main/java/org/mopria/servicediscovery/NetworkDevice.java:116 | `readTypedList` reads as many devices as the count says (none for a count of zero or less) and stays within the parcel |
| NetworkDevice.CreateFromParcel | PrinterVendorDiscovery/src/main/java/org/mopria/servicediscovery/NetworkDevice.java:285-294 | a successful read gives the device read; an unknown host gives null |
| NetworkDevice.ReadAddressWritten | PrinterVendorDiscovery/src/main/java/org/mopria/servicediscovery/NetworkDevice.java:98-106 | reading a written address (null, or valid) gives it back and stops right after it |
| NetworkDevice.ReadFieldsWritten | PrinterVendorDiscovery/src/main/java/org/mopria/servicediscovery/NetworkDevice.java:107-115 | reading the written fields gives them back |
| NetworkDevice.WriteParts | PrinterVendorDiscovery/src/main/java/org/mopria/servicediscovery/NetworkDevice.java:258-280 | a written device is its address, its nine fields, the instance count and the instances, in that order |
| NetworkDevice.EntryParts | PrinterVendorDiscovery/src/main/java/org/mopria/servicediscovery/NetworkDevice.java:279 | each written instance is a non-null marker followed by its own parcel form |
| NetworkDevice.ReadStep | PrinterVendorDiscovery/src/main/java/org/mopria/servicediscovery/NetworkDevice.java:97-117 | the address, fields and instance list read in turn make up the device |
| NetworkDevice.ReadListStep | PrinterVendorDiscovery/src/main/java/org/mopria/servicediscovery/NetworkDevice.java:116 | one marker and device followed by the rest of the list is read as that device followed by the rest |
| NetworkDevice.ReadWritten | PrinterVendorDiscovery/src/main/java/org/mopria/servicediscovery/NetworkDevice.java:97-117 | reading what `writeToParcel` wrote, wherever it sits, gives the same device with all its instances back and stops right after it |
| NetworkDevice.ReadWrittenFrom | PrinterVendorDiscovery/src/main/java/org/mopria/servicediscovery/NetworkDevice.java:116 | reading the written instances from any position in the list gives the remaining instances back |
| NetworkDevice.ParcelRoundTrip | PrinterVendorDiscovery/src/main/java/org/mopria/servicediscovery/NetworkDevice.java:258-294 | `createFromParcel` of a written device with valid addresses and an `int` port gives the same device back |
| NetworkDevice.NullAddressRoundTrip | PrinterVendorDiscovery/src/main/java/org/mopria/servicediscovery/NetworkDevice.java:265-267 | a null address is written as size 0 and read back as null |
| NetworkDevice.MappedAddressShrinks | PrinterVendorDiscovery/src/main/java/org/mopria/servicediscovery/NetworkDevice.java:103 | an IPv4-mapped IPv6 address does not survive the round trip: it comes back as its 4-byte IPv4 address |
| EclipseEntries.EclipseCreate | PixelPerfect/scripts/eclipse_builder.py:78-80 | a `Create` entry for that name, holding the contents given, or the empty text when they are missing or empty |
| EclipseEntries.EclipseLink | PixelPerfect/scripts/eclipse_builder.py:83-86 | a `Link` entry named after the link, with the absolute flag given, whose source is the one given or, when that is missing or empty, the link's own name |
| EclipseEntries.EclipseLinkTree | PixelPerfect/scripts/eclipse_builder.py:89-92 | a `LinkTree` entry named after the link, keeping the pattern, whose source is the one given or, when that is missing or empty, the link's own name |
| EclipseEntries.EclipseLinkPlatform | PixelPerfect/scripts/eclipse_builder.py:95-98 | an entry exactly when platform sources are known: an absolute link of that name whose source is the path joined below the platform sources with `os.path.join` (an absolute source path staying as it is) |
| EclipseEntries.EclipseMkdir | PixelPerfect/scripts/eclipse_builder.py:100-101 | a `Mkdir` entry for that name |
| EclipseEntries.ParsePiecesOf | PixelPerfect/scripts/eclipse_builder.py:108-166 | the attribute text split at its quotes reads back into the same attributes |
| EclipseEntries.JoinPieces | PixelPerfect/scripts/eclipse_builder.py:108-166 | the attribute text is its pieces with a quote between each two |
| EclipseEntries.ParseElementOf | PixelPerfect/scripts/eclipse_builder.py:108-166 | reading a `<classpathentry/>` fragment gives its attributes back, in order and with the spaces before each |
| EclipseEntries.ElementInjective | PixelPerfect/scripts/eclipse_builder.py:108-166 | different attribute lists make different fragments |
| EclipseEntries.SrcAttrs | PixelPerfect/scripts/eclipse_builder.py:108-111 | the source folder's attributes are readable whenever the path and the joined patterns hold no quote |
| EclipseEntries.Src | PixelPerfect/scripts/eclipse_builder.py:108-111 | `EclipseSrc` reads back as kind `src`, the path, then the inclusion and exclusion patterns joined with `\|` when given and not empty |
| EclipseEntries.ContainersClean | PixelPerfect/scripts/eclipse_builder.py:114-144 | no container name holds a quote, so every container fragment can be read back |
| EclipseEntries.KindPath | PixelPerfect/scripts/eclipse_builder.py:114-118 | a fragment of just a kind and a path, the shape of the `kind="con"` container entries, reads back as that kind and the path |
| EclipseEntries.ExportedContainer | PixelPerfect/scripts/eclipse_builder.py:134-148 | an exported container fragment reads back as exported `true`, kind `con` and the path |
| EclipseEntries.JREContainer | PixelPerfect/scripts/eclipse_builder.py:114-118 | `EclipseJREContainer` names the JRE container, followed by `/` and the launcher when one is given |
| EclipseEntries.JRE | PixelPerfect/scripts/eclipse_builder.py:121-126 | `EclipseJRE` names the JRE container of the standard VM for that Java version |
| EclipseEntries.JUnit | PixelPerfect/scripts/eclipse_builder.py:129-131 | `EclipseJUnit` names the JUnit container of that version |
| EclipseEntries.AndroidFramework | PixelPerfect/scripts/eclipse_builder.py:134-136 | the Android framework is an exported container |
| EclipseEntries.AndroidPlatformSrc | PixelPerfect/scripts/eclipse_builder.py:138-139 | a source folder for the path exactly when platform sources are known |
| EclipseEntries.AndroidLibrary | PixelPerfect/scripts/eclipse_builder.py:142-144 | the Android libraries are an exported container |
| EclipseEntries.UserLibrary | PixelPerfect/scripts/eclipse_builder.py:146-148 | a user library is the exported container named after it |
| EclipseEntries.Lib | PixelPerfect/scripts/eclipse_builder.py:150-156 | `EclipseLib` reads back as the exported flag in lower case, kind `lib` and the path, then the source path when one is given and not empty |
| EclipseEntries.Project | PixelPerfect/scripts/eclipse_builder.py:159-161 | a project dependency reads back as `combineaccessrules="false"`, kind `src` and the project's name after a `/` |
| EclipseEntries.Output | PixelPerfect/scripts/eclipse_builder.py:164-165 | the output folder reads back as kind `output` and the path |
| EclipseEntries.Decimal | PixelPerfect/scripts/eclipse_builder.py:34 | `str` of a number is a non-empty string of digits |
| EclipseEntries.GenerateId | PixelPerfect/scripts/eclipse_builder.py:24-34 | the identifier is one to ten digits and spells the number drawn |
| EclipseEntries.DecimalRoundTrip | PixelPerfect/scripts/eclipse_builder.py:34 | the digits of a number spell that number |
| EclipseEntries.DecimalLength | PixelPerfect/scripts/eclipse_builder.py:34 | a number below 10^k has at most k digits |
| EclipseEntries.Kept | PixelPerfect/scripts/eclipse_builder.py:937-939 | the entries written are present and not empty, and no more than were given |
| EclipseEntries.KeptAppend | PixelPerfect/scripts/eclipse_builder.py:937-939 | the entries kept from two lists are those kept from each, in order |
| EclipseEntries.KeptAt | PixelPerfect/scripts/eclipse_builder.py:937-939 | every present, non-empty entry is written, after those kept before it |
| EclipseEntries.KeptFrom | PixelPerfect/scripts/eclipse_builder.py:937-939 | every entry written comes from a present, non-empty entry, in order |
| EclipseEntries.WrittenLines | PixelPerfect/scripts/eclipse_builder.py:935-940 | lines written each with a line end split back into those lines |
| EclipseEntries.ClasspathLines | PixelPerfect/scripts/eclipse_builder.py:933-941 | the lines of `.classpath` are the XML declaration, `<classpath>`, each kept entry indented by two spaces in order, and `</classpath>` |
| EclipseEntries.SourceJarName | PixelPerfect/scripts/eclipse_builder.py:678 | a library whose only `.jar` is its extension has its sources in the `-src.jar` next to it |
| EclipseEntries.SourceJarWithoutJar | PixelPerfect/scripts/eclipse_builder.py:678 | a library without `.jar` in its name is its own source jar |
| EclipseEntries.AddThirdPartyLibs | PixelPerfect/scripts/eclipse_builder.py:673-684 | for each library in order, a link to the jar and one to its source jar are appended, both placed in the link directory under their file names and pointing into `third_party/java`, and an exported `Lib` entry whose path and source path are the two links is appended to the classpath; what was there before is kept, and a missing list adds nothing |
| EclipsePaths.Listed | PixelPerfect/scripts/eclipse_builder.py:688-690 | a normalized absolute path split at `/` starts with the empty piece before the root and has at least two pieces |
| EclipsePaths.DropCommonAsWritten | PixelPerfect/scripts/eclipse_builder.py:691-693 | the first loop of `RelativePath` as written either raises `IndexError` or stops at two non-empty lists whose heads differ |
| EclipsePaths.DropCommonMeaning | PixelPerfect/scripts/eclipse_builder.py:691-693 | the bounded loop removes the same number of pieces from both lists, the removed pieces agree, and what is left starts differently |
| EclipsePaths.CommonSplit | PixelPerfect/scripts/eclipse_builder.py:687-698 | both listings are the root piece, a common part, then what the loop leaves |
| EclipsePaths.PartsShape | PixelPerfect/scripts/eclipse_builder.py:694-698 | the parts joined are `..`s, then proper names, with an empty piece at most at the very end |
| EclipsePaths.ResolveFromDir | PixelPerfect/scripts/eclipse_builder.py:694-698 | from a directory other than the root, going up to the common part and down the rest of the target arrives at the target |
| EclipsePaths.ResolveFromRoot | PixelPerfect/scripts/eclipse_builder.py:694-698 | from the root, the `..`s stay at the root and going down the rest of the target arrives at the target |
| EclipsePaths.RelativeResolves | PixelPerfect/scripts/eclipse_builder.py:687-698 | the relative path, resolved from `pwd`, is the absolute `path` again |
| EclipsePaths.RelativeNotAbs | PixelPerfect/scripts/eclipse_builder.py:687-698 | the relative path never starts at the root |
| EclipsePaths.DropCommonAsWrittenMeaning | PixelPerfect/scripts/eclipse_builder.py:691-693 | the loop as written raises exactly when one list is a prefix of the other, and agrees with the bounded loop otherwise |
| EclipsePaths.ListedPrefix | PixelPerfect/scripts/eclipse_builder.py:688-690 | one listing is a prefix of another exactly when the paths are equal or neither is the root and one lies inside the other |
| EclipsePaths.AsWrittenFailsWhen | PixelPerfect/scripts/eclipse_builder.py:687-698 | `RelativePath` as written raises exactly when the two paths are the same, or neither is the root and one lies inside the other |
| EclipsePaths.ListedMeaning | PixelPerfect/scripts/eclipse_builder.py:687-698 | on two listings, the version as written raises in exactly those cases and otherwise returns the intended result |
| EclipsePaths.RelativeAsWrittenMeaning | PixelPerfect/scripts/eclipse_builder.py:691-698 | on any two lists the version as written raises exactly when one is a prefix of the other and otherwise returns the intended result |
| EclipsePaths.AsWrittenAgrees | PixelPerfect/scripts/eclipse_builder.py:687-698 | whenever the version as written returns, it returns the intended relative path |
| EclipsePaths.DropCommonShared | PixelPerfect/scripts/eclipse_builder.py:691-693 | a common head is dropped from both lists |
| EclipsePaths.RelativeInside | PixelPerfect/scripts/eclipse_builder.py:687-698 | from a directory, a name inside it is reached by that name alone |
| EclipsePaths.AsWrittenInsideRaises | PixelPerfect/scripts/eclipse_builder.py:687-698 | for a target inside the link's own directory (not the root) the version as written raises, where the intended answer is the target's name |
| EclipsePaths.AsWrittenExample | PixelPerfect/scripts/eclipse_builder.py:687-698 | `/a/b` seen from `/a` raises as written and is `b` as intended |
| EclipsePaths.AppendNameSuffix | PixelPerfect/scripts/eclipse_builder.py:700-704 | without a non-empty suffix the name is unchanged; with one the result is the name (`None` shown as "None"), a dash and the suffix |
| EclipsePaths.AsWrittenNamesNone | PixelPerfect/scripts/eclipse_builder.py:745-750 | `Google3AndroidApp` with no name and a suffix is named "None-" and the suffix as written, and after the package's last part as intended |
| EclipsePaths.AppNameAgrees | PixelPerfect/scripts/eclipse_builder.py:562-570 | when a name is given or there is no suffix, the project name as written and as intended agree |
| EclipseResults.EnsureDirs | PixelPerfect/scripts/eclipse_builder.py:824-825 | after the existence test and `makedirs` the path exists, and as a directory when it was missing; only the path and its ancestors are new, nothing else changes, and a failure leaves the filesystem untouched |
| EclipseResults.Validate | PixelPerfect/scripts/eclipse_builder.py:827-853 | validation passes exactly when every entry passes its test, and otherwise reports the error of the first entry that fails |
| EclipseResults.Symlinked | PixelPerfect/scripts/eclipse_builder.py:873-880 | a created link holds the source text and leads to something that exists; a failing `os.symlink` reports the call, and a dangling link is reported as not created |
| EclipseResults.PlaceLink | PixelPerfect/scripts/eclipse_builder.py:866-880 | a `Link` entry that succeeds leaves a link at the destination holding the source text, leading to something that exists |
| EclipseResults.Rel | PixelPerfect/scripts/eclipse_builder.py:687-697 | under the source's reading `RelativePath` raises `IndexError` exactly when the two paths are the same or one lies inside the other; under the corrected reading it always returns; where it returns, both give the corrected relative path |
| EclipseResults.RunLink | PixelPerfect/scripts/eclipse_builder.py:858-880 | a `Link` entry whose `RelativePath` raises fails with `IndexError` and changes nothing; otherwise the link created holds the source as given when absolute, else the source below the project root relative to the link's directory |
| EclipseResults.RelativeLinkLeads | PixelPerfect/scripts/eclipse_builder.py:865 | a link holding the relative text leads, from its own directory, to the source |
| EclipseResults.LinkLeadsToSource | PixelPerfect/scripts/eclipse_builder.py:858-880 | under either reading, a relative `Link` entry that succeeds leaves a link leading to the linked file below the project root, and the destination reads as that file |
| EclipseResults.RootSrc | PixelPerfect/scripts/eclipse_builder.py:883-885 | the tree root below the project root ends in a separator |
| EclipseResults.LinkListed | PixelPerfect/scripts/eclipse_builder.py:905-914 | a skipped file changes nothing; a linked one gets a link holding the link text |
| EclipseResults.LinkFile | PixelPerfect/scripts/eclipse_builder.py:897-914 | a listed file whose `RelativePath` raises fails with `IndexError` and changes nothing; otherwise it is skipped by the reading's test (in the source's, the relative text resolved from the working directory is a directory) or gets a link at its place below the destination root holding that text |
| EclipseResults.AsWrittenSkipsFile | PixelPerfect/scripts/eclipse_builder.py:900-905 | with nothing at the destination and its directory present, when the relative text resolved from the working directory is a directory and the listed file is not, the source's loop body changes nothing while the corrected one links the file |
| EclipseResults.TreeFileLeads | PixelPerfect/scripts/eclipse_builder.py:896-914 | under either reading, a listed file linked without error and not skipped by the reading's test gets a link leading to it |
| EclipseResults.RunLinkTree | PixelPerfect/scripts/eclipse_builder.py:881-914 | a `LinkTree` entry over an empty listing leaves the destination root existing |
| EclipseResults.RunMkdir | PixelPerfect/scripts/eclipse_builder.py:915-921 | a `Mkdir` entry leaves a directory at its place, adding to the filesystem only; a non-directory already there is reported |
| EclipseResults.RunCreate | PixelPerfect/scripts/eclipse_builder.py:922-929 | a `Create` entry leaves a file holding exactly the contents; a write that fails leaves the filesystem untouched |
| EclipseResults.RunEntriesAppend | PixelPerfect/scripts/eclipse_builder.py:855-931 | running two lists of entries one after the other is running their concatenation, stopping at the first error |
| EclipseResults.Files | PixelPerfect/scripts/eclipse_builder.py:827-931 | without `files` nothing happens; when validation fails, its first error is reported and nothing is executed |
| EclipseResults.ClasspathFileLines | PixelPerfect/scripts/eclipse_builder.py:933-941 | the `.classpath` written holds the XML declaration, `<classpath>`, each kept entry indented by two spaces in order, and `</classpath>`, one per line |
| EclipseResults.WriteProject | PixelPerfect/scripts/eclipse_builder.py:943-946 | the `.project` written holds exactly the contents given |
| EclipseResults.LauncherFile | PixelPerfect/scripts/eclipse_builder.py:951-952 | a launcher's file name holds no separator and is its name with `.launch` appended |
| EclipseResults.CreateDirsFor | PixelPerfect/scripts/eclipse_builder.py:50-56 | the directory of the path is a directory afterwards, only added to |
| EclipseResults.CopyToProject | PixelPerfect/scripts/eclipse_builder.py:59-75 | a missing source is reported before anything is made; a copy that succeeds leaves the destination holding the source's contents |
| EclipseResults.ProjectName | PixelPerfect/scripts/eclipse_builder.py:815-822 | without a parent path or suffix the project directory is the name with separators turned into spaces, and holds no separator |
| EclipseResults.HandleResults | PixelPerfect/scripts/eclipse_builder.py:803-963 | under either reading, a missing name stops the run with nothing made; when validation fails, the run stops with its first error after the project directory (and only it and its ancestors) was made |
| EclipseResults.WriteLaunchers | PixelPerfect/scripts/eclipse_builder.py:948-955 | with no launchers nothing changes; when every write succeeds, the file of the last launcher holds its contents |
| EclipseTemplates.BuildCommandNames | PixelPerfect/scripts/eclipse_builder.py:236-269 | a build command without arguments names, on its second line, the builder it was made for |
| EclipseTemplates.DefaultBuilders | PixelPerfect/scripts/eclipse_builder.py:169-175 | the default builders are four non-empty build commands naming the resource manager, the pre-compiler, the Java builder and the APK builder, in that order |
| EclipseTemplates.KeptPresent | PixelPerfect/scripts/eclipse_builder.py:169-176 | dropping the empty builders from a list of non-empty ones keeps all of them, in order |
| EclipseTemplates.ProjectBuilders | PixelPerfect/scripts/eclipse_builder.py:169-176 | with no builders given the project lists the four defaults; with builders given it lists exactly those that are not empty |
| EclipseTemplates.ExternalToolReads | PixelPerfect/scripts/eclipse_builder.py:275-287 | the external tool command names the external tool builder, and its launch handle line reads back the launcher name when that holds no line end |
| EclipseTemplates.ExternalToolBuilder | PixelPerfect/scripts/eclipse_builder.py:272-287 | no launcher name raises `launcherName is required`; otherwise the command names the external tool builder and runs the named launch configuration |
| EclipseTemplates.ProjectNamed | PixelPerfect/scripts/eclipse_builder.py:196-199 | the third line of a `.project` description reads back the project's name when the name holds no line end |
| EclipseTemplates.LinkedResourcesNode | PixelPerfect/scripts/eclipse_builder.py:179-184 | the linked resources node is empty exactly when there are no links, and otherwise holds the links, one per line, between its tags |
| EclipseTemplates.FilteredResourcesNode | PixelPerfect/scripts/eclipse_builder.py:186-191 | the filtered resources node is empty exactly when there are no filters, and otherwise holds the filters between its tags |
| EclipseTemplates.AndroidProject | PixelPerfect/scripts/eclipse_builder.py:168-215 | an Android `.project` description reads back the project's name |
| EclipseTemplates.JavaProject | PixelPerfect/scripts/eclipse_builder.py:218-233 | a Java `.project` description reads back the project's name |
| EclipseTemplates.IntTextRoundTrip | PixelPerfect/scripts/eclipse_builder.py:298 | the decimal text `%d` writes for any integer, negative or not, reads back as that integer and holds no line end |
| EclipseTemplates.DigitsRead | PixelPerfect/scripts/eclipse_builder.py:298 | the digits of a natural number read back as it |
| EclipseTemplates.NegativeText | PixelPerfect/scripts/eclipse_builder.py:298 | a minus sign before the digits of a positive number reads back as its negation |
| EclipseTemplates.LinkedResourceReads | PixelPerfect/scripts/eclipse_builder.py:296-300 | a linked resource reads back the project's name, the type text, and, when the hash holds no line end, the location naming the project and its hash |
| EclipseTemplates.LinkedResource | PixelPerfect/scripts/eclipse_builder.py:290-305 | no hash raises `projectHash is required`; otherwise the link reads back the project's name, a type that is the project type as a number, and the location `name_hash` |
| EclipseTemplates.FilterId | PixelPerfect/scripts/eclipse_builder.py:24-34 | a filter's id is a line of digits whose value is the number drawn after seeding with the filter's name followed by its value |
| EclipseTemplates.FilterReads | PixelPerfect/scripts/eclipse_builder.py:309-317 | a filter reads back its id, and, when the name holds no line end, its name, its type code and its arguments |
| EclipseTemplates.FilterNameMatches | PixelPerfect/scripts/eclipse_builder.py:308-321 | a name filter carries the id drawn from its name and value, type 22, and the name-matching arguments ending in the value |
| EclipseTemplates.FilterLocationMatches | PixelPerfect/scripts/eclipse_builder.py:324-337 | a location filter carries the id drawn from its name and value, type 26, and the location-matching arguments ending in the value |
| EclipseTemplates.FilterIdsFollowSeed | PixelPerfect/scripts/eclipse_builder.py:318-319 | the two kinds of filter with the same name and value carry the same id, and filters whose seeds draw different numbers carry different ids |
| EclipseTemplates.ProjectPath | PixelPerfect/scripts/eclipse_builder.py:413 | the path `/project` names exactly that project, from any working directory |
| EclipseTemplates.UnderProject | PixelPerfect/scripts/eclipse_builder.py:419-420 | a path below a project names the project and then the components of the rest |
| EclipseTemplates.SplitReplaced | PixelPerfect/scripts/eclipse_builder.py:419-420 | replacing the dots of a dotted name by separators splits it into the same parts the dots did |
| EclipseTemplates.SplitAllAppend | PixelPerfect/scripts/eclipse_builder.py:420 | appending text without a separator to a path lengthens only its last component |
| EclipseTemplates.ClassFileSplits | PixelPerfect/scripts/eclipse_builder.py:419-420 | a class name turned into a path with `.java` appended is the class's package directories and then its source file |
| EclipseTemplates.ClassFileProper | PixelPerfect/scripts/eclipse_builder.py:419-420 | the components of a class's source file are proper names when the parts of its dotted name are |
| EclipseTemplates.ClassNotAbs | PixelPerfect/scripts/eclipse_builder.py:419-420 | the source file path made from a class name is relative |
| EclipseTemplates.ActivityLauncher | PixelPerfect/scripts/eclipse_builder.py:340-381 | the launch action is 1 with the activity exactly when a non-empty activity is given and 0 otherwise; the background flag is `true`/`false`; two resources are mapped |
| EclipseTemplates.ActivityMapped | PixelPerfect/scripts/eclipse_builder.py:361-368 | an application launch maps the project itself as a project resource and its manifest as a file resource |
| EclipseTemplates.FileInProject | PixelPerfect/scripts/eclipse_builder.py:363 | a file directly inside a project names the project and the file |
| EclipseTemplates.AndroidTestLauncher | PixelPerfect/scripts/eclipse_builder.py:384-457 | with `alltests` given, whatever its value, the project is mapped as a project resource with container `=project` and no main type; otherwise the test class is mapped as a file and is the main type; neither given raises on `None.replace` |
| EclipseTemplates.AllTestsMapProject | PixelPerfect/scripts/eclipse_builder.py:412-414 | an all-tests launcher maps the project itself |
| EclipseTemplates.TestClassMapped | PixelPerfect/scripts/eclipse_builder.py:417-421 | a one-class launcher maps the project, the test source folder, the class's package directories and its `.java` file |
| EclipseTemplates.MappedBelow | PixelPerfect/scripts/eclipse_builder.py:419-420 | a relative path joined below a folder of a project names the project, the folder, and the path's components |
| EclipseTemplates.JavaTestLauncher | PixelPerfect/scripts/eclipse_builder.py:460-515 | with `alltests` given the container is `=project/alltests` and there is no main type; otherwise the class is the main type; neither given raises on `None.replace` |
| EclipseTemplates.JavaTestsMapDirectory | PixelPerfect/scripts/eclipse_builder.py:481-483 | a directory launcher maps that directory inside the project, the same path its container names |
| EclipseTemplates.JavaTestClassMapped | PixelPerfect/scripts/eclipse_builder.py:485-486 | a one-class JUnit launcher maps the class's package path inside the project, with no source folder and no `.java` |
| EclipseTemplates.AntLauncher | PixelPerfect/scripts/eclipse_builder.py:518-559 | the tool location is the build path inside `${workspace_loc:...}`; the arguments and working directory are those given |
| EclipseTemplates.AntBuildFileMapped | PixelPerfect/scripts/eclipse_builder.py:539 | the Ant build path names the project and then the build file's components |
| EclipseTemplates.AndroidHome | PixelPerfect/scripts/eclipse_builder.py:104-105 | an unset `ANDROID_HOME` raises `KeyError` |
| EclipseTemplates.AndroidHomeResolves | PixelPerfect/scripts/eclipse_builder.py:104-105 | a relative path lands inside the SDK directory, and an absolute one is itself |
| EclipseTemplates.PropertiesFilename | PixelPerfect/scripts/eclipse_builder.py:654-670 | the name is `project.properties` exactly when that file exists under the project root, and `default.properties` exactly when it does not |
| EclipseTemplates.RepeatSplits | PixelPerfect/scripts/eclipse_builder.py:573 | each `../` in front of a path splits off one `..` component |
| EclipseTemplates.UpSplits | PixelPerfect/scripts/eclipse_builder.py:574 | `../top` splits into `..` and `top` |
| EclipseTemplates.PackageDepth | PixelPerfect/scripts/eclipse_builder.py:571-573 | the package path has one directory per part of the dotted package name |
| EclipseTemplates.TreeRootSplits | PixelPerfect/scripts/eclipse_builder.py:572-574 | the default source root is one `..` per package directory, one more, and then the tree's top |
| EclipseTemplates.TreeRootResolves | PixelPerfect/scripts/eclipse_builder.py:572-574 | the default source root, taken from a directory as deep below the top as the package path, is the top itself |
| EclipseTemplates.LibRootResolves | PixelPerfect/scripts/eclipse_builder.py:575-576 | the default library root, taken from the same directory, is the directory that holds the top |
| EclipseTemplates.DefaultRootsResolve | PixelPerfect/scripts/eclipse_builder.py:569-576 | from the package's directory below the top, with no roots given, the source root is the top and the library root is the directory holding it |
| EclipseTemplates.Google3Files | PixelPerfect/scripts/eclipse_builder.py:581-588 | the google3 descriptions start with six operations: a link to the project properties file under its own name; relative links `src` to the source root, `AndroidManifest.xml` to the manifest, `res` to the resources and the description file's base name to the description file (each to its own name when the source given is empty); and `Mkdir("gen")` |
| EclipseTemplates.Google3Classpath | PixelPerfect/scripts/eclipse_builder.py:590-598 | the google3 classpath is the three standard entries, then the dependencies in order, and ends with `bin` as the output |
| EclipseTemplates.StandardEntries | PixelPerfect/scripts/eclipse_builder.py:591-596 | the standard classpath part is three entries, the last of them the Android framework container |
| EclipseTemplates.StandardEntriesRead | PixelPerfect/scripts/eclipse_builder.py:591-595 | the first standard entry reads back as the `src` folder including `<package path>/**` and the filters given and excluding `<package path>/res/**` and the exclusions given; the second as the `gen` folder without filters |
| EclipseTemplates.FilteredSrcReads | PixelPerfect/scripts/eclipse_builder.py:108-111 | a source folder with both filters reads back as its kind, path, inclusion and exclusion |
| EclipseTemplates.PlainSrcReads | PixelPerfect/scripts/eclipse_builder.py:108-111 | a source folder without filters reads back as its kind and path |
| EclipseTemplates.Google3Parts | PixelPerfect/scripts/eclipse_builder.py:581-601 | the operations start with the six standard ones and the classpath with the standard entries; after them come the two links and the `Lib` entry of each library, in order |
| EclipseTemplates.Google3AndroidApp | PixelPerfect/scripts/eclipse_builder.py:562-605 | the project is named after the last part of the package unless a name is given, and its description reads back that name; the standard operations and classpath come first and each library's links and entry follow in order, from the default roots when none are given |
| EclipseTemplates.Google3AndroidTests | PixelPerfect/scripts/eclipse_builder.py:608-651 | as for the application, from the `javatests` tree, named `<name>-tests`, with the application's project as a classpath dependency before the output |

Some definitions have no row of their own. They compute a value and carry no contract. The members named after each one state what it means:

- `MDnsQuery.Header`, `MDnsQuery.Question` and `MDnsQuery.QueryPacket`: `MDnsQuery.QueryHeader`, `MDnsQuery.QueryQuestion`, `MDnsQuery.QueryPacketAsciiAgrees` and `MDnsQuery.QueryPacketAsWrittenDiffers`.
- `MDnsQuery.Answer` and `MDnsQuery.AnswerAsWritten`: `MDnsQuery.AnswerLayout`, `MDnsQuery.AnswerAsWrittenLengthMismatch`, `MDnsQuery.AnswerAsciiAgrees` and `MDnsQuery.AnswerAsWrittenDiffers`.
- `ExcludedPackages.IsExcluded`: `ExcludedPackages.AddThenRemove` and `ExcludedPackages.ExclusionScenario`.
- `ExcludedPackages.Written`: `ExcludedPackages.WrittenReadsBack`, `ExcludedPackages.AfterWrite` and `ExcludedPackages.InterruptedWriteEmptiesFile`.
- `MopriaPlugin.IsMopria`: `MopriaPlugin.OnDeviceFound`, `MopriaPlugin.OnDeviceRemoved` and `MopriaPlugin.PdlExamples`.
- `TraceLogger.FunctionName`, `TraceLogger.LogLine`, `TraceLogger.ArgList` and `TraceLogger.ResultText`: `TraceLogger.FunctionNamesDistinct`, `TraceLogger.LogTrace`, `TraceLogger.CallsEmit`, `TraceLogger.RepeatedCallDots`, `TraceLogger.ArgListExample` and `TraceLogger.ThrownResult`.
- `StubProvider.Compare`: `StubProvider.BeforeTransitive`, `StubProvider.SortSorted` and `StubProvider.SortedOrder`.
- `StubProvider.Accepted`: `StubProvider.Query`.
- `ProcStatLog.ReadStats`, `ProcStatLog.StatEntry`, `ProcStatLog.YaffsEntry`, `ProcStatLog.Render` and `ProcStatLog.Atoi`: `ProcStatLog.ReadStatsFailure`, `ProcStatLog.ReadStatsSorted`, `ProcStatLog.StatEntryOf`, `ProcStatLog.YaffsFieldOf`, `ProcStatLog.ParseRender` and `ProcStatLog.AtoiDecimal`.
- `EclipsePaths.RelativePath` and `EclipsePaths.RelativePathAsWritten`: `EclipsePaths.RelativeResolves`, `EclipsePaths.RelativeNotAbs`, `EclipsePaths.AsWrittenAgrees`, `EclipsePaths.AsWrittenFailsWhen`, `EclipsePaths.AsWrittenInsideRaises` and `EclipsePaths.AsWrittenExample`.
- `EclipsePaths.AppName` and `EclipsePaths.AppNameAsWritten`: `EclipsePaths.AppNameAgrees` and `EclipsePaths.AsWrittenNamesNone`.
- `EclipseResults.RunEntry`, `EclipseResults.RunEntries` and `EclipseResults.CheckEntry`: `EclipseResults.RunLink`, `EclipseResults.RunMkdir`, `EclipseResults.RunCreate`, `EclipseResults.RunEntriesAppend`, `EclipseResults.Validate` and `EclipseResults.HandleResults`.
- `EclipseResults.Skip`: `EclipseResults.LinkFile` and `EclipseResults.TreeFileLeads`.
- `PrintPages.CoalesceAsWritten` and `PrintPages.OuterAsWritten`: `PrintPages.OuterAsWrittenInside`, `PrintPages.AsWrittenJoinsRuns`, `PrintPages.AsWrittenReportsUnwritten`, `PrintPages.AsWrittenContiguousAgrees` and `PrintPages.OnPostExecute`.
- `NotificationOrder.CompareRanks` and `NotificationOrder.CompareRanksAsWritten`: `NotificationOrder.CompareRanksAntisymmetric`, `NotificationOrder.CompareRanksTransitive`, `NotificationOrder.UnknownLast` and `NotificationOrder.AsWrittenNotAntisymmetric`.
- `DroidDream.Strip`: `DroidDream.StrStrip`, `DroidDream.StripShape` and `DroidDream.StripIdempotent`.
- `DroidDream.CopyLengthAsWritten`: `DroidDream.CopyLengthAgrees` and `DroidDream.ShortLineOverreads`.
- `EclipseEntries.ClasspathText`: `EclipseEntries.ClasspathLines`.
- `EclipseEntries.SourceJar`: `EclipseEntries.SourceJarName` and `EclipseEntries.SourceJarWithoutJar`.

## Left out

- The generator's command line, `CreateProject` and the evaluation of the project-description script (`exec`): these are I/O and Python's interpreter, so the model starts from the result bundle the script produces.
- `os.environ`: `ANDROID_HOME` is a parameter of the templates that read it.
- The random number generator behind `_GenerateId`: its draws after seeding are a parameter, and the model covers how they are turned into filter identifiers.
- The directory listing `os.walk` yields: it is a parameter of `LinkTree`, since its order depends on the host filesystem.
- Symbolic links in the middle of a path: they are not followed. A link is followed one level only at the end of a path.
- `shutil.copy` of the formatting and template files: this is file I/O. It is modelled as a write of contents that are given.
- Python's `repr` in error messages: `EclipseResults.Repr` renders a string as its text between single quotes. That is `repr`'s output only for strings without quotes, backslashes or non-printable characters; the escaping and the choice of double quotes that `repr` makes for other strings are not modelled.
- Tuple-arity errors from unpacking a malformed descriptor: descriptors are typed values in the model.
- The fixed XML boilerplate of the launch configurations: each launcher is modelled as the record of values it fills in, and the `.project` and classpath templates as lines with values read back.
- EclipseTemplates.AndroidProject: only the project name is read back from the description. The builder, nature and linked-resource lines are built, but not read back.
- EclipseTemplates.JavaProject: likewise, only the project name is read back.
- EclipseResults.WriteLaunchers: it states only that the last launcher's file holds its contents. Each earlier write is the same step, but it is not restated for the whole list.
- EclipseResults.RunLinkTree: its contract covers only the empty listing. Each listed file is covered by `EclipseResults.LinkFile` and `EclipseResults.TreeFileLeads`.
- DroidDream.Clean: coverage is stated up to the list's empty terminator, not over the whole malware list, because naming every one of its literal entries non-empty is too costly to prove. `DroidDream.TerminatorAfter` gives the link for any list of non-empty names.
- `fgets`, `popen`, the `/system` remount and the `rm` of the dropped files in `droiddreamclean`: these are process and file I/O. The package manager's output is a parameter.
- Fixed-size C buffers in `droiddreamclean` and procstatlog: the copy length is modelled, and its wrap-around is one of the findings. The buffer contents past a terminator are not.
- procstatlog's `main` loop, its sleep interval and `free_stats`: this is timing and memory management.
- The DNS message parser that feeds `parseServices` (`DnsPacket`/`BonjourParser`): it is not part of this model. Services are assembled from the records it yields.
- `com/android/printerdiscovery/servicediscovery/NetworkDevice.java` is not part of this model. The vendor tests take a device as its list of discovery instances and their TXT attributes.
- NetworkDevice: `InetAddress.hashCode` is a parameter of `hashCode`.
- NetworkDevice.ReadList: a null element stops the read with a failure. Such an element is a zero marker, or an instance whose address `InetAddress.getByAddress` rejects, which `CREATOR` turns into null. `Parcel.readTypedList` would put null in the list instead, and after a rejected address it would go on reading from where the failed read stopped. The model's instance list holds devices, not nullable references. A null list (count -1) reads as empty, as in the source. Because the rejected address's `UnknownHost` failure propagates out of `ReadList`, `NetworkDevice.CreateFromParcel` then returns null for the whole outer device, where the source would keep the outer device with a null instance in its list.
- PrintPages.SelectPages: when `isCancelled()` first holds is a parameter, `cancelledAt`. The `CancellationSignal` listener that calls `cancel(true)`, the threads it runs on, `SystemClock.sleep` and the drawing of each page are not modelled.
- ProcStatLog.Sort: `qsort` is not stable, and it leaves records with equal names in an order the C library does not specify. The model fixes one such order, the insertion order of `ProcStatLog.Insert`.
- ProcStatLog.DiffReplays: it holds only for strictly sorted snapshots, where no name occurs twice. `ProcStatLog.ReadStats` gives a strictly sorted snapshot only when the names read from `/proc` are distinct.
- PlatformClient.GetService: the `IllegalStateException` message keeps only its fixed text. The source appends " Connected at: " and the last connect time, then " Disconnected at: " and the last disconnect time. These two numbers are not rendered.
- NetworkDevice: an IPv4-mapped IPv6 address shrinks to four bytes, as `InetAddress.getByAddress` does. This is shown by example only.
- Text.Lower: only the ASCII letters `A`-`Z` are mapped to lower case. Java's `toLowerCase` and `equalsIgnoreCase` use Unicode case mapping, which can also change a string's length; that is not modelled.
- PackageItem.Normalized: lower-cases ASCII letters only, through `Text.Lower`, and trims only the characters up to the space, as Java's `trim` does. Non-ASCII letters are kept as they are.
- PackageItem.Matches: the comparison against the application name is ASCII-caseless only, for the same reason.
- VendorMatch.MatchesIsCaseless: ASCII case only. Two names that differ only in a non-ASCII letter's case are treated as different.
- PyPath.Resolve: `posixpath.normpath` keeps a leading `//` (exactly two slashes) as it is. The model folds every run of leading slashes into one, so a path that starts with exactly two slashes renders with one.
- Java `long` and `int` overflow:
  - the timestamps of `PlatformServiceClient` are unbounded integers;
  - the subtraction in the stub provider's comparator is exact;
  - the query thread's count of queries sent is exact.

  None of these can reach the bounds in practice.
- `PlatformServiceClient` logging and `bindService`: binding is asynchronous, so its completion is an input (`OnConnected`, `OnDisconnected`).
- TraceLogger: `setOutput(null)` and an `IOException` from the writer are left out, because the writer is an output string that grows.
- Android UI, threads, sockets and the listener fan-out around the modelled classes: these are concurrency and I/O.

## Findings

| source | as written | input that shows it | evidently intended | confidence | as-written member | corrected member |
|---|---|---|---|---|---|---|
| PrintApp/src/foo/bar/print/PrintActivity.java:229-245 | the inner loop reads the page that breaks a run into the current range, and the outer loop's increment skips the page after it | written pages 0, 1, 3, 4 are reported as the single range 0-3; pages 0 and 2 as 0-2, which covers page 1 that was never written | one range per maximal run of consecutive written pages | not executed | PrintPages.AsWrittenJoinsRuns | PrintPages.CoalesceCovers |
| NotificationListenerSample/src/com/android/example/notificationlistener/OrderedNotificationsHelper.java:83-92 | the first test reads `rIndex` twice, and the `rIndex == -1` test cannot hold, because a missing key has no index | a known key against an unknown key compares 0, and the reverse comparison gives 1 | known keys by position, each before every unknown key; an antisymmetric comparator | not executed | NotificationOrder.AsWrittenNotAntisymmetric | NotificationOrder.CompareRanksAntisymmetric |
| PixelPerfect/scripts/eclipse_builder.py:691-693 | the loop that drops the common prefix indexes both lists without a bounds check | `RelativePath("/a/b", "/a")` raises `IndexError` | `b`, the path relative to its directory | not executed | EclipsePaths.AsWrittenExample | EclipsePaths.RelativeResolves |
| PixelPerfect/scripts/eclipse_builder.py:745-750 | the suffix is appended to the `name` keyword before the default name is chosen, so a missing name becomes the text "None" | `Google3AndroidApp` with no name and the suffix `v2` is named `None-v2` | the package's last part with the suffix | not executed | EclipsePaths.AsWrittenNamesNone | EclipsePaths.AppNameAgrees |
| PrinterVendorDiscovery/src/com/android/printerdiscovery/servicediscovery/mdns/MDnsDiscovery.java:160-164 | the RDATA length and the name's length byte come from `String.length()`, but the name is written with `getBytes()` | a known answer for the name "é" says 4 bytes of RDATA while 5 follow | both lengths count the bytes written | not executed | MDnsQuery.AnswerAsWrittenLengthMismatch | MDnsQuery.AnswerLayout |
| droiddreamclean/droiddreamclean.c:125-126 | `strlen(pkg) - 8` is an unsigned subtraction | a line shorter than `package:` wraps round to a huge length, so the full 512-character copy starts past the line's end | nothing copied from a line shorter than the prefix | not executed | DroidDream.ShortLineOverreads | DroidDream.CopyLength |
| PixelPerfect/scripts/eclipse_builder.py:900-905 | `src` is rebound to the relative link text before `os.path.isdir(src)`, so the test resolves that text from the working directory | a file whose relative link text, read from the working directory, names a directory is skipped | the listed file itself is tested | not executed | EclipseResults.AsWrittenSkipsFile | EclipseResults.TreeFileLeads |

=== FILE: android.dfy ===
/** The few Android framework values the modelled classes pass around. */
module AndroidTypes {
  import opened Wrappers

  /** A `Bundle` holding string values. */
  type Bundle = map<string, string>

  /** `Bundle.getString`: null for a missing key. */
  function GetString(b: Bundle, key: string): (r: Option<string>)
    ensures r.Some? <==> key in b
    ensures r.Some? ==> r.value == b[key]
  {
    if key in b then Some(b[key]) else None
  }

  /** `TextUtils.equals`: two nulls are equal, a null and a string are not. */
  predicate TextEquals(a: Option<string>, b: Option<string>) {
    a == b
  }
}

=== FILE: bytes.dfy ===
/** Java's signed `byte`, the narrowing casts `(byte)` and `(short)`, and the
    big-endian encodings the mDNS code writes into packets. Also the two
    string lengths Java code mixes up: `String.length()` counts UTF-16 code
    units, `getBytes()` (UTF-8, the platform default) counts encoded bytes. */
module Bytes {

  /** A Java `byte`: a signed 8-bit value. */
  newtype JByte = x: int | -128 <= x < 128

  /** `(byte) x`: keeps the low 8 bits, read as a signed value. */
  function ToJByte(x: int): JByte {
    var low := x % 256;
    (if low >= 128 then low - 256 else low) as JByte
  }

  /** The unsigned reading of a byte, `b & 0xFF` (or `b < 0 ? b + 256 : b`). */
  function Unsigned(b: JByte): (u: int)
    ensures 0 <= u < 256
  {
    if b < 0 then b as int + 256 else b as int
  }

  /** `(short) x` read as an unsigned 16-bit quantity: the low 16 bits. */
  function Low16(x: int): (r: int)
    ensures 0 <= r < 0x1_0000
    ensures 0 <= x < 0x1_0000 ==> r == x
  {
    x % 0x1_0000
  }

  /** `shortToBytes((short) x)`: high byte first, then low byte. */
  function ShortToBytes(x: int): (r: seq<JByte>)
    ensures |r| == 2
    ensures BytesToShort(r) == Low16(x)
  {
    var v := Low16(x);
    [ToJByte(v / 256), ToJByte(v % 256)]
  }

  /** `intToBytes(x)`: the 32-bit two's-complement value, most significant byte
      first (`ByteBuffer` in `BIG_ENDIAN` order). */
  function IntToBytes(x: int): (r: seq<JByte>)
    ensures |r| == 4
    ensures BytesToInt(r) == x % 0x1_0000_0000
  {
    var v := x % 0x1_0000_0000;
    var r := ShortToBytes(v / 0x1_0000) + ShortToBytes(v % 0x1_0000);
    assert r[..2] == ShortToBytes(v / 0x1_0000) && r[2..] == ShortToBytes(v % 0x1_0000);
    r
  }

  /** Big-endian unsigned reading of two bytes. */
  function BytesToShort(r: seq<JByte>): int
    requires |r| == 2
  {
    Unsigned(r[0]) * 256 + Unsigned(r[1])
  }

  /** Big-endian unsigned reading of four bytes. */
  function BytesToInt(r: seq<JByte>): int
    requires |r| == 4
  {
    BytesToShort(r[..2]) * 0x1_0000 + BytesToShort(r[2..])
  }

  lemma {:induction false} UnsignedToJByte(x: int)
    requires 0 <= x < 256
    ensures Unsigned(ToJByte(x)) == x
  {
  }

  /** Decoding an encoded short gives back the low 16 bits, byte by byte. */
  lemma {:induction false} ShortToBytesBigEndian(x: int)
    ensures Unsigned(ShortToBytes(x)[0]) == Low16(x) / 256
    ensures Unsigned(ShortToBytes(x)[1]) == Low16(x) % 256
  {
    UnsignedToJByte(Low16(x) / 256);
    UnsignedToJByte(Low16(x) % 256);
  }

  // ---------------------------------------------------------------------------
  // String lengths.

  /** Number of UTF-16 code units of one character. */
  function Utf16Units(c: char): nat {
    if c as int > 0xFFFF then 2 else 1
  }

  /** Java's `String.length()`. */
  function Utf16Length(s: string): (n: nat)
    ensures n >= |s|
  {
    if s == [] then 0 else Utf16Units(s[0]) + Utf16Length(s[1..])
  }

  /** UTF-8 encoding of one Unicode scalar value. */
  function Utf8Char(c: char): (r: seq<JByte>)
    ensures 1 <= |r| <= 4
  {
    var n := c as int;
    if n < 0x80 then [ToJByte(n)]
    else if n < 0x800 then [ToJByte(0xC0 + n / 64), ToJByte(0x80 + n % 64)]
    else if n < 0x1_0000 then
      [ToJByte(0xE0 + n / 4096), ToJByte(0x80 + n / 64 % 64), ToJByte(0x80 + n % 64)]
    else
      [ToJByte(0xF0 + n / 0x4_0000), ToJByte(0x80 + n / 4096 % 64),
       ToJByte(0x80 + n / 64 % 64), ToJByte(0x80 + n % 64)]
  }

  /** `String.getBytes()` with UTF-8 as the default charset. */
  function Utf8(s: string): (r: seq<JByte>)
    ensures |r| >= |s|
  {
    if s == [] then [] else Utf8Char(s[0]) + Utf8(s[1..])
  }

  predicate IsAscii(s: string) {
    forall i :: 0 <= i < |s| ==> s[i] as int < 0x80
  }

  /** For ASCII text the three lengths agree and each byte is the character code. */
  lemma {:induction false} AsciiLengths(s: string)
    requires IsAscii(s)
    ensures |Utf8(s)| == |s| == Utf16Length(s)
    ensures forall i :: 0 <= i < |s| ==> Unsigned(Utf8(s)[i]) == s[i] as int
  {
    if s != [] {
      assert IsAscii(s[1..]) by {
        assert forall i :: 0 <= i < |s| - 1 ==> s[1..][i] == s[i + 1];
      }
      AsciiLengths(s[1..]);
      UnsignedToJByte(s[0] as int);
      assert Utf8(s) == [ToJByte(s[0] as int)] + Utf8(s[1..]);
    }
  }
}

=== FILE: dnssd_parser.dfy ===
/** DNS-SD service assembly from a parsed mDNS response, and TXT-record attribute
    parsing (section 6 of RFC 6763): the TXT RDATA is a sequence of strings,
    each a length byte followed by `key=value`, `key` alone, or `key=`. */
module DnsSdParser {
  import opened Wrappers
  import opened Bytes
  import opened Seqs

  /** The byte value of `'='`. */
  const Separator: JByte := 61

  /** One decoded TXT attribute: a key and, when the entry had a `=`, the bytes
      after it. */
  datatype Attr = Attr(key: string, value: Option<seq<JByte>>)

  type Attributes = map<string, Option<seq<JByte>>>

  /** `new String(bytes, "US-ASCII")`: bytes 0..127 are their character, any
      other byte decodes to U+FFFD. */
  function AsciiDecode(b: seq<JByte>): (s: string)
    ensures |s| == |b|
    ensures forall i :: 0 <= i < |b| ==> s[i] == if b[i] >= 0 then b[i] as int as char else '\U{FFFD}'
  {
    if b == [] then "" else [if b[0] >= 0 then b[0] as int as char else '\U{FFFD}'] + AsciiDecode(b[1..])
  }

  /** First index of `=` in `data[offset..offset + length]`, or -1. */
  method FindSeparator(data: seq<JByte>, offset: nat, length: nat) returns (r: int)
    requires offset + length <= |data|
    ensures r == -1 || offset <= r < offset + length
    ensures r >= 0 ==> data[r] == Separator
    ensures forall i :: offset <= i < (if r >= 0 then r else offset + length) ==> data[i] != Separator
  {
    var i := offset;
    while i < offset + length
      invariant offset <= i <= offset + length
      invariant forall j :: offset <= j < i ==> data[j] != Separator
    {
      if data[i] == Separator {
        return i;
      }
      i := i + 1;
    }
    return -1;
  }

  /** The same search as a function, for use in the specification below. */
  function SeparatorIn(data: seq<JByte>, offset: nat, length: nat): (r: int)
    requires offset + length <= |data|
    ensures r == -1 || offset <= r < offset + length
    ensures r >= 0 ==> data[r] == Separator
    ensures forall i :: offset <= i < (if r >= 0 then r else offset + length) ==> data[i] != Separator
    decreases length
  {
    if length == 0 then -1
    else if data[offset] == Separator then offset
    else SeparatorIn(data, offset + 1, length - 1)
  }

  /** Outcome of reading one entry: parsing stops, or an attribute and the
      offset of the next entry. */
  datatype Step = Stop | Next(attr: Attr, next: nat)

  /** One turn of the parse loop at `offset`: the length byte read as unsigned,
      then `Stop` if the entry overruns the buffer or its key is empty. */
  function ReadEntry(data: seq<JByte>, offset: nat): (r: Step)
    requires offset < |data|
    ensures r.Next? ==> offset + 2 <= r.next <= |data|
    ensures r.Next? ==> |r.attr.key| > 0 && '=' !in r.attr.key
  {
    var len := Unsigned(data[offset]);
    var start := offset + 1;
    if start + len > |data| then Stop
    else
      var sep := SeparatorIn(data, start, len);
      var keyLength := if sep > 0 then sep - start else len;
      if keyLength == 0 then Stop
      else
        var key := AsciiDecode(data[start..start + keyLength]);
        var value := if sep > 0 then Some(data[sep + 1..start + len]) else None;
        assert '=' !in key by {
          forall i | 0 <= i < keyLength ensures key[i] != '=' {
            assert data[start + i] != Separator;
          }
        }
        Next(Attr(key, value), start + len)
  }

  /** What one entry means: it spans the length byte's count of bytes; the key is
      the bytes before the first `=` (all of them when there is none, giving a
      null value); the value is the bytes after that `=`. */
  lemma {:induction false} ReadEntryMeaning(data: seq<JByte>, offset: nat)
    requires offset < |data| && ReadEntry(data, offset).Next?
    ensures var r := ReadEntry(data, offset);
      var k := offset + 1 + |r.attr.key|;
      r.next == offset + 1 + Unsigned(data[offset]) &&
      k <= r.next &&
      r.attr.key == AsciiDecode(data[offset + 1..k]) &&
      Separator !in data[offset + 1..k] &&
      (r.attr.value.None? <==> k == r.next) &&
      (r.attr.value.Some? ==> data[k] == Separator && r.attr.value.value == data[k + 1..r.next])
  {
    var r := ReadEntry(data, offset);
    var start := offset + 1;
    var len := Unsigned(data[offset]);
    var sep := SeparatorIn(data, start, len);
    if sep > 0 {
      assert r == Next(Attr(AsciiDecode(data[start..sep]), Some(data[sep + 1..start + len])), start + len);
      assert start + |r.attr.key| == sep;
      var keyBytes := data[start..sep];
      assert Separator !in keyBytes by {
        forall i | 0 <= i < |keyBytes| ensures keyBytes[i] != Separator {
          assert keyBytes[i] == data[start + i];
        }
      }
    } else {
      assert r == Next(Attr(AsciiDecode(data[start..start + len]), None), start + len);
      var body := data[start..start + len];
      assert Separator !in body by {
        forall i | 0 <= i < |body| ensures body[i] != Separator {
          assert body[i] == data[start + i];
        }
      }
    }
  }

  /** The attribute entries read from `data` starting at `offset`, in order, up to
      the first entry that overruns the buffer or has an empty key. */
  function Entries(data: seq<JByte>, offset: nat): (r: seq<Attr>)
    requires offset <= |data|
    ensures forall k :: 0 <= k < |r| ==> |r[k].key| > 0 && '=' !in r[k].key
    decreases |data| - offset
  {
    if offset == |data| then []
    else match ReadEntry(data, offset)
      case Stop => []
      case Next(a, next) => [a] + Entries(data, next)
  }

  /** Stores each entry in turn, a later key overwriting an earlier one
      (`HashMap.put`). */
  function Store(acc: Attributes, es: seq<Attr>): Attributes
    decreases |es|
  {
    if es == [] then acc else Store(acc[es[0].key := es[0].value], es[1..])
  }

  /** `parseAttributes`, written as the loop of the source; the loop body is
      `ReadAttribute`. */
  method ParseAttributes(data: seq<JByte>) returns (attributes: Attributes)
    ensures attributes == Store(map[], Entries(data, 0))
  {
    ghost var all := Store(map[], Entries(data, 0));
    attributes := map[];
    var offset := 0;
    while offset < |data|
      invariant 0 <= offset <= |data|
      invariant Store(attributes, Entries(data, offset)) == all
      decreases |data| - offset
    {
      var step := ReadAttribute(data, offset);
      if step.Stop? {
        return;
      }
      StoreStep(attributes, data, offset, step.attr, step.next);
      attributes := attributes[step.attr.key := step.attr.value];
      offset := step.next;
    }
  }

  /** One turn of the parse loop: reads the length byte at `offset` and the
      entry after it. */
  method ReadAttribute(data: seq<JByte>, offset: nat) returns (step: Step)
    requires offset < |data|
    ensures step == ReadEntry(data, offset)
  {
    var attrLength := data[offset] as int;
    var start := offset + 1;
    if attrLength < 0 {
      attrLength := attrLength + 256;
    }
    if attrLength < 0 || start + attrLength > |data| {
      return Stop;
    }
    var sepIndex := FindSeparator(data, start, attrLength);
    assert sepIndex == SeparatorIn(data, start, attrLength);
    var keyLength := if sepIndex > 0 then sepIndex - start else attrLength;
    if keyLength == 0 {
      return Stop;
    }
    var key := AsciiDecode(data[start..start + keyLength]);
    var value := if sepIndex > 0 then Some(data[sepIndex + 1..start + attrLength]) else None;
    return Next(Attr(key, value), start + attrLength);
  }

  /** One turn of the loop stores the entry it read. */
  lemma {:induction false} StoreStep(acc: Attributes, data: seq<JByte>, offset: nat, a: Attr, next: nat)
    requires offset < |data| && ReadEntry(data, offset) == Next(a, next)
    ensures Store(acc, Entries(data, offset)) == Store(acc[a.key := a.value], Entries(data, next))
  {
    var rest := Entries(data, next);
    assert Entries(data, offset) == [a] + rest;
    assert ([a] + rest)[1..] == rest;
  }

  lemma {:induction false} SeparatorInFirst(data: seq<JByte>, offset: nat, length: nat, j: nat)
    requires offset + length <= |data|
    requires offset <= j < offset + length && data[j] == Separator
    requires forall i :: offset <= i < j ==> data[i] != Separator
    ensures SeparatorIn(data, offset, length) == j
    decreases length
  {
    if j > offset {
      SeparatorInFirst(data, offset + 1, length - 1, j);
    }
  }

  lemma {:induction false} SeparatorInAbsent(data: seq<JByte>, offset: nat, length: nat)
    requires offset + length <= |data|
    requires forall i :: offset <= i < offset + length ==> data[i] != Separator
    ensures SeparatorIn(data, offset, length) == -1
    decreases length
  {
    if length > 0 {
      SeparatorInAbsent(data, offset + 1, length - 1);
    }
  }

  // ---------------------------------------------------------------------------
  // Encoding side: a TXT record built from raw attributes, the partner of the
  // parser.

  /** An attribute before decoding: raw key bytes and optional value bytes. */
  datatype RawAttr = RawAttr(key: seq<JByte>, value: Option<seq<JByte>>)

  function Body(a: RawAttr): seq<JByte> {
    match a.value
    case None => a.key
    case Some(v) => a.key + [Separator] + v
  }

  /** An entry the parser reads back: a non-empty key without `=`, and a body
      that fits the length byte. */
  predicate Encodable(a: RawAttr) {
    |a.key| > 0 && Separator !in a.key && |Body(a)| < 256
  }

  predicate AllEncodable(es: seq<RawAttr>) {
    es == [] || (Encodable(es[0]) && AllEncodable(es[1..]))
  }

  /** The TXT RDATA: each body preceded by its length byte. */
  function Encode(es: seq<RawAttr>): seq<JByte>
    requires AllEncodable(es)
  {
    if es == [] then [] else [ToJByte(|Body(es[0])|)] + Body(es[0]) + Encode(es[1..])
  }

  function Decoded(a: RawAttr): Attr {
    Attr(AsciiDecode(a.key), a.value)
  }

  /** Reading one encoded entry back gives the decoded attribute and continues
      right after its body. */
  lemma {:induction false} ReadEncoded(data: seq<JByte>, offset: nat, a: RawAttr)
    requires Encodable(a)
    requires offset + 1 + |Body(a)| <= |data|
    requires data[offset] == ToJByte(|Body(a)|)
    requires data[offset + 1..offset + 1 + |Body(a)|] == Body(a)
    ensures ReadEntry(data, offset) == Next(Decoded(a), offset + 1 + |Body(a)|)
  {
    var start := offset + 1;
    var len := |Body(a)|;
    var n := |a.key|;
    UnsignedToJByte(len);
    BodyParts(data, start, a);
    if a.value.Some? {
      SeparatorInFirst(data, start, len, start + n);
    } else {
      forall i | start <= i < start + len ensures data[i] != Separator {
        assert a.key[i - start] in a.key;
      }
      SeparatorInAbsent(data, start, len);
    }
  }

  /** Where the key, the `=` and the value of an entry body lie. */
  lemma {:induction false} BodyParts(data: seq<JByte>, start: nat, a: RawAttr)
    requires start + |Body(a)| <= |data| && data[start..start + |Body(a)|] == Body(a)
    ensures start + |a.key| <= start + |Body(a)|
    ensures data[start..start + |a.key|] == a.key
    ensures forall i :: start <= i < start + |a.key| ==> data[i] == a.key[i - start]
    ensures a.value.Some? ==>
      data[start + |a.key|] == Separator && data[start + |a.key| + 1..start + |Body(a)|] == a.value.value
  {
    var b := data[start..start + |Body(a)|];
    var n := |a.key|;
    assert Body(a)[..n] == a.key;
    assert data[start..start + n] == b[..n];
    forall i | start <= i < start + n ensures data[i] == a.key[i - start] {
      assert data[i] == b[i - start];
    }
    if a.value.Some? {
      assert b[n] == Separator;
      assert Body(a)[n + 1..] == a.value.value;
      assert data[start + n + 1..start + |Body(a)|] == b[n + 1..];
    }
  }

  function DecodedAll(es: seq<RawAttr>): (r: seq<Attr>)
    ensures |r| == |es|
    ensures forall k :: 0 <= k < |es| ==> r[k] == Decoded(es[k])
  {
    if es == [] then [] else [Decoded(es[0])] + DecodedAll(es[1..])
  }

  /** Parsing an encoded TXT record gives back its entries, in order. */
  lemma {:induction false} EntriesEncode(data: seq<JByte>, offset: nat, es: seq<RawAttr>)
    requires AllEncodable(es)
    requires Placed(data, offset, Encode(es)) && offset + |Encode(es)| == |data|
    ensures Entries(data, offset) == DecodedAll(es)
    decreases |es|
  {
    if es != [] {
      var next := EncodedFirst(data, offset, es);
      ReadPlaced(data, offset, es[0]);
      EntriesEncode(data, next, es[1..]);
      EntriesStep(data, offset, Decoded(es[0]), next);
    }
  }

  /** Where the first entry of an encoded record in place lies, and where
      the rest is. */
  lemma {:induction false} EncodedFirst(data: seq<JByte>, offset: nat, es: seq<RawAttr>) returns (next: nat)
    requires AllEncodable(es) && es != []
    requires Placed(data, offset, Encode(es)) && offset + |Encode(es)| == |data|
    ensures Encodable(es[0]) && Placed(data, offset, [ToJByte(|Body(es[0])|)] + Body(es[0]))
    ensures next == offset + 1 + |Body(es[0])|
    ensures AllEncodable(es[1..]) && Placed(data, next, Encode(es[1..])) && next + |Encode(es[1..])| == |data|
  {
    var a := es[0];
    var entry := [ToJByte(|Body(a)|)] + Body(a);
    EncodeHead(es);
    PlacedSplit(data, offset, entry, Encode(es[1..]));
    next := offset + |entry|;
  }

  lemma {:induction false} EncodeHead(es: seq<RawAttr>)
    requires AllEncodable(es) && es != []
    ensures AllEncodable(es[1..]) && Encode(es) == ([ToJByte(|Body(es[0])|)] + Body(es[0])) + Encode(es[1..])
  {
  }

  /** One encoded entry in place reads back as its attribute. */
  lemma {:induction false} ReadPlaced(data: seq<JByte>, offset: nat, a: RawAttr)
    requires Encodable(a) && Placed(data, offset, [ToJByte(|Body(a)|)] + Body(a))
    ensures offset < |data| && ReadEntry(data, offset) == Next(Decoded(a), offset + 1 + |Body(a)|)
  {
    var head := [ToJByte(|Body(a)|)];
    PlacedSplit(data, offset, head, Body(a));
    PlacedIndex(data, offset, head, 0);
    PlacedAt(data, offset + 1, Body(a));
    ReadEncoded(data, offset, a);
  }

  lemma {:induction false} EntriesStep(data: seq<JByte>, offset: nat, a: Attr, next: nat)
    requires offset < |data| && ReadEntry(data, offset) == Next(a, next)
    ensures Entries(data, offset) == [a] + Entries(data, next)
  {
  }

  /** The parse of an encoded record is the map in which each key holds the
      value of its LAST entry. Section 6.4 of RFC 6763 says a client should
      keep the first occurrence; the source keeps the last. */
  lemma {:induction false} ParseEncoded(es: seq<RawAttr>)
    requires AllEncodable(es)
    ensures Store(map[], Entries(Encode(es), 0)) == Store(map[], DecodedAll(es))
  {
    assert Encode(es)[0..|Encode(es)|] == Encode(es);
    PlacedAt(Encode(es), 0, Encode(es));
    EntriesEncode(Encode(es), 0, es);
  }

  /** After storing, a key holds the value of its last entry. */
  lemma {:induction false} StoreLastWins(acc: Attributes, es: seq<Attr>, k: nat)
    requires k < |es|
    requires forall j :: k < j < |es| ==> es[j].key != es[k].key
    ensures es[k].key in Store(acc, es) && Store(acc, es)[es[k].key] == es[k].value
    decreases |es|
  {
    if k > 0 {
      StoreLastWins(acc[es[0].key := es[0].value], es[1..], k - 1);
    } else {
      StoreUntouched(acc[es[0].key := es[0].value], es[1..], es[0].key);
    }
  }

  /** Keys that no entry mentions keep their value. */
  lemma {:induction false} StoreUntouched(acc: Attributes, es: seq<Attr>, key: string)
    requires key in acc
    requires forall j :: 0 <= j < |es| ==> es[j].key != key
    ensures key in Store(acc, es) && Store(acc, es)[key] == acc[key]
    decreases |es|
  {
    if es != [] {
      StoreUntouched(acc[es[0].key := es[0].value], es[1..], key);
    }
  }

  /** An entry whose length byte runs past the end of the data stops parsing. */
  lemma {:induction false} OverrunStops(data: seq<JByte>, offset: nat)
    requires offset < |data| && offset + 1 + Unsigned(data[offset]) > |data|
    ensures Entries(data, offset) == []
  {
  }

  /** An entry that starts with `=` (or has length zero) stops parsing. */
  lemma {:induction false} EmptyKeyStops(data: seq<JByte>, offset: nat)
    requires offset < |data| && offset + 1 + Unsigned(data[offset]) <= |data|
    requires Unsigned(data[offset]) == 0 || data[offset + 1] == Separator
    ensures Entries(data, offset) == []
  {
    if Unsigned(data[offset]) > 0 {
      SeparatorInFirst(data, offset + 1, Unsigned(data[offset]), offset + 1);
    }
  }

  // ---------------------------------------------------------------------------
  // Service assembly.

  /** A DNS name as the packet parser produces it; compared by value. */
  type Name = seq<string>

  /** Resource records of a parsed response (the record parser itself is not
      part of this model). `Address` stands for both A and AAAA records. */
  datatype Record =
    | Ptr(name: Name, pointed: Name)
    | Srv(name: Name, target: Name, port: int)
    | Txt(name: Name, text: seq<JByte>)
    | Address(name: Name, address: seq<JByte>)
    | OtherRecord(name: Name)

  datatype Service = Service(
    serviceName: Name,
    nameSuffix: Name,
    hostname: Name,
    addresses: seq<seq<JByte>>,
    port: int,
    attributes: Attributes)

  /** `findSrv`: the first SRV additional record for `name`. */
  function FindSrv(adds: seq<Record>, name: Name): (r: Option<nat>)
    ensures r.Some? ==> r.value < |adds| && adds[r.value].Srv? && adds[r.value].name == name
    ensures r.Some? ==> forall j :: 0 <= j < r.value ==> !(adds[j].Srv? && adds[j].name == name)
    ensures r.None? ==> forall j :: 0 <= j < |adds| ==> !(adds[j].Srv? && adds[j].name == name)
  {
    if adds == [] then None
    else if adds[0].Srv? && adds[0].name == name then Some(0)
    else match FindSrv(adds[1..], name)
      case None => None
      case Some(i) => Some(i + 1)
  }

  /** `findTxt`: the first TXT additional record for `name`. */
  function FindTxt(adds: seq<Record>, name: Name): (r: Option<nat>)
    ensures r.Some? ==> r.value < |adds| && adds[r.value].Txt? && adds[r.value].name == name
    ensures r.Some? ==> forall j :: 0 <= j < r.value ==> !(adds[j].Txt? && adds[j].name == name)
    ensures r.None? ==> forall j :: 0 <= j < |adds| ==> !(adds[j].Txt? && adds[j].name == name)
  {
    if adds == [] then None
    else if adds[0].Txt? && adds[0].name == name then Some(0)
    else match FindTxt(adds[1..], name)
      case None => None
      case Some(i) => Some(i + 1)
  }

  /** `findAddresses`: every A/AAAA additional record for `host`, in order. */
  function FindAddresses(adds: seq<Record>, host: Name): (r: seq<seq<JByte>>)
    ensures forall j :: 0 <= j < |adds| && adds[j].Address? && adds[j].name == host ==> adds[j].address in r
    ensures forall a :: a in r ==> Address(host, a) in adds
    ensures |r| > 0 <==> exists j :: 0 <= j < |adds| && adds[j].Address? && adds[j].name == host
  {
    if adds == [] then []
    else
      var rest := FindAddresses(adds[1..], host);
      assert forall a :: Address(host, a) in adds[1..] ==> Address(host, a) in adds;
      if adds[0].Address? && adds[0].name == host then [adds[0].address] + rest else rest
  }

  /** `buildService`: fails (None) when the SRV, the TXT or every address is missing. */
  function BuildService(ptr: Record, adds: seq<Record>): (r: Option<Service>)
    requires ptr.Ptr?
    ensures r.Some? <==>
      FindSrv(adds, ptr.pointed).Some? && FindTxt(adds, ptr.pointed).Some? &&
      exists j :: 0 <= j < |adds| && adds[j].Address? && adds[j].name == adds[FindSrv(adds, ptr.pointed).value].target
    ensures r.Some? ==> r.value.serviceName == ptr.pointed && r.value.nameSuffix == ptr.name && |r.value.addresses| > 0
    // host and port come from the first SRV record, the attributes from the
    // first TXT record, and the addresses are exactly those of the SRV target
    ensures r.Some? ==>
      var srv := adds[FindSrv(adds, ptr.pointed).value];
      r.value.hostname == srv.target && r.value.port == srv.port &&
      r.value.attributes == Store(map[], Entries(adds[FindTxt(adds, ptr.pointed).value].text, 0)) &&
      forall a :: a in r.value.addresses <==> Address(srv.target, a) in adds
  {
    match FindSrv(adds, ptr.pointed)
    case None => None
    case Some(si) =>
      match FindTxt(adds, ptr.pointed)
      case None => None
      case Some(ti) =>
        var host := adds[si].target;
        var addresses := FindAddresses(adds, host);
        if addresses == [] then None
        else
          assert Address(host, addresses[0]) in adds;
          var attrs := Store(map[], Entries(adds[ti].text, 0));
          Some(Service(ptr.pointed, ptr.name, host, addresses, adds[si].port, attrs))
  }

  /** A response carrying one SRV, one TXT and one address record for the
      pointed name builds the service those records describe. */
  lemma {:induction false} BuildFromRecords(suffix: Name, n: Name, host: Name, port: int, es: seq<RawAttr>, a: seq<JByte>)
    requires AllEncodable(es)
    ensures BuildService(Ptr(suffix, n), [Srv(n, host, port), Txt(n, Encode(es)), Address(host, a)])
         == Some(Service(n, suffix, host, [a], port, Store(map[], DecodedAll(es))))
  {
    var adds := [Srv(n, host, port), Txt(n, Encode(es)), Address(host, a)];
    assert FindSrv(adds, n) == Some(0);
    assert FindTxt(adds, n) == Some(1) by {
      assert adds[1..][0] == Txt(n, Encode(es));
    }
    assert FindAddresses(adds, host) == [a] by {
      var last := [Address(host, a)];
      assert last[1..] == [];
      assert FindAddresses(last, host) == [a];
      assert adds[1..][1..] == last;
      assert FindAddresses(adds[1..], host) == [a];
    }
    ParseEncoded(es);
  }

  /** `parseServices`: one service per PTR answer that can be built, in answer
      order; other answers and unbuildable services are dropped. */
  function ParseServices(answers: seq<Record>, adds: seq<Record>): (r: seq<Service>)
    ensures |r| <= |answers|
    ensures forall s :: s in r ==> |s.addresses| > 0 && exists j :: 0 <= j < |answers| && answers[j].Ptr? && answers[j].pointed == s.serviceName
  {
    if answers == [] then []
    else
      var rest := ParseServices(answers[1..], adds);
      var here := if answers[0].Ptr? then BuildService(answers[0], adds) else None;
      assert forall s :: s in rest ==> exists j :: 0 <= j < |answers| && answers[j].Ptr? && answers[j].pointed == s.serviceName by {
        forall s | s in rest
          ensures exists j :: 0 <= j < |answers| && answers[j].Ptr? && answers[j].pointed == s.serviceName
        {
          var j :| 0 <= j < |answers[1..]| && answers[1..][j].Ptr? && answers[1..][j].pointed == s.serviceName;
          assert answers[j + 1] == answers[1..][j];
        }
      }
      match here
      case None => rest
      case Some(s) => [s] + rest
  }

  /** Every PTR answer whose service can be built contributes that service. */
  lemma {:induction false} ParseServicesComplete(answers: seq<Record>, adds: seq<Record>, j: nat)
    requires j < |answers| && answers[j].Ptr? && BuildService(answers[j], adds).Some?
    ensures BuildService(answers[j], adds).value in ParseServices(answers, adds)
    decreases j
  {
    if j > 0 {
      ParseServicesComplete(answers[1..], adds, j - 1);
    }
  }

  /** Answers that are not PTR records contribute nothing. */
  lemma {:induction false} NonPtrIgnored(a: Record, answers: seq<Record>, adds: seq<Record>)
    requires !a.Ptr?
    ensures ParseServices([a] + answers, adds) == ParseServices(answers, adds)
  {
    assert ([a] + answers)[1..] == answers;
  }
}

=== FILE: droiddream.dfy ===
/** The DroidDream cleaner: it lists the installed packages through the
    package manager, strips each line of its `package:` prefix and trailing
    whitespace, and uninstalls every package of a fixed list of malware
    names that is installed. The package manager's output is a parameter;
    remounting `/system` and deleting the dropped files are left out. */
module DroidDream {
  import opened Text

  /** The malware package names, from the product data sheet. */
  const Blacklist: seq<string> := [
    "Super.mobi.eraser",
    "advanced.piano",
    "com.Funny.Face",
    "com.advanced.SoundManager",
    "com.advanced.scientific.calculator",
    "com.app.aun",
    "com.apps.tosd",
    "com.beauty.leg",
    "com.bubble",
    "com.dice.power",
    "com.dice.power.advanced",
    "com.dodge.game.fallingball",
    "com.droiddream.advancedtaskkiller1",
    "com.droiddream.android.afdvancedfm",
    "com.droiddream.barcodescanner",
    "com.droiddream.basketball",
    "com.droiddream.blueftp",
    "com.droiddream.bowlingtime",
    "com.droiddream.comparator",
    "com.droiddream.compasslevel",
    "com.droiddream.daltonismo",
    "com.droiddream.fallingball",
    "com.droiddream.game.omok",
    "com.droiddream.glowhockey",
    "com.droiddream.howtotie",
    "com.droiddream.lovePositions",
    "com.droiddream.musicbox",
    "com.droiddream.passwordsafe",
    "com.droiddream.pewpew",
    "com.droiddream.sexringtones",
    "com.droiddream.stopwatch",
    "com.droiddream.system.app.remover",
    "com.editor.photoenhance",
    "com.fall.down",
    "com.fall.soft.down",
    "com.free.chess",
    "com.free.game.finger",
    "com.hg.panzerpanic1",
    "com.hz.game.mrrunner1",
    "com.magic.spiral",
    "com.power.SuperSolo",
    "com.power.basketball",
    "com.power.demo.note",
    "com.power.magic.StrobeLight",
    "com.quick.Delete",
    "com.sex.japaneese.girls",
    "com.sexsound.hilton",
    "com.sexy.hotgirls",
    "com.sexy.legs",
    "com.spider.man",
    "com.super.mp3ringtone",
    "hot.goddchen.sexyvideos",
    "org.droiddream.yellow4",
    "power.nick.ypaint",
    "power.power.rate",
    "powerstudio.spiderman",
    "proscio.app.nick.ypaint",
    "super.sancron.ringtones.sexysb",
    "org.super.yellow4",
    "com.droid.publick.hotgirls",
    "com.super.free.sexringtones",
    "hot.goddchen.power.sexyvideos"]

  const MaxPackages := 512
  const MaxNameLength := 512

  /** `package:`, the prefix the package manager puts before each name. */
  const PrefixLength := 8

  const Uninstall := "pm uninstall "

  // ---------------------------------------------------------------------------
  // strstrip.

  /** The whitespace `strstrip` removes: C `isspace`. */
  predicate Space(c: char) {
    IsCSpace(c)
  }

  /** Stripping at both ends, as a definition. */
  function Strip(s: string): string {
    TrimStart(TrimEnd(s, Space), Space)
  }

  lemma {:induction false} TrailingCountAt(s: string, e: nat)
    requires e <= |s|
    requires forall i :: e <= i < |s| ==> Space(s[i])
    requires e == 0 || !Space(s[e - 1])
    ensures TrailingCount(s, Space) == |s| - e
    decreases |s|
  {
    if e < |s| {
      var init := s[..|s| - 1];
      assert forall i :: e <= i < |init| ==> init[i] == s[i];
      assert e == 0 || init[e - 1] == s[e - 1];
      TrailingCountAt(init, e);
    }
  }

  lemma {:induction false} LeadingCountAt(s: string, b: nat)
    requires b <= |s|
    requires forall i :: 0 <= i < b ==> Space(s[i])
    requires b == |s| || !Space(s[b])
    ensures LeadingCount(s, Space) == b
    decreases b
  {
    if b > 0 {
      var tail := s[1..];
      assert forall i :: 0 <= i < b - 1 ==> tail[i] == s[i + 1];
      assert b - 1 == |tail| || tail[b - 1] == s[b];
      LeadingCountAt(tail, b - 1);
    }
  }

  /** `strstrip`: the end pointer walks back over trailing whitespace and a
      terminator is written after it, then the start pointer walks forward
      over leading whitespace. `kept` is the buffer after the call, `r` the
      string the returned pointer starts. */
  method StrStrip(s: string) returns (kept: string, r: string)
    ensures kept == TrimEnd(s, Space) && r == Strip(s)
    ensures s == [] ==> kept == [] && r == []
  {
    if |s| == 0 {
      return s, s;
    }
    var e := |s|;
    while e > 0 && Space(s[e - 1])
      invariant 0 <= e <= |s|
      invariant forall i :: e <= i < |s| ==> Space(s[i])
      decreases e
    {
      e := e - 1;
    }
    kept := s[..e];
    var b := 0;
    while b < e && Space(s[b])
      invariant 0 <= b <= e
      invariant forall i :: 0 <= i < b ==> Space(s[i])
      decreases e - b
    {
      b := b + 1;
    }
    TrailingCountAt(s, e);
    assert forall i :: 0 <= i < e ==> kept[i] == s[i];
    LeadingCountAt(kept, b);
    r := s[b..e];
  }

  /** What stripping leaves: the middle of `s`, with whitespace on neither
      end, and only whitespace cut off on either side. */
  lemma {:induction false} StripShape(s: string)
    ensures var r := Strip(s);
      exists b, e :: 0 <= b <= e <= |s| && r == s[b..e]
        && (forall i :: 0 <= i < b ==> Space(s[i]))
        && (forall i :: e <= i < |s| ==> Space(s[i]))
    ensures var r := Strip(s); r != [] ==> !Space(r[0]) && !Space(r[|r| - 1])
  {
    var t := TrimEnd(s, Space);
    var e := |t|;
    var b := LeadingCount(t, Space);
    assert Strip(s) == s[b..e];
    var r := Strip(s);
    if r != [] {
      assert r[0] == t[b];
      assert r[|r| - 1] == s[e - 1];
    }
  }

  /** Stripping a stripped string changes nothing. */
  lemma {:induction false} StripIdempotent(s: string)
    ensures Strip(Strip(s)) == Strip(s)
  {
    StripShape(s);
    var r := Strip(s);
    if r != [] {
      TrailingCountAt(r, |r|);
      assert TrimEnd(r, Space) == r;
      LeadingCountAt(r, 0);
    } else {
      assert TrimEnd(r, Space) == [];
    }
  }

  // ---------------------------------------------------------------------------
  // populate_installed_packages.

  /** The number of characters copied after the prefix, as the source
      computes it: `strlen(pkg) - 8` is an unsigned subtraction, so a line
      shorter than the prefix wraps round to a huge length and the cap
      applies. */
  function CopyLengthAsWritten(n: nat): int {
    var d := (n - PrefixLength) % 0x1_0000_0000_0000_0000;
    if d < MaxNameLength then d else MaxNameLength
  }

  /** A line shorter than `package:` makes the copy start beyond the line's
      terminator and run on for the full name length, through stale buffer
      contents. */
  lemma {:induction false} ShortLineOverreads(n: nat)
    requires n < PrefixLength
    ensures CopyLengthAsWritten(n) == MaxNameLength
  {
  }

  /** The intended length: the rest of the line after the prefix, capped,
      and nothing for a line shorter than the prefix. */
  function CopyLength(n: nat): (r: nat)
    ensures n >= PrefixLength ==> PrefixLength + r <= n
    ensures r <= MaxNameLength
    ensures n >= PrefixLength && n - PrefixLength <= MaxNameLength ==> r == n - PrefixLength
    ensures n < PrefixLength ==> r == 0
  {
    if n < PrefixLength then 0
    else if n - PrefixLength < MaxNameLength then n - PrefixLength
    else MaxNameLength
  }

  /** Both lengths agree on every line at least as long as the prefix. */
  lemma {:induction false} CopyLengthAgrees(n: nat)
    requires PrefixLength <= n < 0x1_0000_0000_0000_0000
    ensures CopyLengthAsWritten(n) == CopyLength(n)
  {
  }

  /** The name kept for one line of `pm list packages`: the prefix removed,
      then `strstrip` run on the copy. Its return value is dropped, so only
      the trailing whitespace goes. */
  function InstalledName(line: string): (r: string)
    ensures |line| >= PrefixLength && |line| - PrefixLength <= MaxNameLength ==>
      r == TrimEnd(line[PrefixLength..], Space)
    ensures |line| < PrefixLength ==> r == []
  {
    if |line| < PrefixLength then []
    else
      var rest := line[PrefixLength..];
      var len := CopyLength(|line|);
      if len == |rest| then TrimEnd(rest, Space) else TrimEnd(rest[..len], Space)
  }

  /** `populate_installed_packages`: the names of at most the first 512
      lines. */
  function Installed(lines: seq<string>): (r: seq<string>)
    ensures |r| == if |lines| < MaxPackages then |lines| else MaxPackages
    ensures forall i :: 0 <= i < |r| ==> r[i] == InstalledName(lines[i])
  {
    var n := if |lines| < MaxPackages then |lines| else MaxPackages;
    seq(n, i requires 0 <= i < n => InstalledName(lines[i]))
  }

  // ---------------------------------------------------------------------------
  // package_installed and the removal loop.

  /** `package_installed`: the first index holding `name`, or -1. */
  method PackageInstalled(name: string, installed: seq<string>) returns (r: int)
    ensures r == -1 <==> name !in installed
    ensures r != -1 ==> 0 <= r < |installed| && installed[r] == name
    ensures r != -1 ==> forall j :: 0 <= j < r ==> installed[j] != name
  {
    for i := 0 to |installed|
      invariant forall j :: 0 <= j < i ==> installed[j] != name
    {
      if name == installed[i] {
        return i;
      }
    }
    return -1;
  }

  /** Index of the terminating empty entry of a name list. */
  function Terminator(entries: seq<string>): (n: nat)
    requires "" in entries
    ensures n < |entries| && entries[n] == ""
    ensures forall i :: 0 <= i < n ==> entries[i] != ""
  {
    if entries[0] == "" then 0
    else
      assert "" in entries[1..] by { var k :| 0 <= k < |entries| && entries[k] == ""; assert entries[1..][k - 1] == ""; }
      1 + Terminator(entries[1..])
  }

  predicate Increasing(s: seq<nat>) {
    forall i, j :: 0 <= i < j < |s| ==> s[i] < s[j]
  }

  /** The loop in `main`: each listed name before the terminator that is
      installed is uninstalled, in list order. `removed` holds the indices
      printed, `commands` the commands run. */
  method Removals(entries: seq<string>, installed: seq<string>) returns (removed: seq<nat>, commands: seq<string>)
    requires "" in entries
    ensures Increasing(removed)
    ensures forall i :: i in removed <==> 0 <= i < Terminator(entries) && entries[i] in installed
    ensures |commands| == |removed|
    ensures forall k :: 0 <= k < |removed| ==> removed[k] < |entries| && commands[k] == Uninstall + entries[removed[k]]
  {
    var n := Terminator(entries);
    removed, commands := [], [];
    var i := 0;
    while entries[i] != ""
      invariant 0 <= i <= n
      invariant Increasing(removed)
      invariant forall k :: 0 <= k < |removed| ==> removed[k] < i
      invariant forall j :: j in removed <==> 0 <= j < i && entries[j] in installed
      invariant |commands| == |removed|
      invariant forall k :: 0 <= k < |removed| ==> commands[k] == Uninstall + entries[removed[k]]
      decreases n - i
    {
      var found := PackageInstalled(entries[i], installed);
      if found != -1 {
        removed, commands := removed + [i], commands + [Uninstall + entries[i]];
      }
      i := i + 1;
    }
  }

  /** A list of non-empty names, terminated, is visited in full. */
  lemma {:induction false} TerminatorAfter(names: seq<string>)
    requires "" !in names
    ensures Terminator(names + [""]) == |names|
    decreases |names|
  {
    var all := names + [""];
    if names != [] {
      assert all[0] == names[0];
      assert all[1..] == names[1..] + [""];
      TerminatorAfter(names[1..]);
    }
  }

  /** The cleaner's removal pass over the package manager's output: only
      packages of the malware list that are installed are uninstalled, and
      every installed one the loop reaches is. */
  method Clean(lines: seq<string>) returns (removed: seq<nat>, commands: seq<string>)
    ensures forall k :: 0 <= k < |removed| ==> removed[k] < |Blacklist| && Blacklist[removed[k]] in Installed(lines)
    ensures forall i :: 0 <= i < Terminator(Blacklist + [""]) && Blacklist[i] in Installed(lines) ==> i in removed
    ensures Increasing(removed)
    ensures |commands| == |removed|
    ensures forall k :: 0 <= k < |removed| ==> commands[k] == Uninstall + Blacklist[removed[k]]
  {
    var entries := Blacklist + [""];
    assert entries[|Blacklist|] == "";
    removed, commands := Removals(entries, Installed(lines));
    forall k | 0 <= k < |removed|
      ensures removed[k] < |Blacklist| && entries[removed[k]] == Blacklist[removed[k]]
    {
      assert removed[k] in removed;
    }
  }

  /** A line of `pm list packages` gives the bare package name. */
  lemma {:induction false} InstalledNameExample()
    ensures InstalledName("package:com.bubble\n") == "com.bubble"
  {
    var line := "package:com.bubble\n";
    var rest := line[PrefixLength..];
    assert rest == "com.bubble\n";
    TrailingCountAt(rest, |rest| - 1);
  }
}

=== FILE: eclipse_entries.dfy ===
/** The workspace generator's descriptor library: the operations a project
    description lists (`Create`, `Link`, `LinkTree`, `Mkdir`), the
    `<classpathentry>` fragments, the third-party library entries, the
    random identifier of a resource filter, and the text of the
    `.classpath` file. */
module EclipseEntries {
  import opened Wrappers
  import opened Text
  import opened PyPath
  import opened EclipsePaths

  /** An operation tuple; `Other` is a tuple with a tag the generator does
      not know. */
  datatype Entry =
    | Create(name: string, contents: string)
    | Link(src: string, dst: string, absolute: bool)
    | LinkTree(src: string, glob: Option<string>, dst: string)
    | Mkdir(name: string)
    | Other(tag: string)

  /** `EclipseCreate`: missing or empty contents give an empty file. */
  function EclipseCreate(name: string, contents: Option<string>): (r: Entry)
    ensures r.Create? && r.name == name
    ensures Truthy(contents) ==> r.contents == contents.value
    ensures !Truthy(contents) ==> r.contents == ""
  {
    Create(name, if Truthy(contents) then contents.value else "")
  }

  /** `EclipseLink`: the link's source defaults to its own name. */
  function EclipseLink(name: string, src: Option<string>, absolute: bool): (r: Entry)
    ensures r.Link? && r.dst == name && r.absolute == absolute
    ensures r.src != "" || name == ""
    ensures Truthy(src) ==> r.src == src.value
    ensures !Truthy(src) ==> r.src == name
  {
    Link(if Truthy(src) then src.value else name, name, absolute)
  }

  /** `EclipseLinkTree`: the tree's source defaults to its own name. */
  function EclipseLinkTree(name: string, src: Option<string>, glob: Option<string>): (r: Entry)
    ensures r.LinkTree? && r.dst == name && r.glob == glob
    ensures r.src != "" || name == ""
    ensures Truthy(src) ==> r.src == src.value
    ensures !Truthy(src) ==> r.src == name
  {
    LinkTree(if Truthy(src) then src.value else name, glob, name)
  }

  /** `EclipseLinkPlatform`: an absolute link into the platform sources,
      or nothing when there are none. */
  function EclipseLinkPlatform(platformSrc: Option<string>, name: string, src: string): (r: Option<Entry>)
    ensures r.Some? <==> Truthy(platformSrc)
    ensures r.Some? ==> r.value.Link? && r.value.absolute && r.value.dst == name
    ensures r.Some? ==> r.value.src == Join2(platformSrc.value, src)
    ensures r.Some? && IsAbs(src) ==> r.value.src == src
  {
    if Truthy(platformSrc) then Join2NotEmpty(platformSrc.value, src); Some(EclipseLink(name, Some(Join2(platformSrc.value, src)), true)) else None
  }

  function EclipseMkdir(name: string): (r: Entry)
    ensures r.Mkdir? && r.name == name
  {
    Mkdir(name)
  }

  // ---------------------------------------------------------------------------
  // Classpath fragments: a `<classpathentry>` element and its attributes.

  /** One attribute: the spaces before it, its name and its value. */
  datatype Attr = Attr(spaces: nat, name: string, value: string)

  const Quote := '"'
  const ElementOpen := "<classpathentry"
  const ElementClose := "/>"

  function Spaces(n: nat): (r: string)
    ensures |r| == n && forall i :: 0 <= i < n ==> r[i] == ' '
  {
    if n == 0 then "" else " " + Spaces(n - 1)
  }

  /** The attributes as the fragments format them: each one as its spaces,
      `name="value"`, one after the other. */
  function AttrsText(attrs: seq<Attr>): string
    decreases |attrs|
  {
    if attrs == [] then ""
    else Spaces(attrs[0].spaces) + attrs[0].name + "=" + [Quote] + attrs[0].value + [Quote] + AttrsText(attrs[1..])
  }

  /** The element with the attributes in order. */
  function Element(attrs: seq<Attr>): string {
    ElementOpen + AttrsText(attrs) + ElementClose
  }

  /** A name the reader can find again. */
  predicate NameOk(n: string) {
    n != "" && ' ' !in n && '=' !in n && Quote !in n
  }

  predicate AttrOk(a: Attr) {
    a.spaces >= 1 && NameOk(a.name) && Quote !in a.value
  }

  predicate AllOk(attrs: seq<Attr>) {
    forall k :: 0 <= k < |attrs| ==> AttrOk(attrs[k])
  }

  lemma {:induction false} AllOkAppend(a: seq<Attr>, b: seq<Attr>)
    ensures AllOk(a) && AllOk(b) ==> AllOk(a + b)
  {
  }

  // Reading an element back.

  predicate IsSpace(c: char) {
    c == ' '
  }

  /** The text between the quotes, split at them: `␣name=` then the value,
      for each attribute, then what follows the last quote. */
  function Pieces(attrs: seq<Attr>): (r: seq<string>)
    ensures |r| == 2 * |attrs| + 1
    decreases |attrs|
  {
    if attrs == [] then [""]
    else [Spaces(attrs[0].spaces) + attrs[0].name + "=", attrs[0].value] + Pieces(attrs[1..])
  }

  /** The spaces and the name in the text before a value. */
  function ParseName(piece: string): Option<(nat, string)> {
    var g := LeadingCount(piece, IsSpace);
    var rest := piece[g..];
    if g >= 1 && rest != "" && rest[|rest| - 1] == '=' && NameOk(rest[..|rest| - 1])
    then Some((g, rest[..|rest| - 1])) else None
  }

  function ParsePieces(ps: seq<string>): Option<seq<Attr>>
    decreases |ps|
  {
    if ps == [""] then Some([])
    else if |ps| < 3 then None
    else
      match (ParseName(ps[0]), ParsePieces(ps[2..]))
      case (Some((g, n)), Some(rest)) => Some([Attr(g, n, ps[1])] + rest)
      case _ => None
  }

  /** Reads an element back into its attributes. */
  function ParseElement(s: string): Option<seq<Attr>> {
    if |s| >= |ElementOpen| + |ElementClose| && s[..|ElementOpen|] == ElementOpen
       && s[|s| - |ElementClose|..] == ElementClose
    then ParsePieces(SplitAll(s[|ElementOpen|..|s| - |ElementClose|], Quote))
    else None
  }

  lemma {:induction false} LeadingAt(s: string, drop: char -> bool, k: nat)
    requires k < |s| && !drop(s[k]) && forall i :: 0 <= i < k ==> drop(s[i])
    ensures LeadingCount(s, drop) == k
    decreases k
  {
    if k > 0 {
      LeadingAt(s[1..], drop, k - 1);
    }
  }

  lemma {:induction false} ParseNameOf(a: Attr)
    requires AttrOk(a)
    ensures ParseName(Spaces(a.spaces) + a.name + "=") == Some((a.spaces, a.name))
  {
    var piece := Spaces(a.spaces) + a.name + "=";
    assert piece[a.spaces] == a.name[0];
    LeadingAt(piece, IsSpace, a.spaces);
    assert piece[a.spaces..] == a.name + "=";
    assert (a.name + "=")[..|a.name|] == a.name;
  }

  lemma {:induction false} ParsePiecesOf(attrs: seq<Attr>)
    requires AllOk(attrs)
    ensures ParsePieces(Pieces(attrs)) == Some(attrs)
    decreases |attrs|
  {
    if attrs != [] {
      ParseNameOf(attrs[0]);
      ParsePiecesOf(attrs[1..]);
      var ps := Pieces(attrs);
      assert ps[2..] == Pieces(attrs[1..]);
      assert ps != [""];
      assert [attrs[0]] + attrs[1..] == attrs;
    }
  }

  lemma {:induction false} PiecesAvoidQuote(attrs: seq<Attr>)
    requires AllOk(attrs)
    ensures forall k :: 0 <= k < |Pieces(attrs)| ==> Quote !in Pieces(attrs)[k]
    decreases |attrs|
  {
    if attrs != [] {
      PiecesAvoidQuote(attrs[1..]);
      var a := attrs[0];
      assert Quote !in Spaces(a.spaces);
      var ps := Pieces(attrs);
      assert forall k :: 2 <= k < |ps| ==> ps[k] == Pieces(attrs[1..])[k - 2];
    }
  }

  lemma {:induction false} JoinTwo(x: string, v: string, rest: seq<string>)
    requires |rest| > 0
    ensures Join([Quote], [x, v] + rest) == x + [Quote] + v + [Quote] + Join([Quote], rest)
  {
    var j := Join([Quote], rest);
    assert [x, v] + rest == [x] + ([v] + rest);
    JoinCons([Quote], v, rest);
    JoinCons([Quote], x, [v] + rest);
    assert x + [Quote] + (v + [Quote] + j) == x + [Quote] + v + [Quote] + j;
  }

  /** The attribute text is the pieces with a quote between each two. */
  lemma {:induction false} JoinPieces(attrs: seq<Attr>)
    ensures Join([Quote], Pieces(attrs)) == AttrsText(attrs)
    decreases |attrs|
  {
    if attrs != [] {
      var a := attrs[0];
      var x := Spaces(a.spaces) + a.name + "=";
      JoinPieces(attrs[1..]);
      JoinTwo(x, a.value, Pieces(attrs[1..]));
    }
  }

  /** Reading a fragment gives its attributes back, in order and with the
      spaces before each. */
  lemma {:induction false} ParseElementOf(attrs: seq<Attr>)
    requires AllOk(attrs)
    ensures ParseElement(Element(attrs)) == Some(attrs)
  {
    var body := AttrsText(attrs);
    var s := Element(attrs);
    assert s[..|ElementOpen|] == ElementOpen;
    assert s[|s| - |ElementClose|..] == ElementClose;
    assert s[|ElementOpen|..|s| - |ElementClose|] == body;
    PiecesAvoidQuote(attrs);
    JoinPieces(attrs);
    SplitAllJoin(Pieces(attrs), Quote);
    ParsePiecesOf(attrs);
  }

  lemma {:induction false} Reads(attrs: seq<Attr>)
    ensures AllOk(attrs) ==> ParseElement(Element(attrs)) == Some(attrs)
  {
    if AllOk(attrs) {
      ParseElementOf(attrs);
    }
  }

  /** Different attribute lists give different fragments. */
  lemma {:induction false} ElementInjective(a: seq<Attr>, b: seq<Attr>)
    requires AllOk(a) && AllOk(b) && Element(a) == Element(b)
    ensures a == b
  {
    ParseElementOf(a);
    ParseElementOf(b);
  }

  // The fragments.

  /** A value a fragment can carry. */
  predicate Clean(v: string) {
    Quote !in v
  }

  function Flag(b: bool): string {
    if b then "true" else "false"
  }

  /** The attributes of a source folder entry. */
  function SrcAttrs(path: string, includes: Option<seq<string>>, excludes: Option<seq<string>>): (r: seq<Attr>)
    ensures
      (Clean(path) && (includes.Some? ==> Clean(Join("|", includes.value)))
       && (excludes.Some? ==> Clean(Join("|", excludes.value))))
      ==> AllOk(r)
  {
    var inc := includes.Some? && includes.value != [];
    var exc := excludes.Some? && excludes.value != [];
    var base := [Attr(1, "kind", "src"), Attr(1, "path", path)];
    var including := if inc then [Attr(1, "including", Join("|", includes.value))] else [];
    var excluding := if exc then [Attr(if inc then 2 else 1, "excluding", Join("|", excludes.value))] else [];
    ShortNamesOk();
    FilterNamesOk();
    AllOkAppend(base, including);
    AllOkAppend(base + including, excluding);
    base + including + excluding
  }

  /** `EclipseSrc`: the source folder with optional inclusion and exclusion
      patterns, each list joined with `|`. The source joins the two
      attributes with a space after writing a space before each, so when
      both are there the exclusion has two spaces before it. */
  function Src(path: string, includes: Option<seq<string>>, excludes: Option<seq<string>>): (r: string)
    ensures
      (Clean(path) && (includes.Some? ==> Clean(Join("|", includes.value)))
       && (excludes.Some? ==> Clean(Join("|", excludes.value))))
      ==> ParseElement(r) == Some(SrcAttrs(path, includes, excludes))
  {
    var attrs := SrcAttrs(path, includes, excludes);
    Reads(attrs);
    Element(attrs)
  }

  /** Three attributes the reader accepts. */
  lemma {:induction false} AllOkThree(a: Attr, b: Attr, c: Attr)
    ensures AttrOk(a) && AttrOk(b) ==> AllOk([a, b])
    ensures AttrOk(a) && AttrOk(b) && AttrOk(c) ==> AllOk([a, b, c])
  {
  }

  /** The namespaces of the containers. */
  const Jdt := "org.eclipse.jdt."
  const Adt := "com.android.ide.eclipse.adt."

  const JreContainer := Jdt + "launching.JRE_CONTAINER"
  const StandardVm := Jdt + "internal.debug.ui.launcher." + "StandardVMType/JavaSE-"
  const JUnitContainer := Jdt + "junit.JUNIT_CONTAINER/"
  const UserLibraryContainer := Jdt + "USER_LIBRARY/"
  const FrameworkContainer := Adt + "ANDROID_FRAMEWORK"
  const LibrariesContainer := Adt + "LIBRARIES"

  lemma {:induction false} CleanAppend(a: string, b: string)
    ensures Clean(a) && Clean(b) ==> Clean(a + b)
  {
  }

  /** None of the container names holds a quote. */
  lemma {:induction false} ContainersClean()
    ensures Clean(JreContainer) && Clean(StandardVm) && Clean(JUnitContainer)
    ensures Clean(UserLibraryContainer) && Clean(FrameworkContainer) && Clean(LibrariesContainer)
  {
    JdtClean();
    AdtClean();
  }

  lemma {:induction false} JdtClean()
    ensures Clean(JreContainer) && Clean(StandardVm) && Clean(JUnitContainer) && Clean(UserLibraryContainer)
  {
    JreClean();
    assert Clean(Jdt) && Clean("junit.JUNIT_CONTAINER/") && Clean("USER_LIBRARY/");
    CleanAppend(Jdt, "junit.JUNIT_CONTAINER/");
    CleanAppend(Jdt, "USER_LIBRARY/");
  }

  lemma {:induction false} JreClean()
    ensures Clean(JreContainer) && Clean(StandardVm)
  {
    assert Clean(Jdt) && Clean("launching.JRE_CONTAINER");
    assert Clean("internal.debug.ui.launcher.") && Clean("StandardVMType/JavaSE-");
    CleanAppend(Jdt, "launching.JRE_CONTAINER");
    CleanAppend(Jdt, "internal.debug.ui.launcher.");
    CleanAppend(Jdt + "internal.debug.ui.launcher.", "StandardVMType/JavaSE-");
  }

  lemma {:induction false} AdtClean()
    ensures Clean(FrameworkContainer) && Clean(LibrariesContainer)
  {
    assert Clean(Adt) && Clean("ANDROID_FRAMEWORK") && Clean("LIBRARIES");
    CleanAppend(Adt, "ANDROID_FRAMEWORK");
    CleanAppend(Adt, "LIBRARIES");
  }

  /** The attribute names the fragments use are readable. */
  lemma {:induction false} NamesOk()
    ensures NameOk("kind") && NameOk("path") && NameOk("exported")
    ensures NameOk("sourcepath") && NameOk("combineaccessrules")
  {
    ShortNamesOk();
    LongNamesOk();
  }

  lemma {:induction false} ShortNamesOk()
    ensures NameOk("kind") && NameOk("path") && NameOk("exported")
  {
  }

  lemma {:induction false} LongNamesOk()
    ensures NameOk("sourcepath") && NameOk("combineaccessrules")
  {
  }

  lemma {:induction false} FilterNamesOk()
    ensures NameOk("including") && NameOk("excluding")
  {
  }

  /** An entry of just a kind and a path: a container entry (kind `con`),
      as the JRE and JUnit entries are, or the output entry. */
  function KindPath(kind: string, path: string): (r: string)
    requires Clean(kind)
    ensures Clean(path) ==> ParseElement(r) == Some([Attr(1, "kind", kind), Attr(1, "path", path)])
  {
    var attrs := [Attr(1, "kind", kind), Attr(1, "path", path)];
    NamesOk();
    AllOkThree(attrs[0], attrs[1], attrs[1]);
    Reads(attrs);
    Element(attrs)
  }

  /** An exported container entry. */
  function ExportedContainer(path: string): (r: string)
    ensures Clean(path) ==>
      ParseElement(r) == Some([Attr(1, "exported", "true"), Attr(1, "kind", "con"), Attr(1, "path", path)])
  {
    var attrs := [Attr(1, "exported", "true"), Attr(1, "kind", "con"), Attr(1, "path", path)];
    NamesOk();
    AllOkThree(attrs[0], attrs[1], attrs[2]);
    Reads(attrs);
    Element(attrs)
  }

  /** `EclipseJREContainer`: the container, with `/launcher` after it when
      a launcher is given (an empty one included). */
  function JREContainer(launcher: Option<string>): (r: string)
    ensures var path := if launcher.Some? then JreContainer + "/" + launcher.value else JreContainer;
      Clean(path) ==> ParseElement(r) == Some([Attr(1, "kind", "con"), Attr(1, "path", path)])
  {
    KindPath("con", if launcher.Some? then JreContainer + "/" + launcher.value else JreContainer)
  }

  /** `EclipseJRE`: the container of the standard VM for that Java
      version. */
  function JRE(version: string): (r: string)
    ensures Clean(version) ==>
      ParseElement(r) == Some([Attr(1, "kind", "con"), Attr(1, "path", JreContainer + "/" + StandardVm + version)])
  {
    ContainersClean();
    CleanAppend(JreContainer, "/");
    CleanAppend(JreContainer + "/", StandardVm);
    CleanAppend(JreContainer + "/" + StandardVm, version);
    CleanAppend(StandardVm, version);
    CleanAppend(JreContainer + "/", StandardVm + version);
    assert JreContainer + "/" + (StandardVm + version) == JreContainer + "/" + StandardVm + version;
    JREContainer(Some(StandardVm + version))
  }

  /** `EclipseJUnit`. */
  function JUnit(version: string): (r: string)
    ensures Clean(version) ==>
      ParseElement(r) == Some([Attr(1, "kind", "con"), Attr(1, "path", JUnitContainer + version)])
  {
    ContainersClean();
    CleanAppend(JUnitContainer, version);
    KindPath("con", JUnitContainer + version)
  }

  /** `EclipseAndroidFramework`: an exported container. */
  function AndroidFramework(): (r: string)
    ensures ParseElement(r) == Some([Attr(1, "exported", "true"), Attr(1, "kind", "con"),
                                     Attr(1, "path", FrameworkContainer)])
  {
    ContainersClean();
    ExportedContainer(FrameworkContainer)
  }

  /** `EclipseAndroidPlatformSrc`: a source folder when the platform
      sources are known, else nothing. */
  function AndroidPlatformSrc(platformSrc: Option<string>, path: string): (r: Option<string>)
    ensures r.Some? <==> Truthy(platformSrc)
    ensures r.Some? && Clean(path) ==> ParseElement(r.value) == Some([Attr(1, "kind", "src"), Attr(1, "path", path)])
  {
    assert SrcAttrs(path, None, None) == [Attr(1, "kind", "src"), Attr(1, "path", path)];
    if Truthy(platformSrc) then Some(Src(path, None, None)) else None
  }

  /** `EclipseAndroidLibrary`: an exported container. */
  function AndroidLibrary(): (r: string)
    ensures ParseElement(r) == Some([Attr(1, "exported", "true"), Attr(1, "kind", "con"),
                                     Attr(1, "path", LibrariesContainer)])
  {
    ContainersClean();
    ExportedContainer(LibrariesContainer)
  }

  /** `EclipseUserLibrary`: the exported container of a user library. */
  function UserLibrary(library: string): (r: string)
    ensures Clean(library) ==>
      ParseElement(r) == Some([Attr(1, "exported", "true"), Attr(1, "kind", "con"),
                               Attr(1, "path", UserLibraryContainer + library)])
  {
    ContainersClean();
    CleanAppend(UserLibraryContainer, library);
    ExportedContainer(UserLibraryContainer + library)
  }

  /** `EclipseLib`: a jar, exported or not, with its sources when a source
      path is given and not empty. */
  function Lib(path: string, sourcepath: Option<string>, exported: bool): (r: string)
    ensures Clean(path) && (Truthy(sourcepath) ==> Clean(sourcepath.value)) ==>
      ParseElement(r) == Some([Attr(1, "exported", Flag(exported)), Attr(1, "kind", "lib"), Attr(1, "path", path)]
                              + (if Truthy(sourcepath) then [Attr(1, "sourcepath", sourcepath.value)] else []))
  {
    var base := [Attr(1, "exported", Flag(exported)), Attr(1, "kind", "lib"), Attr(1, "path", path)];
    var source := if Truthy(sourcepath) then [Attr(1, "sourcepath", sourcepath.value)] else [];
    NamesOk();
    AllOkThree(base[0], base[1], base[2]);
    AllOkAppend(base, source);
    Reads(base + source);
    Element(base + source)
  }

  /** `EclipseProject`: a dependency on another project of the
      workspace. */
  function Project(project: string): (r: string)
    ensures Clean(project) ==>
      ParseElement(r) == Some([Attr(1, "combineaccessrules", "false"), Attr(1, "kind", "src"), Attr(1, "path", "/" + project)])
  {
    var attrs := [Attr(1, "combineaccessrules", "false"), Attr(1, "kind", "src"), Attr(1, "path", "/" + project)];
    NamesOk();
    AllOkThree(attrs[0], attrs[1], attrs[2]);
    Reads(attrs);
    Element(attrs)
  }

  /** `EclipseOutput`. */
  function Output(path: string): (r: string)
    ensures Clean(path) ==> ParseElement(r) == Some([Attr(1, "kind", "output"), Attr(1, "path", path)])
  {
    KindPath("output", path)
  }

  // ---------------------------------------------------------------------------
  // `_GenerateId`: a decimal identifier. The number `random.randint(0, 1 << 32)`
  // draws after seeding with the seed is a parameter.

  const IdBound := 0x1_0000_0000

  function DigitChar(d: nat): char
    requires d < 10
  {
    ['0', '1', '2', '3', '4', '5', '6', '7', '8', '9'][d]
  }

  function DigitValue(c: char): nat {
    if '0' <= c <= '9' then (c as int - '0' as int) as nat else 0
  }

  predicate IsDigit(c: char) {
    '0' <= c <= '9'
  }

  /** `str` of a natural number. */
  function Decimal(n: nat): (r: string)
    ensures r != [] && forall i :: 0 <= i < |r| ==> IsDigit(r[i])
    decreases n
  {
    if n < 10 then [DigitChar(n)] else Decimal(n / 10) + [DigitChar(n % 10)]
  }

  /** The number a string of digits spells. */
  function DecimalValue(s: string): nat
    decreases |s|
  {
    if s == [] then 0 else 10 * DecimalValue(s[..|s| - 1]) + DigitValue(s[|s| - 1])
  }

  /** `_GenerateId`: the digits of the drawn number, which lies between 0
      and 2^32, both included. */
  function GenerateId(drawn: nat): (r: string)
    requires drawn <= IdBound
    ensures r != [] && |r| <= 10
    ensures forall i :: 0 <= i < |r| ==> IsDigit(r[i])
    ensures DecimalValue(r) == drawn
  {
    DecimalLength(drawn, 10);
    DecimalRoundTrip(drawn);
    Decimal(drawn)
  }

  lemma {:induction false} DigitRoundTrip(d: nat)
    requires d < 10
    ensures DigitValue(DigitChar(d)) == d
  {
  }

  /** The digits of `n` spell `n`. */
  lemma {:induction false} DecimalRoundTrip(n: nat)
    ensures DecimalValue(Decimal(n)) == n
    decreases n
  {
    DigitRoundTrip(n % 10);
    if n >= 10 {
      DecimalRoundTrip(n / 10);
      var s := Decimal(n);
      assert s[..|s| - 1] == Decimal(n / 10);
    }
  }

  function Pow10(k: nat): nat {
    if k == 0 then 1 else 10 * Pow10(k - 1)
  }

  /** A number below 10^k has at most k digits. */
  lemma {:induction false} DecimalLength(n: nat, k: nat)
    requires k >= 1 && n < Pow10(k)
    ensures |Decimal(n)| <= k
    decreases k
  {
    if n >= 10 {
      assert k >= 2;
      DecimalLength(n / 10, k - 1);
    }
  }

  // ---------------------------------------------------------------------------
  // The `.classpath` file.

  const XmlDeclaration := "<?xml version=\"1.0\" encoding=\"UTF-8\"?>"
  const ClasspathOpen := "<classpath>"
  const ClasspathClose := "</classpath>"

  /** The entries that are written, in order: those present and not
      empty. */
  function Kept(entries: seq<Option<string>>): (r: seq<string>)
    ensures |r| <= |entries|
    ensures forall k :: 0 <= k < |r| ==> r[k] != ""
    decreases |entries|
  {
    if entries == [] then []
    else (if Truthy(entries[0]) then [entries[0].value] else []) + Kept(entries[1..])
  }

  /** Lines written one `write` call each, each with its line end. */
  function Written(lines: seq<string>): string
    decreases |lines|
  {
    if lines == [] then "" else lines[0] + "\n" + Written(lines[1..])
  }

  /** What `HandleResults` writes to `.classpath`: the declaration, the
      opening tag, two spaces and the entry for each entry kept, and the
      closing tag. */
  function ClasspathText(entries: seq<Option<string>>): string {
    Written([XmlDeclaration, ClasspathOpen] + Indented(Kept(entries)) + [ClasspathClose])
  }

  function Indented(lines: seq<string>): (r: seq<string>)
    ensures |r| == |lines| && forall k :: 0 <= k < |r| ==> r[k] == "  " + lines[k]
    decreases |lines|
  {
    if lines == [] then [] else ["  " + lines[0]] + Indented(lines[1..])
  }

  predicate OneLine(entries: seq<Option<string>>) {
    forall k :: 0 <= k < |entries| ==> entries[k].Some? ==> '\n' !in entries[k].value
  }

  lemma {:induction false} KeptAppend(a: seq<Option<string>>, b: seq<Option<string>>)
    ensures Kept(a + b) == Kept(a) + Kept(b)
    decreases |a|
  {
    if a != [] {
      assert (a + b)[1..] == a[1..] + b;
      KeptAppend(a[1..], b);
    } else {
      assert a + b == b;
    }
  }

  /** Every entry kept is where the entries before it put it. */
  lemma {:induction false} KeptAt(entries: seq<Option<string>>, i: nat)
    requires i < |entries| && Truthy(entries[i])
    ensures |Kept(entries[..i])| < |Kept(entries)|
    ensures Kept(entries)[|Kept(entries[..i])|] == entries[i].value
  {
    var before, after := entries[..i], entries[i + 1..];
    assert entries == before + ([entries[i]] + after);
    KeptAppend(before, [entries[i]] + after);
    assert Kept([entries[i]] + after) == [entries[i].value] + Kept(after) by {
      assert ([entries[i]] + after)[1..] == after;
    }
  }

  /** Every line written comes from an entry that is present and not
      empty. */
  lemma {:induction false} KeptFrom(entries: seq<Option<string>>, k: nat)
    requires k < |Kept(entries)|
    ensures exists i :: 0 <= i < |entries| && Truthy(entries[i]) && entries[i].value == Kept(entries)[k]
                        && |Kept(entries[..i])| == k
    decreases |entries|
  {
    var head := if Truthy(entries[0]) then [entries[0].value] else [];
    assert Kept(entries) == head + Kept(entries[1..]);
    if Truthy(entries[0]) && k == 0 {
      assert entries[..0] == [];
    } else {
      KeptFrom(entries[1..], k - |head|);
      var j :| 0 <= j < |entries[1..]| && Truthy(entries[1..][j]) && entries[1..][j].value == Kept(entries[1..])[k - |head|]
               && |Kept(entries[1..][..j])| == k - |head|;
      assert entries[..j + 1] == [entries[0]] + entries[1..][..j];
      KeptAppend([entries[0]], entries[1..][..j]);
      assert Kept([entries[0]]) == head by {
        assert [entries[0]][1..] == [];
      }
      assert entries[j + 1] == entries[1..][j];
      assert Kept(entries)[k] == Kept(entries[1..])[k - |head|];
      assert |Kept(entries[..j + 1])| == |head| + |Kept(entries[1..][..j])|;
    }
  }

  lemma {:induction false} SplitLine(x: string, tail: string)
    requires '\n' !in x
    ensures SplitAll(x + "\n" + tail, '\n') == [x] + SplitAll(tail, '\n')
  {
    SplitAllSep(x, tail, '\n');
  }

  /** Lines written with their line ends split back into those lines and
      the empty piece after the last line end. */
  lemma {:induction false} WrittenLines(lines: seq<string>)
    requires forall k :: 0 <= k < |lines| ==> '\n' !in lines[k]
    ensures SplitAll(Written(lines), '\n') == lines + [""]
    decreases |lines|
  {
    if lines == [] {
      assert SplitAll("", '\n') == [""];
    } else {
      var rest := lines[1..];
      assert forall k :: 0 <= k < |rest| ==> rest[k] == lines[k + 1];
      WrittenLines(rest);
      SplitLine(lines[0], Written(rest));
      assert [lines[0]] + (rest + [""]) == lines + [""];
    }
  }

  /** The entries kept are single lines when the entries are. */
  lemma {:induction false} KeptOneLine(entries: seq<Option<string>>)
    requires OneLine(entries)
    ensures forall k :: 0 <= k < |Kept(entries)| ==> '\n' !in Kept(entries)[k]
  {
    forall k | 0 <= k < |Kept(entries)| ensures '\n' !in Kept(entries)[k] {
      KeptFrom(entries, k);
    }
  }

  lemma {:induction false} TagsOneLine()
    ensures '\n' !in XmlDeclaration && '\n' !in ClasspathOpen && '\n' !in ClasspathClose
  {
  }

  /** The lines of `.classpath`: the declaration, the opening tag, each
      entry kept, indented, in order, and the closing tag. */
  lemma {:induction false} ClasspathLines(entries: seq<Option<string>>)
    requires OneLine(entries)
    ensures SplitAll(ClasspathText(entries), '\n')
      == [XmlDeclaration, ClasspathOpen] + Indented(Kept(entries)) + [ClasspathClose, ""]
  {
    var kept := Kept(entries);
    var lines := [XmlDeclaration, ClasspathOpen] + Indented(kept) + [ClasspathClose];
    TagsOneLine();
    KeptOneLine(entries);
    forall k | 0 <= k < |lines| ensures '\n' !in lines[k] {
      if 2 <= k < 2 + |kept| {
        assert lines[k] == "  " + kept[k - 2];
      }
    }
    WrittenLines(lines);
    assert lines + [""] == [XmlDeclaration, ClasspathOpen] + Indented(kept) + [ClasspathClose, ""];
  }

  // ---------------------------------------------------------------------------
  // `_AddThirdPartyLibs`.

  const Jar := ".jar"
  const SourceJarSuffix := "-src.jar"

  /** The source jar of a library: every `.jar` becomes `-src.jar`. */
  function SourceJar(lib: string): string {
    ReplaceAll(lib, Jar, SourceJarSuffix)
  }

  /** A library whose only `.jar` is its extension has its source jar next
      to it, named with `-src.jar`. */
  lemma {:induction false} SourceJarName(stem: string)
    requires forall i :: 0 <= i < |stem| ==> !OccursAt(stem + Jar, Jar, i)
    ensures SourceJar(stem + Jar) == stem + SourceJarSuffix
  {
    ReplaceSuffix(stem, Jar, SourceJarSuffix);
  }

  /** A library without `.jar` in its name is its own source jar. */
  lemma {:induction false} SourceJarWithoutJar(lib: string)
    requires forall i :: 0 <= i < |lib| ==> !OccursAt(lib, Jar, i)
    ensures SourceJar(lib) == lib
  {
    ReplaceAbsent(lib, Jar, SourceJarSuffix);
  }

  /** Where a library of the tree lies. */
  function ThirdPartyPath(root: string, lib: string): string {
    JoinAll([root, "third_party", "java", lib])
  }

  lemma {:induction false} Join2NotEmpty(a: string, b: string)
    requires a != "" || b != ""
    ensures Join2(a, b) != ""
  {
  }

  lemma {:induction false} ThirdPartyPathNotEmpty(root: string, lib: string)
    ensures ThirdPartyPath(root, lib) != ""
  {
    var parts := [root, "third_party", "java", lib];
    assert parts[..3][..2][..1] == [root];
    Join2NotEmpty(root, "third_party");
    Join2NotEmpty(JoinAll(parts[..2]), "java");
    Join2NotEmpty(JoinAll(parts[..3]), lib);
  }

  /** The entries one library adds: a link to the jar and one to its
      source jar, both named after their file in the link directory and
      pointing into the tree's `third_party/java`, and an exported `Lib`
      entry whose path and source path are the two links. */
  predicate LibAdded(jar: Option<Entry>, source: Option<Entry>, entry: Option<string>,
                     lib: string, linkName: string, root: string)
  {
    var src := SourceJar(lib);
    jar == Some(Link(ThirdPartyPath(root, lib), Join2(linkName, Basename(lib)), false))
    && source == Some(Link(ThirdPartyPath(root, src), Join2(linkName, Basename(src)), false))
    && entry == Some(Lib(jar.value.dst, Some(source.value.dst), true))
  }

  /** From positions `nf` of `files` and `nc` of `classpath` on, the
      entries of `libs`, one after another. */
  predicate LibsAdded(files: seq<Option<Entry>>, classpath: seq<Option<string>>, nf: nat, nc: nat,
                      libs: seq<string>, linkName: string, root: string)
  {
    |files| == nf + 2 * |libs| && |classpath| == nc + |libs|
    && forall k :: 0 <= k < |libs| ==>
         LibAdded(files[nf + 2 * k], files[nf + 2 * k + 1], classpath[nc + k], libs[k], linkName, root)
  }

  function Listed<T>(xs: Option<seq<T>>): seq<T> {
    if xs.Some? then xs.value else []
  }

  /** `_AddThirdPartyLibs`: for each library, in order, two links are
      appended to the files and one `Lib` entry to the classpath; no
      library list means none. */
  method AddThirdPartyLibs(files: seq<Option<Entry>>, classpath: seq<Option<string>>,
                           libs: Option<seq<string>>, linkName: string, root: string)
    returns (newFiles: seq<Option<Entry>>, newClasspath: seq<Option<string>>)
    ensures LibsAdded(newFiles, newClasspath, |files|, |classpath|, Listed(libs), linkName, root)
    ensures newFiles[..|files|] == files && newClasspath[..|classpath|] == classpath
  {
    var ls := Listed(libs);
    newFiles, newClasspath := files, classpath;
    for i := 0 to |ls|
      invariant |newFiles| == |files| + 2 * i && |newClasspath| == |classpath| + i
      invariant newFiles[..|files|] == files && newClasspath[..|classpath|] == classpath
      invariant forall k :: 0 <= k < i ==>
        LibAdded(newFiles[|files| + 2 * k], newFiles[|files| + 2 * k + 1], newClasspath[|classpath| + k],
                 ls[k], linkName, root)
    {
      var lib := ls[i];
      var libName := Join2(linkName, Basename(lib));
      var libOrig := ThirdPartyPath(root, lib);
      ThirdPartyPathNotEmpty(root, lib);
      var jar := Some(EclipseLink(libName, Some(libOrig), false));
      var srcLib := SourceJar(lib);
      var srcLibName := Join2(linkName, Basename(srcLib));
      var srcLibOrig := ThirdPartyPath(root, srcLib);
      ThirdPartyPathNotEmpty(root, srcLib);
      var source := Some(EclipseLink(srcLibName, Some(srcLibOrig), false));
      var entry := Some(Lib(libName, Some(srcLibName), true));
      assert LibAdded(jar, source, entry, lib, linkName, root);
      ghost var before, beforeCp := newFiles, newClasspath;
      newFiles := newFiles + [jar, source];
      newClasspath := newClasspath + [entry];
      assert forall k :: 0 <= k < |before| ==> newFiles[k] == before[k];
      assert forall k :: 0 <= k < |beforeCp| ==> newClasspath[k] == beforeCp[k];
    }
  }
}

=== FILE: eclipse_paths.dfy ===
/** The workspace generator's path and name helpers: `RelativePath`, which
    turns an absolute link target into one relative to the link's
    directory, and `AppendNameSuffix`, which gives every generated project
    the suffix from the command line. */
module EclipsePaths {
  import opened Wrappers
  import opened Text
  import opened PyPath

  const IndexError := "IndexError: list index out of range"

  /** `normpath(abspath(p)).split('/')` for a path of proper components:
      the empty piece before the root, then the components, or one more
      empty piece for the root itself. */
  function Listed(cs: seq<string>): (r: seq<string>)
    ensures |r| >= 2 && r[0] == ""
  {
    [""] + (if cs == [] then [""] else cs)
  }

  predicate SeqPrefix(a: seq<string>, b: seq<string>) {
    |a| <= |b| && b[..|a|] == a
  }

  // ---------------------------------------------------------------------------
  // RelativePath as written.

  /** The first loop as the source has it: it pops the common head of both
      lists with no bounds check, so running out of either raises. */
  function DropCommonAsWritten(p: seq<string>, q: seq<string>): (r: Result<(seq<string>, seq<string>), string>)
    ensures r.Failure? ==> r.error == IndexError
    ensures r.Success? ==> r.value.0 != [] && r.value.1 != [] && r.value.0[0] != r.value.1[0]
    decreases |p|
  {
    if p == [] || q == [] then Failure(IndexError)
    else if p[0] == q[0] then DropCommonAsWritten(p[1..], q[1..])
    else Success((p, q))
  }

  /** The rest of `RelativePath` as the source has it, on the two split
      paths: `os.path.join` of no parts would raise too. */
  function RelativeAsWritten(p: seq<string>, q: seq<string>): Result<string, string> {
    var rest :- DropCommonAsWritten(p, q);
    var parts := Ups(|rest.1|) + rest.0;
    if parts == [] then Failure("TypeError") else Success(JoinAll(parts))
  }

  /** `RelativePath(path, pwd)` as the source has it. */
  function RelativePathAsWritten(cwd: seq<string>, path: string, pwd: string): Result<string, string> {
    RelativeAsWritten(SplitAll(Render(AbsComponents(cwd, path)), Sep),
                      SplitAll(Render(AbsComponents(cwd, pwd)), Sep))
  }

  // ---------------------------------------------------------------------------
  // RelativePath as intended.

  /** The first loop with the bounds check it needs. */
  function DropCommon(p: seq<string>, q: seq<string>): (r: (seq<string>, seq<string>))
    decreases |p|
  {
    if p != [] && q != [] && p[0] == q[0] then DropCommon(p[1..], q[1..]) else (p, q)
  }

  /** `DropCommon` removes the same number of pieces from both lists, the
      pieces removed agree, and what is left starts differently. */
  lemma {:induction false} DropCommonMeaning(p: seq<string>, q: seq<string>)
    ensures var r := DropCommon(p, q);
      |r.0| <= |p| && |p| - |r.0| == |q| - |r.1|
      && r.0 == p[|p| - |r.0|..] && r.1 == q[|q| - |r.1|..]
      && p[..|p| - |r.0|] == q[..|q| - |r.1|]
      && (r.0 == [] || r.1 == [] || r.0[0] != r.1[0])
    decreases |p|
  {
    if p != [] && q != [] && p[0] == q[0] {
      DropCommonMeaning(p[1..], q[1..]);
      var r := DropCommon(p[1..], q[1..]);
      assert p[1..][|p| - 1 - |r.0|..] == p[|p| - |r.0|..];
      assert q[1..][|q| - 1 - |r.1|..] == q[|q| - |r.1|..];
      assert p[..|p| - |r.0|] == [p[0]] + p[1..][..|p| - 1 - |r.0|];
      assert q[..|q| - |r.1|] == [q[0]] + q[1..][..|q| - 1 - |r.1|];
    } else {
      assert p[..0] == [] == q[..0];
    }
  }

  /** The rest of `RelativePath` as intended: one `..` for each component of
      `pwd` below the common part, then the rest of `path`, or `.` when
      nothing is left. */
  function Relative(p: seq<string>, q: seq<string>): string {
    var rest := DropCommon(p, q);
    var parts := Ups(|rest.1|) + rest.0;
    if parts == [] then "." else JoinAll(parts)
  }

  /** `RelativePath` as intended. */
  function RelativePath(cwd: seq<string>, path: string, pwd: string): string {
    Relative(Listed(AbsComponents(cwd, path)), Listed(AbsComponents(cwd, pwd)))
  }

  // ---------------------------------------------------------------------------
  // Resolving the relative path.

  /** Facts about a listing that hold whether or not the path is the root. */
  lemma {:induction false} ListedFacts(a: seq<string>)
    requires AllProper(a)
    ensures a != [] ==> Listed(a)[1..] == a && Listed(a)[1] == a[0] && Listed(a)[1] != ""
    ensures a == [] ==> Listed(a) == ["", ""]
  {
    assert a != [] ==> Proper(a[0]);
  }

  lemma {:induction false} ListedInjective(a: seq<string>, b: seq<string>)
    requires AllProper(a) && AllProper(b) && Listed(a) == Listed(b)
    ensures a == b
  {
    ListedFacts(a);
    ListedFacts(b);
  }

  /** The two listings after their common part: the same first piece, the
      same pieces `Listed(a)[1..k]` below it, then what `DropCommon`
      leaves. */
  lemma {:induction false} CommonSplit(a: seq<string>, b: seq<string>)
    requires AllProper(a) && AllProper(b)
    ensures var rest := DropCommon(Listed(a), Listed(b));
      var k := |Listed(a)| - |rest.0|;
      1 <= k && Listed(a) == [""] + Listed(a)[1..k] + rest.0 && Listed(b) == [""] + Listed(a)[1..k] + rest.1
  {
    var la, lb := Listed(a), Listed(b);
    var rest := DropCommon(la, lb);
    var k := |la| - |rest.0|;
    DropCommonMeaning(la, lb);
    assert la == la[..k] + rest.0;
    assert lb == lb[..k] + rest.1;
    assert la[..k] == [""] + la[1..k];
  }

  /** The parts of the relative path: `..`s, then proper names, with at most
      an empty piece at the very end. */
  lemma {:induction false} PartsShape(a: seq<string>, b: seq<string>)
    requires AllProper(a) && AllProper(b)
    ensures var rest := DropCommon(Listed(a), Listed(b));
      var parts := Ups(|rest.1|) + rest.0;
      (forall i :: 0 <= i < |parts| ==> Sep !in parts[i])
      && (forall i :: 0 <= i < |parts| - 1 ==> parts[i] != "")
  {
    var la := Listed(a);
    var rest := DropCommon(la, Listed(b));
    var k := |la| - |rest.0|;
    var parts := Ups(|rest.1|) + rest.0;
    CommonSplit(a, b);
    ListedFacts(a);
    forall i | 0 <= i < |rest.0| ensures Sep !in rest.0[i] && (i < |rest.0| - 1 ==> rest.0[i] != "") {
      assert rest.0[i] == la[k + i];
      assert a != [] ==> la[k + i] == a[k + i - 1];
    }
    forall i | 0 <= i < |parts| ensures Sep !in parts[i] && (i < |parts| - 1 ==> parts[i] != "") {
      if i >= |rest.1| {
        assert parts[i] == rest.0[i - |rest.1|];
      }
    }
  }

  /** From a directory other than the root: going up to the common part `y`
      and down along the rest of `a` arrives at `a`. */
  lemma {:induction false} ResolveFromDir(a: seq<string>, b: seq<string>, y: seq<string>, p: seq<string>, q: seq<string>)
    requires AllProper(a) && AllProper(b) && b != []
    requires Listed(a) == [""] + y + p && Listed(b) == [""] + y + q
    ensures b == y + q && Resolve(y, p) == a
  {
    ListedFacts(a);
    ListedFacts(b);
    assert Listed(b)[1..] == y + q;
    assert Listed(a)[1..] == y + p;
    if a != [] {
      assert a == Listed(a)[1..] == y + p;
      assert forall i :: 0 <= i < |p| ==> p[i] == a[|y| + i];
      ResolveNames(y, p);
    } else {
      assert y + p == [""];
      assert p == [""];
    }
  }

  /** From the root: the `..`s stay at the root, and going down along the
      rest of `a` arrives at `a`. */
  lemma {:induction false} ResolveFromRoot(a: seq<string>, y: seq<string>, p: seq<string>, q: seq<string>)
    requires AllProper(a)
    requires Listed(a) == [""] + y + p && Listed([]) == [""] + y + q
    requires p != [] || q != []
    ensures Resolve([], p) == a
  {
    ListedFacts(a);
    assert Listed(a)[1..] == y + p;
    assert Listed([])[1..] == y + q;
    assert y == [];
    if a != [] {
      assert a == Listed(a)[1..] == p;
      ResolveNames([], p);
    } else {
      assert p == [""];
    }
  }

  /** The relative path, resolved from `pwd`, is `path` again: the link the
      generator creates points where the absolute target did. */
  lemma {:induction false} RelativeResolves(cwd: seq<string>, path: string, pwd: string)
    requires AllProper(cwd)
    ensures Resolve(AbsComponents(cwd, pwd), SplitAll(RelativePath(cwd, path, pwd), Sep)) == AbsComponents(cwd, path)
  {
    var a, b := AbsComponents(cwd, path), AbsComponents(cwd, pwd);
    AbsComponentsProper(cwd, path);
    AbsComponentsProper(cwd, pwd);
    var la, lb := Listed(a), Listed(b);
    var rest := DropCommon(la, lb);
    var parts := Ups(|rest.1|) + rest.0;
    var k := |la| - |rest.0|;
    CommonSplit(a, b);
    if parts == [] {
      assert la == lb;
      ListedInjective(a, b);
      assert SplitAll(".", Sep) == ["."];
    } else {
      PartsShape(a, b);
      JoinAllIsJoin(parts);
      SplitAllJoin(parts, Sep);
      ResolveAppend(b, Ups(|rest.1|), rest.0);
      ResolveUps(b, |rest.1|);
      var y := la[1..k];
      if b != [] {
        ResolveFromDir(a, b, y, rest.0, rest.1);
        assert b[..|b| - |rest.1|] == y;
      } else {
        ResolveFromRoot(a, y, rest.0, rest.1);
      }
    }
  }

  /** The relative path never starts at the root, so a link holding it is
      resolved from the link's own directory. */
  lemma {:induction false} RelativeNotAbs(cwd: seq<string>, path: string, pwd: string)
    requires AllProper(cwd)
    ensures !IsAbs(RelativePath(cwd, path, pwd))
  {
    var a, b := AbsComponents(cwd, path), AbsComponents(cwd, pwd);
    AbsComponentsProper(cwd, path);
    AbsComponentsProper(cwd, pwd);
    var la, lb := Listed(a), Listed(b);
    var rest := DropCommon(la, lb);
    var parts := Ups(|rest.1|) + rest.0;
    CommonSplit(a, b);
    if parts != [] {
      PartsShape(a, b);
      JoinAllIsJoin(parts);
      if |parts| > 1 {
        assert parts == [parts[0]] + parts[1..];
        JoinCons([Sep], parts[0], parts[1..]);
        assert Text.Join([Sep], parts)[0] == parts[0][0];
        assert parts[0][0] in parts[0];
      } else {
        assert Text.Join([Sep], parts) == parts[0];
        if parts[0] != "" {
          assert parts[0][0] in parts[0];
        }
      }
    }
  }

  // ---------------------------------------------------------------------------
  // Where the source's version fails.

  lemma {:induction false} DropCommonAsWrittenMeaning(p: seq<string>, q: seq<string>)
    ensures DropCommonAsWritten(p, q).Failure? <==> SeqPrefix(p, q) || SeqPrefix(q, p)
    ensures DropCommonAsWritten(p, q).Success? ==> DropCommonAsWritten(p, q).value == DropCommon(p, q)
    decreases |p|
  {
    if p != [] && q != [] && p[0] == q[0] {
      DropCommonAsWrittenMeaning(p[1..], q[1..]);
      assert SeqPrefix(p, q) <==> SeqPrefix(p[1..], q[1..]) by {
        if SeqPrefix(p[1..], q[1..]) { assert q[..|p|] == [q[0]] + q[1..][..|p| - 1]; }
        if SeqPrefix(p, q) { assert q[1..][..|p| - 1] == q[..|p|][1..]; }
      }
      assert SeqPrefix(q, p) <==> SeqPrefix(q[1..], p[1..]) by {
        if SeqPrefix(q[1..], p[1..]) { assert p[..|q|] == [p[0]] + p[1..][..|q| - 1]; }
        if SeqPrefix(q, p) { assert p[1..][..|q| - 1] == p[..|q|][1..]; }
      }
    } else {
      assert p == [] ==> q[..|p|] == p;
      assert q == [] ==> p[..|q|] == q;
    }
  }

  /** Two normalized paths listed one after the other: one list is a prefix
      of the other exactly when the paths are equal, or neither is the root
      and one lies inside the other. */
  lemma {:induction false} ListedPrefix(a: seq<string>, b: seq<string>)
    requires AllProper(a) && AllProper(b)
    ensures SeqPrefix(Listed(a), Listed(b)) <==> a == b || (a != [] && b != [] && SeqPrefix(a, b))
  {
    var la, lb := Listed(a), Listed(b);
    ListedFacts(a);
    ListedFacts(b);
    if a != [] && b != [] {
      assert SeqPrefix(la, lb) <==> SeqPrefix(a, b) by {
        if SeqPrefix(a, b) { assert lb[..|la|] == [""] + b[..|a|]; }
        if SeqPrefix(la, lb) { assert b[..|a|] == lb[..|la|][1..]; }
      }
    } else {
      assert SeqPrefix(la, lb) ==> lb[..|la|][1] == la[1];
    }
  }

  /** The source's `RelativePath` raises exactly when the two paths are the
      same, or neither is the root and one lies inside the other. */
  lemma {:induction false} AsWrittenFailsWhen(cwd: seq<string>, path: string, pwd: string)
    requires AllProper(cwd)
    ensures var a, b := AbsComponents(cwd, path), AbsComponents(cwd, pwd);
      RelativePathAsWritten(cwd, path, pwd).Failure?
      <==> a == b || (a != [] && b != [] && (SeqPrefix(a, b) || SeqPrefix(b, a)))
  {
    var a, b := AbsComponents(cwd, path), AbsComponents(cwd, pwd);
    AbsComponentsProper(cwd, path);
    AbsComponentsProper(cwd, pwd);
    RenderSplits(a);
    RenderSplits(b);
    ListedMeaning(a, b);
  }

  /** The same on the two listings. */
  lemma {:induction false} ListedMeaning(a: seq<string>, b: seq<string>)
    requires AllProper(a) && AllProper(b)
    ensures RelativeAsWritten(Listed(a), Listed(b)).Failure?
      <==> a == b || (a != [] && b != [] && (SeqPrefix(a, b) || SeqPrefix(b, a)))
    ensures RelativeAsWritten(Listed(a), Listed(b)).Success? ==>
      RelativeAsWritten(Listed(a), Listed(b)).value == Relative(Listed(a), Listed(b))
  {
    RelativeAsWrittenMeaning(Listed(a), Listed(b));
    ListedPrefix(a, b);
    ListedPrefix(b, a);
  }

  /** On any two lists, the source's version raises exactly when one list is
      a prefix of the other, and agrees with the intended one otherwise. */
  lemma {:induction false} RelativeAsWrittenMeaning(p: seq<string>, q: seq<string>)
    ensures RelativeAsWritten(p, q).Failure? <==> SeqPrefix(p, q) || SeqPrefix(q, p)
    ensures RelativeAsWritten(p, q).Success? ==> RelativeAsWritten(p, q).value == Relative(p, q)
  {
    DropCommonAsWrittenMeaning(p, q);
  }

  /** Where the source's version returns, it returns what the intended one
      does. */
  lemma {:induction false} AsWrittenAgrees(cwd: seq<string>, path: string, pwd: string)
    requires AllProper(cwd)
    requires RelativePathAsWritten(cwd, path, pwd).Success?
    ensures RelativePathAsWritten(cwd, path, pwd).value == RelativePath(cwd, path, pwd)
  {
    var a, b := AbsComponents(cwd, path), AbsComponents(cwd, pwd);
    AbsComponentsProper(cwd, path);
    AbsComponentsProper(cwd, pwd);
    RenderSplits(a);
    RenderSplits(b);
    ListedMeaning(a, b);
  }

  lemma {:induction false} DropCommonShared(x: seq<string>, p: seq<string>, q: seq<string>)
    ensures DropCommon(x + p, x + q) == DropCommon(p, q)
    decreases |x|
  {
    if x != [] {
      assert (x + p)[0] == x[0] == (x + q)[0];
      assert (x + p)[1..] == x[1..] + p && (x + q)[1..] == x[1..] + q;
      assert DropCommon(x + p, x + q) == DropCommon((x + p)[1..], (x + q)[1..]);
      DropCommonShared(x[1..], p, q);
    } else {
      assert x + p == p && x + q == q;
    }
  }

  /** From a directory, a name inside it is reached by that name alone. */
  lemma {:induction false} RelativeInside(d: seq<string>, name: string)
    requires AllProper(d) && d != [] && Proper(name)
    ensures Relative(Listed(d + [name]), Listed(d)) == name
  {
    var x := [""] + d;
    var la, lb := Listed(d + [name]), Listed(d);
    assert la == x + [name];
    assert lb == x + [];
    DropCommonShared(x, [name], []);
    var rest := DropCommon([name], []);
    assert rest == ([name], []);
    assert DropCommon(la, lb) == rest;
    assert Ups(0) + [name] == [name];
  }

  /** A link target inside the link's own directory `d`, other than the
      root: the source's version raises, where the intended answer is the
      target's name. */
  lemma {:induction false} AsWrittenInsideRaises(cwd: seq<string>, d: seq<string>, name: string)
    requires AllProper(cwd) && AllProper(d) && d != [] && Proper(name)
    ensures RelativePathAsWritten(cwd, Render(d + [name]), Render(d)).Failure?
    ensures RelativePath(cwd, Render(d + [name]), Render(d)) == name
  {
    var a := d + [name];
    assert AllProper(a) by {
      assert forall i :: 0 <= i < |d| ==> a[i] == d[i];
    }
    AbsComponentsRendered(cwd, a);
    AbsComponentsRendered(cwd, d);
    AsWrittenFailsWhen(cwd, Render(a), Render(d));
    assert a[..|d|] == d;
    RelativeInside(d, name);
  }

  /** The case of `/a/b` linked from `/a`. */
  lemma {:induction false} AsWrittenExample()
    ensures RelativePathAsWritten([], "/a/b", "/a").Failure?
    ensures RelativePath([], "/a/b", "/a") == "b"
  {
    assert ["a", "b"][1..] == ["b"];
    assert Text.Join([Sep], ["a", "b"]) == "a/b";
    assert Render(["a", "b"]) == "/a/b";
    assert Render(["a"]) == "/a";
    assert ["a"] + ["b"] == ["a", "b"];
    AsWrittenInsideRaises([], ["a"], "b");
  }

  // ---------------------------------------------------------------------------
  // Project names.

  /** Python truthiness of an optional string: neither None nor empty. */
  predicate Truthy(s: Option<string>) {
    s.Some? && s.value != ""
  }

  /** `'%s' % x`: None shows as "None". */
  function PyStr(s: Option<string>): string {
    if s.Some? then s.value else "None"
  }

  /** `AppendNameSuffix` as the source has it: a non-empty suffix is
      appended after a dash, to whatever the name is, None included. */
  function AppendNameSuffix(name: Option<string>, suffix: Option<string>): (r: Option<string>)
    ensures !Truthy(suffix) ==> r == name
    ensures Truthy(suffix) ==> r.Some? && |r.value| == |PyStr(name)| + 1 + |suffix.value|
    ensures Truthy(suffix) ==>
      r.value[..|PyStr(name)|] == PyStr(name) && r.value[|PyStr(name)|] == '-' && r.value[|PyStr(name)| + 1..] == suffix.value
  {
    if Truthy(suffix) then Some(PyStr(name) + "-" + suffix.value) else name
  }

  /** The last dot-separated part of a package name. */
  function PackageTail(package: string): string {
    var parts := SplitAll(package, '.');
    parts[|parts| - 1]
  }

  /** The name `Google3AndroidApp` gives its project, as the source has it:
      the command-line wrapper appends the suffix to the `name` keyword
      first, so a missing name becomes "None-suffix", which is not empty and
      so hides the package's default. */
  function AppNameAsWritten(name: Option<string>, package: string, suffix: Option<string>): string {
    NameOrTail(AppendNameSuffix(name, suffix), package)
  }

  /** The project name the google3 descriptions use: the name given, or
      the package's last part when none is given. */
  function NameOrTail(name: Option<string>, package: string): string {
    if Truthy(name) then name.value else PackageTail(package)
  }

  /** The name as intended: the default from the package when no name is
      given, then the suffix. */
  function AppName(name: Option<string>, package: string, suffix: Option<string>): string {
    AppendNameSuffix(Some(NameOrTail(name, package)), suffix).value
  }

  /** With no name and a suffix, the source's project is called
      "None-suffix"; the intended one is the package's last part with the
      suffix. */
  lemma {:induction false} AsWrittenNamesNone(package: string, suffix: string)
    requires suffix != ""
    ensures AppNameAsWritten(None, package, Some(suffix)) == "None-" + suffix
    ensures AppName(None, package, Some(suffix)) == PackageTail(package) + "-" + suffix
  {
  }

  /** The two agree whenever a name is given or there is no suffix. */
  lemma {:induction false} AppNameAgrees(name: Option<string>, package: string, suffix: Option<string>)
    requires Truthy(name) || !Truthy(suffix)
    requires PackageTail(package) != ""
    ensures AppNameAsWritten(name, package, suffix) == AppName(name, package, suffix)
  {
  }
}

=== FILE: eclipse_results.dfy ===
/** `HandleResults` of the Eclipse workspace generator: the results of a
    project file are laid out as an Eclipse project directory. Entries are
    first validated, then executed in order; the `.classpath`, `.project`,
    launchers and the two settings files follow. The first failure stops the
    run and leaves whatever was made before it. The process's working
    directory, the original project's root and the listing `os.walk` yields
    are inputs. */
module EclipseResults {
  import opened Wrappers
  import opened Text
  import opened PyPath
  import opened EclipsePaths
  import opened PosixFs
  import opened EclipseEntries

  const MissingName := "Missing project name"
  const LinkedFileMissing := "Linked file not found: "
  const LinkedTreeMissing := "Linked tree not found: "
  const LinkedTreeNotDir := "Linked tree is not a directory: "
  const InvalidFiles := "Invalid files definition"
  const CannotSymlink := "Cannot create symlink: "
  const CannotMkdir := "Cannot create directory: "
  const CannotCreate := "Cannot create file: "
  const FileNotFound := "File not found: "

  const ClasspathFilename := ".classpath"
  const ProjectFilename := ".project"
  const LaunchSuffix := ".launch"
  const FormattingFilename := ".settings/org.eclipse.jdt.core.prefs"
  const TemplatesFilename := ".settings/org.eclipse.jdt.ui.prefs"

  /** The variables a project file defines; `None` is a key it leaves
      out. */
  datatype Results = Results(
    name: Option<string>,
    parentPath: Option<string>,
    files: Option<seq<Option<Entry>>>,
    classpath: Option<seq<Option<string>>>,
    project: Option<string>,
    launchers: Option<seq<(string, string)>>,
    formatting: Option<string>,
    templates: Option<string>)

  /** The process's working directory, the original project's root, and
      `os.walk`: for a tree root, each directory below it (relative to the
      root) with the names of the files in it. */
  datatype Env = Env(cwd: seq<string>, root: string, walk: string -> seq<(string, seq<string>)>)

  /** The filesystem after a step, and the error that stopped it. */
  datatype Outcome = Outcome(fs: Fs, error: Option<string>)

  // ---------------------------------------------------------------------------
  // Path strings as the process resolves them. The empty path names
  // nothing: every test on it is false and every operation on it fails.

  function At(env: Env, p: string): seq<string> {
    AbsComponents(env.cwd, p)
  }

  predicate PathExists(fs: Fs, env: Env, p: string) {
    p != "" && Exists(fs, At(env, p))
  }

  predicate PathIsDir(fs: Fs, env: Env, p: string) {
    p != "" && IsDir(fs, At(env, p))
  }

  predicate PathIsFile(fs: Fs, env: Env, p: string) {
    p != "" && IsFile(fs, At(env, p))
  }

  predicate PathIsLink(fs: Fs, env: Env, p: string) {
    p != "" && IsLink(fs, At(env, p))
  }

  function PathUnlink(fs: Fs, env: Env, p: string): Result<Fs, string> {
    if p == "" then Failure(OSError) else Unlink(fs, At(env, p))
  }

  function PathMakeDirs(fs: Fs, env: Env, p: string): Result<Fs, string> {
    if p == "" then Failure(OSError) else MakeDirs(fs, At(env, p))
  }

  function PathSymlink(fs: Fs, env: Env, target: string, p: string): Result<Fs, string> {
    if p == "" then Failure(OSError) else MakeSymlink(fs, target, At(env, p))
  }

  function PathWrite(fs: Fs, env: Env, p: string, contents: string): Result<Fs, string> {
    if p == "" then Failure(IOError) else WriteFile(fs, At(env, p), contents)
  }

  function PathRead(fs: Fs, env: Env, p: string): Option<string> {
    if p == "" then None else ReadFile(fs, At(env, p))
  }

  function Done(fs: Fs): Outcome {
    Outcome(fs, None)
  }

  function Fail(fs: Fs, message: string): Outcome {
    Outcome(fs, Some(message))
  }

  /** A filesystem operation as a step: on failure nothing changed. */
  function Lift(fs: Fs, r: Result<Fs, string>): Outcome {
    if r.Success? then Done(r.value) else Fail(fs, r.error)
  }

  /** `if not os.path.exists(p): os.makedirs(p)`. */
  function EnsureDirs(fs: Fs, env: Env, p: string): (r: Outcome)
    ensures r.error.None? ==> PathExists(r.fs, env, p) && Extends(r.fs, fs)
    ensures r.error.None? && !PathExists(fs, env, p) ==> PathIsDir(r.fs, env, p)
    ensures r.error.Some? ==> r == Fail(fs, OSError)
    ensures r.error.None? ==> forall k :: k in r.fs && k !in fs ==> k in Prefixes(At(env, p))
  {
    if PathExists(fs, env, p) then Done(fs) else Lift(fs, PathMakeDirs(fs, env, p))
  }

  // ---------------------------------------------------------------------------
  // Validation.

  /** Where a link entry's source is looked for: as given when absolute,
      else below the project root. */
  function LinkedPath(env: Env, src: string, absolute: bool): string {
    if absolute then src else Join2(env.root, src)
  }

  /** The first validation loop's test of one entry. */
  function CheckEntry(fs: Fs, env: Env, e: Option<Entry>): Option<string> {
    match e
    case None => None
    case Some(Link(src, _, absolute)) =>
      var s := LinkedPath(env, src, absolute);
      if !PathExists(fs, env, s) then Some(LinkedFileMissing + s) else None
    case Some(LinkTree(src, _, _)) =>
      var s := Join2(env.root, src);
      if !PathExists(fs, env, s) then Some(LinkedTreeMissing + s)
      else if !PathIsDir(fs, env, s) then Some(LinkedTreeNotDir + s)
      else None
    case Some(Mkdir(_)) => None
    case Some(Create(_, _)) => None
    case Some(Other(_)) => Some(InvalidFiles)
  }

  /** The validation loop: the error of the first entry that fails, before
      any entry is executed. */
  function Validate(fs: Fs, env: Env, entries: seq<Option<Entry>>): (r: Option<string>)
    ensures r.None? <==> forall k :: 0 <= k < |entries| ==> CheckEntry(fs, env, entries[k]).None?
    ensures r.Some? ==> exists k :: (0 <= k < |entries| && CheckEntry(fs, env, entries[k]) == r
      && forall j :: 0 <= j < k ==> CheckEntry(fs, env, entries[j]).None?)
    decreases |entries|
  {
    if entries == [] then None
    else
      var c := CheckEntry(fs, env, entries[0]);
      if c.Some? then c
      else
        var r := Validate(fs, env, entries[1..]);
        assert forall k :: 0 < k < |entries| ==> entries[k] == entries[1..][k - 1];
        r
  }

  // ---------------------------------------------------------------------------
  // Links.

  /** `repr` of a string without quotes or backslashes in it. */
  function Repr(s: string): string {
    "'" + s + "'"
  }

  function SymlinkFailed(src: string, dst: string): string {
    "os.symlink(" + Repr(src) + ", " + Repr(dst) + ") failed"
  }

  /** `os.symlink(src, dst)` and the two checks after it: the new link must
      lead to something that exists. */
  function Symlinked(fs: Fs, env: Env, src: string, dst: string): (r: Outcome)
    ensures r.error.None? ==> PathIsLink(r.fs, env, dst) && r.fs[At(env, dst)] == Symlink(src)
    ensures r.error.None? ==> PathExists(r.fs, env, dst)
    ensures PathSymlink(fs, env, src, dst).Failure? ==> r == Fail(fs, SymlinkFailed(src, dst))
    ensures PathSymlink(fs, env, src, dst).Success? && !PathExists(PathSymlink(fs, env, src, dst).value, env, dst)
      ==> r.error == Some(CannotSymlink + dst)
  {
    var s := PathSymlink(fs, env, src, dst);
    if s.Failure? then Fail(fs, SymlinkFailed(src, dst))
    else if !PathExists(s.value, env, dst) || !PathIsLink(s.value, env, dst) then Fail(s.value, CannotSymlink + dst)
    else Done(s.value)
  }

  /** A `Link` entry once the source text is known: whatever is at `dst` is
      removed, the link's directory is made, and the link is created. */
  function PlaceLink(fs: Fs, env: Env, src: string, dst: string): (r: Outcome)
    ensures r.error.None? ==> PathIsLink(r.fs, env, dst) && r.fs[At(env, dst)] == Symlink(src)
    ensures r.error.None? ==> PathExists(r.fs, env, dst)
  {
    var o1 := if PathExists(fs, env, dst) then Lift(fs, PathUnlink(fs, env, dst)) else Done(fs);
    if o1.error.Some? then o1
    else
      var o2 := if PathIsLink(o1.fs, env, dst) then Lift(o1.fs, PathUnlink(o1.fs, env, dst)) else o1;
      if o2.error.Some? then o2
      else
        var o3 := EnsureDirs(o2.fs, env, Dirname(dst));
        if o3.error.Some? then o3 else Symlinked(o3.fs, env, src, dst)
  }

  /** Which `RelativePath` and which skip test of the tree loop a run uses:
      the source's, or the corrected ones. */
  datatype Reading = AsWritten | Intended

  /** `RelativePath(path, pwd)` under a reading. The source's raises
      `IndexError` when the two paths are the same or one lies inside the
      other; the corrected one always returns, and where both return they
      agree. */
  function Rel(env: Env, v: Reading, path: string, pwd: string): (r: Result<string, string>)
    ensures v.Intended? ==> r == Success(RelativePath(env.cwd, path, pwd))
    ensures r.Failure? ==> r.error == IndexError
    ensures AllProper(env.cwd) && r.Success? ==> r.value == RelativePath(env.cwd, path, pwd)
    ensures AllProper(env.cwd) && v.AsWritten? ==>
      var a, b := At(env, path), At(env, pwd);
      r.Failure? <==> a == b || (a != [] && b != [] && (SeqPrefix(a, b) || SeqPrefix(b, a)))
  {
    if v.Intended? then Success(RelativePath(env.cwd, path, pwd))
    else
      var r := RelativePathAsWritten(env.cwd, path, pwd);
      if AllProper(env.cwd) then
        AsWrittenFailsWhen(env.cwd, path, pwd);
        if r.Success? then AsWrittenAgrees(env.cwd, path, pwd); r else r
      else r
  }

  /** The text of the link a `Link` entry creates: the source as given when
      absolute, else the source below the project root relative to the
      link's directory. */
  function LinkText(env: Env, v: Reading, project: string, link: string, linkDst: string, absolute: bool): Result<string, string> {
    if absolute then Success(link)
    else Rel(env, v, Join2(env.root, link), Dirname(Join2(project, linkDst)))
  }

  /** A `Link` entry. The link text is worked out before anything at the
      destination is touched, so a `RelativePath` that raises changes
      nothing. */
  function RunLink(fs: Fs, env: Env, v: Reading, project: string, link: string, linkDst: string, absolute: bool): (r: Outcome)
    ensures var d := Join2(project, linkDst);
      var text := LinkText(env, v, project, link, linkDst, absolute);
      r.error.None? ==> text.Success? && PathIsLink(r.fs, env, d) && r.fs[At(env, d)] == Symlink(text.value)
    ensures LinkText(env, v, project, link, linkDst, absolute).Failure? ==> r == Fail(fs, IndexError)
  {
    var text := LinkText(env, v, project, link, linkDst, absolute);
    if text.Failure? then Fail(fs, text.error)
    else PlaceLink(fs, env, text.value, Join2(project, linkDst))
  }

  /** A link with a relative text made at `dst` leads to `source`. */
  lemma {:induction false} RelativeLinkLeads(env: Env, source: string, dst: string)
    requires AllProper(env.cwd) && Proper(Basename(dst))
    ensures var d := At(env, dst);
      d != [] && LinkTarget(d, RelativePath(env.cwd, source, Dirname(dst))) == At(env, source)
  {
    var text := RelativePath(env.cwd, source, Dirname(dst));
    AbsComponentsDirname(env.cwd, dst);
    RelativeNotAbs(env.cwd, source, Dirname(dst));
    RelativeResolves(env.cwd, source, Dirname(dst));
    assert Parent(At(env, dst)) == At(env, Dirname(dst));
  }

  /** A relative `Link` entry that succeeds, under either reading, leaves a
      link at its destination that leads to the linked file below the
      project root, and reading the destination reads that file. */
  lemma {:induction false} LinkLeadsToSource(fs: Fs, env: Env, v: Reading, project: string, link: string, linkDst: string)
    requires AllProper(env.cwd) && Proper(Basename(Join2(project, linkDst)))
    requires RunLink(fs, env, v, project, link, linkDst, false).error.None?
    ensures var r := RunLink(fs, env, v, project, link, linkDst, false);
      var d := At(env, Join2(project, linkDst));
      IsLink(r.fs, d) && LinkTarget(d, r.fs[d].target) == At(env, Join2(env.root, link))
      && Stat(r.fs, d) == Lookup(r.fs, At(env, Join2(env.root, link)))
  {
    var r := RunLink(fs, env, v, project, link, linkDst, false);
    var dst := Join2(project, linkDst);
    var d := At(env, dst);
    var source := Join2(env.root, link);
    var text := LinkText(env, v, project, link, linkDst, false);
    assert text.value == RelativePath(env.cwd, source, Dirname(dst));
    assert IsLink(r.fs, d) && r.fs[d] == Symlink(text.value);
    RelativeLinkLeads(env, source, dst);
    StatThroughLink(r.fs, d);
  }

  /** `stat` of a link that exists is the node the link leads to. */
  lemma StatThroughLink(fs: Fs, d: seq<string>)
    requires IsLink(fs, d) && Exists(fs, d)
    ensures Stat(fs, d) == Lookup(fs, LinkTarget(d, fs[d].target))
  {
  }

  // ---------------------------------------------------------------------------
  // Linked trees.

  /** The tree root below the project root, ending in a separator. */
  function RootSrc(env: Env, link: string): (r: string)
    ensures r != "" && r[|r| - 1] == Sep
  {
    var s := Join2(env.root, link);
    if s != "" && s[|s| - 1] == Sep then s else s + [Sep]
  }

  /** The test that decides whether a listed file is skipped. The source has
      rebound `src` to the relative link text, so it tests that text,
      resolved from the working directory; the corrected test is on the
      listed file itself. */
  function Skip(fs: Fs, env: Env, v: Reading, text: string, src: string): bool {
    if v.AsWritten? then PathIsDir(fs, env, text) else PathIsDir(fs, env, src)
  }

  /** One listed file after the destination is cleared and its directory
      made: linked with `text` unless `skip`. */
  function LinkListed(fs: Fs, env: Env, text: string, dst: string, skip: bool): (r: Outcome)
    ensures skip ==> r == Done(fs)
    ensures !skip && r.error.None? ==> PathIsLink(r.fs, env, dst) && r.fs[At(env, dst)] == Symlink(text)
  {
    if skip then Done(fs) else Symlinked(fs, env, text, dst)
  }

  /** The body of the inner loop over the files of one listed directory.
      The link text is worked out first; unlike a `Link` entry, a dangling
      link at the destination is not removed. */
  function LinkFile(fs: Fs, env: Env, v: Reading, rootSrc: string, rootDst: string, path: string, f: string): (r: Outcome)
    ensures var src := JoinAll([rootSrc, path, f]);
      var dst := JoinAll([rootDst, path, f]);
      var text := Rel(env, v, src, Dirname(dst));
      r.error.None? ==>
        text.Success? && (Skip(r.fs, env, v, text.value, src)
        || (PathIsLink(r.fs, env, dst) && r.fs[At(env, dst)] == Symlink(text.value)))
    ensures Rel(env, v, JoinAll([rootSrc, path, f]), Dirname(JoinAll([rootDst, path, f]))).Failure?
      ==> r == Fail(fs, IndexError)
  {
    var src := JoinAll([rootSrc, path, f]);
    var dst := JoinAll([rootDst, path, f]);
    var text := Rel(env, v, src, Dirname(dst));
    if text.Failure? then Fail(fs, text.error)
    else
      var o1 := if PathExists(fs, env, dst) then Lift(fs, PathUnlink(fs, env, dst)) else Done(fs);
      if o1.error.Some? then o1
      else
        var o2 := EnsureDirs(o1.fs, env, Dirname(dst));
        if o2.error.Some? then o2 else LinkListed(o2.fs, env, text.value, dst, Skip(o2.fs, env, v, text.value, src))
  }

  /** The two readings part in the test: when nothing is at the destination,
      its directory exists, and the relative text resolved from the working
      directory is a directory while the listed file is not, the source
      skips a file the corrected version links. */
  lemma {:induction false} AsWrittenSkipsFile(fs: Fs, env: Env, rootSrc: string, rootDst: string, path: string, f: string)
    requires AllProper(env.cwd)
    requires var src, dst := JoinAll([rootSrc, path, f]), JoinAll([rootDst, path, f]);
      var text := Rel(env, AsWritten, src, Dirname(dst));
      text.Success? && !PathExists(fs, env, dst) && PathIsDir(fs, env, Dirname(dst))
      && PathIsDir(fs, env, text.value) && !PathIsDir(fs, env, src)
    ensures LinkFile(fs, env, AsWritten, rootSrc, rootDst, path, f) == Done(fs)
    ensures var r := LinkFile(fs, env, Intended, rootSrc, rootDst, path, f);
      r.error.None? ==> PathIsLink(r.fs, env, JoinAll([rootDst, path, f]))
  {
    var src, dst := JoinAll([rootSrc, path, f]), JoinAll([rootDst, path, f]);
    assert Rel(env, Intended, src, Dirname(dst)).value == Rel(env, AsWritten, src, Dirname(dst)).value;
    assert EnsureDirs(fs, env, Dirname(dst)) == Done(fs);
  }

  /** A listed file that is linked without error, under either reading,
      gets a link leading to it unless the reading's test skipped it. */
  lemma {:induction false} TreeFileLeads(fs: Fs, env: Env, v: Reading, rootSrc: string, rootDst: string, path: string, f: string)
    requires AllProper(env.cwd) && Proper(Basename(JoinAll([rootDst, path, f])))
    requires LinkFile(fs, env, v, rootSrc, rootDst, path, f).error.None?
    ensures var r := LinkFile(fs, env, v, rootSrc, rootDst, path, f);
      var dst := JoinAll([rootDst, path, f]);
      var d := At(env, dst);
      var src := JoinAll([rootSrc, path, f]);
      !Skip(r.fs, env, v, RelativePath(env.cwd, src, Dirname(dst)), src) ==>
        IsLink(r.fs, d) && LinkTarget(d, r.fs[d].target) == At(env, src)
  {
    var r := LinkFile(fs, env, v, rootSrc, rootDst, path, f);
    var dst := JoinAll([rootDst, path, f]);
    var src := JoinAll([rootSrc, path, f]);
    RelativeLinkLeads(env, src, dst);
    if !Skip(r.fs, env, v, RelativePath(env.cwd, src, Dirname(dst)), src) {
      assert r.fs[At(env, dst)].target == RelativePath(env.cwd, src, Dirname(dst));
    }
  }

  /** The files of one listed directory, in order. */
  function LinkFiles(fs: Fs, env: Env, v: Reading, rootSrc: string, rootDst: string, path: string, files: seq<string>): Outcome
    decreases |files|
  {
    if files == [] then Done(fs)
    else
      var o := LinkFile(fs, env, v, rootSrc, rootDst, path, files[0]);
      if o.error.Some? then o else LinkFiles(o.fs, env, v, rootSrc, rootDst, path, files[1..])
  }

  /** The directories of the listing, in order. */
  function LinkDirs(fs: Fs, env: Env, v: Reading, rootSrc: string, rootDst: string, dirs: seq<(string, seq<string>)>): Outcome
    decreases |dirs|
  {
    if dirs == [] then Done(fs)
    else
      var o := LinkFiles(fs, env, v, rootSrc, rootDst, dirs[0].0, dirs[0].1);
      if o.error.Some? then o else LinkDirs(o.fs, env, v, rootSrc, rootDst, dirs[1..])
  }

  /** A `LinkTree` entry: a link at the destination root is removed, the
      root is made, and every listed file is linked. The glob is not
      used. */
  function RunLinkTree(fs: Fs, env: Env, v: Reading, project: string, link: string, linkDst: string): (r: Outcome)
    ensures env.walk(RootSrc(env, link)) == [] && r.error.None? ==> PathExists(r.fs, env, Join2(project, linkDst))
  {
    var rootSrc := RootSrc(env, link);
    var rootDst := Join2(project, linkDst);
    var o1 := if PathIsLink(fs, env, rootDst) then Lift(fs, PathUnlink(fs, env, rootDst)) else Done(fs);
    if o1.error.Some? then o1
    else
      var o2 := EnsureDirs(o1.fs, env, rootDst);
      if o2.error.Some? then o2 else LinkDirs(o2.fs, env, v, rootSrc, rootDst, env.walk(rootSrc))
  }

  // ---------------------------------------------------------------------------
  // Directories and files.

  /** A `Mkdir` entry: the directory exists afterwards, made if missing. */
  function RunMkdir(fs: Fs, env: Env, project: string, dirName: string): (r: Outcome)
    ensures r.error.None? ==> PathIsDir(r.fs, env, Join2(project, dirName)) && Extends(r.fs, fs)
    ensures PathExists(fs, env, Join2(project, dirName)) && !PathIsDir(fs, env, Join2(project, dirName))
      ==> r == Fail(fs, CannotMkdir + dirName)
  {
    var dirPath := Join2(project, dirName);
    var o := EnsureDirs(fs, env, dirPath);
    if o.error.Some? then o
    else if !PathIsDir(o.fs, env, dirPath) then Fail(o.fs, CannotMkdir + dirName)
    else o
  }

  /** A `Create` entry: the file holds the contents afterwards. Its
      directory is not made. */
  function RunCreate(fs: Fs, env: Env, project: string, name: string, contents: string): (r: Outcome)
    ensures r.error.None? ==> PathRead(r.fs, env, Join2(project, name)) == Some(contents)
    ensures r.error.Some? ==> r == Fail(fs, IOError)
  {
    var namePath := Join2(project, name);
    var w := PathWrite(fs, env, namePath, contents);
    if w.Failure? then Fail(fs, w.error)
    // A write that succeeds always leaves a file, so this error is not reached.
    else if !PathIsFile(w.value, env, namePath) then Fail(fs, CannotCreate + name)
    else Done(w.value)
  }

  /** The second loop's execution of one entry. */
  function RunEntry(fs: Fs, env: Env, v: Reading, project: string, e: Option<Entry>): Outcome {
    match e
    case None => Done(fs)
    case Some(Link(src, dst, absolute)) => RunLink(fs, env, v, project, src, dst, absolute)
    case Some(LinkTree(src, _, dst)) => RunLinkTree(fs, env, v, project, src, dst)
    case Some(Mkdir(name)) => RunMkdir(fs, env, project, name)
    case Some(Create(name, contents)) => RunCreate(fs, env, project, name, contents)
    case Some(Other(_)) => Fail(fs, InvalidFiles)
  }

  /** The entries in order, up to the first that fails. */
  function RunEntries(fs: Fs, env: Env, v: Reading, project: string, entries: seq<Option<Entry>>): Outcome
    decreases |entries|
  {
    if entries == [] then Done(fs)
    else
      var o := RunEntry(fs, env, v, project, entries[0]);
      if o.error.Some? then o else RunEntries(o.fs, env, v, project, entries[1..])
  }

  /** Going on with `entries` unless already stopped. */
  function Then(o: Outcome, env: Env, v: Reading, project: string, entries: seq<Option<Entry>>): Outcome {
    if o.error.Some? then o else RunEntries(o.fs, env, v, project, entries)
  }

  /** Running two lists of entries one after the other is running their
      concatenation: the run is a left-to-right fold that stops at the
      first error. */
  lemma {:induction false} RunEntriesAppend(fs: Fs, env: Env, v: Reading, project: string, a: seq<Option<Entry>>, b: seq<Option<Entry>>)
    ensures RunEntries(fs, env, v, project, a + b) == Then(RunEntries(fs, env, v, project, a), env, v, project, b)
    decreases |a|
  {
    if a == [] {
      assert a + b == b;
    } else {
      assert (a + b)[0] == a[0] && (a + b)[1..] == a[1..] + b;
      var o := RunEntry(fs, env, v, project, a[0]);
      if o.error.None? {
        RunEntriesAppend(o.fs, env, v, project, a[1..], b);
      }
    }
  }

  /** The `files` key: validation of every entry, then execution. */
  function Files(fs: Fs, env: Env, v: Reading, project: string, files: Option<seq<Option<Entry>>>): (r: Outcome)
    ensures files.None? ==> r == Done(fs)
    ensures files.Some? && Validate(fs, env, files.value).Some? ==> r == Outcome(fs, Validate(fs, env, files.value))
  {
    if files.None? then Done(fs)
    else
      var check := Validate(fs, env, files.value);
      if check.Some? then Fail(fs, check.value) else RunEntries(fs, env, v, project, files.value)
  }

  // ---------------------------------------------------------------------------
  // The generated files.

  function WriteClasspath(fs: Fs, env: Env, project: string, classpath: Option<seq<Option<string>>>): Outcome {
    if classpath.None? then Done(fs)
    else Lift(fs, PathWrite(fs, env, Join2(project, ClasspathFilename), ClasspathText(classpath.value)))
  }

  /** The `.classpath` written for entries on one line each has the XML
      declaration, the opening tag, each truthy entry indented by two
      spaces, and the closing tag, each on a line of its own. */
  lemma {:induction false} ClasspathFileLines(fs: Fs, env: Env, project: string, classpath: seq<Option<string>>)
    requires OneLine(classpath)
    requires WriteClasspath(fs, env, project, Some(classpath)).error.None?
    ensures var r := WriteClasspath(fs, env, project, Some(classpath));
      var text := PathRead(r.fs, env, Join2(project, ClasspathFilename));
      text.Some? && SplitAll(text.value, '\n')
        == [XmlDeclaration, ClasspathOpen] + Indented(Kept(classpath)) + [ClasspathClose, ""]
  {
    var r := WriteClasspath(fs, env, project, Some(classpath));
    var p := Join2(project, ClasspathFilename);
    assert p != "";
    assert ReadFile(r.fs, At(env, p)) == Some(ClasspathText(classpath));
    ClasspathLines(classpath);
  }

  function WriteProject(fs: Fs, env: Env, project: string, contents: Option<string>): (r: Outcome)
    ensures contents.Some? && r.error.None? ==> PathRead(r.fs, env, Join2(project, ProjectFilename)) == contents
  {
    if contents.None? then Done(fs)
    else Lift(fs, PathWrite(fs, env, Join2(project, ProjectFilename), contents.value))
  }

  /** The file a launcher is written to: its name with separators turned
      into spaces, and `.launch` appended. */
  function LauncherFile(name: string): (r: string)
    ensures Sep !in r
    ensures |r| == |name| + |LaunchSuffix| && r[|name|..] == LaunchSuffix
  {
    var flat := ReplaceChar(name, Sep, ' ');
    assert Sep !in LaunchSuffix;
    assert forall i :: 0 <= i < |flat| ==> flat[i] != Sep;
    flat + LaunchSuffix
  }

  function WriteLaunchers(fs: Fs, env: Env, project: string, launchers: seq<(string, string)>): (r: Outcome)
    ensures launchers == [] ==> r == Done(fs)
    ensures launchers != [] && r.error.None? ==>
      var (name, contents) := launchers[|launchers| - 1];
      PathRead(r.fs, env, Join2(project, LauncherFile(name))) == Some(contents)
    decreases |launchers|
  {
    if launchers == [] then Done(fs)
    else
      var (name, contents) := launchers[0];
      var path := Join2(project, LauncherFile(name));
      var written := PathWrite(fs, env, path, contents);
      var o := Lift(fs, written);
      if o.error.Some? then o
      else
        var rest := launchers[1..];
        WrittenReads(fs, env, path, contents, written);
        assert rest != [] ==> rest[|rest| - 1] == launchers[|launchers| - 1];
        WriteLaunchers(o.fs, env, project, rest)
  }

  /** A file written at a path reads back as what was written. */
  lemma {:induction false} WrittenReads(fs: Fs, env: Env, p: string, contents: string, written: Result<Fs, string>)
    requires written == PathWrite(fs, env, p, contents) && written.Success?
    ensures PathRead(written.value, env, p) == Some(contents)
  {
  }

  /** `CreateDirsFor`: the directory of `pathname` exists afterwards. */
  function CreateDirsFor(fs: Fs, env: Env, pathname: string): (r: Outcome)
    ensures r.error.None? ==> PathIsDir(r.fs, env, Dirname(pathname)) && Extends(r.fs, fs)
  {
    var dir := Dirname(pathname);
    var o := EnsureDirs(fs, env, dir);
    if o.error.Some? then o
    else if !PathIsDir(o.fs, env, dir) then Fail(o.fs, CannotMkdir + dir)
    else o
  }

  /** `CopyToProject`: a file of the original project copied into the
      project directory. */
  function CopyToProject(fs: Fs, env: Env, project: string, srcFilename: string, dstFilename: string): (r: Outcome)
    ensures !PathExists(fs, env, Join2(env.root, srcFilename)) ==> r == Fail(fs, FileNotFound + Join2(env.root, srcFilename))
    ensures r.error.None? ==> (PathRead(fs, env, Join2(env.root, srcFilename)).Some?
      && PathRead(r.fs, env, Join2(project, dstFilename)) == PathRead(fs, env, Join2(env.root, srcFilename)))
  {
    var src := Join2(env.root, srcFilename);
    if !PathExists(fs, env, src) then Fail(fs, FileNotFound + src)
    else
      var dst := Join2(project, dstFilename);
      var o := CreateDirsFor(fs, env, dst);
      if o.error.Some? then o
      else
        StatKept(fs, o.fs, At(env, src));
        var contents := PathRead(o.fs, env, src);
        if contents.None? then Fail(o.fs, IOError)
        else Lift(o.fs, PathWrite(o.fs, env, dst, contents.value))
  }

  function CopySetting(fs: Fs, env: Env, project: string, srcFilename: Option<string>, dstFilename: string): Outcome {
    if srcFilename.None? then Done(fs) else CopyToProject(fs, env, project, srcFilename.value, dstFilename)
  }

  // ---------------------------------------------------------------------------
  // The whole run.

  /** The project directory: the name with separators turned into spaces
      and the suffix appended, below the parent path when one is given. */
  function ProjectName(name: string, parentPath: Option<string>, suffix: Option<string>): (r: string)
    ensures parentPath.None? && !Truthy(suffix) ==> r == ReplaceChar(name, Sep, ' ')
    ensures parentPath.None? && !Truthy(suffix) ==> Sep !in r
  {
    var base := AppendNameSuffix(Some(ReplaceChar(name, Sep, ' ')), suffix).value;
    assert parentPath.None? && !Truthy(suffix) ==> forall i :: 0 <= i < |base| ==> base[i] != Sep;
    if parentPath.Some? then Join2(parentPath.value, base) else base
  }

  /** `HandleResults`. A missing name stops the run before anything is
      made; the project directory is made before the entries are
      validated. `HandleResults(fs, env, AsWritten, results, suffix)` is the
      source's run. */
  function HandleResults(fs: Fs, env: Env, v: Reading, results: Results, suffix: Option<string>): (r: Outcome)
    ensures results.name.None? ==> r == Fail(fs, MissingName)
    ensures results.name.Some? && results.files.Some? ==>
      var project := ProjectName(results.name.value, results.parentPath, suffix);
      var o := EnsureDirs(fs, env, project);
      o.error.None? && Validate(o.fs, env, results.files.value).Some? ==>
        r == Outcome(o.fs, Validate(o.fs, env, results.files.value))
        && Extends(r.fs, fs) && forall c :: c in r.fs && c !in fs ==> c in Prefixes(At(env, project))
  {
    if results.name.None? then Fail(fs, MissingName)
    else
      var project := ProjectName(results.name.value, results.parentPath, suffix);
      var o1 := EnsureDirs(fs, env, project);
      if o1.error.Some? then o1
      else
        var o2 := Files(o1.fs, env, v, project, results.files);
        if o2.error.Some? then o2
        else
          var o3 := WriteClasspath(o2.fs, env, project, results.classpath);
          if o3.error.Some? then o3
          else
            var o4 := WriteProject(o3.fs, env, project, results.project);
            if o4.error.Some? then o4
            else
              var o5 := if results.launchers.None? then o4 else WriteLaunchers(o4.fs, env, project, results.launchers.value);
              if o5.error.Some? then o5
              else
                var o6 := CopySetting(o5.fs, env, project, results.formatting, FormattingFilename);
                if o6.error.Some? then o6 else CopySetting(o6.fs, env, project, results.templates, TemplatesFilename)
  }
}

=== FILE: eclipse_templates.dfy ===
/** The generator's templates: the `.project` descriptions with their build
    commands, linked resources and resource filters; the values each launch
    configuration fills in; and the two google3 project descriptions. A text
    template is its list of lines joined by line ends, and each value it
    carries is read back from its line. */
module EclipseTemplates {
  import opened Wrappers
  import opened Text
  import opened PyPath
  import opened EclipseEntries
  import EclipsePaths

  const LauncherNameRequired := "launcherName is required"
  const ProjectHashRequired := "projectHash is required"
  /** `None.replace`, when a test launcher is given neither a test nor all
      tests. */
  const NoTestClass := "AttributeError: 'NoneType'" + " object has no attribute 'replace'"
  /** `os.environ['ANDROID_HOME']` when the variable is not set. */
  const NoAndroidHome := "KeyError: 'ANDROID_HOME'"

  // ---------------------------------------------------------------------------
  // Text read back line by line.

  predicate NoBreak(s: string) {
    '\n' !in s
  }

  function Lines(ls: seq<string>): string {
    Join("\n", ls)
  }

  /** The `k`-th line of a text, counting from 0. */
  function LineOf(text: string, k: nat): Option<string> {
    var ls := SplitAll(text, '\n');
    if k < |ls| then Some(ls[k]) else None
  }

  /** What a line holds between a fixed opening and a fixed closing. */
  function Between(line: string, open: string, close: string): Option<string> {
    if |open| + |close| <= |line| && line[..|open|] == open && line[|line| - |close|..] == close
    then Some(line[|open|..|line| - |close|])
    else None
  }

  /** The value the `k`-th line of a text holds between `open` and
      `close`. */
  function Field(text: string, k: nat, open: string, close: string): Option<string> {
    var line := LineOf(text, k);
    if line.Some? then Between(line.value, open, close) else None
  }

  lemma {:induction false} BetweenOf(open: string, v: string, close: string)
    ensures Between(open + v + close, open, close) == Some(v)
  {
    var line := open + v + close;
    assert line[..|open|] == open;
    assert line[|line| - |close|..] == close;
    assert line[|open|..|line| - |close|] == v;
  }

  /** A line with no line end in it or in any line before it is read
      back. */
  lemma {:induction false} LineAt(ls: seq<string>, k: nat)
    requires k < |ls| && forall j :: 0 <= j <= k ==> NoBreak(ls[j])
    ensures LineOf(Lines(ls), k) == Some(ls[k])
    decreases k
  {
    if |ls| == 1 {
      assert Lines(ls) == ls[0];
    } else {
      var rest := ls[1..];
      assert Lines(ls) == ls[0] + "\n" + Lines(rest);
      SplitLine(ls[0], Lines(rest));
      if k > 0 {
        assert forall j :: 0 <= j <= k - 1 ==> rest[j] == ls[j + 1];
        LineAt(rest, k - 1);
      }
    }
  }

  lemma {:induction false} FieldAt(ls: seq<string>, k: nat, open: string, v: string, close: string)
    requires k < |ls| && ls[k] == open + v + close
    requires forall j :: 0 <= j <= k ==> NoBreak(ls[j])
    ensures Field(Lines(ls), k, open, close) == Some(v)
  {
    LineAt(ls, k);
    BetweenOf(open, v, close);
  }

  lemma {:induction false} PrefixesNoBreak()
    ensures NoBreak(Adt) && NoBreak(Jdt) && NoBreak(XmlDeclaration)
  {
    TagsOneLine();
  }

  // ---------------------------------------------------------------------------
  // The fixed pieces of the templates lie on one line each. Every piece has
  // a lemma of its own: the solver handles one string literal at a time.

  lemma {:induction false} CommandOpenOneLine() ensures NoBreak(CommandOpen) {}
  lemma {:induction false} InnerNameOpenOneLine() ensures NoBreak(InnerNameOpen) {}
  lemma {:induction false} NameCloseOneLine() ensures NoBreak(NameClose) {}
  lemma {:induction false} ArgumentsOpenOneLine() ensures NoBreak(ArgumentsOpen) {}
  lemma {:induction false} ResourceManagerBuilderOneLine() ensures NoBreak(ResourceManagerBuilder) {}
  lemma {:induction false} PreCompilerBuilderOneLine() ensures NoBreak(PreCompilerBuilder) {}
  lemma {:induction false} JavaBuilderOneLine() ensures NoBreak(JavaBuilder) {}
  lemma {:induction false} ApkBuilderOneLine() ensures NoBreak(ApkBuilder) {}
  lemma {:induction false} ExternalToolBuilderNameOneLine() ensures NoBreak(ExternalToolBuilderName) {}
  lemma {:induction false} TriggersLineOneLine() ensures NoBreak(TriggersLine) {}
  lemma {:induction false} DictionaryOpenOneLine() ensures NoBreak(DictionaryOpen) {}
  lemma {:induction false} HandleKeyLineOneLine() ensures NoBreak(HandleKeyLine) {}
  lemma {:induction false} HandleOpenOneLine() ensures NoBreak(HandleOpen) {}
  lemma {:induction false} HandleCloseOneLine() ensures NoBreak(HandleClose) {}
  lemma {:induction false} ProjectOpenOneLine() ensures NoBreak(ProjectOpen) {}
  lemma {:induction false} OuterNameOpenOneLine() ensures NoBreak(OuterNameOpen) {}
  lemma {:induction false} LinkOpenOneLine() ensures NoBreak(LinkOpen) {}
  lemma {:induction false} LinkNameCloseOneLine() ensures NoBreak(LinkNameClose) {}
  lemma {:induction false} TypeOpenOneLine() ensures NoBreak(TypeOpen) {}
  lemma {:induction false} TypeCloseOneLine() ensures NoBreak(TypeClose) {}
  lemma {:induction false} LocationOpenOneLine() ensures NoBreak(LocationOpen) {}
  lemma {:induction false} LocationCloseOneLine() ensures NoBreak(LocationClose) {}
  lemma {:induction false} FilterOpenOneLine() ensures NoBreak(FilterOpen) {}
  lemma {:induction false} FilterIdOpenOneLine() ensures NoBreak(FilterIdOpen) {}
  lemma {:induction false} IdCloseOneLine() ensures NoBreak(IdClose) {}
  lemma {:induction false} FilterTypeOpenOneLine() ensures NoBreak(FilterTypeOpen) {}
  lemma {:induction false} MatcherOpenOneLine() ensures NoBreak(MatcherOpen) {}
  lemma {:induction false} MatcherIdLineOneLine() ensures NoBreak(MatcherIdLine) {}
  lemma {:induction false} FilterArgumentsOpenOneLine() ensures NoBreak(FilterArgumentsOpen) {}
  lemma {:induction false} FilterArgumentsCloseOneLine() ensures NoBreak(FilterArgumentsClose) {}

  /** The pieces of a build command and the standard builders' names. */
  lemma {:induction false} BuildCommandTags()
    ensures NoBreak(CommandOpen) && NoBreak(InnerNameOpen) && NoBreak(NameClose)
    ensures NoBreak(ResourceManagerBuilder) && NoBreak(PreCompilerBuilder)
    ensures NoBreak(JavaBuilder) && NoBreak(ApkBuilder)
  {
    CommandOpenOneLine(); InnerNameOpenOneLine(); NameCloseOneLine();
    ResourceManagerBuilderOneLine(); PreCompilerBuilderOneLine(); JavaBuilderOneLine();
    ApkBuilderOneLine();
  }

  /** The pieces of the external tool build command. */
  lemma {:induction false} ExternalToolTags()
    ensures NoBreak(CommandOpen) && NoBreak(InnerNameOpen) && NoBreak(ExternalToolBuilderName)
    ensures NoBreak(NameClose) && NoBreak(TriggersLine) && NoBreak(ArgumentsOpen)
    ensures NoBreak(DictionaryOpen) && NoBreak(HandleKeyLine) && NoBreak(HandleOpen)
    ensures NoBreak(HandleClose)
  {
    CommandOpenOneLine(); InnerNameOpenOneLine(); ExternalToolBuilderNameOneLine();
    NameCloseOneLine(); TriggersLineOneLine(); ArgumentsOpenOneLine(); DictionaryOpenOneLine();
    HandleKeyLineOneLine(); HandleOpenOneLine(); HandleCloseOneLine();
  }

  /** The pieces of a `.project` description up to its name. */
  lemma {:induction false} ProjectTags()
    ensures NoBreak(ProjectOpen) && NoBreak(OuterNameOpen) && NoBreak(NameClose)
  {
    ProjectOpenOneLine(); OuterNameOpenOneLine(); NameCloseOneLine();
  }

  /** The pieces of a linked resource. */
  lemma {:induction false} LinkTags()
    ensures NoBreak(LinkOpen) && NoBreak(InnerNameOpen) && NoBreak(LinkNameClose)
    ensures NoBreak(TypeOpen) && NoBreak(TypeClose) && NoBreak(LocationOpen)
    ensures NoBreak(LocationClose)
  {
    LinkOpenOneLine(); InnerNameOpenOneLine(); LinkNameCloseOneLine(); TypeOpenOneLine();
    TypeCloseOneLine(); LocationOpenOneLine(); LocationCloseOneLine();
  }

  /** The pieces of a resource filter. */
  lemma {:induction false} FilterTags()
    ensures NoBreak(FilterOpen) && NoBreak(FilterIdOpen) && NoBreak(IdClose)
    ensures NoBreak(OuterNameOpen) && NoBreak(NameClose) && NoBreak(FilterTypeOpen)
    ensures NoBreak(TypeClose) && NoBreak(MatcherOpen) && NoBreak(MatcherIdLine)
    ensures NoBreak(FilterArgumentsOpen) && NoBreak(FilterArgumentsClose)
  {
    FilterOpenOneLine(); FilterIdOpenOneLine(); IdCloseOneLine(); OuterNameOpenOneLine();
    NameCloseOneLine(); FilterTypeOpenOneLine(); TypeCloseOneLine(); MatcherOpenOneLine();
    MatcherIdLineOneLine(); FilterArgumentsOpenOneLine(); FilterArgumentsCloseOneLine();
  }

  // ---------------------------------------------------------------------------
  // Build commands.

  const CommandOpen := "    <buildCommand>"
  const CommandClose := "    </buildCommand>"
  const ArgumentsOpen := "      <arguments>"
  const ArgumentsClose := "      </arguments>"
  const InnerNameOpen := "      <name>"
  const NameClose := "</name>"

  const ResourceManagerBuilder := Adt + "ResourceManagerBuilder"
  const PreCompilerBuilder := Adt + "PreCompilerBuilder"
  const JavaBuilder := Jdt + "core.javabuilder"
  const ApkBuilder := Adt + "ApkBuilder"
  const ExternalToolBuilderName := "org.eclipse.ui.externaltools." + "ExternalToolBuilder"

  /** A build command without arguments, as the four standard builders
      are written. */
  function BuildCommand(builder: string): string {
    Lines([CommandOpen, InnerNameOpen + builder + NameClose, ArgumentsOpen, ArgumentsClose, CommandClose])
  }

  /** The builder a build command names. */
  function BuilderOf(command: string): Option<string> {
    Field(command, 1, InnerNameOpen, NameClose)
  }

  /** A build command names the builder it was made for. */
  lemma {:induction false} BuildCommandNames(builder: string)
    requires NoBreak(builder)
    ensures BuilderOf(BuildCommand(builder)) == Some(builder)
  {
    BuildCommandTags();
    FieldAt([CommandOpen, InnerNameOpen + builder + NameClose, ArgumentsOpen, ArgumentsClose, CommandClose],
            1, InnerNameOpen, builder, NameClose);
  }

  const DefaultBuilderNames := [ResourceManagerBuilder, PreCompilerBuilder, JavaBuilder, ApkBuilder]

  /** The builders an Android project gets when none are given: the
      resource manager, the pre-compiler, the Java builder and the APK
      builder, in that order. */
  function DefaultBuilders(): (r: seq<string>)
    ensures |r| == 4
    ensures forall k :: 0 <= k < 4 ==> r[k] != "" && BuilderOf(r[k]) == Some(DefaultBuilderNames[k])
  {
    BuildCommandTags();
    BuildCommandNames(ResourceManagerBuilder);
    BuildCommandNames(PreCompilerBuilder);
    BuildCommandNames(JavaBuilder);
    BuildCommandNames(ApkBuilder);
    [BuildCommand(ResourceManagerBuilder), BuildCommand(PreCompilerBuilder),
     BuildCommand(JavaBuilder), BuildCommand(ApkBuilder)]
  }

  function Present(xs: seq<string>): (r: seq<Option<string>>)
    ensures |r| == |xs| && forall k :: 0 <= k < |xs| ==> r[k] == Some(xs[k])
    decreases |xs|
  {
    if xs == [] then [] else [Some(xs[0])] + Present(xs[1..])
  }

  lemma {:induction false} KeptPresent(xs: seq<string>)
    requires forall k :: 0 <= k < |xs| ==> xs[k] != ""
    ensures Kept(Present(xs)) == xs
    decreases |xs|
  {
    if xs != [] {
      assert Present(xs)[1..] == Present(xs[1..]);
      KeptPresent(xs[1..]);
      assert [xs[0]] + xs[1..] == xs;
    }
  }

  /** The builders an Android project lists: the defaults when none are
      given, otherwise those given, with the empty ones dropped. */
  function ProjectBuilders(builders: Option<seq<Option<string>>>): (r: seq<string>)
    ensures builders.None? ==> r == DefaultBuilders()
    ensures builders.Some? ==> r == Kept(builders.value)
  {
    var d := DefaultBuilders();
    KeptPresent(d);
    Kept(if builders.None? then Present(d) else builders.value)
  }

  const TriggersLine := "      <triggers>" + "clean,full,incremental," + "</triggers>"
  const DictionaryOpen := "        <dictionary>"
  const DictionaryClose := "        </dictionary>"
  const HandleKeyLine := "          <key>" + "LaunchConfigHandle" + "</key>"
  const HandleOpen := "          <value>" + "&lt;project&gt;/" + ".externalToolBuilders/"
  const HandleClose := ".launch</value>"

  function ExternalToolLines(launcherName: string): seq<string> {
    [CommandOpen, InnerNameOpen + ExternalToolBuilderName + NameClose, TriggersLine, ArgumentsOpen,
     DictionaryOpen, HandleKeyLine, HandleOpen + launcherName + HandleClose, DictionaryClose,
     ArgumentsClose, CommandClose]
  }

  /** The launch configuration an external tool build command runs. */
  function LaunchHandleOf(command: string): Option<string> {
    Field(command, 6, HandleOpen, HandleClose)
  }

  lemma {:induction false} ExternalToolReads(launcherName: string)
    ensures BuilderOf(Lines(ExternalToolLines(launcherName))) == Some(ExternalToolBuilderName)
    ensures NoBreak(launcherName) ==> LaunchHandleOf(Lines(ExternalToolLines(launcherName))) == Some(launcherName)
  {
    var ls := ExternalToolLines(launcherName);
    ExternalToolTags();
    FieldAt(ls, 1, InnerNameOpen, ExternalToolBuilderName, NameClose);
    if NoBreak(launcherName) {
      FieldAt(ls, 6, HandleOpen, launcherName, HandleClose);
    }
  }

  /** `EclipseExternalToolBuilder`: a build command for the external tool
      builder that runs the named launch configuration; no name raises. */
  function ExternalToolBuilder(launcherName: Option<string>): (r: Result<string, string>)
    ensures r.Failure? <==> launcherName.None?
    ensures r.Failure? ==> r.error == LauncherNameRequired
    ensures r.Success? ==> BuilderOf(r.value) == Some(ExternalToolBuilderName)
    ensures r.Success? && NoBreak(launcherName.value) ==> LaunchHandleOf(r.value) == Some(launcherName.value)
  {
    if launcherName.None? then Failure(LauncherNameRequired)
    else
      ExternalToolReads(launcherName.value);
      Success(Lines(ExternalToolLines(launcherName.value)))
  }

  // ---------------------------------------------------------------------------
  // Project descriptions.

  const ProjectOpen := "<projectDescription>"
  const ProjectClose := "</projectDescription>"
  const OuterNameOpen := "  <name>"
  const AndroidNature := Adt + "AndroidNature"
  const JavaNature := Jdt + "core.javanature"

  function NatureLine(nature: string): string {
    "    <nature>" + nature + "</nature>"
  }

  /** A `.project` description: the name, the build commands, the natures,
      and what follows them. */
  function ProjectLines(name: string, builders: seq<string>, natures: seq<string>, tail: seq<string>): seq<string> {
    [XmlDeclaration, ProjectOpen, OuterNameOpen + name + NameClose, "  <comment></comment>",
     "  <projects>", "  </projects>", "  <buildSpec>", Lines(builders), "  </buildSpec>", "  <natures>"]
    + natures + ["  </natures>"] + tail + [ProjectClose]
  }

  /** The name a `.project` description gives its project. */
  function ProjectNameOf(text: string): Option<string> {
    Field(text, 2, OuterNameOpen, NameClose)
  }

  lemma {:induction false} ProjectNamed(name: string, builders: seq<string>, natures: seq<string>, tail: seq<string>)
    requires NoBreak(name)
    ensures ProjectNameOf(Lines(ProjectLines(name, builders, natures, tail))) == Some(name)
  {
    PrefixesNoBreak();
    ProjectTags();
    FieldAt(ProjectLines(name, builders, natures, tail), 2, OuterNameOpen, name, NameClose);
  }

  const LinkedOpen := "  <linkedResources>"
  const LinkedClose := "  </linkedResources>"
  const FilteredOpen := "<filteredResources>"
  const FilteredClose := "</filteredResources>"

  /** The linked resources node: the links between its tags, or nothing
      for no links. */
  function LinkedResourcesNode(linked: Option<seq<string>>): (r: string)
    ensures r == "" <==> linked.None? || linked.value == []
    ensures r != "" ==> Between(r, LinkedOpen + "\n", "\n" + LinkedClose) == Some(Lines(linked.value))
  {
    if linked.Some? && linked.value != [] then
      BetweenOf(LinkedOpen + "\n", Lines(linked.value), "\n" + LinkedClose);
      assert LinkedOpen + "\n" + Lines(linked.value) + ("\n" + LinkedClose)
          == LinkedOpen + "\n" + Lines(linked.value) + "\n" + LinkedClose;
      LinkedOpen + "\n" + Lines(linked.value) + "\n" + LinkedClose
    else ""
  }

  /** The filtered resources node: the filters between its tags, or
      nothing for no filters. */
  function FilteredResourcesNode(filtered: Option<seq<string>>): (r: string)
    ensures r == "" <==> filtered.None? || filtered.value == []
    ensures r != "" ==> Between(r, FilteredOpen, FilteredClose) == Some(Lines(filtered.value))
  {
    if filtered.Some? && filtered.value != [] then
      BetweenOf(FilteredOpen, Lines(filtered.value), FilteredClose);
      FilteredOpen + Lines(filtered.value) + FilteredClose
    else ""
  }

  /** `EclipseAndroidProject`: the project's name, its builders (the
      defaults unless given, empty ones dropped), the Android and Java
      natures, and the two resource nodes. */
  function AndroidProject(name: string, builders: Option<seq<Option<string>>>,
                          linked: Option<seq<string>>, filtered: Option<seq<string>>): (r: string)
    ensures NoBreak(name) ==> ProjectNameOf(r) == Some(name)
  {
    var ls := ProjectLines(name, ProjectBuilders(builders), [NatureLine(AndroidNature), NatureLine(JavaNature)],
                           [LinkedResourcesNode(linked), FilteredResourcesNode(filtered)]);
    if NoBreak(name) then
      ProjectNamed(name, ProjectBuilders(builders), [NatureLine(AndroidNature), NatureLine(JavaNature)],
                   [LinkedResourcesNode(linked), FilteredResourcesNode(filtered)]);
      Lines(ls)
    else Lines(ls)
  }

  /** `EclipseJavaProject`: the project's name, the builders given with
      empty ones dropped, and the Java nature alone. */
  function JavaProject(name: string, builders: seq<Option<string>>): (r: string)
    ensures NoBreak(name) ==> ProjectNameOf(r) == Some(name)
  {
    var ls := ProjectLines(name, Kept(builders), [NatureLine(JavaNature)], []);
    if NoBreak(name) then
      ProjectNamed(name, Kept(builders), [NatureLine(JavaNature)], []);
      Lines(ls)
    else Lines(ls)
  }

  // ---------------------------------------------------------------------------
  // Linked resources.

  const LinkOpen := "    <link>"
  const LinkClose := "    </link>"
  const LinkNameClose := "_src</name>"
  const TypeOpen := "      <type>"
  const TypeClose := "</type>"
  const LocationOpen := "      <locationURI>" + "_android_"
  const LocationClose := "/src</locationURI>"
  const DefaultLinkType := 2

  /** `'%d' % n`. */
  function IntText(n: int): string {
    if n < 0 then "-" + Decimal(-n) else Decimal(n)
  }

  function IntValue(s: string): int {
    if s != [] && s[0] == '-' then -(DecimalValue(s[1..]) as int) else DecimalValue(s)
  }

  lemma {:induction false} IntTextRoundTrip(n: int)
    ensures IntValue(IntText(n)) == n && NoBreak(IntText(n))
  {
    var t := IntText(n);
    if n < 0 {
      NegativeText(-n, t);
    } else {
      DigitsRead(n, t);
    }
  }

  /** The digits of a number hold no line break and read back as it. */
  lemma {:induction false} DigitsRead(n: nat, t: string)
    requires t == Decimal(n)
    ensures IntValue(t) == n && NoBreak(t)
  {
    DecimalRoundTrip(n);
    assert IsDigit(t[0]);
    DigitsNoBreak(t);
  }

  /** A minus sign before the digits of a number reads back as its
      negation. */
  lemma {:induction false} NegativeText(m: nat, t: string)
    requires m > 0 && t == "-" + Decimal(m)
    ensures IntValue(t) == -(m as int) && NoBreak(t)
  {
    var d := Decimal(m);
    DecimalRoundTrip(m);
    assert t[0] == '-' && t[1..] == d;
    DigitsNoBreak(d);
    assert t == ['-'] + d;
  }

  lemma {:induction false} DigitsNoBreak(d: string)
    requires forall i :: 0 <= i < |d| ==> IsDigit(d[i])
    ensures NoBreak(d)
  {
  }

  function LinkedResourceLines(projectName: string, projectHash: string, typeText: string): seq<string> {
    [LinkOpen, InnerNameOpen + projectName + LinkNameClose, TypeOpen + typeText + TypeClose,
     LocationOpen + projectName + "_" + projectHash + LocationClose, LinkClose]
  }

  /** The project a linked resource names. */
  function LinkedNameOf(link: string): Option<string> {
    Field(link, 1, InnerNameOpen, LinkNameClose)
  }

  function LinkedTypeOf(link: string): Option<string> {
    Field(link, 2, TypeOpen, TypeClose)
  }

  /** The project and hash the linked location names. */
  function LinkedLocationOf(link: string): Option<string> {
    Field(link, 3, LocationOpen, LocationClose)
  }

  lemma {:induction false} LinkedResourceReads(projectName: string, projectHash: string, typeText: string)
    requires NoBreak(projectName) && NoBreak(typeText)
    ensures var r := Lines(LinkedResourceLines(projectName, projectHash, typeText));
      LinkedNameOf(r) == Some(projectName) && LinkedTypeOf(r) == Some(typeText)
      && (NoBreak(projectHash) ==> LinkedLocationOf(r) == Some(projectName + "_" + projectHash))
  {
    var ls := LinkedResourceLines(projectName, projectHash, typeText);
    LinkTags();
    FieldAt(ls, 1, InnerNameOpen, projectName, LinkNameClose);
    FieldAt(ls, 2, TypeOpen, typeText, TypeClose);
    if NoBreak(projectHash) {
      assert ls[3] == LocationOpen + (projectName + "_" + projectHash) + LocationClose;
      FieldAt(ls, 3, LocationOpen, projectName + "_" + projectHash, LocationClose);
    }
  }

  /** `EclipseLinkedResource`: a link to the source folder of another
      Android project, located through the project's hash; no hash
      raises. */
  function LinkedResource(projectName: string, projectHash: Option<string>, projectType: int): (r: Result<string, string>)
    ensures r.Failure? <==> projectHash.None?
    ensures r.Failure? ==> r.error == ProjectHashRequired
    ensures r.Success? && NoBreak(projectName) ==>
      LinkedNameOf(r.value) == Some(projectName)
      && LinkedTypeOf(r.value).Some? && IntValue(LinkedTypeOf(r.value).value) == projectType
    ensures r.Success? && NoBreak(projectName) && NoBreak(projectHash.value) ==>
      LinkedLocationOf(r.value) == Some(projectName + "_" + projectHash.value)
  {
    if projectHash.None? then Failure(ProjectHashRequired)
    else
      var typeText := IntText(projectType);
      IntTextRoundTrip(projectType);
      if NoBreak(projectName) then
        LinkedResourceReads(projectName, projectHash.value, typeText);
        Success(Lines(LinkedResourceLines(projectName, projectHash.value, typeText)))
      else Success(Lines(LinkedResourceLines(projectName, projectHash.value, typeText)))
  }

  // ---------------------------------------------------------------------------
  // Resource filters. The number `random` draws after seeding with a string
  // is the parameter `draw`.

  const FilterOpen := "<filter>"
  const FilterClose := "</filter>"
  const FilterIdOpen := "  <id>"
  const IdClose := "</id>"
  const FilterTypeOpen := "  <type>"
  const MatcherOpen := "  <matcher>"
  const MatcherClose := "  </matcher>"
  const MatcherIdLine := "    <id>" + "org.eclipse.ui.ide." + "multiFilter" + IdClose
  const FilterArgumentsOpen := "    <arguments>"
  const FilterArgumentsClose := "</arguments>"
  const NameMatches := "1.0-name-matches-" + "true-false-"
  const LocationMatches := "1.0-location-matches-" + "false-false-"
  const NameMatchesType := "22"
  const LocationMatchesType := "26"
  const DefaultFilterName := ""

  /** Every draw lies in the range `randint(0, 1 << 32)` draws from. */
  ghost predicate DrawsInRange(draw: string -> nat) {
    forall s :: draw(s) <= IdBound
  }

  /** The id of a filter: the digits of the number drawn after seeding
      with the filter's name and value. */
  function FilterId(draw: string -> nat, name: string, value: string): (r: string)
    requires DrawsInRange(draw)
    ensures DecimalValue(r) == draw(name + value) && NoBreak(r)
  {
    GenerateId(draw(name + value))
  }

  function FilterLines(id: string, name: string, typeCode: string, arguments: string): seq<string> {
    [FilterOpen, FilterIdOpen + id + IdClose, OuterNameOpen + name + NameClose,
     FilterTypeOpen + typeCode + TypeClose, MatcherOpen, MatcherIdLine,
     FilterArgumentsOpen + arguments + FilterArgumentsClose, MatcherClose, FilterClose]
  }

  function FilterIdOf(filter: string): Option<string> {
    Field(filter, 1, FilterIdOpen, IdClose)
  }

  function FilterNameOf(filter: string): Option<string> {
    Field(filter, 2, OuterNameOpen, NameClose)
  }

  function FilterTypeOf(filter: string): Option<string> {
    Field(filter, 3, FilterTypeOpen, TypeClose)
  }

  function FilterArgumentsOf(filter: string): Option<string> {
    Field(filter, 6, FilterArgumentsOpen, FilterArgumentsClose)
  }

  lemma {:induction false} FilterReads(id: string, name: string, typeCode: string, arguments: string)
    requires NoBreak(id) && NoBreak(typeCode)
    ensures var r := Lines(FilterLines(id, name, typeCode, arguments));
      FilterIdOf(r) == Some(id)
      && (NoBreak(name) ==> FilterNameOf(r) == Some(name) && FilterTypeOf(r) == Some(typeCode))
      && (NoBreak(name) && NoBreak(arguments) ==> FilterArgumentsOf(r) == Some(arguments))
  {
    var ls := FilterLines(id, name, typeCode, arguments);
    FilterTags();
    FieldAt(ls, 1, FilterIdOpen, id, IdClose);
    if NoBreak(name) {
      FieldAt(ls, 2, OuterNameOpen, name, NameClose);
      FieldAt(ls, 3, FilterTypeOpen, typeCode, TypeClose);
      if NoBreak(arguments) {
        FieldAt(ls, 6, FilterArgumentsOpen, arguments, FilterArgumentsClose);
      }
    }
  }

  /** `EclipseFilterNameMatches`: a filter of type 22 on resource names
      matching the value, whose id is drawn from its name and value. */
  function FilterNameMatches(draw: string -> nat, value: string, name: string): (r: string)
    requires DrawsInRange(draw)
    ensures FilterIdOf(r).Some? && DecimalValue(FilterIdOf(r).value) == draw(name + value)
    ensures NoBreak(name) ==> FilterNameOf(r) == Some(name) && FilterTypeOf(r) == Some(NameMatchesType)
    ensures NoBreak(name) && NoBreak(value) ==> FilterArgumentsOf(r) == Some(NameMatches + value)
  {
    var id := FilterId(draw, name, value);
    FilterReads(id, name, NameMatchesType, NameMatches + value);
    Lines(FilterLines(id, name, NameMatchesType, NameMatches + value))
  }

  /** `EclipseFilterLocationMatches`: a filter of type 26 on resource
      locations matching the value, whose id is drawn from its name and
      value. */
  function FilterLocationMatches(draw: string -> nat, value: string, name: string): (r: string)
    requires DrawsInRange(draw)
    ensures FilterIdOf(r).Some? && DecimalValue(FilterIdOf(r).value) == draw(name + value)
    ensures NoBreak(name) ==> FilterNameOf(r) == Some(name) && FilterTypeOf(r) == Some(LocationMatchesType)
    ensures NoBreak(name) && NoBreak(value) ==> FilterArgumentsOf(r) == Some(LocationMatches + value)
  {
    var id := FilterId(draw, name, value);
    FilterReads(id, name, LocationMatchesType, LocationMatches + value);
    Lines(FilterLines(id, name, LocationMatchesType, LocationMatches + value))
  }

  /** A name filter and a location filter with the same name and value
      carry the same id, and filters whose names and values spell
      different seeds carry the ids of different draws. */
  lemma {:induction false} FilterIdsFollowSeed(draw: string -> nat, name: string, value: string, name': string, value': string)
    requires DrawsInRange(draw)
    ensures FilterIdOf(FilterNameMatches(draw, value, name)) == FilterIdOf(FilterLocationMatches(draw, value, name))
    ensures draw(name + value) != draw(name' + value') ==>
      FilterIdOf(FilterNameMatches(draw, value, name)) != FilterIdOf(FilterNameMatches(draw, value', name'))
  {
    var id := FilterId(draw, name, value);
    FilterReads(id, name, NameMatchesType, NameMatches + value);
    FilterReads(id, name, LocationMatchesType, LocationMatches + value);
  }

  // ---------------------------------------------------------------------------
  // Paths inside a project.

  const ManifestFile := "AndroidManifest.xml"
  /** Eclipse's resource types for a mapped project and a mapped file. */
  const ProjectResource := 4
  const FileResource := 1

  /** The path of a project of the workspace names that project. */
  lemma {:induction false} ProjectPath(cwd: seq<string>, project: string)
    requires Proper(project)
    ensures AbsComponents(cwd, [Sep] + project) == [project]
  {
    assert Render([project]) == [Sep] + project;
    AbsComponentsRendered(cwd, [project]);
  }

  /** A path below a project of the workspace names the project and then
      the path's components. */
  lemma {:induction false} UnderProject(cwd: seq<string>, project: string, rest: string)
    requires Proper(project) && AllProper(SplitAll(rest, Sep))
    ensures AbsComponents(cwd, [Sep] + project + [Sep] + rest) == [project] + SplitAll(rest, Sep)
  {
    var p := [Sep] + project + [Sep] + rest;
    var comps := [project] + SplitAll(rest, Sep);
    UnderSplits(project, rest);
    assert IsAbs(p);
    assert ([""] + comps)[1..] == comps;
    assert Resolve([], [""] + comps) == Resolve([], comps);
    ResolveNames([], comps);
  }

  /** A path below a project splits into an empty first component, the
      project, and the components of the rest. */
  lemma {:induction false} UnderSplits(project: string, rest: string)
    requires Proper(project)
    ensures SplitAll([Sep] + project + [Sep] + rest, Sep) == [""] + ([project] + SplitAll(rest, Sep))
  {
    var tail := project + [Sep] + rest;
    assert [Sep] + project + [Sep] + rest == "" + [Sep] + tail;
    SplitAllSep("", tail, Sep);
    SplitAllSep(project, rest, Sep);
    assert SplitAll("", Sep) == [""];
    assert SplitAll(project, Sep) == [project];
  }

  /** Replacing the dots of a dotted name by separators splits it where
      the dots were. */
  lemma {:induction false} SplitReplaced(s: string, a: char, b: char)
    requires b !in s
    ensures SplitAll(ReplaceChar(s, a, b), b) == SplitAll(s, a)
    decreases |s|
  {
    if a !in s {
      assert ReplaceChar(s, a, b) == s;
    } else {
      var i := IndexOfChar(s, a);
      var head, tail := s[..i], s[i + 1..];
      assert b !in tail && b !in head;
      SplitReplaced(tail, a, b);
      var rt := ReplaceChar(tail, a, b);
      ReplacedAround(s, a, b, i);
      SplitAllSep(head, rt, b);
      assert SplitAll(head, b) == [head];
      assert SplitAll(s, a) == [head] + SplitAll(tail, a);
    }
  }

  /** Replacing around the first `a`: the text before it is kept, the `a`
      becomes `b`, and the rest is replaced. */
  lemma {:induction false} ReplacedAround(s: string, a: char, b: char, i: nat)
    requires i < |s| && s[i] == a && a !in s[..i]
    ensures ReplaceChar(s, a, b) == s[..i] + [b] + ReplaceChar(s[i + 1..], a, b)
  {
    var head, rt := s[..i], ReplaceChar(s[i + 1..], a, b);
    var rs := ReplaceChar(s, a, b);
    var target := head + [b] + rt;
    forall k | 0 <= k < |rs| ensures rs[k] == target[k] {
      if k < i {
        assert head[k] == s[k] && a != s[k];
      } else if k > i {
        assert target[k] == rt[k - i - 1] && s[i + 1..][k - i - 1] == s[k];
      }
    }
    assert rs == target;
  }

  function Init(p: seq<string>): seq<string>
    requires p != []
  {
    p[..|p| - 1]
  }

  function Last(p: seq<string>): string
    requires p != []
  {
    p[|p| - 1]
  }

  /** Text without the separator appended to a path extends its last
      piece. */
  lemma {:induction false} SplitAllAppend(y: string, z: string, c: char)
    requires c !in z
    ensures SplitAll(y + z, c) == Init(SplitAll(y, c)) + [Last(SplitAll(y, c)) + z]
    decreases |y|
  {
    if c !in y {
      assert c !in y + z;
      assert SplitAll(y + z, c) == [y + z];
      assert SplitAll(y, c) == [y];
    } else {
      var i := IndexOfChar(y, c);
      var head, tail := y[..i], y[i + 1..];
      assert y + z == head + [c] + (tail + z);
      SplitAllSep(head, tail + z, c);
      SplitAllAppend(tail, z, c);
      var q := SplitAll(tail, c);
      assert SplitAll(head, c) == [head];
      AppendStep(SplitAll(y, c), SplitAll(y + z, c), head, q, z);
    }
  }

  lemma {:induction false} AppendStep(s: seq<string>, t: seq<string>, head: string, q: seq<string>, z: string)
    requires q != [] && s == [head] + q && t == [head] + (Init(q) + [Last(q) + z])
    ensures t == Init(s) + [Last(s) + z]
  {
    assert Init([head] + q) == [head] + Init(q);
    assert Last([head] + q) == Last(q);
  }

  /** The source file of a class: the parts of its dotted name as
      directories, the last with `.java`. */
  function ClassFile(parts: seq<string>): seq<string>
    requires parts != []
  {
    Init(parts) + [Last(parts) + ".java"]
  }

  /** A class name with the dots replaced by separators and `.java`
      appended splits into the class's source file. */
  lemma {:induction false} ClassFileSplits(t: string)
    requires Sep !in t
    ensures SplitAll(ReplaceChar(t, '.', Sep) + ".java", Sep) == ClassFile(SplitAll(t, '.'))
  {
    SplitReplaced(t, '.', Sep);
    SplitAllAppend(ReplaceChar(t, '.', Sep), ".java", Sep);
  }

  lemma {:induction false} ClassFileProper(parts: seq<string>)
    requires parts != [] && AllProper(parts)
    ensures AllProper(ClassFile(parts))
  {
    var c := ClassFile(parts);
    assert forall k :: 0 <= k < |c| - 1 ==> c[k] == parts[k];
    var last := Last(parts) + ".java";
    assert Sep !in last;
    assert |last| > 2;
  }

  // ---------------------------------------------------------------------------
  // Launch configurations, by the values each fills in.

  /** What an Android application launcher fills in: the launch action
      (0 for the default activity, 1 for a named one), the activity, the
      mapped resources and their types, whether to launch in the
      background, and the project. */
  datatype ActivityLaunch = ActivityLaunch(action: int, activity: Option<string>, mappedPaths: seq<string>,
                                           mappedTypes: seq<int>, inBackground: string, project: string)

  /** `EclipseAndroidActivityLauncher`. */
  function ActivityLauncher(name: string, project: string, activity: Option<string>, launchInBackground: bool): (r: (string, ActivityLaunch))
    ensures r.0 == name && r.1.project == project
    ensures r.1.action == 1 <==> EclipsePaths.Truthy(activity)
    ensures r.1.action == 0 <==> !EclipsePaths.Truthy(activity)
    ensures r.1.activity.Some? <==> EclipsePaths.Truthy(activity)
    ensures r.1.activity.Some? ==> r.1.activity == activity
    ensures r.1.inBackground == Flag(launchInBackground)
    ensures |r.1.mappedPaths| == |r.1.mappedTypes| == 2
  {
    var named := EclipsePaths.Truthy(activity);
    (name, ActivityLaunch(if named then 1 else 0, if named then activity else None,
                          [[Sep] + project, [Sep] + project + [Sep] + ManifestFile],
                          [ProjectResource, FileResource], Flag(launchInBackground), project))
  }

  /** An application launch maps the project itself and its manifest
      file. */
  lemma {:induction false} ActivityMapped(cwd: seq<string>, name: string, project: string, activity: Option<string>, launchInBackground: bool)
    requires Proper(project)
    ensures var l := ActivityLauncher(name, project, activity, launchInBackground).1;
      AbsComponents(cwd, l.mappedPaths[0]) == [project] && l.mappedTypes[0] == ProjectResource
      && AbsComponents(cwd, l.mappedPaths[1]) == [project, ManifestFile] && l.mappedTypes[1] == FileResource
  {
    ProjectPath(cwd, project);
    ManifestProper();
    FileInProject(cwd, project, ManifestFile);
  }

  lemma {:induction false} ManifestProper()
    ensures Proper(ManifestFile)
  {
  }

  /** A file directly inside a project of the workspace maps to the
      project and the file. */
  lemma {:induction false} FileInProject(cwd: seq<string>, project: string, file: string)
    requires Proper(project) && Proper(file)
    ensures AbsComponents(cwd, [Sep] + project + [Sep] + file) == [project, file]
  {
    assert SplitAll(file, Sep) == [file];
    UnderProject(cwd, project, file);
  }

  /** What an Android test launcher fills in: the mapped resource and its
      type, the test container, the main type, the instrumentation runner,
      and the project. */
  datatype TestLaunch = TestLaunch(resourcePath: string, resourceType: int, container: string,
                                   mainType: string, runner: string, project: string)

  const DefaultTestSource := "src"
  const DefaultRunner := "android.test." + "InstrumentationTestRunner"

  /** `EclipseAndroidTestLauncher`: all the project's tests when `alltests`
      is given, whatever its value; otherwise the one test class, mapped to
      its source file below `testsrc`. Neither raises. */
  function AndroidTestLauncher(name: string, project: string, test: Option<string>, testsrc: string,
                               alltests: Option<string>, runner: string): (r: Result<(string, TestLaunch), string>)
    ensures r.Failure? <==> alltests.None? && test.None?
    ensures r.Failure? ==> r.error == NoTestClass
    ensures r.Success? ==> r.value.0 == name && r.value.1.project == project && r.value.1.runner == runner
    ensures r.Success? ==> (r.value.1.resourceType == ProjectResource <==> alltests.Some?)
    ensures r.Success? ==> (r.value.1.resourceType == FileResource <==> alltests.None?)
    ensures r.Success? && alltests.Some? ==> r.value.1.container == "=" + project && r.value.1.mainType == ""
    ensures r.Success? && alltests.None? ==> r.value.1.container == "" && r.value.1.mainType == test.value
  {
    if alltests.Some? then
      Success((name, TestLaunch([Sep] + project, ProjectResource, "=" + project, "", runner, project)))
    else if test.None? then Failure(NoTestClass)
    else
      var path := [Sep] + JoinAll([project, testsrc, ReplaceChar(test.value, '.', Sep) + ".java"]);
      Success((name, TestLaunch(path, FileResource, "", test.value, runner, project)))
  }

  /** Running all tests maps the project itself. */
  lemma {:induction false} AllTestsMapProject(cwd: seq<string>, name: string, project: string, test: Option<string>,
                                              testsrc: string, alltests: string, runner: string)
    requires Proper(project)
    ensures AbsComponents(cwd, AndroidTestLauncher(name, project, test, testsrc, Some(alltests), runner).value.1.resourcePath)
      == [project]
  {
    ProjectPath(cwd, project);
  }

  /** Running one test class maps the class's source file below the test
      source folder of the project. */
  lemma {:induction false} TestClassMapped(cwd: seq<string>, name: string, project: string, t: string,
                                           testsrc: string, runner: string)
    requires Proper(project) && Proper(testsrc)
    requires Sep !in t && AllProper(SplitAll(t, '.'))
    ensures AbsComponents(cwd, AndroidTestLauncher(name, project, Some(t), testsrc, None, runner).value.1.resourcePath)
      == [project, testsrc] + ClassFile(SplitAll(t, '.'))
  {
    var x := ReplaceChar(t, '.', Sep) + ".java";
    var parts := SplitAll(t, '.');
    ClassFileSplits(t);
    ClassFileProper(parts);
    ClassNotAbs(t);
    MappedBelow(cwd, project, testsrc, x, ClassFile(parts));
  }

  /** A relative path joined below a folder of a project maps to the
      project, the folder, and the path's components. */
  lemma {:induction false} MappedBelow(cwd: seq<string>, project: string, folder: string, x: string, tail: seq<string>)
    requires Proper(project) && Proper(folder) && !IsAbs(x)
    requires SplitAll(x, Sep) == tail && AllProper(tail)
    ensures AbsComponents(cwd, [Sep] + JoinAll([project, folder, x])) == [project, folder] + tail
  {
    JoinThree(project, folder, x);
    SplitAfter(folder, x, tail);
    UnderProject(cwd, project, folder + [Sep] + x);
    assert [project] + ([folder] + tail) == [project, folder] + tail;
  }

  /** A class's source file is a relative path. */
  lemma {:induction false} ClassNotAbs(t: string)
    requires Sep !in t && AllProper(SplitAll(t, '.'))
    ensures !IsAbs(ReplaceChar(t, '.', Sep) + ".java")
  {
    if t != [] {
      assert t[0] in t;
      LeadingDot(t);
      assert Proper(SplitAll(t, '.')[0]);
    }
  }

  /** A name that starts with a dot has an empty first part. */
  lemma {:induction false} LeadingDot(t: string)
    requires t != []
    ensures t[0] == '.' ==> SplitAll(t, '.')[0] == ""
  {
    if t[0] == '.' {
      IndexOfCharAt(t, '.', 0);
    }
  }

  /** Joining two components and a relative path puts one separator
      between each. */
  lemma {:induction false} JoinThree(a: string, b: string, x: string)
    requires Proper(a) && Proper(b) && !IsAbs(x)
    ensures [Sep] + JoinAll([a, b, x]) == [Sep] + a + [Sep] + (b + [Sep] + x)
  {
    var three := [a, b, x];
    assert three[..2] == [a, b] && [a, b][..1] == [a];
    assert a[|a| - 1] in a && b[0] in b;
    assert JoinAll([a, b]) == a + [Sep] + b;
    var j := a + [Sep] + b;
    assert b[|b| - 1] in b;
    assert j[|j| - 1] == b[|b| - 1];
    assert JoinAll(three) == j + [Sep] + x;
  }

  /** A component before a path splits off in front of the path's
      components, which stay proper. */
  lemma {:induction false} SplitAfter(b: string, x: string, tail: seq<string>)
    requires Proper(b) && SplitAll(x, Sep) == tail && AllProper(tail)
    ensures SplitAll(b + [Sep] + x, Sep) == [b] + tail && AllProper([b] + tail)
  {
    SplitAllSep(b, x, Sep);
    assert SplitAll(b, Sep) == [b];
    var all := [b] + tail;
    assert forall k :: 0 < k < |all| ==> all[k] == tail[k - 1];
  }

  /** What a JUnit launcher fills in: the mapped resource, the test
      container, the main type, and the project. */
  datatype JavaTestLaunch = JavaTestLaunch(mappedPath: string, container: string, mainType: string, project: string)

  /** `EclipseJavaTestLauncher`: the tests of the directory `alltests`
      when it is given, otherwise the one test class. Neither raises. */
  function JavaTestLauncher(name: string, project: string, test: Option<string>, alltests: Option<string>): (r: Result<(string, JavaTestLaunch), string>)
    ensures r.Failure? <==> alltests.None? && test.None?
    ensures r.Failure? ==> r.error == NoTestClass
    ensures r.Success? ==> r.value.0 == name && r.value.1.project == project
    ensures r.Success? && alltests.Some? ==> r.value.1.container == "=" + project + "/" + alltests.value && r.value.1.mainType == ""
    ensures r.Success? && alltests.None? ==> r.value.1.container == "" && r.value.1.mainType == test.value
  {
    if alltests.Some? then
      Success((name, JavaTestLaunch([Sep] + project + [Sep] + alltests.value, "=" + project + "/" + alltests.value, "", project)))
    else if test.None? then Failure(NoTestClass)
    else Success((name, JavaTestLaunch([Sep] + project + [Sep] + ReplaceChar(test.value, '.', Sep), "", test.value, project)))
  }

  /** A JUnit launcher for a test directory maps that directory inside the
      project, the same one its container names. */
  lemma {:induction false} JavaTestsMapDirectory(cwd: seq<string>, name: string, project: string, test: Option<string>, dir: string)
    requires Proper(project) && AllProper(SplitAll(dir, Sep))
    ensures var l := JavaTestLauncher(name, project, test, Some(dir)).value.1;
      AbsComponents(cwd, l.mappedPath) == [project] + SplitAll(dir, Sep)
      && l.container == "=" + l.mappedPath[1..]
  {
    UnderProject(cwd, project, dir);
  }

  /** A JUnit launcher for one class maps the class's package path inside
      the project, without a source folder and without `.java`. */
  lemma {:induction false} JavaTestClassMapped(cwd: seq<string>, name: string, project: string, t: string)
    requires Proper(project) && Sep !in t && AllProper(SplitAll(t, '.'))
    ensures AbsComponents(cwd, JavaTestLauncher(name, project, Some(t), None).value.1.mappedPath)
      == [project] + SplitAll(t, '.')
  {
    SplitReplaced(t, '.', Sep);
    UnderProject(cwd, project, ReplaceChar(t, '.', Sep));
  }

  /** What an Ant launcher fills in: the build file's path, the location
      of the build file in the workspace, the project, the arguments and
      the working directory. */
  datatype AntLaunch = AntLaunch(buildPath: string, location: string, project: string,
                                 arguments: string, workingDirectory: string)

  const DefaultBuildFile := "build.xml"
  const DefaultAntArguments := ""
  const DefaultWorkingDirectory := "${workspace_loc}"
  const WorkspaceLocOpen := "${workspace_loc:"
  const WorkspaceLocClose := "}"

  /** `EclipseAntLauncher`: the build file is addressed inside the project,
      and the tool's location is the same path in the workspace. */
  function AntLauncher(name: string, project: string, buildXml: string, args: string, workingDir: string): (r: (string, AntLaunch))
    ensures r.0 == name && r.1.project == project && r.1.arguments == args && r.1.workingDirectory == workingDir
    ensures Between(r.1.location, WorkspaceLocOpen, WorkspaceLocClose) == Some(r.1.buildPath)
  {
    var path := [Sep] + project + [Sep] + buildXml;
    BetweenOf(WorkspaceLocOpen, path, WorkspaceLocClose);
    (name, AntLaunch(path, WorkspaceLocOpen + path + WorkspaceLocClose, project, args, workingDir))
  }

  /** The Ant launcher's build path is the build file inside the
      project. */
  lemma {:induction false} AntBuildFileMapped(cwd: seq<string>, name: string, project: string, buildXml: string, args: string, workingDir: string)
    requires Proper(project) && AllProper(SplitAll(buildXml, Sep))
    ensures AbsComponents(cwd, AntLauncher(name, project, buildXml, args, workingDir).1.buildPath)
      == [project] + SplitAll(buildXml, Sep)
  {
    UnderProject(cwd, project, buildXml);
  }

  // ---------------------------------------------------------------------------
  // The SDK and the google3 descriptions.

  /** `EclipseAndroidHome`: a path inside the SDK named by `ANDROID_HOME`,
      which is given; when it is not set the lookup raises. */
  function AndroidHome(androidHome: Option<string>, path: string): (r: Result<string, string>)
    ensures r.Failure? <==> androidHome.None?
    ensures r.Failure? ==> r.error == NoAndroidHome
  {
    if androidHome.None? then Failure(NoAndroidHome) else Success(Join2(androidHome.value, path))
  }

  /** A relative path lands inside the SDK directory; an absolute one is
      itself. */
  lemma {:induction false} AndroidHomeResolves(cwd: seq<string>, home: string, path: string)
    ensures AbsComponents(cwd, AndroidHome(Some(home), path).value)
      == if IsAbs(path) then AbsComponents(cwd, path) else Resolve(AbsComponents(cwd, home), SplitAll(path, Sep))
  {
    JoinResolves(cwd, home, path);
  }

  const PropertiesR14 := "project.properties"
  const PropertiesR13 := "default.properties"
  const DefaultResources := "res"
  const DefaultLinkName := "libs"
  const JavaTop := "java"
  const JavatestsTop := "javatests"

  /** `GetProjectPropertiesFilename`: the newer properties file when the
      project root has one, the older name otherwise. */
  function PropertiesFilename(r14Exists: bool): (r: string)
    ensures r == PropertiesR14 <==> r14Exists
    ensures r == PropertiesR13 <==> !r14Exists
  {
    if r14Exists then PropertiesR14 else PropertiesR13
  }

  function PackagePath(package: string): string {
    ReplaceChar(package, '.', Sep)
  }

  /** `'../' * n`. */
  function Repeat(s: string, n: nat): string
    decreases n
  {
    if n == 0 then "" else s + Repeat(s, n - 1)
  }

  /** The number of directories of a package's path. */
  function Depth(package: string): nat {
    |SplitAll(PackagePath(package), Sep)|
  }

  /** The default source root of a package's project: one `../` per
      directory of the package path, then `../` and `top`. */
  function TreeRoot(depth: nat, top: string): string {
    Repeat("../", depth) + ("../" + top)
  }

  function SourceRoot(given: Option<string>, package: string, top: string): string {
    if EclipsePaths.Truthy(given) then given.value else TreeRoot(Depth(package), top)
  }

  function LibRoot(given: Option<string>, sourceRoot: string): string {
    if EclipsePaths.Truthy(given) then given.value else Join2(sourceRoot, "..")
  }

  function LinkName(given: Option<string>): string {
    if EclipsePaths.Truthy(given) then given.value else DefaultLinkName
  }

  lemma {:induction false} UpsCons(n: nat)
    ensures [".."] + Ups(n) == Ups(n + 1) && Ups(n) + [".."] == Ups(n + 1)
  {
    var u, v := [".."] + Ups(n), Ups(n) + [".."];
    assert forall i :: 0 <= i < n + 1 ==> u[i] == ".." && v[i] == "..";
  }

  /** Each `../` in front of a path splits off one `..`. */
  lemma {:induction false} RepeatSplits(k: nat, w: string)
    ensures SplitAll(Repeat("../", k) + w, Sep) == Ups(k) + SplitAll(w, Sep)
    decreases k
  {
    if k == 0 {
      assert Repeat("../", 0) + w == w;
    } else {
      RepeatSplits(k - 1, w);
      RepeatStep(k, Repeat("../", k - 1), w);
    }
  }

  lemma {:induction false} RepeatStep(k: nat, r: string, w: string)
    requires k > 0 && SplitAll(r + w, Sep) == Ups(k - 1) + SplitAll(w, Sep)
    ensures SplitAll(("../" + r) + w, Sep) == Ups(k) + SplitAll(w, Sep)
  {
    FrontSplits(r, w);
    ConsUps(SplitAll(("../" + r) + w, Sep), SplitAll(r + w, Sep), SplitAll(w, Sep), k);
  }

  lemma {:induction false} ConsUps(t: seq<string>, tail: seq<string>, rest: seq<string>, k: nat)
    requires k > 0 && t == [".."] + tail && tail == Ups(k - 1) + rest
    ensures t == Ups(k) + rest
  {
    UpsCons(k - 1);
    assert [".."] + (Ups(k - 1) + rest) == ([".."] + Ups(k - 1)) + rest;
  }

  lemma {:induction false} FrontSplits(r: string, w: string)
    ensures SplitAll(("../" + r) + w, Sep) == [".."] + SplitAll(r + w, Sep)
  {
    assert ("../" + r) + w == ".." + [Sep] + (r + w);
    SplitAllSep("..", r + w, Sep);
    assert SplitAll("..", Sep) == [".."];
  }

  lemma {:induction false} UpSplits(top: string)
    requires Sep !in top
    ensures SplitAll("../" + top, Sep) == ["..", top]
  {
    assert "../" + top == ".." + [Sep] + top;
    SplitAllSep("..", top, Sep);
    assert SplitAll("..", Sep) == [".."] && SplitAll(top, Sep) == [top];
  }

  /** The package path has one directory per part of the dotted name. */
  lemma {:induction false} PackageDepth(package: string)
    requires Sep !in package
    ensures Depth(package) == |SplitAll(package, '.')|
  {
    SplitReplaced(package, '.', Sep);
  }

  /** The default source root splits into one `..` per directory and one
      more, then `top`. */
  lemma {:induction false} TreeRootSplits(depth: nat, top: string)
    requires Sep !in top
    ensures SplitAll(TreeRoot(depth, top), Sep) == Ups(depth + 1) + [top]
  {
    var w := "../" + top;
    RepeatSplits(depth, w);
    UpSplits(top);
    UpsCons(depth);
    assert Ups(depth) + ["..", top] == (Ups(depth) + [".."]) + [top];
  }

  /** The default source root, taken from a directory `depth` levels below
      `top`, is `top` itself. */
  lemma {:induction false} TreeRootResolves(base: seq<string>, depth: nat, top: string, dirs: seq<string>)
    requires Proper(top) && |dirs| == depth
    ensures Resolve(base + [top] + dirs, SplitAll(TreeRoot(depth, top), Sep)) == base + [top]
  {
    TreeRootSplits(depth, top);
    var acc := base + [top] + dirs;
    ResolveAppend(acc, Ups(depth + 1), [top]);
    ResolveUps(acc, depth + 1);
    assert acc[..|acc| - (depth + 1)] == base;
    ResolveNames(base, [top]);
  }

  /** The default root of the third-party libraries, taken from the same
      directory, is the directory that holds `top`. */
  lemma {:induction false} LibRootResolves(base: seq<string>, depth: nat, top: string, dirs: seq<string>)
    requires Proper(top) && |dirs| == depth
    ensures Resolve(base + [top] + dirs, SplitAll(LibRoot(None, TreeRoot(depth, top)), Sep)) == base
  {
    var r := TreeRoot(depth, top);
    var w := "../" + top;
    assert r[|r| - 1] == w[|w| - 1];
    assert r[|r| - 1] == top[|top| - 1] && top[|top| - 1] in top;
    assert LibRoot(None, r) == r + [Sep] + "..";
    SplitAllSep(r, "..", Sep);
    assert SplitAll("..", Sep) == [".."];
    var acc := base + [top] + dirs;
    ResolveAppend(acc, SplitAll(r, Sep), [".."]);
    TreeRootResolves(base, depth, top, dirs);
    assert Resolve(base + [top], [".."]) == Resolve(base, []);
  }

  /** From the package's directory below `top`, with no roots given, the
      source root is `top` and the libraries' root is the directory that
      holds it. */
  lemma {:induction false} DefaultRootsResolve(base: seq<string>, package: string, top: string, dirs: seq<string>)
    requires Sep !in package && Proper(top) && |dirs| == |SplitAll(package, '.')|
    ensures Resolve(base + [top] + dirs, SplitAll(SourceRoot(None, package, top), Sep)) == base + [top]
    ensures Resolve(base + [top] + dirs, SplitAll(LibRoot(None, SourceRoot(None, package, top)), Sep)) == base
  {
    PackageDepth(package);
    TreeRootResolves(base, Depth(package), top, dirs);
    LibRootResolves(base, Depth(package), top, dirs);
  }

  /** The operations both google3 descriptions start with: links to the
      properties file, the source root, the manifest, the resources and
      the description file itself, and the `gen` directory. */
  function Google3Files(r14Exists: bool, sourceRoot: string, manifest: string, resources: string, projectFile: string): (r: seq<Option<Entry>>)
    ensures |r| == 6
    ensures r[0] == Some(Link(PropertiesFilename(r14Exists), PropertiesFilename(r14Exists), false))
    ensures LinksTo(r[1], "src", sourceRoot) && LinksTo(r[2], ManifestFile, manifest)
    ensures LinksTo(r[3], "res", resources) && LinksTo(r[4], Basename(projectFile), projectFile)
    ensures r[5] == Some(Mkdir("gen"))
  {
    [Some(EclipseLink(PropertiesFilename(r14Exists), None, false)),
     Some(EclipseLink("src", Some(sourceRoot), false)),
     Some(EclipseLink(ManifestFile, Some(manifest), false)),
     Some(EclipseLink("res", Some(resources), false)),
     Some(EclipseLink(Basename(projectFile), Some(projectFile), false)),
     Some(EclipseMkdir("gen"))]
  }

  /** `e` is a relative link at `dst` to `src`, or to `dst` itself when
      `src` is empty. */
  predicate LinksTo(e: Option<Entry>, dst: string, src: string) {
    e == Some(Link(if src != "" then src else dst, dst, false))
  }

  /** The classpath both google3 descriptions start with: the package's
      sources without its resources, `gen`, the Android framework, the
      dependencies, and `bin` for the output. */
  function Google3Classpath(package: string, includes: Option<seq<string>>, excludes: Option<seq<string>>,
                            dependencies: seq<Option<string>>): (r: seq<Option<string>>)
    ensures |r| == 4 + |dependencies|
    ensures r[..3] == StandardEntries(package, includes, excludes) && r[|r| - 1] == Some(Output("bin"))
    ensures forall k :: 0 <= k < |dependencies| ==> r[3 + k] == dependencies[k]
  {
    var standard := StandardEntries(package, includes, excludes);
    var bin := Some(Output("bin"));
    Framed(standard, dependencies, bin);
    standard + dependencies + [bin]
  }

  lemma Framed(head: seq<Option<string>>, middle: seq<Option<string>>, last: Option<string>)
    requires |head| == 3
    ensures var r := head + middle + [last];
      |r| == 4 + |middle| && r[..3] == head && r[|r| - 1] == last
      && forall k :: 0 <= k < |middle| ==> r[3 + k] == middle[k]
  {
  }

  /** The sources of the package without its resources, `gen`, and the
      Android framework. */
  function StandardEntries(package: string, includes: Option<seq<string>>, excludes: Option<seq<string>>): (r: seq<Option<string>>)
    ensures |r| == 3 && r[0].Some? && r[1].Some? && r[2] == Some(AndroidFramework())
  {
    var path := PackagePath(package);
    var inc := [path + "/**"] + Listed(includes);
    var exc := [path + "/res/**"] + Listed(excludes);
    [Some(Src("src", Some(inc), Some(exc))), Some(Src("gen", None, None)), Some(AndroidFramework())]
  }

  /** The standard entries read back: the package's sources with its
      resources left out and the filters given, then `gen` unfiltered. */
  lemma {:induction false} StandardEntriesRead(package: string, includes: Option<seq<string>>, excludes: Option<seq<string>>)
    ensures var r := StandardEntries(package, includes, excludes);
      var inc := Join("|", [PackagePath(package) + "/**"] + Listed(includes));
      var exc := Join("|", [PackagePath(package) + "/res/**"] + Listed(excludes));
      Clean(inc) && Clean(exc) ==>
        ParseElement(r[0].value) == Some([Attr(1, "kind", "src"), Attr(1, "path", "src"),
                                          Attr(1, "including", inc), Attr(2, "excluding", exc)])
    ensures ParseElement(StandardEntries(package, includes, excludes)[1].value)
      == Some([Attr(1, "kind", "src"), Attr(1, "path", "gen")])
  {
    var path := PackagePath(package);
    FilteredSrcReads("src", [path + "/**"] + Listed(includes), [path + "/res/**"] + Listed(excludes));
    PlainSrcReads("gen");
  }

  /** A source folder with both filters reads back as its kind, path,
      inclusion and exclusion. */
  lemma {:induction false} FilteredSrcReads(path: string, inc: seq<string>, exc: seq<string>)
    requires inc != [] && exc != [] && Clean(path)
    ensures Clean(Join("|", inc)) && Clean(Join("|", exc)) ==>
      ParseElement(Src(path, Some(inc), Some(exc))) == Some([Attr(1, "kind", "src"), Attr(1, "path", path),
                                                             Attr(1, "including", Join("|", inc)), Attr(2, "excluding", Join("|", exc))])
  {
    if Clean(Join("|", inc)) && Clean(Join("|", exc)) {
      var r := Src(path, Some(inc), Some(exc));
      assert ParseElement(r) == Some(SrcAttrs(path, Some(inc), Some(exc)));
      var base := [Attr(1, "kind", "src"), Attr(1, "path", path)];
      var i, e := Attr(1, "including", Join("|", inc)), Attr(2, "excluding", Join("|", exc));
      assert SrcAttrs(path, Some(inc), Some(exc)) == base + [i] + [e];
      assert base + [i] + [e] == [base[0], base[1], i, e];
    }
  }

  /** A source folder without filters reads back as its kind and path. */
  lemma {:induction false} PlainSrcReads(path: string)
    requires Clean(path)
    ensures ParseElement(Src(path, None, None)) == Some([Attr(1, "kind", "src"), Attr(1, "path", path)])
  {
    var r := Src(path, None, None);
    assert ParseElement(r) == Some(SrcAttrs(path, None, None));
    var base := [Attr(1, "kind", "src"), Attr(1, "path", path)];
    assert SrcAttrs(path, None, None) == base + [] + [];
    assert base + [] + [] == base;
  }

  /** The operations and classpath both google3 descriptions build: the
      standard ones, then the third-party libraries, in order. */
  method Google3Parts(projectFile: string, r14Exists: bool, package: string,
                      includes: Option<seq<string>>, excludes: Option<seq<string>>, sourceRoot: string,
                      dependencies: seq<Option<string>>, libs: Option<seq<string>>, linkName: string, libRoot: string,
                      resources: string, manifest: string)
    returns (files: seq<Option<Entry>>, classpath: seq<Option<string>>)
    ensures LibsAdded(files, classpath, 6, 4 + |dependencies|, Listed(libs), linkName, libRoot)
    ensures files[..6] == Google3Files(r14Exists, sourceRoot, manifest, resources, projectFile)
    ensures classpath[..4 + |dependencies|] == Google3Classpath(package, includes, excludes, dependencies)
  {
    var fs := Google3Files(r14Exists, sourceRoot, manifest, resources, projectFile);
    var cp := Google3Classpath(package, includes, excludes, dependencies);
    files, classpath := AddThirdPartyLibs(fs, cp, libs, linkName, libRoot);
    PrefixKept(classpath, cp, 4 + |dependencies|);
  }

  lemma {:induction false} PrefixKept<T>(xs: seq<T>, ys: seq<T>, n: nat)
    requires |ys| == n <= |xs| && xs[..|ys|] == ys
    ensures xs[..n] == ys
  {
  }

  /** `EclipseGoogle3AndroidApp`: the project named after the package
      unless a name is given, its operations, its classpath with the
      third-party libraries after the standard entries, and an Android
      `.project` with the default builders. */
  method Google3AndroidApp(projectFile: string, r14Exists: bool, package: string, name: Option<string>,
                           includes: Option<seq<string>>, excludes: Option<seq<string>>, javaRoot: Option<string>,
                           libs: Option<seq<string>>, root: Option<string>, linkName: Option<string>,
                           resources: string, manifest: string)
    returns (projectName: string, files: seq<Option<Entry>>, classpath: seq<Option<string>>, project: string)
    ensures projectName == EclipsePaths.NameOrTail(name, package)
    ensures project == AndroidProject(projectName, None, None, None)
    ensures NoBreak(projectName) ==> ProjectNameOf(project) == Some(projectName)
    ensures LibsAdded(files, classpath, 6, 4, Listed(libs), LinkName(linkName),
                      LibRoot(root, SourceRoot(javaRoot, package, JavaTop)))
    ensures files[..6] == Google3Files(r14Exists, SourceRoot(javaRoot, package, JavaTop), manifest, resources, projectFile)
    ensures classpath[..4] == Google3Classpath(package, includes, excludes, [])
  {
    projectName := EclipsePaths.NameOrTail(name, package);
    var sourceRoot := SourceRoot(javaRoot, package, JavaTop);
    files, classpath := Google3Parts(projectFile, r14Exists, package, includes, excludes, sourceRoot, [],
                                     libs, LinkName(linkName), LibRoot(root, sourceRoot), resources, manifest);
    project := AndroidProject(projectName, None, None, None);
  }

  /** `EclipseGoogle3AndroidTests`: as the application's description, from
      the `javatests` tree, with a dependency on the application's project
      before the output, and named after it with `-tests`. */
  method Google3AndroidTests(projectFile: string, r14Exists: bool, package: string, name: Option<string>,
                             includes: Option<seq<string>>, excludes: Option<seq<string>>, javatestsRoot: Option<string>,
                             libs: Option<seq<string>>, root: Option<string>, linkName: Option<string>,
                             resources: string, manifest: string)
    returns (projectName: string, files: seq<Option<Entry>>, classpath: seq<Option<string>>, project: string)
    ensures projectName == EclipsePaths.NameOrTail(name, package) + "-tests"
    ensures project == AndroidProject(projectName, None, None, None)
    ensures NoBreak(projectName) ==> ProjectNameOf(project) == Some(projectName)
    ensures LibsAdded(files, classpath, 6, 5, Listed(libs), LinkName(linkName),
                      LibRoot(root, SourceRoot(javatestsRoot, package, JavatestsTop)))
    ensures files[..6] == Google3Files(r14Exists, SourceRoot(javatestsRoot, package, JavatestsTop), manifest, resources, projectFile)
    ensures classpath[..5] == Google3Classpath(package, includes, excludes, [Some(Project(EclipsePaths.NameOrTail(name, package)))])
    ensures classpath[3] == Some(Project(EclipsePaths.NameOrTail(name, package)))
  {
    var appName := EclipsePaths.NameOrTail(name, package);
    projectName := appName + "-tests";
    var sourceRoot := SourceRoot(javatestsRoot, package, JavatestsTop);
    var dependencies := [Some(Project(appName))];
    files, classpath := Google3Parts(projectFile, r14Exists, package, includes, excludes, sourceRoot, dependencies,
                                     libs, LinkName(linkName), LibRoot(root, sourceRoot), resources, manifest);
    assert classpath[3] == classpath[..5][3];
    project := AndroidProject(projectName, None, None, None);
  }
}

=== FILE: excluded_packages.dfy ===
/** PixelPerfect's exclusion list: packages whose events are never published.
    A fixed hardcoded set sits beside a custom set the user edits; the custom
    set is kept in a one-line comma-separated file. The file is a value
    here, and whether a write succeeds is a parameter. */
module ExcludedPackages {
  import opened Wrappers
  import opened Text

  /** The storage file: absent, present but failing to read, or its text. */
  datatype File = Missing | Unreadable | Contents(text: string)

  datatype Store = Store(hardcoded: set<string>, custom: set<string>)

  /** The result of `addCustom`/`removeCustom` with the state and the file
      after it. */
  datatype Outcome = Outcome(ok: bool, store: Store, file: File)

  /** How `writeToFile` went: the text was written and the file closed; or
      `openFileOutput` failed, leaving the file as it was; or the file was
      opened, which empties it, and the write or the close failed after
      `kept` characters. */
  datatype WriteResult = Wrote | OpenFailed | Interrupted(kept: nat)

  const Delimiter := ','

  /** The packages `getInstance` always excludes. */
  const Hardcoded: set<string> := {"com.android.keyguard", "com.google.android.apps.pixelperfect"}

  /** `listed` holds every element of `s` exactly once: the order in which
      a `HashSet` hands out its elements. */
  ghost predicate Enumerates(listed: seq<string>, s: set<string>) {
    (forall i, j :: 0 <= i < j < |listed| ==> listed[i] != listed[j])
    && (forall x :: x in listed <==> x in s)
  }

  predicate IsLineEnd(c: char) {
    c == '\n' || c == '\r'
  }

  /** Length of the first line of `t`. */
  function LineLength(t: string): (k: nat)
    ensures k <= |t|
    ensures forall i :: 0 <= i < k ==> !IsLineEnd(t[i])
    ensures k < |t| ==> IsLineEnd(t[k])
  {
    if t == [] || IsLineEnd(t[0]) then 0 else 1 + LineLength(t[1..])
  }

  /** `BufferedReader.readLine`: null at the end of the text, else the
      characters before the first line terminator. */
  function ReadLine(t: string): (r: Option<string>)
    ensures r.None? <==> t == []
    ensures r.Some? ==> IsPrefix(r.value, t) && forall i :: 0 <= i < |r.value| ==> !IsLineEnd(r.value[i])
  {
    if t == [] then None else Some(t[..LineLength(t)])
  }

  /** `readFromFile`: a file that is missing or fails to read leaves the set
      as it was; otherwise the set becomes the comma-separated names of the
      first line, and an empty file empties it. */
  function ReadFromFile(custom: set<string>, file: File): (r: set<string>)
    ensures !file.Contents? ==> r == custom
    ensures file.Contents? && file.text == [] ==> r == {}
  {
    match file
    case Contents(t) =>
      (match ReadLine(t)
       case None => {}
       case Some(line) => set x | x in JavaSplit(line, Delimiter))
    case Missing => custom
    case Unreadable => custom
  }

  /** The constructor: the custom set starts empty and is read from the file. */
  function New(hardcoded: set<string>, file: File): (r: Store)
    ensures r.hardcoded == hardcoded
    ensures file.Missing? ==> r.custom == {}
  {
    Store(hardcoded, ReadFromFile({}, file))
  }

  /** The constructor as it touches `sSharedInstance`: whatever store was
      shared, the new one replaces it. `shared` is the shared store before
      the call, and the pair is the new store with the shared one after. */
  function Construct(shared: Option<Store>, hardcoded: set<string>, file: File): (r: (Store, Option<Store>))
    ensures r.0 == New(hardcoded, file) && r.1 == Some(r.0)
  {
    var store := New(hardcoded, file);
    (store, Some(store))
  }

  /** `getInstance`: the shared store, built over the hardcoded packages
      when there is none yet. */
  function Instance(shared: Option<Store>, file: File): (r: (Store, Option<Store>))
    ensures r.1 == Some(r.0)
    ensures shared.Some? ==> r.0 == shared.value
    ensures shared.None? ==> r.0.hardcoded == Hardcoded && r.0.custom == ReadFromFile({}, file)
    ensures shared.None? ==> "com.android.keyguard" in r.0.hardcoded
  {
    if shared.Some? then (shared.value, shared) else Construct(shared, Hardcoded, file)
  }

  /** `isExcluded`. */
  predicate IsExcluded(s: Store, name: string) {
    name in s.hardcoded || name in s.custom
  }

  /** `writeToFile`: the names joined by commas. */
  function Written(packages: seq<string>): File {
    Contents(Join([Delimiter], packages))
  }

  /** The file after `writeToFile(packages)` went as `w`. */
  function AfterWrite(file: File, packages: seq<string>, w: WriteResult): (r: File)
    ensures w.Wrote? ==> r == Written(packages)
    ensures w.OpenFailed? ==> r == file
    ensures w.Interrupted? ==>
      r.Contents? && IsPrefix(r.text, Written(packages).text)
      && |r.text| == if w.kept < |Written(packages).text| then w.kept else |Written(packages).text|
  {
    var output := Join([Delimiter], packages);
    match w
    case Wrote => Contents(output)
    case OpenFailed => file
    case Interrupted(k) => Contents(if k < |output| then output[..k] else output)
  }

  /** `addCustom`. `listed` is the custom set in its iteration order; when the
      write fails the set stays as it was, and the file is as the failed
      write left it. */
  function AddCustom(s: Store, name: string, listed: seq<string>, file: File, w: WriteResult): (r: Outcome)
    requires Enumerates(listed, s.custom)
    ensures r.store.hardcoded == s.hardcoded
    ensures r.ok <==> name !in s.custom && w.Wrote?
    ensures r.ok ==> r.store.custom == s.custom + {name}
    ensures !r.ok ==> r.store == s
    ensures name in s.custom ==> r.file == file
    ensures name !in s.custom ==> r.file == AfterWrite(file, listed + [name], w)
  {
    if name in s.custom then Outcome(false, s, file)
    else Outcome(w.Wrote?, if w.Wrote? then s.(custom := s.custom + {name}) else s, AfterWrite(file, listed + [name], w))
  }

  /** `List.remove(Object)`: drops the first element equal to `x`. */
  function RemoveFirst(l: seq<string>, x: string): (r: seq<string>)
    ensures x in l ==> |r| == |l| - 1
    ensures x !in l ==> r == l
  {
    if l == [] then []
    else if l[0] == x then l[1..]
    else [l[0]] + RemoveFirst(l[1..], x)
  }

  /** `removeCustom`. A name that is only hardcoded is not in the custom set
      and is refused. */
  function RemoveCustom(s: Store, name: string, listed: seq<string>, file: File, w: WriteResult): (r: Outcome)
    requires Enumerates(listed, s.custom)
    ensures r.store.hardcoded == s.hardcoded
    ensures r.ok <==> name in s.custom && w.Wrote?
    ensures r.ok ==> r.store.custom == s.custom - {name}
    ensures !r.ok ==> r.store == s
    ensures name !in s.custom ==> r.file == file
    ensures name in s.custom ==> r.file == AfterWrite(file, RemoveFirst(listed, name), w)
  {
    if name !in s.custom then Outcome(false, s, file)
    else Outcome(w.Wrote?, if w.Wrote? then s.(custom := s.custom - {name}) else s, AfterWrite(file, RemoveFirst(listed, name), w))
  }

  // ---------------------------------------------------------------------------
  // The file as a copy of the custom set.

  /** A name the file format can hold. */
  predicate Storable(name: string) {
    name != [] && Delimiter !in name && '\n' !in name && '\r' !in name
  }

  lemma {:induction false} JoinAvoids(c: char, sep: string, parts: seq<string>)
    requires c !in sep
    requires forall k :: 0 <= k < |parts| ==> c !in parts[k]
    ensures c !in Join(sep, parts)
  {
    if |parts| > 1 {
      JoinAvoids(c, sep, parts[1..]);
    }
  }

  lemma {:induction false} LineLengthAll(t: string)
    requires forall i :: 0 <= i < |t| ==> !IsLineEnd(t[i])
    ensures LineLength(t) == |t|
  {
    if t != [] {
      LineLengthAll(t[1..]);
    }
  }

  /** Reading back what `writeToFile` wrote gives the names written, as a
      set. */
  lemma {:induction false} WrittenReadsBack(custom: set<string>, packages: seq<string>)
    requires forall k :: 0 <= k < |packages| ==> Storable(packages[k])
    ensures ReadFromFile(custom, Written(packages)) == set x | x in packages
  {
    var text := Join([Delimiter], packages);
    if packages != [] {
      JoinAvoids('\n', [Delimiter], packages);
      JoinAvoids('\r', [Delimiter], packages);
      LineLengthAll(text);
      assert text != [] by {
        if |packages| > 1 {
          assert text == packages[0] + [Delimiter] + Join([Delimiter], packages[1..]);
        }
      }
      assert text[..|text|] == text;
      JavaSplitJoin(packages, Delimiter);
    }
  }

  lemma {:induction false} RemoveFirstEnumerates(l: seq<string>, s: set<string>, x: string)
    requires Enumerates(l, s)
    ensures Enumerates(RemoveFirst(l, x), s - {x})
  {
    if l != [] {
      var tail := l[1..];
      assert Enumerates(tail, s - {l[0]}) by {
        forall y ensures y in tail <==> y in s - {l[0]} {
          assert l == [l[0]] + tail;
          if y in tail {
            var j :| 0 <= j < |tail| && tail[j] == y;
            assert l[j + 1] == y;
          }
        }
      }
      if l[0] != x {
        RemoveFirstEnumerates(tail, s - {l[0]}, x);
        var r := RemoveFirst(l, x);
        var rt := RemoveFirst(tail, x);
        assert r == [l[0]] + rt;
        assert l[0] !in rt;
        assert forall y :: y in r <==> y == l[0] || y in rt;
      }
    }
  }

  lemma {:induction false} AppendEnumerates(l: seq<string>, s: set<string>, x: string)
    requires Enumerates(l, s) && x !in s
    ensures Enumerates(l + [x], s + {x})
  {
    assert forall y :: y in l + [x] <==> y in l || y == x;
  }

  /** The file holds the custom set: reading it back gives the set. */
  ghost predicate InSync(s: Store, file: File) {
    ReadFromFile({}, file) == s.custom && forall x :: x in s.custom ==> Storable(x)
  }

  /** `addCustom` of a storable name keeps the file in step with the set,
      unless a write that opened the file failed part way. */
  lemma {:induction false} AddKeepsSync(s: Store, name: string, listed: seq<string>, file: File, w: WriteResult)
    requires Enumerates(listed, s.custom) && InSync(s, file) && Storable(name)
    ensures var r := AddCustom(s, name, listed, file, w); !w.Interrupted? || name in s.custom ==> InSync(r.store, r.file)
  {
    var r := AddCustom(s, name, listed, file, w);
    if r.ok {
      var packages := listed + [name];
      AppendEnumerates(listed, s.custom, name);
      assert forall k :: 0 <= k < |packages| ==> packages[k] in packages;
      WrittenReadsBack({}, packages);
    }
  }

  /** `removeCustom` likewise keeps the file in step with the set, unless a
      write that opened the file failed part way. */
  lemma {:induction false} RemoveKeepsSync(s: Store, name: string, listed: seq<string>, file: File, w: WriteResult)
    requires Enumerates(listed, s.custom) && InSync(s, file)
    ensures var r := RemoveCustom(s, name, listed, file, w); !w.Interrupted? || name !in s.custom ==> InSync(r.store, r.file)
  {
    var r := RemoveCustom(s, name, listed, file, w);
    if r.ok {
      var packages := RemoveFirst(listed, name);
      RemoveFirstEnumerates(listed, s.custom, name);
      assert forall k :: 0 <= k < |packages| ==> packages[k] in packages;
      WrittenReadsBack({}, packages);
    }
  }

  /** Adding a package that is not hardcoded and then removing it, both
      writes succeeding, leaves it not excluded and the custom set as it
      was. */
  lemma {:induction false} AddThenRemove(s: Store, name: string, listed: seq<string>, file: File)
    requires Enumerates(listed, s.custom) && name !in s.hardcoded && name !in s.custom
    ensures var a := AddCustom(s, name, listed, file, Wrote);
      a.ok && IsExcluded(a.store, name)
      && var r := RemoveCustom(a.store, name, listed + [name], a.file, Wrote);
      r.ok && !IsExcluded(r.store, name) && r.store == s
  {
    AppendEnumerates(listed, s.custom, name);
  }

  /** The exclusion test: with Gmail and Now hardcoded, YouTube can be added
      and removed again, and Gmail cannot be removed. */
  lemma {:induction false} ExclusionScenario()
    ensures var s := New({"com.google.gmail", "com.google.now"}, Missing);
      IsExcluded(s, "com.google.gmail") && !IsExcluded(s, "com.google.gmail2")
      && var a := AddCustom(s, "com.google.youtube", [], Missing, Wrote);
      a.ok && IsExcluded(a.store, "com.google.youtube")
      && var r := RemoveCustom(a.store, "com.google.youtube", ["com.google.youtube"], a.file, Wrote);
      r.ok && !IsExcluded(r.store, "com.google.youtube")
      && !RemoveCustom(r.store, "com.google.gmail", [], r.file, Wrote).ok
  {
    var s := New({"com.google.gmail", "com.google.now"}, Missing);
    AddThenRemove(s, "com.google.youtube", [], Missing);
  }

  /** A write that opens the file and fails before writing anything leaves
      it empty: the set is unchanged in memory, but the file now reads back
      as no packages at all. */
  lemma {:induction false} InterruptedWriteEmptiesFile(a: string, b: string)
    requires Storable(a) && Storable(b) && a != b
    ensures var s := Store({}, {a});
      var r := AddCustom(s, b, [a], Written([a]), Interrupted(0));
      !r.ok && r.store == s && InSync(s, Written([a])) && !InSync(r.store, r.file)
  {
    var s := Store({}, {a});
    WrittenReadsBack({}, [a]);
    assert (set x | x in [a]) == {a};
    var r := AddCustom(s, b, [a], Written([a]), Interrupted(0));
    assert r.file == Contents([]);
    assert ReadFromFile({}, r.file) == {};
  }

  /** Two storable names written with a comma between them read back as
      those two names. */
  lemma {:induction false} PairReadsBack(a: string, b: string)
    requires Storable(a) && Storable(b)
    ensures New({}, Contents(a + "," + b)).custom == {a, b}
  {
    var packages := [a, b];
    assert Join([Delimiter], packages) == a + "," + b;
    WrittenReadsBack({}, packages);
    assert (set x | x in packages) == {a, b};
  }

  /** The read test: a file with Maps and YouTube separated by a comma gives
      those two packages. */
  lemma {:induction false} ReadFileScenario()
    ensures New({}, Contents("com.google.maps" + "," + "com.google.youtube")).custom
      == {"com.google.maps", "com.google.youtube"}
  {
    assert Storable("com.google.maps");
    assert Storable("com.google.youtube");
    PairReadsBack("com.google.maps", "com.google.youtube");
  }
}

=== FILE: login_data.dfy ===
/** The Google login request/response record and its `Parcelable` form:
    thirteen fields written in a fixed order, with the captcha bytes preceded
    by their length (-1 for none) and the status written by name. */
module LoginData {
  import opened Wrappers
  import opened Bytes
  import opened Parcel
  import opened Seqs

  const NegativeArraySize := "NegativeArraySizeException"
  const NoSuchStatus := "IllegalArgumentException: No enum constant"

  datatype Status =
    | Success_ | AccountDisabled | BadUsername | BadRequest | LoginFail | ServerError
    | MissingApps | NoGmail | NetworkError | Captcha | Cancelled | DeletedGmail

  datatype LoginData = LoginData(
    username: Option<string>,
    encryptedPassword: Option<string>,
    password: Option<string>,
    service: Option<string>,
    captchaToken: Option<string>,
    captchaData: Option<seq<JByte>>,
    captchaMimeType: Option<string>,
    captchaAnswer: Option<string>,
    flags: int,
    status: Option<Status>,
    jsonString: Option<string>,
    sid: Option<string>,
    authtoken: Option<string>)

  /** `Status.name()`. */
  function Name(s: Status): string {
    match s
    case Success_ => "SUCCESS"
    case AccountDisabled => "ACCOUNT_DISABLED"
    case BadUsername => "BAD_USERNAME"
    case BadRequest => "BAD_REQUEST"
    case LoginFail => "LOGIN_FAIL"
    case ServerError => "SERVER_ERROR"
    case MissingApps => "MISSING_APPS"
    case NoGmail => "NO_GMAIL"
    case NetworkError => "NETWORK_ERROR"
    case Captcha => "CAPTCHA"
    case Cancelled => "CANCELLED"
    case DeletedGmail => "DELETED_GMAIL"
  }

  /** `Status.valueOf`: the constant with that exact name, or a throw. */
  function ValueOf(name: string): (r: Result<Status, string>)
    ensures r.Success? ==> Name(r.value) == name
    ensures r.Failure? ==> r.error == NoSuchStatus
  {
    if name == "SUCCESS" then Success(Success_)
    else if name == "ACCOUNT_DISABLED" then Success(AccountDisabled)
    else if name == "BAD_USERNAME" then Success(BadUsername)
    else if name == "BAD_REQUEST" then Success(BadRequest)
    else if name == "LOGIN_FAIL" then Success(LoginFail)
    else if name == "SERVER_ERROR" then Success(ServerError)
    else if name == "MISSING_APPS" then Success(MissingApps)
    else if name == "NO_GMAIL" then Success(NoGmail)
    else if name == "NETWORK_ERROR" then Success(NetworkError)
    else if name == "CAPTCHA" then Success(Captcha)
    else if name == "CANCELLED" then Success(Cancelled)
    else if name == "DELETED_GMAIL" then Success(DeletedGmail)
    else Failure(NoSuchStatus)
  }

  /** `valueOf` finds every constant by its name. */
  lemma {:induction false} ValueOfName(s: Status)
    ensures ValueOf(Name(s)) == Success(s)
  {
  }

  /** The copy constructor: every field of `other`. */
  function Copy(other: LoginData): (r: LoginData)
    ensures r == other
  {
    LoginData(other.username, other.encryptedPassword, other.password, other.service,
              other.captchaToken, other.captchaData, other.captchaMimeType, other.captchaAnswer,
              other.flags, other.status, other.jsonString, other.sid, other.authtoken)
  }

  // ---------------------------------------------------------------------------
  // writeToParcel.

  function HeadItems(d: LoginData): seq<Item> {
    [StringItem(d.username), StringItem(d.encryptedPassword), StringItem(d.password),
     StringItem(d.service), StringItem(d.captchaToken)]
  }

  /** The captcha bytes: -1 alone for none, else the length and the array. */
  function CaptchaItems(data: Option<seq<JByte>>): (r: seq<Item>)
    ensures |r| == if data.None? then 1 else 2
  {
    match data
    case None => [IntItem(-1)]
    case Some(b) => [IntItem(|b|), BytesItem(Some(b))]
  }

  function StatusItem(s: Option<Status>): Item {
    match s
    case None => StringItem(None)
    case Some(v) => StringItem(Some(Name(v)))
  }

  function TailItems(d: LoginData): seq<Item> {
    [StringItem(d.captchaMimeType), StringItem(d.captchaAnswer), IntItem(d.flags),
     StatusItem(d.status), StringItem(d.jsonString), StringItem(d.sid), StringItem(d.authtoken)]
  }

  /** `writeToParcel`. */
  function Write(d: LoginData): (r: seq<Item>)
    ensures |r| == 12 + |CaptchaItems(d.captchaData)|
  {
    HeadItems(d) + CaptchaItems(d.captchaData) + TailItems(d)
  }

  // ---------------------------------------------------------------------------
  // readFromParcel.

  /** The captcha read: a length of -1 means none, any other negative length
      fails to allocate, otherwise the array must have that length. */
  function ReadCaptcha(p: seq<Item>, pos: nat): (r: Result<(Option<seq<JByte>>, nat), string>)
    ensures r.Success? ==> r.value.1 == pos + |CaptchaItems(r.value.0)|
    ensures r.Success? && r.value.0.None? ==> pos < |p| && p[pos] == IntItem(-1)
  {
    var len :- ReadInt(p, pos);
    if len.0 == -1 then Success((None, len.1))
    else if len.0 < 0 then Failure(NegativeArraySize)
    else
      var bytes :- ReadByteArray(p, len.1, len.0);
      Success((Some(bytes.0), bytes.1))
  }

  /** The status read: null, or a name `valueOf` must know. */
  function ReadStatus(p: seq<Item>, pos: nat): (r: Result<(Option<Status>, nat), string>)
    ensures r.Success? ==> r.value.1 == pos + 1 && pos < |p| && p[pos] == StatusItem(r.value.0)
  {
    var name :- ReadString(p, pos);
    if name.0.None? then Success((None, name.1))
    else
      var s :- ValueOf(name.0.value);
      Success((Some(s), name.1))
  }

  /** `readFromParcel`: the fields in the order they were written. */
  function Read(p: seq<Item>, pos: nat): (r: Result<(LoginData, nat), string>)
    ensures r.Success? ==> r.value.1 == pos + |Write(r.value.0)|
  {
    var username :- ReadString(p, pos);
    var encrypted :- ReadString(p, pos + 1);
    var password :- ReadString(p, pos + 2);
    var service :- ReadString(p, pos + 3);
    var token :- ReadString(p, pos + 4);
    var captcha :- ReadCaptcha(p, pos + 5);
    var q := captcha.1;
    var mime :- ReadString(p, q);
    var answer :- ReadString(p, q + 1);
    var flags :- ReadInt(p, q + 2);
    var status :- ReadStatus(p, q + 3);
    var json :- ReadString(p, q + 4);
    var sid :- ReadString(p, q + 5);
    var authtoken :- ReadString(p, q + 6);
    Success((LoginData(username.0, encrypted.0, password.0, service.0, token.0, captcha.0,
                       mime.0, answer.0, flags.0, status.0, json.0, sid.0, authtoken.0), q + 7))
  }

  // ---------------------------------------------------------------------------
  // The round trip.

  lemma {:induction false} ReadCaptchaWritten(data: Option<seq<JByte>>, p: seq<Item>, pos: nat)
    requires At(p, pos, CaptchaItems(data))
    ensures ReadCaptcha(p, pos) == Success((data, pos + |CaptchaItems(data)|))
  {
    AtIndex(p, pos, CaptchaItems(data), 0);
    if data.Some? {
      AtIndex(p, pos, CaptchaItems(data), 1);
    }
  }

  lemma {:induction false} ReadStatusWritten(s: Option<Status>, p: seq<Item>, pos: nat)
    requires pos < |p| && p[pos] == StatusItem(s)
    ensures ReadStatus(p, pos) == Success((s, pos + 1))
  {
    if s.Some? {
      ValueOfName(s.value);
    }
  }

  /** Where the three parts of a written record sit. */
  lemma {:induction false} WriteParts(d: LoginData, p: seq<Item>, pos: nat)
    requires At(p, pos, Write(d))
    ensures forall i :: 0 <= i < 5 ==> p[pos + i] == HeadItems(d)[i]
    ensures At(p, pos + 5, CaptchaItems(d.captchaData))
    ensures var q := pos + 5 + |CaptchaItems(d.captchaData)|;
      forall i :: 0 <= i < 7 ==> p[q + i] == TailItems(d)[i]
  {
    var h, c, t := HeadItems(d), CaptchaItems(d.captchaData), TailItems(d);
    assert Write(d) == h + (c + t);
    AtSplit(p, pos, h, c + t);
    AtSplit(p, pos + 5, c, t);
    forall i | 0 <= i < 5 ensures p[pos + i] == h[i] {
      AtIndex(p, pos, h, i);
    }
    forall i | 0 <= i < 7 ensures p[pos + 5 + |c| + i] == t[i] {
      AtIndex(p, pos + 5 + |c|, t, i);
    }
  }

  /** Reading what `writeToParcel` wrote, wherever it sits in the parcel,
      gives the same record and stops right after it. */
  lemma {:induction false} ReadWritten(d: LoginData, p: seq<Item>, pos: nat)
    requires At(p, pos, Write(d))
    ensures Read(p, pos) == Success((d, pos + |Write(d)|))
  {
    WriteParts(d, p, pos);
    ReadCaptchaWritten(d.captchaData, p, pos + 5);
    var q := pos + 5 + |CaptchaItems(d.captchaData)|;
    ReadStatusWritten(d.status, p, q + 3);
    assert p[pos] == StringItem(d.username) && p[pos + 1] == StringItem(d.encryptedPassword);
    assert p[pos + 2] == StringItem(d.password) && p[pos + 3] == StringItem(d.service);
    assert p[pos + 4] == StringItem(d.captchaToken);
    assert p[q] == StringItem(d.captchaMimeType) && p[q + 1] == StringItem(d.captchaAnswer);
    assert p[q + 2] == IntItem(d.flags);
    assert p[q + 4] == StringItem(d.jsonString) && p[q + 5] == StringItem(d.sid);
    assert p[q + 6] == StringItem(d.authtoken);
  }

  /** `CREATOR.createFromParcel` of a fresh parcel gives the record back. */
  lemma {:induction false} ParcelRoundTrip(d: LoginData)
    ensures Read(Write(d), 0) == Success((d, |Write(d)|))
  {
    assert Write(d)[0..|Write(d)|] == Write(d);
    ReadWritten(d, Write(d), 0);
  }

  /** No captcha is written as the length -1 alone and read back as none. */
  lemma {:induction false} NullCaptchaRoundTrip(p: seq<Item>, pos: nat)
    requires pos < |p| && p[pos] == IntItem(-1)
    ensures ReadCaptcha(p, pos) == Success((None, pos + 1))
  {
  }

  /** A status name `valueOf` does not know makes the read throw. */
  lemma {:induction false} UnknownStatusFails(p: seq<Item>, pos: nat)
    requires pos < |p| && p[pos] == StringItem(Some("success"))
    ensures ReadStatus(p, pos) == Failure(NoSuchStatus)
  {
  }
}

=== FILE: mdns_query.dfy ===
/** mDNS query construction (`MDnsDiscovery`): one DNS query message per
    configured service type, laid out as in sections 4.1.1 (header), 4.1.2
    (question) and 4.1.4 (message compression) of RFC 1035, asking for a
    unicast response (the QU bit, section 5.4 of RFC 6762) and listing the
    printers already known for that service as known answers (section 7.1 of
    RFC 6762). Known answers are remembered between calls and forgotten on
    every fourth query. */
module MDnsQuery {
  import opened Wrappers
  import opened Bytes
  import opened Text
  import opened Seqs

  /** After this many queries the known answers are dropped. */
  const AnswerResetThreshold := 3

  /** Size of the DNS header; the question name starts right after it. */
  const HeaderLength := 12

  /** The pointer to the question name: the two top bits set, offset 12. */
  const QuestionPointer := 0xC000 + HeaderLength

  /** Record type PTR. */
  const PtrType := 12

  /** Class IN with the top (QU / cache-flush) bit set, and plain class IN. */
  const ClassInUnicast := 0x8001
  const ClassIn := 1

  /** Time to live of a known answer, in seconds. */
  const AnswerTtl := 3600

  /** The bytes of the label `local`. */
  const LocalLabel: seq<JByte> := [0x6C, 0x6F, 0x63, 0x61, 0x6C]

  /** A remembered printer: its service type and its instance name. */
  datatype Known = Known(service: string, name: string)

  /** One entry of the remembered-printer map, keyed by host and domain. */
  datatype Entry = Entry(key: string, value: Known)

  /** `mQueryCount` and `mPrinters`, a `LinkedHashMap` kept in insertion order. */
  datatype State = State(queryCount: int, printers: seq<Entry>)

  predicate UniqueKeys(ps: seq<Entry>) {
    forall i, j :: 0 <= i < j < |ps| ==> ps[i].key != ps[j].key
  }

  predicate Valid(st: State) {
    0 <= st.queryCount <= AnswerResetThreshold && UniqueKeys(st.printers)
  }

  /** A fresh discovery object: no queries yet, no printers. */
  function Initial(): (st: State)
    ensures Valid(st)
  {
    State(0, [])
  }

  /** `clear`: forgets every printer and restarts the query count. */
  function Clear(st: State): (r: State)
    ensures Valid(r) && r.queryCount == 0 && r.printers == []
  {
    State(0, [])
  }

  /** `mPrinters.put(key, value)` as the response parser does it: an existing
      key keeps its place and takes the new value; a new key goes last. */
  function Put(ps: seq<Entry>, key: string, v: Known): (r: seq<Entry>)
    requires UniqueKeys(ps)
    ensures UniqueKeys(r)
    ensures Entry(key, v) in r
    ensures forall e :: e in r && e.key != key ==> e in ps
    ensures forall e :: e in ps && e.key != key ==> e in r
    ensures |r| == |ps| || |r| == |ps| + 1
  {
    if ps == [] then [Entry(key, v)]
    else if ps[0].key == key then [Entry(key, v)] + ps[1..]
    else
      var rest := Put(ps[1..], key, v);
      assert forall e :: e in rest && e.key != key ==> e in ps;
      [ps[0]] + rest
  }

  // ---------------------------------------------------------------------------
  // Message layout.

  /** Length-prefixed labels, each length written as its low 8 bits. */
  function EncodeLabels(labels: seq<seq<JByte>>): seq<JByte> {
    if labels == [] then [] else [ToJByte(|labels[0]|)] + labels[0] + EncodeLabels(labels[1..])
  }

  /** The labels of a service type such as `_ipp._tcp`: `split("\\.")`, each
      part's UTF-8 bytes. */
  function ServiceLabels(serviceName: string): (r: seq<seq<JByte>>)
    ensures |r| == |JavaSplit(serviceName, '.')|
    ensures forall i :: 0 <= i < |r| ==> r[i] == Utf8(JavaSplit(serviceName, '.')[i])
  {
    Utf8All(JavaSplit(serviceName, '.'))
  }

  function Utf8All(parts: seq<string>): (r: seq<seq<JByte>>)
    ensures |r| == |parts|
    ensures forall i :: 0 <= i < |parts| ==> r[i] == Utf8(parts[i])
  {
    if parts == [] then [] else [Utf8(parts[0])] + Utf8All(parts[1..])
  }

  /** The question name: the service labels, then `local` and the root label. */
  function QuestionName(serviceName: string): seq<JByte> {
    EncodeLabels(ServiceLabels(serviceName) + [LocalLabel]) + [0]
  }

  /** The header: transaction id, zero flags, one question, `known` answers,
      no authority or additional records. */
  function Header(id: int, known: nat): seq<JByte> {
    ShortToBytes(id) + [0, 0] + ShortToBytes(1) + ShortToBytes(known) + [0, 0] + [0, 0]
  }

  /** A known answer record: a pointer to the question name, type PTR, class IN,
      the TTL, the RDATA length field, then the RDATA: a length byte, the
      instance name's bytes and the pointer again. */
  function AnswerRecord(rdLength: int, lengthByte: int, nameBytes: seq<JByte>): seq<JByte> {
    AnswerHead(rdLength, lengthByte) + nameBytes + ShortToBytes(QuestionPointer)
  }

  /** The 13 bytes of a known answer before the instance name. */
  function AnswerHead(rdLength: int, lengthByte: int): seq<JByte> {
    ShortToBytes(QuestionPointer) + ShortToBytes(PtrType) + ShortToBytes(ClassIn) + IntToBytes(AnswerTtl)
    + ShortToBytes(rdLength) + [ToJByte(lengthByte)]
  }

  /** A known answer as the source writes it (`addAnswer`): the RDATA length
      and the length byte come from `String.length()`, while the name is
      written with `getBytes()`. */
  function AnswerAsWritten(name: string): seq<JByte> {
    AnswerRecord(Utf16Length(name) + 2 + 1, Utf16Length(name), Utf8(name))
  }

  /** A known answer with both lengths taken from the bytes written. */
  function Answer(name: string): seq<JByte> {
    AnswerRecord(|Utf8(name)| + 2 + 1, |Utf8(name)|, Utf8(name))
  }

  /** The known-answer section as the source writes it. */
  function Answers(names: seq<string>): seq<JByte> {
    if names == [] then [] else AnswerAsWritten(names[0]) + Answers(names[1..])
  }

  /** The known-answer section with the corrected lengths. */
  function AnswersIntended(names: seq<string>): seq<JByte> {
    if names == [] then [] else Answer(names[0]) + AnswersIntended(names[1..])
  }

  /** The question: the name, type PTR, class IN with the QU bit set. */
  function Question(serviceName: string): seq<JByte> {
    QuestionName(serviceName) + ShortToBytes(PtrType) + ShortToBytes(ClassInUnicast)
  }

  /** The query message for one service type, as the source writes it. */
  function QueryPacket(id: int, serviceName: string, known: seq<string>): seq<JByte> {
    Header(id, |known|) + Question(serviceName) + Answers(known)
  }

  /** The query message with the corrected known answers. */
  function QueryPacketIntended(id: int, serviceName: string, known: seq<string>): seq<JByte> {
    Header(id, |known|) + Question(serviceName) + AnswersIntended(known)
  }

  /** The instance names remembered for `service`, in map order. */
  function KnownFor(ps: seq<Entry>, service: string): (r: seq<string>)
    ensures |r| <= |ps|
    ensures forall n :: n in r <==> exists i :: 0 <= i < |ps| && ps[i].value == Known(service, n)
  {
    if ps == [] then []
    else
      var rest := KnownFor(ps[1..], service);
      assert forall n :: (exists i :: 0 <= i < |ps[1..]| && ps[1..][i].value == Known(service, n))
                     <==> (exists i :: 1 <= i < |ps| && ps[i].value == Known(service, n)) by {
        forall n ensures (exists i :: 0 <= i < |ps[1..]| && ps[1..][i].value == Known(service, n))
                     ==> (exists i :: 1 <= i < |ps| && ps[i].value == Known(service, n)) {
          if i :| 0 <= i < |ps[1..]| && ps[1..][i].value == Known(service, n) {
            assert ps[i + 1].value == Known(service, n);
          }
        }
        forall n ensures (exists i :: 1 <= i < |ps| && ps[i].value == Known(service, n))
                     ==> (exists i :: 0 <= i < |ps[1..]| && ps[1..][i].value == Known(service, n)) {
          if i :| 1 <= i < |ps| && ps[i].value == Known(service, n) {
            assert ps[1..][i - 1].value == Known(service, n);
          }
        }
      }
      if ps[0].value.service == service then [ps[0].value.name] + rest else rest
  }

  /** The outcome of `createQueryPackets`: the new state, the packets or the
      `NullPointerException` raised for a remembered printer whose service is
      not configured, and the next transaction id. */
  datatype Outcome = Outcome(state: State, packets: Result<seq<seq<JByte>>, string>, nextId: int)

  /** `createQueryPackets`: counts the query (forgetting every printer when the
      count passes the threshold), then builds one packet per configured
      service, with consecutive transaction ids. */
  function CreateQueryPackets(st: State, services: seq<string>, id: int): (o: Outcome)
    requires Valid(st)
    ensures Valid(o.state)
    ensures st.queryCount + 1 > AnswerResetThreshold ==> o.state == State(0, [])
    ensures st.queryCount + 1 <= AnswerResetThreshold ==> o.state == State(st.queryCount + 1, st.printers)
    ensures o.packets.Success? <==> forall e :: e in o.state.printers ==> e.value.service in services
    ensures o.packets.Success? ==> |o.packets.value| == |services| && o.nextId == id + |services|
    ensures o.packets.Success? ==> forall i :: 0 <= i < |services| ==>
      o.packets.value[i] == QueryPacket(id + i, services[i], KnownFor(o.state.printers, services[i]))
    ensures o.packets.Failure? ==> o.nextId == id
  {
    var count := st.queryCount + 1;
    var st' := if count > AnswerResetThreshold then State(0, []) else State(count, st.printers);
    if exists e :: e in st'.printers && e.value.service !in services then
      Outcome(st', Failure("NullPointerException"), id)
    else
      Outcome(st', Success(Packets(st'.printers, services, id)), id + |services|)
  }

  /** One query per configured service, the `i`-th with transaction id
      `id + i` and the known answers remembered for that service. */
  function Packets(ps: seq<Entry>, services: seq<string>, id: int): (r: seq<seq<JByte>>)
    ensures |r| == |services|
    ensures forall i :: 0 <= i < |services| ==> r[i] == QueryPacket(id + i, services[i], KnownFor(ps, services[i]))
  {
    seq(|services|, i requires 0 <= i < |services| => QueryPacket(id + i, services[i], KnownFor(ps, services[i])))
  }

  /** The header of each packet `createQueryPackets` sends: the packet's own
      transaction id, one question, and as many answers as printers are
      remembered for its service. */
  lemma {:induction false} PacketHeaders(st: State, services: seq<string>, id: int, i: int)
    requires Valid(st) && |st.printers| < 0x1_0000
    requires 0 <= i < |services|
    ensures var o := CreateQueryPackets(st, services, id);
      o.packets.Success? ==>
        var p := o.packets.value[i];
        |p| >= HeaderLength &&
        BytesToShort(p[0..2]) == Low16(id + i) &&
        BytesToShort(p[4..6]) == 1 &&
        BytesToShort(p[6..8]) == |KnownFor(o.state.printers, services[i])|
  {
    var o := CreateQueryPackets(st, services, id);
    if o.packets.Success? {
      var known := KnownFor(o.state.printers, services[i]);
      assert |o.state.printers| <= |st.printers|;
      QueryHeader(id + i, services[i], known);
    }
  }

  // ---------------------------------------------------------------------------
  // Reading a message back: the partner of the layout above.

  /** Reads uncompressed labels from `off` up to the root label. */
  function DecodeLabels(p: seq<JByte>, off: nat): Option<seq<seq<JByte>>>
    decreases |p| - off
  {
    if off >= |p| then None
    else
      var len := Unsigned(p[off]);
      if len == 0 then Some([])
      else if off + 1 + len > |p| then None
      else match DecodeLabels(p, off + 1 + len)
        case None => None
        case Some(rest) => Some([p[off + 1..off + 1 + len]] + rest)
  }

  /** A label an uncompressed name can carry: 1 to 63 bytes. */
  predicate LabelOk(l: seq<JByte>) {
    1 <= |l| <= 63
  }

  lemma {:induction false} DecodeEncodedLabels(p: seq<JByte>, off: nat, labels: seq<seq<JByte>>)
    requires forall k :: 0 <= k < |labels| ==> LabelOk(labels[k])
    requires At(p, off, EncodeLabels(labels) + [0])
    ensures DecodeLabels(p, off) == Some(labels)
    decreases |labels|
  {
    if labels == [] {
      AtIndex(p, off, EncodeLabels(labels) + [0], 0);
    } else {
      var l := labels[0];
      var tail := EncodeLabels(labels[1..]);
      assert EncodeLabels(labels) + [0] == [ToJByte(|l|)] + (l + (tail + [0]));
      AtSplit(p, off, [ToJByte(|l|)], l + (tail + [0]));
      AtSplit(p, off + 1, l, tail + [0]);
      AtIndex(p, off, [ToJByte(|l|)], 0);
      UnsignedToJByte(|l|);
      assert LabelOk(l);
      assert Unsigned(p[off]) == |l|;
      DecodeEncodedLabels(p, off + 1 + |l|, labels[1..]);
      assert p[off + 1..off + 1 + |l|] == l;
      assert [l] + labels[1..] == labels;
    }
  }

  lemma {:induction false} ShortAt(p: seq<JByte>, off: nat, x: int)
    requires At(p, off, ShortToBytes(x))
    ensures BytesToShort(p[off..off + 2]) == Low16(x)
  {
  }

  /** The header of a query packet carries the low 16 bits of the transaction
      id, zero flags, QDCOUNT 1, ANCOUNT equal to the number of known answers
      (below 65536), and zero NSCOUNT and ARCOUNT. */
  lemma {:induction false} QueryHeader(id: int, serviceName: string, known: seq<string>)
    requires |known| < 0x1_0000
    ensures var p := QueryPacket(id, serviceName, known);
      |p| >= HeaderLength &&
      BytesToShort(p[0..2]) == Low16(id) &&
      BytesToShort(p[2..4]) == 0 &&
      BytesToShort(p[4..6]) == 1 &&
      BytesToShort(p[6..8]) == |known| &&
      BytesToShort(p[8..10]) == 0 &&
      BytesToShort(p[10..12]) == 0
  {
    var p := QueryPacket(id, serviceName, known);
    var h := Header(id, |known|);
    var zero: seq<JByte> := [0, 0];
    var x1 := ShortToBytes(id);
    var x2 := x1 + zero;
    var x3 := x2 + ShortToBytes(1);
    var x4 := x3 + ShortToBytes(|known|);
    var x5 := x4 + zero;
    assert h == x5 + zero;
    AtLeft(h + Question(serviceName), Answers(known));
    AtSplit(p, 0, h, Question(serviceName));
    AtSplit(p, 0, x5, zero);
    AtSplit(p, 0, x4, zero);
    AtSplit(p, 0, x3, ShortToBytes(|known|));
    AtSplit(p, 0, x2, ShortToBytes(1));
    AtSplit(p, 0, x1, zero);
    ShortAt(p, 0, id);
    ShortAt(p, 4, 1);
    ShortAt(p, 6, |known|);
    assert Low16(|known|) == |known|;
  }

  /** The question starts at offset 12 and reads back as the service labels and
      `local`; it is followed by type PTR and class IN with the QU bit set. */
  lemma {:induction false} QueryQuestion(id: int, serviceName: string, known: seq<string>)
    requires forall k :: 0 <= k < |ServiceLabels(serviceName)| ==> LabelOk(ServiceLabels(serviceName)[k])
    ensures var p := QueryPacket(id, serviceName, known);
      var q := HeaderLength + |QuestionName(serviceName)|;
      q + 4 <= |p| &&
      DecodeLabels(p, HeaderLength) == Some(ServiceLabels(serviceName) + [LocalLabel]) &&
      BytesToShort(p[q..q + 2]) == PtrType &&
      BytesToShort(p[q + 2..q + 4]) == ClassInUnicast
  {
    var p := QueryPacket(id, serviceName, known);
    var h := Header(id, |known|);
    var labels := ServiceLabels(serviceName) + [LocalLabel];
    var name := QuestionName(serviceName);
    var q := HeaderLength + |name|;
    assert |h| == HeaderLength;
    AtLeft(h + Question(serviceName), Answers(known));
    AtSplit(p, 0, h, Question(serviceName));
    AtSplit(p, HeaderLength, name + ShortToBytes(PtrType), ShortToBytes(ClassInUnicast));
    AtSplit(p, HeaderLength, name, ShortToBytes(PtrType));
    ShortAt(p, q, PtrType);
    ShortAt(p, q + 2, ClassInUnicast);
    assert forall k :: 0 <= k < |labels| ==> LabelOk(labels[k]);
    DecodeEncodedLabels(p, HeaderLength, labels);
  }

  /** The fixed fields as bytes. */
  lemma {:induction false} PointerBytes()
    ensures ShortToBytes(QuestionPointer) == [-64, 12]
  {
    assert ShortToBytes(QuestionPointer) == [ToJByte(192), ToJByte(12)];
  }

  lemma {:induction false} TypeAndClassBytes()
    ensures ShortToBytes(PtrType) == [0, 12]
    ensures ShortToBytes(ClassIn) == [0, 1]
  {
    assert ShortToBytes(PtrType) == [ToJByte(0), ToJByte(12)];
    assert ShortToBytes(ClassIn) == [ToJByte(0), ToJByte(1)];
  }

  lemma {:induction false} TtlBytes()
    ensures IntToBytes(AnswerTtl) == [0, 0, 14, 16]
  {
    assert AnswerTtl % 0x1_0000_0000 == 3600;
    assert 3600 / 0x1_0000 == 0 && 3600 % 0x1_0000 == 3600;
    assert IntToBytes(AnswerTtl) == ShortToBytes(0) + ShortToBytes(3600);
    assert Low16(0) == 0 && Low16(3600) == 3600;
    assert 3600 / 256 == 14 && 3600 % 256 == 16;
    assert ToJByte(0) == 0 && ToJByte(14) == 14 && ToJByte(16) == 16;
  }

  lemma {:induction false} AnswerHeadBytes(rdLength: int, lengthByte: int)
    ensures var h := AnswerHead(rdLength, lengthByte);
      |h| == 13 && h[0..10] == [-64, 12, 0, 12, 0, 1, 0, 0, 14, 16] &&
      h[10..12] == ShortToBytes(rdLength) && h[12] == ToJByte(lengthByte)
  {
    PointerBytes();
    TypeAndClassBytes();
    TtlBytes();
  }

  /** The first ten bytes of a known answer: pointer, type, class and TTL. */
  lemma {:induction false} FixedFieldsRead(a: seq<JByte>)
    requires |a| >= 10 && a[0..10] == [-64, 12, 0, 12, 0, 1, 0, 0, 14, 16]
    ensures BytesToShort(a[0..2]) == QuestionPointer
    ensures BytesToShort(a[2..4]) == PtrType
    ensures BytesToShort(a[4..6]) == ClassIn
    ensures BytesToInt(a[6..10]) == AnswerTtl
  {
    var fixed: seq<JByte> := [-64, 12, 0, 12, 0, 1, 0, 0, 14, 16];
    assert forall i :: 0 <= i < 10 ==> a[i] == fixed[i] by {
      forall i | 0 <= i < 10 ensures a[i] == fixed[i] {
        assert a[0..10][i] == a[i];
      }
    }
    assert a[0..2] == [a[0], a[1]];
    assert a[2..4] == [a[2], a[3]];
    assert a[4..6] == [a[4], a[5]];
    assert a[6..10] == [a[6], a[7], a[8], a[9]];
    assert a[6..10][..2] == [0, 0] && a[6..10][2..] == [14, 16];
  }

  /** A known answer points at offset 12 (`0xC00C`), has type PTR, class IN,
      a TTL of 3600 seconds, and an RDATA length equal to the RDATA that
      follows: the instance label and the pointer. */
  lemma {:induction false} AnswerLayout(name: string)
    requires |Utf8(name)| < 256
    ensures var a := Answer(name);
      |a| == 12 + |Utf8(name)| + 3 &&
      BytesToShort(a[0..2]) == QuestionPointer &&
      BytesToShort(a[0..2]) % 0x4000 == HeaderLength &&
      BytesToShort(a[2..4]) == PtrType &&
      BytesToShort(a[4..6]) == ClassIn &&
      BytesToInt(a[6..10]) == AnswerTtl &&
      BytesToShort(a[10..12]) == |a| - 12 &&
      Unsigned(a[12]) == |Utf8(name)| &&
      a[13..13 + |Utf8(name)|] == Utf8(name) &&
      BytesToShort(a[|a| - 2..]) == QuestionPointer
  {
    var n := Utf8(name);
    RecordLayout(|n| + 3, |n|, n);
  }

  /** The same layout for any name bytes, with the length fields as given. */
  lemma {:induction false} RecordLayout(rdLength: int, lengthByte: int, n: seq<JByte>)
    requires 0 <= rdLength < 0x1_0000 && 0 <= lengthByte < 256
    ensures var a := AnswerRecord(rdLength, lengthByte, n);
      |a| == 13 + |n| + 2 &&
      BytesToShort(a[0..2]) == QuestionPointer &&
      BytesToShort(a[0..2]) % 0x4000 == HeaderLength &&
      BytesToShort(a[2..4]) == PtrType &&
      BytesToShort(a[4..6]) == ClassIn &&
      BytesToInt(a[6..10]) == AnswerTtl &&
      BytesToShort(a[10..12]) == rdLength &&
      Unsigned(a[12]) == lengthByte &&
      a[13..13 + |n|] == n &&
      BytesToShort(a[|a| - 2..]) == QuestionPointer
  {
    var a := AnswerRecord(rdLength, lengthByte, n);
    var head := AnswerHead(rdLength, lengthByte);
    var ptr := ShortToBytes(QuestionPointer);
    AnswerHeadBytes(rdLength, lengthByte);
    PointerBytes();
    AtLeft(head + n, ptr);
    AtRight(head + n, ptr);
    AtSplit(a, 0, head, n);
    assert a[0..10] == head[0..10] by {
      AtNested(a, 0, head, 0, head[0..10]);
    }
    FixedFieldsRead(a);
    assert a[10..12] == ShortToBytes(rdLength) by {
      AtNested(a, 0, head, 10, head[10..12]);
    }
    AtIndex(a, 0, head, 12);
    UnsignedToJByte(lengthByte);
    assert a[|a| - 2..] == ptr;
  }

  /** The source's known answer misstates its lengths for a non-ASCII name:
      for "é" (one UTF-16 unit, two UTF-8 bytes) the RDATA length field says 4
      while 5 bytes of RDATA follow. */
  lemma {:induction false} AnswerAsWrittenLengthMismatch()
    ensures var a := AnswerAsWritten("é");
      |a| == 17 && BytesToShort(a[10..12]) == 4 && |a| - 12 == 5
  {
    var name := "é";
    assert Utf16Length(name) == 1;
    assert Utf8(name) == Utf8Char('é') + Utf8("");
    assert |Utf8(name)| == 2;
    RecordLayout(4, 1, Utf8(name));
  }

  /** For ASCII names the source's encoding and the corrected one coincide. */
  lemma {:induction false} AnswerAsciiAgrees(name: string)
    requires IsAscii(name)
    ensures AnswerAsWritten(name) == Answer(name)
  {
    AsciiLengths(name);
  }

  /** For ASCII names the source's known-answer section and the corrected
      one coincide. */
  lemma {:induction false} AnswersAsciiAgree(names: seq<string>)
    requires forall k :: 0 <= k < |names| ==> IsAscii(names[k])
    ensures Answers(names) == AnswersIntended(names)
  {
    if names != [] {
      AnswerAsciiAgrees(names[0]);
      AnswersAsciiAgree(names[1..]);
    }
  }

  /** A query whose known instance names are all ASCII is the corrected
      query; a non-ASCII name (see `AnswerAsWrittenLengthMismatch`) is where
      they part. */
  lemma {:induction false} QueryPacketAsciiAgrees(id: int, serviceName: string, known: seq<string>)
    requires forall k :: 0 <= k < |known| ==> IsAscii(known[k])
    ensures QueryPacket(id, serviceName, known) == QueryPacketIntended(id, serviceName, known)
  {
    AnswersAsciiAgree(known);
  }

  /** The source's known answer for "é" is not the corrected one: its RDATA
      length field says 4 where the corrected one says 5. */
  lemma {:induction false} AnswerAsWrittenDiffers()
    ensures AnswerAsWritten("é") != Answer("é")
  {
    var a := AnswerAsWritten("é");
    var b := Answer("é");
    AnswerAsWrittenLengthMismatch();
    assert |Utf8("é")| == 2 by {
      assert Utf8("é") == Utf8Char('é') + Utf8("");
    }
    AnswerLayout("é");
    assert BytesToShort(a[10..12]) != BytesToShort(b[10..12]);
  }

  /** So the source's query with the single known name "é" differs from the
      corrected one. */
  lemma {:induction false} QueryPacketAsWrittenDiffers(id: int, serviceName: string)
    ensures QueryPacket(id, serviceName, ["é"]) != QueryPacketIntended(id, serviceName, ["é"])
  {
    var h := Header(id, 1) + Question(serviceName);
    var a := AnswerAsWritten("é");
    var b := Answer("é");
    assert Answers(["é"]) == a by {
      assert Answers(["é"]) == a + Answers([]);
    }
    assert AnswersIntended(["é"]) == b by {
      assert AnswersIntended(["é"]) == b + AnswersIntended([]);
    }
    AnswerAsWrittenDiffers();
    assert (h + a)[|h|..] == a && (h + b)[|h|..] == b;
  }

  // ---------------------------------------------------------------------------
  // The query count over several calls.

  /** Starting from a cleared state with no new printers, the first three
      queries keep the known answers and the fourth forgets them. */
  lemma {:induction false} FourthQueryForgets(ps: seq<Entry>, services: seq<string>, id: int)
    requires UniqueKeys(ps)
    ensures var s1 := CreateQueryPackets(State(0, ps), services, id).state;
      var s2 := CreateQueryPackets(s1, services, id).state;
      var s3 := CreateQueryPackets(s2, services, id).state;
      var s4 := CreateQueryPackets(s3, services, id).state;
      s1.printers == ps && s2.printers == ps && s3.printers == ps &&
      s3.queryCount == 3 && s4 == State(0, [])
  {
  }
}

=== FILE: mdns_utils.dfy ===
/** `MDnsUtils`: does a discovered printer belong to a vendor, and which vendor
    does it announce. A device is given by its discovery instances, itself first
    (`getAllDiscoveryInstances`), each with its TXT attributes. Vendor names come
    as a Java array that may be null or hold null elements; a null element that
    the loop reaches throws, which the model returns as a `Failure`. */
module MDnsUtils {
  import opened Wrappers
  import opened Text
  import opened VendorMatch
  import opened AndroidTypes

  const NullPointer := "NullPointerException"

  /** `containsString`: false when either string is null. */
  function ContainsString(container: Option<string>, contained: Option<string>): (r: bool)
    ensures container.None? || contained.None? ==> !r
    ensures container.Some? && contained.Some? ==>
      (r <==> EqualsIgnoreCase(container.value, contained.value)
              || Contains(container.value, contained.value + " "))
  {
    container.Some? && contained.Some? && VendorMatch.ContainsString(container.value, contained.value)
  }

  /** No vendor name before position `k` is null or matches `attr`. */
  ghost predicate Misses(attr: string, names: seq<Option<string>>, k: int)
    requires 0 <= k <= |names|
  {
    forall j :: 0 <= j < k ==> names[j].Some? && !Matches(attr, names[j].value)
  }

  predicate NoNulls(names: seq<Option<string>>) {
    forall i :: 0 <= i < |names| ==> names[i].Some?
  }

  /** The loop of `containsVendor` over the vendor names, for a non-null
      attribute: stops at the first match (true) or at the first null name
      (`value.toLowerCase` throws). */
  function ScanNames(attr: string, names: seq<Option<string>>): (r: Result<bool, string>)
    ensures r == Success(false) <==> Misses(attr, names, |names|)
    ensures r == Success(true) <==>
      exists i :: 0 <= i < |names| && Misses(attr, names, i) && names[i].Some? && Matches(attr, names[i].value)
    ensures r.Failure? <==> exists i :: 0 <= i < |names| && Misses(attr, names, i) && names[i].None?
    ensures r.Failure? ==> r.error == NullPointer
    ensures NoNulls(names) ==> r == Success(exists i :: 0 <= i < |names| && Matches(attr, names[i].value))
  {
    if names == [] then Success(false)
    else if names[0].None? then Failure(NullPointer)
    else if Matches(attr, names[0].value) then
      assert Misses(attr, names, 0);
      Success(true)
    else
      var r := ScanNames(attr, names[1..]);
      MissesShift(attr, names);
      r
  }

  lemma {:induction false} MissesShift(attr: string, names: seq<Option<string>>)
    requires |names| > 0 && names[0].Some? && !Matches(attr, names[0].value)
    ensures forall k :: 0 <= k < |names| ==> (Misses(attr, names, k + 1) <==> Misses(attr, names[1..], k))
  {
    forall k | 0 <= k < |names|
      ensures Misses(attr, names, k + 1) <==> Misses(attr, names[1..], k)
    {
      if Misses(attr, names[1..], k) {
        forall j | 0 <= j < k + 1 ensures names[j].Some? && !Matches(attr, names[j].value) {
          if j > 0 { assert names[j] == names[1..][j - 1]; }
        }
      }
      if Misses(attr, names, k + 1) {
        forall j | 0 <= j < k ensures names[1..][j].Some? && !Matches(attr, names[1..][j].value) {
          assert names[1..][j] == names[j + 1];
        }
      }
    }
  }

  /** `containsVendor`: false for a null attribute or a null name array;
      otherwise the loop over the names. */
  function ContainsVendor(container: Option<string>, names: Option<seq<Option<string>>>): (r: Result<bool, string>)
    ensures container.None? || names.None? ==> r == Success(false)
    ensures container.Some? && names.Some? ==> r == ScanNames(container.value, names.value)
  {
    if container.None? || names.None? then Success(false) else ScanNames(container.value, names.value)
  }

  /** The four `containsVendor` calls of one instance, combined with `||`:
      evaluation stops at the first true or the first exception. */
  function AnyAttribute(attrs: seq<Option<string>>, names: Option<seq<Option<string>>>): (r: Result<bool, string>)
    ensures names.None? ==> r == Success(false)
    ensures r.Failure? ==> names.Some? && !NoNulls(names.value) && r.error == NullPointer
    ensures names.Some? && NoNulls(names.value) ==>
      r == Success(exists a :: 0 <= a < |attrs| && NamedIn(attrs[a], names.value))
  {
    if attrs == [] then Success(false)
    else
      var first := ContainsVendor(attrs[0], names);
      if first.Failure? then first
      else if first.value then Success(true)
      else AnyAttribute(attrs[1..], names)
  }

  /** Some vendor name matches the (non-null) attribute. */
  predicate NamedIn(attr: Option<string>, names: seq<Option<string>>) {
    attr.Some? && exists i :: 0 <= i < |names| && names[i].Some? && Matches(attr.value, names[i].value)
  }

  /** `isVendorPrinter`: scans the instances in order and stops at the first
      that names a vendor in its product, ty, usb_MFG or mfg attribute. */
  function IsVendorPrinter(instances: seq<Bundle>, names: Option<seq<Option<string>>>): (r: Result<bool, string>)
    ensures names.None? ==> r == Success(false)
    ensures r.Failure? ==> names.Some? && !NoNulls(names.value) && r.error == NullPointer
    ensures names.Some? && NoNulls(names.value) ==>
      r == Success(exists k, a :: 0 <= k < |instances| && 0 <= a < 4 &&
                                  NamedIn(VendorAttributes(instances[k])[a], names.value))
  {
    if instances == [] then Success(false)
    else
      var here := AnyAttribute(VendorAttributes(instances[0]), names);
      if here.Failure? then here
      else if here.value then Success(true)
      else
        var rest := IsVendorPrinter(instances[1..], names);
        assert forall k, a :: 1 <= k < |instances| && 0 <= a < 4 ==>
          VendorAttributes(instances[k])[a] == VendorAttributes(instances[1..][k - 1])[a];
        rest
  }

  /** The vendor one instance announces: its mfg, else its usb_MFG, where
      empty counts as absent (`TextUtils.isEmpty`). */
  function VendorOf(b: Bundle): (r: Option<string>)
    ensures r.Some? ==> r.value != ""
    ensures r.None? <==> IsEmptyText(GetString(b, Mfg)) && IsEmptyText(GetString(b, UsbMfg))
    ensures !IsEmptyText(GetString(b, Mfg)) ==> r == GetString(b, Mfg)
    ensures IsEmptyText(GetString(b, Mfg)) ==> r.None? || r == GetString(b, UsbMfg)
  {
    if !IsEmptyText(GetString(b, Mfg)) then GetString(b, Mfg)
    else if !IsEmptyText(GetString(b, UsbMfg)) then GetString(b, UsbMfg)
    else None
  }

  /** `getVendor`: the vendor of the first instance that announces one, or null. */
  function GetVendor(instances: seq<Bundle>): (r: Option<string>)
    ensures r.None? <==> forall k :: 0 <= k < |instances| ==> VendorOf(instances[k]).None?
    ensures r.Some? ==>
      exists k :: 0 <= k < |instances| && VendorOf(instances[k]) == r &&
                  forall j :: 0 <= j < k ==> VendorOf(instances[j]).None?
  {
    if instances == [] then None
    else if VendorOf(instances[0]).Some? then VendorOf(instances[0])
    else
      var r := GetVendor(instances[1..]);
      assert forall k :: 1 <= k < |instances| ==> instances[k] == instances[1..][k - 1];
      r
  }

  // ---------------------------------------------------------------------------

  /** A null name that comes before any matching name makes the test throw, even
      when a later name would match. */
  lemma {:induction false} NullNameThrows(attr: string, rest: seq<Option<string>>)
    ensures ContainsVendor(Some(attr), Some([None] + rest)).Failure?
  {
    assert Misses(attr, [None] + rest, 0);
  }

  /** The test depends on the vendor names only up to case. */
  lemma {:induction false} NamesUpToCase(attr: string, name: string)
    ensures Matches(attr, name) <==> Matches(attr, Lower(name))
  {
    MatchesIsCaseless(attr, name);
    MatchesIsCaseless(attr, Lower(name));
    LowerIdempotent(name);
    EqualsIgnoreCaseLower(attr, name);
  }

  lemma {:induction false} EqualsIgnoreCaseLower(a: string, b: string)
    ensures EqualsIgnoreCase(a, b) <==> EqualsIgnoreCase(a, Lower(b))
  {
    forall i | 0 <= i < |a| && i < |b|
      ensures UpperChar(LowerChar(b[i])) == UpperChar(b[i]) && LowerChar(LowerChar(b[i])) == LowerChar(b[i])
    {
      LowerUpperChar(b[i]);
    }
  }
}

=== FILE: mdns_utils_set.dfy ===
/** `MDNSUtils`, the newer vendor test: the device and the set of vendor names
    are checked for null up front (`Preconditions`), so the scan itself cannot
    throw. A null device or name set, or a null name inside the set, is a
    `Failure`. */
module MDNSUtils {
  import opened Wrappers
  import opened VendorMatch
  import opened AndroidTypes
  import MDnsUtils
  import Text

  const NullPointer := "NullPointerException"

  /** `containsVendor`: a null attribute never matches; otherwise some name
      matches it. */
  predicate ContainsVendor(attr: Option<string>, names: set<string>) {
    attr.Some? && exists n :: n in names && Matches(attr.value, n)
  }

  /** The loop over the instances: true at the first instance with a vendor
      name in one of its four attributes. */
  function ScanInstances(instances: seq<Bundle>, names: set<string>): (r: bool)
    ensures r <==> exists k, a :: 0 <= k < |instances| && 0 <= a < 4 &&
                                  ContainsVendor(VendorAttributes(instances[k])[a], names)
  {
    if instances == [] then false
    else
      var attrs := VendorAttributes(instances[0]);
      if ContainsVendor(attrs[0], names) || ContainsVendor(attrs[1], names)
         || ContainsVendor(attrs[2], names) || ContainsVendor(attrs[3], names)
      then true
      else
        var rest := ScanInstances(instances[1..], names);
        assert forall k, a :: 1 <= k < |instances| && 0 <= a < 4 ==>
          VendorAttributes(instances[k])[a] == VendorAttributes(instances[1..][k - 1])[a];
        rest
  }

  /** `isVendorPrinter`: `checkNotNull` on the device, then
      `checkCollectionElementsNotNull` on the names, then the scan. */
  function IsVendorPrinter(device: Option<seq<Bundle>>, names: Option<set<Option<string>>>): (r: Result<bool, string>)
    ensures r.Failure? <==> device.None? || names.None? || None in names.value
    ensures r.Failure? ==> r.error == NullPointer
    ensures r.Success? ==>
      (r.value <==> exists k, a, n :: 0 <= k < |device.value| && 0 <= a < 4 && Some(n) in names.value &&
                                      NamedBy(VendorAttributes(device.value[k])[a], n))
  {
    if device.None? || names.None? || None in names.value then Failure(NullPointer)
    else Success(ScanInstances(device.value, NonNull(names.value)))
  }

  predicate NamedBy(attr: Option<string>, n: string) {
    attr.Some? && Matches(attr.value, n)
  }

  function NonNull(names: set<Option<string>>): (r: set<string>)
    ensures forall n :: n in r <==> Some(n) in names
  {
    set o | o in names && o.Some? :: o.value
  }

  // ---------------------------------------------------------------------------

  /** Once nulls are ruled out, the two utility classes agree: the array
      version over any listing of the names gives the set version's answer. */
  lemma {:induction false} AgreesWithArrayVersion(instances: seq<Bundle>, names: seq<string>)
    ensures MDnsUtils.IsVendorPrinter(instances, Some(seq(|names|, i requires 0 <= i < |names| => Some(names[i]))))
         == IsVendorPrinter(Some(instances), Some(set i | 0 <= i < |names| :: Some(names[i])))
  {
    var listed := seq(|names|, i requires 0 <= i < |names| => Some(names[i]));
    var asSet := set i | 0 <= i < |names| :: Some(names[i]);
    assert MDnsUtils.NoNulls(listed);
    assert None !in asSet;
    var lhs := MDnsUtils.IsVendorPrinter(instances, Some(listed));
    var rhs := IsVendorPrinter(Some(instances), Some(asSet));
    assert lhs.Success? && rhs.Success?;
    if lhs.value {
      var k, a :| 0 <= k < |instances| && 0 <= a < 4 &&
                  MDnsUtils.NamedIn(VendorAttributes(instances[k])[a], listed);
      var i :| 0 <= i < |listed| && listed[i].Some? &&
               Matches(VendorAttributes(instances[k])[a].value, listed[i].value);
      assert Some(names[i]) in asSet;
      assert NamedBy(VendorAttributes(instances[k])[a], names[i]);
    }
    if rhs.value {
      var k, a, n :| 0 <= k < |instances| && 0 <= a < 4 && Some(n) in asSet &&
                     NamedBy(VendorAttributes(instances[k])[a], n);
      var i :| 0 <= i < |names| && Some(names[i]) == Some(n);
      assert listed[i] == Some(n);
      assert MDnsUtils.NamedIn(VendorAttributes(instances[k])[a], listed);
    }
  }

  function LowerAll(names: set<string>): set<string> {
    set n | n in names :: Text.Lower(n)
  }

  /** Vendor names are matched up to case: lower-casing every name changes
      nothing. */
  lemma {:induction false} NameCaseIrrelevant(attr: Option<string>, names: set<string>)
    ensures ContainsVendor(attr, names) <==> ContainsVendor(attr, LowerAll(names))
  {
    var lowered := LowerAll(names);
    if ContainsVendor(attr, names) {
      var n :| n in names && Matches(attr.value, n);
      MDnsUtils.NamesUpToCase(attr.value, n);
      assert Text.Lower(n) in lowered && Matches(attr.value, Text.Lower(n));
    }
    if ContainsVendor(attr, lowered) {
      var m :| m in lowered && Matches(attr.value, m);
      var n :| n in names && Text.Lower(n) == m;
      MDnsUtils.NamesUpToCase(attr.value, n);
      assert n in names && Matches(attr.value, n);
    }
  }
}

=== FILE: mopria_plugin.dfy ===
/** The Mopria discovery plugin: of the devices mDNS discovery reports, it
    counts those with an IPP service whose `pdl` TXT attribute names a
    Mopria document format, and reports the count to its callback whenever
    it changes. */
module MopriaPlugin {
  import opened Wrappers
  import opened Text
  import opened AndroidTypes
  import RemotePlugin

  const PdlPdf := "application/pdf"
  const PdlPclm := "application/PCLm"
  const PdlPwgRaster := "image/pwg-raster"
  const NullPointer := "NullPointerException"

  /** What the plugin reads of a discovered device: its identifier, the
      service name of each of its discovery instances, and the TXT
      attributes it holds for the IPP service. */
  datatype Device = Device(id: Option<string>, services: seq<Option<string>>, ippTxt: Bundle)

  /** The set of printer identifiers, and whether `start` has handed over a
      callback. */
  datatype Plugin = Plugin(printers: set<Option<string>>, hasCallback: bool)

  /** The plugin after an event, and what its callback was given (`None`
      when it was not called), or the exception the call threw. */
  datatype Event = Event(plugin: Plugin, report: Result<Option<int>, string>)

  predicate PdlIsMopria(pdl: string) {
    Contains(pdl, PdlPdf) || Contains(pdl, PdlPclm) || Contains(pdl, PdlPwgRaster)
  }

  /** `isMopriaPrinter`; `ipp` is the IPP service name from the resources. */
  predicate IsMopria(ipp: string, d: Device) {
    Some(ipp) in d.services
    && var pdl := GetString(d.ippTxt, "pdl");
       !IsEmptyText(pdl) && PdlIsMopria(pdl.value)
  }

  /** The constructor: no printers yet. */
  function New(): (r: Plugin)
    ensures r.printers == {} && !r.hasCallback
  {
    Plugin({}, false)
  }

  /** `start`: the callback is kept. */
  function Start(pl: Plugin): (r: Plugin)
    ensures r.hasCallback && r.printers == pl.printers
  {
    pl.(hasCallback := true)
  }

  /** Calls the callback with the new count, when there is one. */
  function Report(pl: Plugin, count: int): Result<Option<int>, string> {
    if pl.hasCallback then Success(Some(count)) else Failure(NullPointer)
  }

  /** `onDeviceFound`. */
  function OnDeviceFound(pl: Plugin, ipp: string, d: Device): (r: Event)
    ensures !IsMopria(ipp, d) ==> r == Event(pl, Success(None))
    ensures IsMopria(ipp, d) ==> r.plugin.printers == pl.printers + {d.id}
    ensures r.report.Success? && r.report.value.Some? <==> IsMopria(ipp, d) && d.id !in pl.printers && pl.hasCallback
    ensures r.report.Success? && r.report.value.Some? ==> r.report.value.value == |r.plugin.printers|
    ensures r.plugin.hasCallback == pl.hasCallback
  {
    if !IsMopria(ipp, d) then Event(pl, Success(None))
    else if d.id in pl.printers then Event(pl, Success(None))
    else
      var after := pl.(printers := pl.printers + {d.id});
      Event(after, Report(after, |after.printers|))
  }

  /** `onDeviceRemoved`. */
  function OnDeviceRemoved(pl: Plugin, ipp: string, d: Device): (r: Event)
    ensures !IsMopria(ipp, d) ==> r == Event(pl, Success(None))
    ensures IsMopria(ipp, d) ==> r.plugin.printers == pl.printers - {d.id}
    ensures r.report.Success? && r.report.value.Some? <==> IsMopria(ipp, d) && d.id in pl.printers && pl.hasCallback
    ensures r.report.Success? && r.report.value.Some? ==> r.report.value.value == |r.plugin.printers|
    ensures r.plugin.hasCallback == pl.hasCallback
  {
    if !IsMopria(ipp, d) then Event(pl, Success(None))
    else if d.id !in pl.printers then Event(pl, Success(None))
    else
      var after := pl.(printers := pl.printers - {d.id});
      Event(after, Report(after, |after.printers|))
  }

  // ---------------------------------------------------------------------------

  /** The wrapper around the plugin shows the plugin's count: the wrapper is
      running and holds the number of printers the plugin knows. */
  predicate Shown(pl: Plugin, w: RemotePlugin.Remote) {
    pl.hasCallback && w.running && w.numPrinters == |pl.printers|
  }

  /** What the wrapper holds after a report reaches it. */
  function Deliver(w: RemotePlugin.Remote, report: Result<Option<int>, string>): Result<RemotePlugin.Remote, string> {
    if report.Failure? then Failure(report.error)
    else if report.value.None? then Success(w)
    else RemotePlugin.OnChanged(w, report.value.value)
  }

  /** Each device found keeps the count the wrapper shows equal to the
      plugin's set, telling the wrapper only when the set grew. */
  lemma {:induction false} FoundKeepsShown(pl: Plugin, w: RemotePlugin.Remote, ipp: string, d: Device)
    requires Shown(pl, w)
    ensures var e := OnDeviceFound(pl, ipp, d);
      var w' := Deliver(w, e.report);
      w'.Success? && Shown(e.plugin, w'.value)
      && (w'.value.notified == w.notified + 1 <==> |e.plugin.printers| > |pl.printers|)
  {
    var e := OnDeviceFound(pl, ipp, d);
    if IsMopria(ipp, d) && d.id !in pl.printers {
      assert |e.plugin.printers| == |pl.printers| + 1;
    }
  }

  /** Each device removed keeps the count the wrapper shows equal to the
      plugin's set, telling the wrapper only when the set shrank. */
  lemma {:induction false} RemovedKeepsShown(pl: Plugin, w: RemotePlugin.Remote, ipp: string, d: Device)
    requires Shown(pl, w)
    ensures var e := OnDeviceRemoved(pl, ipp, d);
      var w' := Deliver(w, e.report);
      w'.Success? && Shown(e.plugin, w'.value)
      && (w'.value.notified == w.notified + 1 <==> |e.plugin.printers| < |pl.printers|)
  {
    var e := OnDeviceRemoved(pl, ipp, d);
    if IsMopria(ipp, d) && d.id in pl.printers {
      assert pl.printers == e.plugin.printers + {d.id};
      assert |e.plugin.printers| == |pl.printers| - 1;
    }
  }

  /** A printer found and then removed leaves the set as it was. */
  lemma {:induction false} FoundThenRemoved(pl: Plugin, ipp: string, d: Device)
    requires IsMopria(ipp, d) && d.id !in pl.printers
    ensures OnDeviceRemoved(OnDeviceFound(pl, ipp, d).plugin, ipp, d).plugin == pl
  {
  }

  /** An IPP printer offering PDF among other formats counts; one offering
      only other formats does not. */
  lemma {:induction false} PdlExamples(ipp: string, id: string)
    ensures IsMopria(ipp, Device(Some(id), [Some(ipp)], map["pdl" := "image/urf,application/pdf"]))
    ensures !IsMopria(ipp, Device(Some(id), [Some(ipp)], map["pdl" := ""]))
    ensures !IsMopria(ipp, Device(Some(id), [], map["pdl" := "application/pdf"]))
  {
    var pdl := "image/urf,application/pdf";
    assert pdl[10..10 + |PdlPdf|] == PdlPdf;
    ContainsAt(pdl, PdlPdf, 10);
    assert Some(ipp) in [Some(ipp)];
  }
}

=== FILE: network_device.dfy ===
/** `NetworkDevice`: a printer found on the network, with the other discovery
    instances merged into it, its identity (`equals`/`hashCode`) and its
    parcel form. Addresses are the raw bytes `InetAddress.getAddress` returns:
    4 for IPv4, 16 for IPv6. */
module NetworkDevice {
  import opened Wrappers
  import opened Bytes
  import opened AndroidTypes
  import opened Parcel
  import opened Seqs

  const IllegalArgument := "IllegalArgumentException: inetAddress can not be null"
  const NullPointer := "NullPointerException"
  const UnknownHost := "UnknownHostException"
  const IndexOutOfBounds := "ArrayIndexOutOfBoundsException"
  const NullInstance := "null discovery instance"

  datatype DiscoveryMethod = MdnsDiscovery | SnmpDiscovery | OtherDiscovery

  function Ordinal(m: DiscoveryMethod): (i: nat)
    ensures i < 3
  {
    match m
    case MdnsDiscovery => 0
    case SnmpDiscovery => 1
    case OtherDiscovery => 2
  }

  /** `DiscoveryMethod.values()[i]`. */
  function MethodAt(i: int): (r: Result<DiscoveryMethod, string>)
    ensures r.Success? <==> 0 <= i < 3
    ensures r.Success? ==> Ordinal(r.value) == i
  {
    if i == 0 then Success(MdnsDiscovery)
    else if i == 1 then Success(SnmpDiscovery)
    else if i == 2 then Success(OtherDiscovery)
    else Failure(IndexOutOfBounds)
  }

  datatype Device = Device(
    address: Option<seq<JByte>>,
    model: Option<string>,
    hostname: Option<string>,
    port: int,
    deviceIdentifier: Option<string>,
    bonjourName: Option<string>,
    bonjourDomainName: Option<string>,
    bonjourService: Option<string>,
    discoveryMethod: DiscoveryMethod,
    txt: Bundle,
    others: seq<Device>)

  /** What a `ServiceParser` reports; `bonjour` holds the Bonjour name and
      service name when the parser is a `BonjourParser`. */
  datatype ServiceParser = ServiceParser(
    address: Option<seq<JByte>>,
    model: Option<string>,
    hostname: Option<string>,
    port: int,
    deviceIdentifier: Option<string>,
    serviceName: Option<string>,
    attributes: Bundle,
    discoveryMethod: DiscoveryMethod,
    bonjour: Option<(Option<string>, Option<string>)>)

  /** The public constructor. */
  function FromParser(sp: ServiceParser): (r: Result<Device, string>)
    ensures r.Failure? <==> sp.address.None?
    ensures r.Failure? ==> r.error == IllegalArgument
    ensures r.Success? ==>
      var d := r.value;
      d.address == sp.address && d.model == sp.model && d.hostname == sp.hostname
      && d.port == sp.port && d.deviceIdentifier == sp.deviceIdentifier
      && d.txt == sp.attributes && d.discoveryMethod == sp.discoveryMethod && d.others == []
    ensures r.Success? && sp.bonjour.Some? ==>
      r.value.bonjourName == sp.bonjour.value.0 && r.value.bonjourDomainName == sp.hostname
      && r.value.bonjourService == sp.bonjour.value.1
    ensures r.Success? && sp.bonjour.None? ==>
      r.value.bonjourName.None? && r.value.bonjourDomainName.None? && r.value.bonjourService == sp.serviceName
  {
    if sp.address.None? then Failure(IllegalArgument)
    else
      var (name, domain, service) :=
        if sp.bonjour.Some? then (sp.bonjour.value.0, sp.hostname, sp.bonjour.value.1)
        else (None, None, sp.serviceName);
      Success(Device(sp.address, sp.model, sp.hostname, sp.port, sp.deviceIdentifier,
                     name, domain, service, sp.discoveryMethod, sp.attributes, []))
  }

  // ---------------------------------------------------------------------------
  // Identity.

  /** The fields `equals` and `hashCode` look at. */
  function Key(d: Device): (Option<seq<JByte>>, Option<string>, Option<string>, Option<string>) {
    (d.address, d.bonjourDomainName, d.bonjourService, d.deviceIdentifier)
  }

  /** `a.equals(b)`: a null `b` is not equal; a null address of `a` throws
      (`getInetAddress().equals`); otherwise the four fields are compared. */
  function Equals(a: Device, b: Option<Device>): (r: Result<bool, string>)
    ensures b.None? ==> r == Success(false)
    ensures b.Some? ==> (r.Failure? <==> a.address.None?)
    ensures r.Failure? ==> r.error == NullPointer
    ensures r.Success? && b.Some? ==>
      (r.value <==> a.address == b.value.address && a.bonjourDomainName == b.value.bonjourDomainName
                    && a.bonjourService == b.value.bonjourService
                    && a.deviceIdentifier == b.value.deviceIdentifier)
  {
    if b.None? then Success(false)
    else if a.address.None? then Failure(NullPointer)
    else Success(Key(a) == Key(b.value))
  }

  /** Java's 32-bit `int` arithmetic, kept as the unsigned bit pattern. */
  function Wrap(x: int): (r: int)
    ensures 0 <= r < 0x1_0000_0000
  {
    x % 0x1_0000_0000
  }

  /** The UTF-16 code units of one character. */
  function CodeUnits(c: char): (r: seq<int>)
    ensures |r| == Utf16Units(c)
  {
    var n := c as int;
    if n <= 0xFFFF then [n]
    else [0xD800 + (n - 0x1_0000) / 0x400, 0xDC00 + (n - 0x1_0000) % 0x400]
  }

  /** `String.hashCode`: `h = 31 * h + unit` over the UTF-16 code units. */
  function StringHash(s: string): (r: int)
    ensures 0 <= r < 0x1_0000_0000
  {
    UnitsHash(0, Units(s))
  }

  function Units(s: string): (r: seq<int>)
    ensures |r| == Utf16Length(s)
  {
    if s == [] then [] else CodeUnits(s[0]) + Units(s[1..])
  }

  function UnitsHash(h: int, units: seq<int>): (r: int)
    ensures 0 <= r < 0x1_0000_0000
    decreases |units|
  {
    if units == [] then Wrap(h) else UnitsHash(Wrap(31 * h + units[0]), units[1..])
  }

  function OptionalHash(s: Option<string>): int {
    if s.Some? then StringHash(s.value) else 0
  }

  /** `hashCode`, with the address's own hash given as a parameter (the
      `InetAddress` subclasses are not part of this model). A null address
      throws. */
  function HashCode(d: Device, addressHash: seq<JByte> -> int): (r: Result<int, string>)
    ensures r.Failure? <==> d.address.None?
    ensures r.Success? ==> 0 <= r.value < 0x1_0000_0000
  {
    if d.address.None? then Failure(NullPointer)
    else
      var h0 := Wrap(1 * 31 + addressHash(d.address.value));
      var h1 := Wrap(h0 * 31 + OptionalHash(d.bonjourDomainName));
      var h2 := Wrap(h1 * 31 + OptionalHash(d.bonjourService));
      Success(Wrap(h2 * 31 + OptionalHash(d.deviceIdentifier)))
  }

  /** Equal devices have equal hash codes, whatever the address hash is. */
  lemma {:induction false} EqualsHash(a: Device, b: Device, addressHash: seq<JByte> -> int)
    requires Equals(a, Some(b)) == Success(true)
    ensures HashCode(a, addressHash).Success? && HashCode(a, addressHash) == HashCode(b, addressHash)
  {
  }

  /** On devices with an address, `equals` is an equivalence. */
  lemma {:induction false} EqualsEquivalence(a: Device, b: Device, c: Device)
    requires a.address.Some? && b.address.Some?
    ensures Equals(a, Some(a)) == Success(true)
    ensures Equals(a, Some(b)) == Equals(b, Some(a))
    ensures Equals(a, Some(b)) == Success(true) && Equals(b, Some(c)) == Success(true) ==>
              Equals(a, Some(c)) == Success(true)
  {
  }

  // ---------------------------------------------------------------------------
  // Discovery instances.

  /** `getAllDiscoveryInstances`: the device itself, then the others in the
      order they were added. */
  function AllInstances(d: Device): (r: seq<Device>)
    ensures |r| == |d.others| + 1 && r[0] == d
    ensures forall i :: 0 <= i < |d.others| ==> r[i + 1] == d.others[i]
  {
    [d] + d.others
  }

  /** `others.contains(x)`: `x.equals(e)` on each element in turn. */
  function ListContains(others: seq<Device>, x: Device): (r: Result<bool, string>)
    ensures r.Failure? <==> |others| > 0 && x.address.None?
    ensures r.Success? ==> (r.value <==> exists i :: 0 <= i < |others| && Key(others[i]) == Key(x))
  {
    if others == [] then Success(false)
    else
      var here := Equals(x, Some(others[0]));
      if here.Failure? then here
      else if here.value then Success(true)
      else
        var rest := ListContains(others[1..], x);
        assert forall i :: 1 <= i < |others| ==> others[i] == others[1..][i - 1];
        rest
  }

  /** `addDiscoveryInstance`: a null device, one equal to this device, or one
      equal to an instance already held, is ignored; any other is appended. */
  function AddInstance(d: Device, x: Option<Device>): (r: Result<Device, string>)
    ensures x.None? ==> r == Success(d)
    ensures r.Failure? <==> x.Some? && (d.address.None? || (x.value.address.None? && |d.others| > 0))
    ensures r.Success? ==> r.value == d || r.value == d.(others := d.others + [x.value])
    ensures r.Success? && x.Some? ==>
      (r.value != d <==> Key(x.value) != Key(d) &&
                         forall i :: 0 <= i < |d.others| ==> Key(d.others[i]) != Key(x.value))
  {
    if x.None? then Success(d)
    else
      var same :- Equals(d, x);
      if same then Success(d)
      else
        var held :- ListContains(d.others, x.value);
        if held then Success(d)
        else
          assert |d.(others := d.others + [x.value]).others| != |d.others|;
          Success(d.(others := d.others + [x.value]))
  }

  /** No two of the device's instances are equal. */
  ghost predicate DistinctInstances(d: Device) {
    forall i, j :: 0 <= i < j < |AllInstances(d)| ==> Key(AllInstances(d)[i]) != Key(AllInstances(d)[j])
  }

  /** Adding an instance keeps the instances pairwise distinct. */
  lemma {:induction false} AddKeepsDistinct(d: Device, x: Option<Device>)
    requires DistinctInstances(d)
    requires AddInstance(d, x).Success?
    ensures DistinctInstances(AddInstance(d, x).value)
  {
    var r := AddInstance(d, x).value;
    if r != d {
      var all := AllInstances(r);
      var before := AllInstances(d);
      assert r.others == d.others + [x.value];
      assert |all| == |before| + 1 && Key(all[|all| - 1]) == Key(x.value);
      assert forall k :: 0 <= k < |before| ==> Key(all[k]) == Key(before[k]);
      forall i, j | 0 <= i < j < |all| ensures Key(all[i]) != Key(all[j]) {
        if j == |all| - 1 {
          if i > 0 { assert before[i] == d.others[i - 1]; }
        }
      }
    }
  }

  /** `getTxtAttributes(serviceName)`: the attributes of the first instance
      whose service is `serviceName` (`TextUtils.equals`), else an empty
      bundle. */
  function TxtAttributesFor(d: Device, serviceName: Option<string>): (r: Bundle)
    ensures (forall i :: 0 <= i < |AllInstances(d)| ==> !TextEquals(serviceName, AllInstances(d)[i].bonjourService))
            ==> r == map[]
    ensures forall i :: 0 <= i < |AllInstances(d)| && TextEquals(serviceName, AllInstances(d)[i].bonjourService) &&
                        (forall j :: 0 <= j < i ==> !TextEquals(serviceName, AllInstances(d)[j].bonjourService))
                        ==> r == AllInstances(d)[i].txt
  {
    FirstTxt(AllInstances(d), serviceName)
  }

  function FirstTxt(instances: seq<Device>, serviceName: Option<string>): (r: Bundle)
    ensures (forall i :: 0 <= i < |instances| ==> !TextEquals(serviceName, instances[i].bonjourService)) ==> r == map[]
    ensures forall i :: 0 <= i < |instances| && TextEquals(serviceName, instances[i].bonjourService) &&
                        (forall j :: 0 <= j < i ==> !TextEquals(serviceName, instances[j].bonjourService))
                        ==> r == instances[i].txt
  {
    if instances == [] then map[]
    else if TextEquals(serviceName, instances[0].bonjourService) then instances[0].txt
    else
      var r := FirstTxt(instances[1..], serviceName);
      assert forall i :: 1 <= i < |instances| ==> instances[i] == instances[1..][i - 1];
      r
  }

  // ---------------------------------------------------------------------------
  // Parcel form.

  /** An address `InetAddress.getByAddress` accepts and gives back unchanged:
      4 bytes, or 16 bytes that are not an IPv4-mapped IPv6 address. */
  predicate ValidAddress(a: seq<JByte>) {
    |a| == 4 || (|a| == 16 && !IsMappedV4(a))
  }

  /** `::ffff:a.b.c.d`. */
  predicate IsMappedV4(a: seq<JByte>)
    requires |a| == 16
  {
    (forall i :: 0 <= i < 10 ==> a[i] == 0) && a[10] == -1 && a[11] == -1
  }

  /** `InetAddress.getByAddress`: 4 or 16 bytes, a mapped address becoming the
      IPv4 address it holds; any other length throws. */
  function ByAddress(a: seq<JByte>): (r: Result<seq<JByte>, string>)
    ensures r.Failure? <==> |a| != 4 && |a| != 16
    ensures ValidAddress(a) ==> r == Success(a)
    ensures |a| == 16 && IsMappedV4(a) ==> r == Success(a[12..])
  {
    if |a| == 4 then Success(a)
    else if |a| == 16 then (if IsMappedV4(a) then Success(a[12..]) else Success(a))
    else Failure(UnknownHost)
  }

  /** A device that survives the parcel round trip: valid addresses, a port
      that fits Java's `int`, and the same for every other instance. */
  ghost predicate Parcelable(d: Device) {
    (d.address.Some? ==> ValidAddress(d.address.value))
    && IsInt32(d.port)
    && forall i :: 0 <= i < |d.others| ==> Parcelable(d.others[i])
  }

  function AddressItems(a: Option<seq<JByte>>): (r: seq<Item>)
    ensures 1 <= |r| <= 2
  {
    if a.Some? then [IntItem(|a.value|), BytesItem(a)] else [IntItem(0)]
  }

  /** The fields written after the address, in `writeToParcel` order. */
  function FieldItems(d: Device): (r: seq<Item>)
    ensures |r| == 9
  {
    [StringItem(d.model), StringItem(d.hostname), IntItem(d.port), StringItem(d.deviceIdentifier),
     StringItem(d.bonjourName), StringItem(d.bonjourDomainName), StringItem(d.bonjourService),
     IntItem(Ordinal(d.discoveryMethod)), BundleItem(d.txt)]
  }

  /** `writeToParcel`: address, fields, then `writeTypedList` of the other
      instances (their count, then a non-null marker and each one's own
      parcel form). */
  function Write(d: Device): (r: seq<Item>)
    decreases d, |d.others| + 1
  {
    AddressItems(d.address) + FieldItems(d) + [IntItem(|d.others|)] + WriteFrom(d, 0)
  }

  function WriteFrom(d: Device, k: nat): seq<Item>
    decreases d, |d.others| - k
  {
    if k >= |d.others| then [] else [IntItem(1)] + Write(d.others[k]) + WriteFrom(d, k + 1)
  }

  /** The address part of the private `Parcel` constructor: a size of zero
      or less means null; otherwise the array of that size, then
      `getByAddress`. */
  function ReadAddress(p: seq<Item>, pos: nat): (r: Result<(Option<seq<JByte>>, nat), string>)
    ensures r.Success? ==> pos < r.value.1 <= |p|
  {
    var (size, next) :- ReadInt(p, pos);
    if size <= 0 then Success((None, next))
    else
      var (bytes, after) :- ReadByteArray(p, next, size);
      var address :- ByAddress(bytes);
      Success((Some(address), after))
  }

  /** The private `Parcel` constructor, reading the fields in the order they
      were written. A nested instance that cannot be read is a `Failure`. */
  function Read(p: seq<Item>, pos: nat): (r: Result<(Device, nat), string>)
    ensures r.Success? ==> pos < r.value.1 <= |p|
    decreases |p| - pos, 1
  {
    var address := ReadAddress(p, pos);
    if address.Failure? then Failure(address.error)
    else
      var fields := ReadFields(p, address.value.1, address.value.0);
      if fields.Failure? then Failure(fields.error)
      else
        var count := ReadInt(p, fields.value.1);
        if count.Failure? then Failure(count.error)
        else
          var others := ReadList(p, count.value.1, count.value.0);
          if others.Failure? then Failure(others.error)
          else Success((fields.value.0.(others := others.value.0), others.value.1))
  }

  /** The nine fields after the address, read in order: seven strings and two
      ints, the second of which must be a `DiscoveryMethod` ordinal, then the
      bundle. The instance list is left empty. */
  function ReadFields(p: seq<Item>, pos: nat, address: Option<seq<JByte>>): (r: Result<(Device, nat), string>)
    ensures r.Success? ==> r.value.1 == pos + 9 && r.value.0.address == address && r.value.0.others == []
  {
    if !(pos + 8 <= |p| && ScalarFields(p, pos)) then Failure(Unreadable)
    else
      var discoveryMethod := MethodAt(p[pos + 7].value);
      if discoveryMethod.Failure? then Failure(discoveryMethod.error)
      else if !(pos + 8 < |p| && p[pos + 8].BundleItem?) then Failure(Unreadable)
      else
        Success((Device(address, p[pos].text, p[pos + 1].text, p[pos + 2].value, p[pos + 3].text,
                        p[pos + 4].text, p[pos + 5].text, p[pos + 6].text, discoveryMethod.value,
                        p[pos + 8].bundle, []), pos + 9))
  }

  /** The kinds of the eight values before the bundle. */
  predicate ScalarFields(p: seq<Item>, pos: nat)
    requires pos + 8 <= |p|
  {
    p[pos].StringItem? && p[pos + 1].StringItem? && p[pos + 2].IntItem? && p[pos + 3].StringItem?
    && p[pos + 4].StringItem? && p[pos + 5].StringItem? && p[pos + 6].StringItem? && p[pos + 7].IntItem?
  }

  /** `readTypedList` into the empty instance list: `count` entries, each a
      marker and, when the marker is non-zero, a device. */
  function ReadList(p: seq<Item>, pos: nat, count: int): (r: Result<(seq<Device>, nat), string>)
    ensures r.Success? ==> pos <= r.value.1 <= |p| && |r.value.0| == if count > 0 then count else 0
    decreases |p| - pos, 0
  {
    if count <= 0 then
      if pos <= |p| then Success(([], pos)) else Failure(Unreadable)
    else
      var marker := ReadInt(p, pos);
      if marker.Failure? then Failure(marker.error)
      else if marker.value.0 == 0 then Failure(NullInstance)
      else
        var first := Read(p, pos + 1);
        if first.Failure? then Failure(first.error)
        else
          var rest := ReadList(p, first.value.1, count - 1);
          if rest.Failure? then rest
          else Success(([first.value.0] + rest.value.0, rest.value.1))
  }

  /** `CREATOR.createFromParcel`: an unknown host gives null. */
  function CreateFromParcel(p: seq<Item>): (r: Result<Option<Device>, string>)
    ensures Read(p, 0).Success? ==> r == Success(Some(Read(p, 0).value.0))
    ensures Read(p, 0) == Failure(UnknownHost) ==> r == Success(None)
  {
    match Read(p, 0)
    case Success((d, _)) => Success(Some(d))
    case Failure(e) => if e == UnknownHost then Success(None) else Failure(e)
  }

  // ---------------------------------------------------------------------------
  // The round trip.

  lemma {:induction false} ReadAddressWritten(a: Option<seq<JByte>>, p: seq<Item>, pos: nat)
    requires a.Some? ==> ValidAddress(a.value)
    requires Placed(p, pos, AddressItems(a))
    ensures ReadAddress(p, pos) == Success((a, pos + |AddressItems(a)|))
  {
    PlacedIndex(p, pos, AddressItems(a), 0);
    if a.Some? {
      PlacedIndex(p, pos, AddressItems(a), 1);
    }
  }

  lemma {:induction false} ReadFieldsWritten(d: Device, p: seq<Item>, q: nat)
    requires Placed(p, q, FieldItems(d))
    ensures ReadFields(p, q, d.address) == Success((d.(others := []), q + 9))
  {
    var f := FieldItems(d);
    PlacedAt(p, q, f);
    forall i | 0 <= i < 9 ensures p[q + i] == f[i] {
      AtIndex(p, q, f, i);
    }
    assert p[q] == StringItem(d.model) && p[q + 1] == StringItem(d.hostname) && p[q + 2] == IntItem(d.port);
    assert p[q + 3] == StringItem(d.deviceIdentifier) && p[q + 4] == StringItem(d.bonjourName);
    assert p[q + 5] == StringItem(d.bonjourDomainName) && p[q + 6] == StringItem(d.bonjourService);
    assert p[q + 7] == IntItem(Ordinal(d.discoveryMethod)) && p[q + 8] == BundleItem(d.txt);
    assert MethodAt(Ordinal(d.discoveryMethod)) == Success(d.discoveryMethod);
  }

  /** Where the pieces of one written device sit. */
  lemma {:induction false} WriteParts(d: Device, p: seq<Item>, pos: nat)
    requires Placed(p, pos, Write(d))
    ensures Placed(p, pos, AddressItems(d.address))
    ensures Placed(p, pos + |AddressItems(d.address)|, FieldItems(d))
    ensures Placed(p, pos + |AddressItems(d.address)| + 9, [IntItem(|d.others|)])
    ensures Placed(p, pos + |AddressItems(d.address)| + 10, WriteFrom(d, 0))
    ensures |Write(d)| == |AddressItems(d.address)| + 10 + |WriteFrom(d, 0)|
  {
    var a := AddressItems(d.address);
    var f := FieldItems(d);
    var c := [IntItem(|d.others|)];
    var rest := WriteFrom(d, 0);
    assert Write(d) == a + (f + (c + rest));
    PlacedSplit(p, pos, a, f + (c + rest));
    PlacedSplit(p, pos + |a|, f, c + rest);
    PlacedSplit(p, pos + |a| + 9, c, rest);
  }

  /** Where the pieces of one entry of the written instance list sit. */
  lemma {:induction false} EntryParts(d: Device, k: nat, p: seq<Item>, pos: nat)
    requires k < |d.others| && Placed(p, pos, WriteFrom(d, k))
    ensures Placed(p, pos, [IntItem(1)])
    ensures Placed(p, pos + 1, Write(d.others[k]))
    ensures Placed(p, pos + 1 + |Write(d.others[k])|, WriteFrom(d, k + 1))
    ensures |WriteFrom(d, k)| == 1 + |Write(d.others[k])| + |WriteFrom(d, k + 1)|
  {
    var e := d.others[k];
    var tail := WriteFrom(d, k + 1);
    WriteFromCons(d, k);
    PlacedSplit(p, pos, [IntItem(1)], Write(e) + tail);
    PlacedSplit(p, pos + 1, Write(e), tail);
  }

  /** Where the entries after entry `k` sit, and how long the list from `k`
      on is. */
  lemma {:induction false} EntryTail(d: Device, k: nat, p: seq<Item>, pos: nat)
    requires k < |d.others| && Placed(p, pos, WriteFrom(d, k))
    ensures Placed(p, pos + 1 + |Write(d.others[k])|, WriteFrom(d, k + 1))
    ensures |WriteFrom(d, k)| == 1 + |Write(d.others[k])| + |WriteFrom(d, k + 1)|
  {
    EntryParts(d, k, p, pos);
  }

  /** The entries from `k` on are entry `k`'s marker and parcel, then the
      entries after it. */
  lemma {:induction false} WriteFromCons(d: Device, k: nat)
    requires k < |d.others|
    ensures WriteFrom(d, k) == [IntItem(1)] + (Write(d.others[k]) + WriteFrom(d, k + 1))
  {
    var e, tail := Write(d.others[k]), WriteFrom(d, k + 1);
    assert WriteFrom(d, k) == [IntItem(1)] + e + tail;
    assert [IntItem(1)] + e + tail == [IntItem(1)] + (e + tail);
  }

  /** One device read by the private constructor, from its pieces. */
  lemma {:induction false} ReadStep(p: seq<Item>, pos: nat, d: Device, q: nat, end: nat)
    requires ReadAddress(p, pos) == Success((d.address, q))
    requires ReadFields(p, q, d.address) == Success((d.(others := []), q + 9))
    requires Placed(p, q + 9, [IntItem(|d.others|)])
    requires ReadList(p, q + 10, |d.others|) == Success((d.others, end))
    ensures Read(p, pos) == Success((d, end))
  {
    PlacedIndex(p, q + 9, [IntItem(|d.others|)], 0);
    assert ReadInt(p, q + 9) == Success((|d.others|, q + 10));
    assert d.(others := []).(others := d.others) == d;
  }

  /** One entry of `readTypedList`, from its marker, device and the rest. */
  lemma {:induction false} ReadListStep(p: seq<Item>, pos: nat, first: Device, rest: seq<Device>, n: int, q2: nat, end: nat)
    requires Placed(p, pos, [IntItem(1)])
    requires Read(p, pos + 1) == Success((first, q2))
    requires n == |rest| && ReadList(p, q2, n) == Success((rest, end))
    ensures ReadList(p, pos, n + 1) == Success(([first] + rest, end))
  {
    PlacedIndex(p, pos, [IntItem(1)], 0);
  }

  /** Reading what `writeToParcel` wrote gives the same device back, and
      stops right after it. */
  lemma {:induction false} ReadWritten(d: Device, p: seq<Item>, pos: nat)
    requires Parcelable(d) && Placed(p, pos, Write(d))
    ensures Read(p, pos) == Success((d, pos + |Write(d)|))
    decreases d, |d.others| + 1
  {
    WriteParts(d, p, pos);
    var q: nat := pos + |AddressItems(d.address)|;
    ReadAddressWritten(d.address, p, pos);
    ReadFieldsWritten(d, p, q);
    ReadWrittenFrom(d, 0, p, q + 10);
    assert d.others[0..] == d.others;
    ReadStep(p, pos, d, q, q + 10 + |WriteFrom(d, 0)|);
  }

  lemma {:induction false} ReadWrittenFrom(d: Device, k: nat, p: seq<Item>, pos: nat)
    requires Parcelable(d) && k <= |d.others| && Placed(p, pos, WriteFrom(d, k))
    ensures ReadList(p, pos, |d.others| - k) == Success((d.others[k..], pos + |WriteFrom(d, k)|))
    decreases d, |d.others| - k
  {
    if k < |d.others| {
      var q2: nat := pos + 1 + |Write(d.others[k])|;
      EntryTail(d, k, p, pos);
      ReadWrittenFrom(d, k + 1, p, q2);
      ReadEntry(d, k, p, pos, q2 + |WriteFrom(d, k + 1)|);
    } else {
      assert WriteFrom(d, k) == [];
      PlacedAt(p, pos, []);
      assert |d.others| - k == 0 && d.others[k..] == [];
    }
  }

  /** Entry `k` of the written list reads back, ahead of the entries after
      it. */
  lemma {:induction false} ReadEntry(d: Device, k: nat, p: seq<Item>, pos: nat, end: nat)
    requires Parcelable(d) && k < |d.others| && Placed(p, pos, WriteFrom(d, k))
    requires ReadList(p, pos + 1 + |Write(d.others[k])|, |d.others| - (k + 1)) == Success((d.others[k + 1..], end))
    ensures ReadList(p, pos, |d.others| - k) == Success((d.others[k..], end))
    decreases d, |d.others| - k - 1, 1
  {
    EntryRead(d, k, p, pos);
    ReadListFrom(p, pos, d.others, k, pos + 1 + |Write(d.others[k])|, end);
  }

  /** Entry `k` of the written list: its non-null marker, then the device. */
  lemma {:induction false} EntryRead(d: Device, k: nat, p: seq<Item>, pos: nat)
    requires Parcelable(d) && k < |d.others| && Placed(p, pos, WriteFrom(d, k))
    ensures Placed(p, pos, [IntItem(1)])
    ensures Read(p, pos + 1) == Success((d.others[k], pos + 1 + |Write(d.others[k])|))
    decreases d, |d.others| - k - 1, 0
  {
    var e := d.others[k];
    EntryParts(d, k, p, pos);
    assert Parcelable(e);
    ReadWritten(e, p, pos + 1);
  }

  /** The list read from entry `k` on is entry `k` and then the list read
      from the next entry on. */
  lemma {:induction false} ReadListFrom(p: seq<Item>, pos: nat, others: seq<Device>, k: nat, q2: nat, end: nat)
    requires k < |others| && Placed(p, pos, [IntItem(1)])
    requires Read(p, pos + 1) == Success((others[k], q2))
    requires ReadList(p, q2, |others| - (k + 1)) == Success((others[k + 1..], end))
    ensures ReadList(p, pos, |others| - k) == Success((others[k..], end))
  {
    ReadListStep(p, pos, others[k], others[k + 1..], |others| - (k + 1), q2, end);
    assert others[k..] == [others[k]] + others[k + 1..];
  }

  /** The round trip through a whole parcel. */
  lemma {:induction false} ParcelRoundTrip(d: Device)
    requires Parcelable(d)
    ensures CreateFromParcel(Write(d)) == Success(Some(d))
  {
    assert At(Write(d), 0, Write(d));
    PlacedAt(Write(d), 0, Write(d));
    ReadWritten(d, Write(d), 0);
  }

  /** A null address is written as size 0 and read back as null. */
  lemma {:induction false} NullAddressRoundTrip(p: seq<Item>, pos: nat)
    requires At(p, pos, AddressItems(None))
    ensures ReadAddress(p, pos) == Success((None, pos + 1))
  {
    AtIndex(p, pos, AddressItems(None), 0);
  }

  /** An IPv4-mapped IPv6 address comes back as the IPv4 address it holds. */
  lemma {:induction false} MappedAddressShrinks()
    ensures var a: seq<JByte> := [0, 0, 0, 0, 0, 0, 0, 0, 0, 0, -1, -1, 10, 0, 0, 1];
            ReadAddress(AddressItems(Some(a)), 0) == Success((Some([10, 0, 0, 1]), 2))
  {
    var a: seq<JByte> := [0, 0, 0, 0, 0, 0, 0, 0, 0, 0, -1, -1, 10, 0, 0, 1];
    assert IsMappedV4(a);
    assert a[12..] == [10, 0, 0, 1];
  }
}

=== FILE: notification_order.dfy ===
/** The notification listener sample's comparator: notifications sort by the
    position of their key in the order the system reports, through a lazily
    filled cache from key to position. A notification is represented by its
    key; `None` is a null notification. */
module NotificationOrder {
  import opened Wrappers

  const NullArgument := "IllegalArgumentException: passed null to the Comparator"

  datatype Helper = Helper(orderedKeys: seq<string>, cache: map<string, int>)

  /** The position map `fillCache` builds: a key repeated in the order keeps
      its last position. */
  function Ranks(keys: seq<string>): map<string, int>
    decreases |keys|
  {
    if keys == [] then map[]
    else Ranks(keys[..|keys| - 1])[keys[|keys| - 1] := |keys| - 1]
  }

  /** `cache` maps exactly the keys of `keys`, each to its last position. */
  ghost predicate IsRanking(cache: map<string, int>, keys: seq<string>) {
    (forall k :: k in cache <==> k in keys)
    && forall k :: k in cache ==>
         0 <= cache[k] < |keys| && keys[cache[k]] == k
         && forall j :: cache[k] < j < |keys| ==> keys[j] != k
  }

  /** The cache is empty or agrees with the current order. */
  ghost predicate Valid(h: Helper) {
    h.cache == map[] || IsRanking(h.cache, h.orderedKeys)
  }

  lemma {:induction false} RanksMeaning(keys: seq<string>)
    ensures IsRanking(Ranks(keys), keys)
    decreases |keys|
  {
    if keys != [] {
      var n := |keys| - 1;
      var init := keys[..n];
      RanksMeaning(init);
      forall k ensures k in Ranks(keys) <==> k in keys {
        assert keys == init + [keys[n]];
      }
      forall k | k in Ranks(keys)
        ensures 0 <= Ranks(keys)[k] < |keys| && keys[Ranks(keys)[k]] == k
        ensures forall j :: Ranks(keys)[k] < j < |keys| ==> keys[j] != k
      {
        if k != keys[n] {
          assert Ranks(keys)[k] == Ranks(init)[k];
          assert forall j :: Ranks(init)[k] < j < n ==> keys[j] == init[j];
        }
      }
    }
  }

  /** The constructor: nothing cached yet. */
  function New(order: seq<string>): (r: Helper)
    ensures Valid(r) && r.orderedKeys == order && r.cache == map[]
  {
    Helper(order, map[])
  }

  /** The cache after the `isEmpty` check that opens `getIndex` and
      `compare`. */
  function Filled(h: Helper): (r: Helper)
    requires Valid(h)
    ensures Valid(r) && r.orderedKeys == h.orderedKeys
    ensures IsRanking(r.cache, h.orderedKeys)
  {
    RanksMeaning(h.orderedKeys);
    if h.cache == map[] then h.(cache := Ranks(h.orderedKeys)) else h
  }

  function Lookup(cache: map<string, int>, key: string): Option<int> {
    if key in cache then Some(cache[key]) else None
  }

  /** `getIndex`: the last position of `key` in the order, or -1. */
  function GetIndex(h: Helper, key: string): (r: (int, Helper))
    requires Valid(h)
    ensures Valid(r.1) && r.1.orderedKeys == h.orderedKeys
    ensures r.0 == -1 <==> key !in h.orderedKeys
    ensures r.0 != -1 ==>
      0 <= r.0 < |h.orderedKeys| && h.orderedKeys[r.0] == key
      && forall j :: r.0 < j < |h.orderedKeys| ==> h.orderedKeys[j] != key
  {
    var f := Filled(h);
    (Lookup(f.cache, key).GetOr(-1), f)
  }

  /** `updateKeyOrder`: the new order, with the cache dropped. */
  function UpdateKeyOrder(h: Helper, order: seq<string>): (r: Helper)
    ensures Valid(r) && r.orderedKeys == order
  {
    Helper(order, map[])
  }

  /** `Integer.compare`. */
  function IntCompare(x: int, y: int): (r: int)
    ensures r < 0 <==> x < y
    ensures r == 0 <==> x == y
    ensures -1 <= r <= 1
  {
    if x < y then -1 else if x == y then 0 else 1
  }

  // ---------------------------------------------------------------------------
  // The comparison on the two looked-up positions.

  /** The comparison as the source has it: the first test reads the right
      position twice, and the `-1` test cannot hold, since no position is
      negative. */
  function CompareRanksAsWritten(l: Option<int>, r: Option<int>): int {
    if r.None? && r.None? then 0
    else if l.None? then 1
    else if r.value == -1 then -1
    else IntCompare(l.value, r.value)
  }

  /** The intended comparison: known keys by position, and before every
      unknown key. */
  function CompareRanks(l: Option<int>, r: Option<int>): int {
    if l.None? && r.None? then 0
    else if l.None? then 1
    else if r.None? then -1
    else IntCompare(l.value, r.value)
  }

  /** A known key compared with an unknown one is "equal", but the reverse
      comparison puts the unknown one last: the comparator contract of
      `sgn(compare(a, b)) == -sgn(compare(b, a))` fails. */
  lemma {:induction false} AsWrittenNotAntisymmetric()
    ensures CompareRanksAsWritten(Some(0), None) == 0
    ensures CompareRanksAsWritten(None, Some(0)) == 1
  {
  }

  function Sign(x: int): int {
    if x < 0 then -1 else if x == 0 then 0 else 1
  }

  /** The intended comparison is antisymmetric. */
  lemma {:induction false} CompareRanksAntisymmetric(l: Option<int>, r: Option<int>)
    ensures Sign(CompareRanks(l, r)) == -Sign(CompareRanks(r, l))
  {
  }

  /** The intended comparison is transitive. */
  lemma {:induction false} CompareRanksTransitive(a: Option<int>, b: Option<int>, c: Option<int>)
    requires CompareRanks(a, b) <= 0 && CompareRanks(b, c) <= 0
    ensures CompareRanks(a, c) <= 0
  {
  }

  /** Unknown keys sort after known ones. */
  lemma {:induction false} UnknownLast(known: int, unknown: Option<int>)
    requires unknown.None?
    ensures CompareRanks(Some(known), unknown) < 0 && CompareRanks(unknown, Some(known)) > 0
  {
  }

  // ---------------------------------------------------------------------------

  /** `compare` with the intended comparison: the cache is filled first, then
      a null argument throws. */
  function Compare(h: Helper, lhs: Option<string>, rhs: Option<string>): (r: (Result<int, string>, Helper))
    requires Valid(h)
    ensures Valid(r.1) && r.1.orderedKeys == h.orderedKeys
    ensures r.0.Failure? <==> lhs.None? || rhs.None?
    ensures r.0.Success? && lhs.value in h.orderedKeys && rhs.value !in h.orderedKeys ==> r.0.value < 0
    ensures r.0.Success? && lhs.value !in h.orderedKeys && rhs.value !in h.orderedKeys ==> r.0.value == 0
    ensures r.0.Success? && lhs.value !in h.orderedKeys && rhs.value in h.orderedKeys ==> r.0.value > 0
  {
    var f := Filled(h);
    if lhs.None? || rhs.None? then (Failure(NullArgument), f)
    else (Success(CompareRanks(Lookup(f.cache, lhs.value), Lookup(f.cache, rhs.value))), f)
  }

  /** `compare` as the source has it. */
  function CompareAsWritten(h: Helper, lhs: Option<string>, rhs: Option<string>): (r: (Result<int, string>, Helper))
    requires Valid(h)
    ensures Valid(r.1) && r.1.orderedKeys == h.orderedKeys
    ensures r.0.Failure? <==> lhs.None? || rhs.None?
    ensures r.0.Success? && rhs.value !in h.orderedKeys ==> r.0.value == 0
    ensures r.0.Success? && lhs.value !in h.orderedKeys && rhs.value in h.orderedKeys ==> r.0.value == 1
  {
    var f := Filled(h);
    if lhs.None? || rhs.None? then (Failure(NullArgument), f)
    else (Success(CompareRanksAsWritten(Lookup(f.cache, lhs.value), Lookup(f.cache, rhs.value))), f)
  }

  /** Two known keys compare by their last positions in the order. */
  lemma {:induction false} KnownByPosition(h: Helper, a: string, b: string)
    requires Valid(h) && a in h.orderedKeys && b in h.orderedKeys
    ensures var (ia, _) := GetIndex(h, a);
      var (ib, _) := GetIndex(h, b);
      Compare(h, Some(a), Some(b)).0 == Success(IntCompare(ia, ib))
  {
  }

  /** After `updateKeyOrder` the positions are those of the new order,
      whatever the cache held before. */
  lemma {:induction false} UpdateThenIndex(h: Helper, order: seq<string>, i: int)
    requires 0 <= i < |order| && forall j :: i < j < |order| ==> order[j] != order[i]
    ensures GetIndex(UpdateKeyOrder(h, order), order[i]).0 == i
  {
    var (r, _) := GetIndex(UpdateKeyOrder(h, order), order[i]);
    assert order[i] in order;
  }

  /** In the listener's order a notification posted but not yet ranked
      ties with every ranked one in one direction and sorts last in the
      other. */
  lemma {:induction false} AsWrittenTiesUnknown()
    ensures CompareAsWritten(New(["a"]), Some("a"), Some("b")).0 == Success(0)
    ensures CompareAsWritten(New(["a"]), Some("b"), Some("a")).0 == Success(1)
  {
    RanksMeaning(["a"]);
    assert "b" !in ["a"];
  }
}

=== FILE: package_item.dfy ===
/** A row of PixelPerfect's package picker: a package name with an optional
    application name, matched against what the user types. The icon is not
    modelled. */
module PackageItem {
  import opened Wrappers
  import opened Text

  const NullPointer := "NullPointerException"

  datatype PackageItem = PackageItem(packageName: Option<string>, appName: Option<string>, normalizedAppName: Option<string>)

  /** `getNormalizedString`: null stays null; otherwise the text is trimmed
      and lower-cased. */
  function Normalized(input: Option<string>): (r: Option<string>)
    ensures r.None? <==> input.None?
    ensures r.Some? ==> |r.value| <= |input.value|
    ensures r.Some? ==> forall i :: 0 <= i < |r.value| ==> !('A' <= r.value[i] <= 'Z')
    ensures r.Some? && r.value != [] ==> !IsJavaTrimmed(r.value[0]) && !IsJavaTrimmed(r.value[|r.value| - 1])
    // the result is the lower-cased run of the input between its leading and
    // trailing trimmed characters
    ensures r.Some? ==>
      var s, a := input.value, LeadingCount(input.value, IsJavaTrimmed);
      a + |r.value| <= |s|
      && (forall i :: 0 <= i < |r.value| ==> r.value[i] == LowerChar(s[a + i]))
      && forall i :: a + |r.value| <= i < |s| ==> IsJavaTrimmed(s[i])
  {
    match input
    case None => None
    case Some(s) =>
      var a := LeadingCount(s, IsJavaTrimmed);
      var rest := s[a..];
      var t := TrailingCount(rest, IsJavaTrimmed);
      assert JavaTrim(s) == rest[..|rest| - t];
      assert forall i :: a + |rest| - t <= i < |s| ==> s[i] == rest[i - a];
      Some(Lower(JavaTrim(s)))
  }

  /** The constructor: the normalized application name is computed once. */
  function New(packageName: Option<string>, appName: Option<string>): (r: PackageItem)
    ensures r.packageName == packageName && r.appName == appName
    ensures r.normalizedAppName.None? <==> appName.None?
  {
    PackageItem(packageName, appName, Normalized(appName))
  }

  /** `toString`: what the autocomplete shows. */
  function ToString(item: PackageItem): (r: Option<string>)
    ensures r == item.packageName
  {
    item.packageName
  }

  /** `matches`: the input occurs in the package name or in the normalized
      application name. A null input, or a null package name, throws. */
  function Matches(item: PackageItem, input: Option<string>): (r: Result<bool, string>)
    ensures r.Failure? <==> input.None? || item.packageName.None?
    ensures item.normalizedAppName.None? && r.Success? ==> r.value == Contains(item.packageName.value, input.value)
    ensures item.normalizedAppName.Some? && r.Success? ==>
      (r.value <==> Contains(item.packageName.value, input.value) || Contains(item.normalizedAppName.value, input.value))
  {
    if input.None? || item.packageName.None? then Failure(NullPointer)
    else Success(Contains(item.packageName.value, input.value)
                 || (item.normalizedAppName.Some? && Contains(item.normalizedAppName.value, input.value)))
  }

  // ---------------------------------------------------------------------------

  lemma {:induction false} LeadingNone(s: string, drop: char -> bool)
    requires s == [] || !drop(s[0])
    ensures LeadingCount(s, drop) == 0
  {
  }

  lemma {:induction false} TrailingNone(s: string, drop: char -> bool)
    requires s == [] || !drop(s[|s| - 1])
    ensures TrailingCount(s, drop) == 0
  {
  }

  lemma {:induction false} LowerIdempotent(s: string)
    ensures Lower(Lower(s)) == Lower(s)
  {
    assert forall i :: 0 <= i < |s| ==> LowerChar(LowerChar(s[i])) == LowerChar(s[i]);
  }

  /** Normalizing a normalized string changes nothing: the picker may
      normalize the typed text before matching without losing anything. */
  lemma {:induction false} NormalizedIdempotent(input: Option<string>)
    ensures Normalized(Normalized(input)) == Normalized(input)
  {
    if input.Some? {
      var n := Normalized(input).value;
      LeadingNone(n, IsJavaTrimmed);
      TrailingNone(n, IsJavaTrimmed);
      assert TrimStart(n, IsJavaTrimmed) == n;
      assert JavaTrim(n) == n;
      LowerIdempotent(JavaTrim(input.value));
    }
  }

  /** Lower-casing keeps an occurrence at its position. */
  lemma {:induction false} LowerKeepsOccurrence(s: string, sub: string, i: int)
    requires OccursAt(s, sub, i)
    ensures OccursAt(Lower(s), Lower(sub), i)
  {
    assert forall j :: 0 <= j < |sub| ==> Lower(s)[i + j] == LowerChar(s[i + j]) && s[i + j] == sub[j];
    assert Lower(s)[i..i + |sub|] == Lower(sub);
  }

  /** Typing any part of the trimmed application name, in any letter case,
      and normalizing it, matches the item. */
  lemma {:induction false} AppNamePartMatches(packageName: string, appName: string, sub: string, i: int)
    requires OccursAt(JavaTrim(appName), sub, i)
    ensures Matches(New(Some(packageName), Some(appName)), Some(Lower(sub))) == Success(true)
  {
    LowerKeepsOccurrence(JavaTrim(appName), sub, i);
    ContainsAt(Lower(JavaTrim(appName)), Lower(sub), i);
  }

  /** The typed text `t` lines up at position `i` of `s` once `s` is
      lower-cased. */
  predicate FoldedAt(s: string, t: string, i: int) {
    0 <= i <= |s| - |t| && forall j :: 0 <= j < |t| ==> LowerChar(s[i + j]) == t[j]
  }

  lemma {:induction false} FoldedAtMeans(s: string, t: string, i: int)
    ensures OccursAt(Lower(s), t, i) <==> FoldedAt(s, t, i)
  {
    if 0 <= i <= |s| - |t| {
      var w := Lower(s)[i..i + |t|];
      assert forall j :: 0 <= j < |t| ==> w[j] == LowerChar(s[i + j]);
      if FoldedAt(s, t, i) {
        assert w == t;
      }
    }
  }

  /** An item built from a package name and an application name matches the
      typed text exactly when the text occurs in the package name, or lines
      up, character by character, with the lower-cased trimmed application
      name. */
  lemma {:induction false} MatchesFolded(p: string, appName: string, t: string)
    ensures Matches(New(Some(p), Some(appName)), Some(t))
         == Success(Contains(p, t) || exists i :: FoldedAt(JavaTrim(appName), t, i))
  {
    var s := JavaTrim(appName);
    forall i ensures OccursAt(Lower(s), t, i) <==> FoldedAt(s, t, i) {
      FoldedAtMeans(s, t, i);
    }
  }

  /** The text the autocomplete shows for an item matches that item. */
  lemma {:induction false} ShownTextMatches(item: PackageItem)
    requires ToString(item).Some?
    ensures Matches(item, ToString(item)) == Success(true)
  {
    var p := item.packageName.value;
    assert p[0..|p|] == p;
    ContainsAt(p, p, 0);
  }

  /** The empty input matches every item with a package name. */
  lemma {:induction false} EmptyInputMatches(item: PackageItem)
    requires item.packageName.Some?
    ensures Matches(item, Some("")) == Success(true)
  {
    ContainsAt(item.packageName.value, "", 0);
  }
}

=== FILE: parcel.dfy ===
/** An Android `Parcel` as the sequence of values written into it, and the
    reads the modelled classes use. A read at the wrong kind of value, or past
    the end, is a `Failure`. */
module Parcel {
  import opened Wrappers
  import opened Bytes
  import opened AndroidTypes

  datatype Item =
    | IntItem(value: int)
    | StringItem(text: Option<string>)
    /** `writeByteArray`: the array with its length (-1 for null). */
    | BytesItem(bytes: Option<seq<JByte>>)
    | BundleItem(bundle: Bundle)

  const BadArrayLengths := "RuntimeException: bad array lengths"
  const Unreadable := "parcel read mismatch"

  predicate IsInt32(x: int) {
    -0x8000_0000 <= x < 0x8000_0000
  }

  /** `readInt`: the value and the position after it. */
  function ReadInt(p: seq<Item>, pos: nat): (r: Result<(int, nat), string>)
    ensures r.Success? <==> pos < |p| && p[pos].IntItem?
    ensures r.Success? ==> p[pos] == IntItem(r.value.0) && r.value.1 == pos + 1
  {
    if pos < |p| && p[pos].IntItem? then Success((p[pos].value, pos + 1)) else Failure(Unreadable)
  }

  /** `readString`. */
  function ReadString(p: seq<Item>, pos: nat): (r: Result<(Option<string>, nat), string>)
    ensures r.Success? <==> pos < |p| && p[pos].StringItem?
    ensures r.Success? ==> p[pos] == StringItem(r.value.0) && r.value.1 == pos + 1
  {
    if pos < |p| && p[pos].StringItem? then Success((p[pos].text, pos + 1)) else Failure(Unreadable)
  }

  /** `readBundle` of a bundle written by `writeBundle`. */
  function ReadBundle(p: seq<Item>, pos: nat): (r: Result<(Bundle, nat), string>)
    ensures r.Success? <==> pos < |p| && p[pos].BundleItem?
    ensures r.Success? ==> p[pos] == BundleItem(r.value.0) && r.value.1 == pos + 1
  {
    if pos < |p| && p[pos].BundleItem? then Success((p[pos].bundle, pos + 1)) else Failure(Unreadable)
  }

  /** `readByteArray(new byte[len])`: the stored array must have exactly `len`
      bytes, otherwise the read throws. */
  function ReadByteArray(p: seq<Item>, pos: nat, len: int): (r: Result<(seq<JByte>, nat), string>)
    ensures r.Success? <==> pos < |p| && p[pos].BytesItem? && p[pos].bytes.Some? && |p[pos].bytes.value| == len
    ensures r.Success? ==> p[pos] == BytesItem(Some(r.value.0)) && r.value.1 == pos + 1
    ensures pos < |p| && p[pos].BytesItem? && r.Failure? ==> r.error == BadArrayLengths
  {
    if pos < |p| && p[pos].BytesItem? then
      if p[pos].bytes.Some? && |p[pos].bytes.value| == len then Success((p[pos].bytes.value, pos + 1))
      else Failure(BadArrayLengths)
    else Failure(Unreadable)
  }
}

=== FILE: platform_client.dfy ===
/** PixelPerfect's client of the platform screenshot service: the binding
    state, the connection timestamps and the throttle on reconnecting. The
    clock is passed in as the current time `now`; binding is asynchronous,
    so its completion arrives through `OnConnected` and `OnDisconnected`. */
module PlatformClient {
  import opened Wrappers

  const NotConnected := "IllegalStateException: Client not connected to platform service."

  datatype Client = Client(
    /** `mPlatformService != null`. */
    bound: bool,
    /** `mConnection != null`. */
    hasConnection: bool,
    lastAttempt: int,
    lastConnect: int,
    lastDisconnect: int,
    /** The `min_time_ms_between_platform_service_reconnect` resource. */
    minReconnect: int)

  /** `connectAndBindPlatformService`: records the attempt time; the bind
      request itself does not change the state. */
  function ConnectAndBind(c: Client, now: int): (r: Client)
    ensures r.lastAttempt == now && r.hasConnection
    ensures r.(lastAttempt := c.lastAttempt, hasConnection := c.hasConnection) == c
  {
    c.(hasConnection := true, lastAttempt := now)
  }

  /** The constructor: no service yet, no connect or disconnect seen, and
      a first connection attempt at `now`. */
  function New(minReconnect: int, now: int): (r: Client)
    ensures !r.bound && r.hasConnection
    ensures r.lastAttempt == now && r.lastConnect == 0 && r.lastDisconnect == 0
    ensures r.minReconnect == minReconnect
  {
    ConnectAndBind(Client(false, false, 0, 0, 0, minReconnect), now)
  }

  /** `onServiceConnected`. */
  function OnConnected(c: Client, now: int): (r: Client)
    ensures r.bound && r.lastConnect == now
    ensures r.(bound := c.bound, lastConnect := c.lastConnect) == c
  {
    c.(bound := true, lastConnect := now)
  }

  /** `onServiceDisconnected`. */
  function OnDisconnected(c: Client, now: int): (r: Client)
    ensures !r.bound && r.lastDisconnect == now
    ensures r.(bound := c.bound, lastDisconnect := c.lastDisconnect) == c
  {
    c.(bound := false, lastDisconnect := now)
  }

  /** `isThrottledConnectionRetryOkay`: a reconnect is allowed once the
      minimum time has passed since the last disconnect, when there was one,
      and since the last attempt. */
  function RetryOkay(c: Client, now: int): (r: bool)
    ensures c.lastDisconnect > 0 && now - c.lastDisconnect < c.minReconnect ==> !r
    ensures now - c.lastAttempt < c.minReconnect ==> !r
    ensures !r ==> (c.lastDisconnect > 0 && now - c.lastDisconnect < c.minReconnect)
                   || now - c.lastAttempt < c.minReconnect
  {
    if c.lastDisconnect > 0 && now - c.lastDisconnect < c.minReconnect then false
    else if now - c.lastAttempt < c.minReconnect then false
    else true
  }

  /** `getPlatformServiceIfAvailable`: the bound service, or a throw; when
      the throttle allows, a reconnect is started before throwing. */
  function GetService(c: Client, now: int): (r: (Result<(), string>, Client))
    ensures c.bound <==> r.0.Success?
    ensures c.bound ==> r.1 == c
    ensures !c.bound && RetryOkay(c, now) ==> r.1 == ConnectAndBind(c, now)
    ensures !c.bound && !RetryOkay(c, now) ==> r.1 == c
  {
    if c.bound then (Success(()), c)
    else if RetryOkay(c, now) then (Failure(NotConnected), ConnectAndBind(c, now))
    else (Failure(NotConnected), c)
  }

  /** `obtainScreenshot`: the screenshot in the service's reply, which may be
      null; without a bound service the call throws. */
  function ObtainScreenshot<S>(c: Client, now: int, reply: Option<S>): (r: (Result<Option<S>, string>, Client))
    ensures r.0.Success? <==> c.bound
    ensures r.0.Success? ==> r.0.value == reply
    ensures r.1 == GetService(c, now).1
  {
    var (service, c') := GetService(c, now);
    if service.Failure? then (Failure(service.error), c') else (Success(reply), c')
  }

  // ---------------------------------------------------------------------------

  /** Once allowed, a retry stays allowed as time goes on. */
  lemma {:induction false} RetryStaysOkay(c: Client, now: int, later: int)
    requires RetryOkay(c, now) && now <= later
    ensures RetryOkay(c, later)
  {
  }

  /** A reconnect attempt throttles the next one: with a positive minimum,
      a second call before the minimum has passed throws without starting
      another attempt. */
  lemma {:induction false} AttemptThrottles(c: Client, now: int, later: int)
    requires !c.bound && c.minReconnect > 0 && RetryOkay(c, now)
    requires now <= later < now + c.minReconnect
    ensures var c1 := GetService(c, now).1;
      c1.lastAttempt == now && GetService(c1, later) == (Failure(NotConnected), c1)
  {
  }

  /** Right after a disconnect, no reconnect starts until the minimum time
      has passed, whenever the previous attempt was. */
  lemma {:induction false} DisconnectThrottles(c: Client, now: int, later: int)
    requires now > 0 && now <= later < now + c.minReconnect
    ensures var d := OnDisconnected(c, now);
      GetService(d, later) == (Failure(NotConnected), d)
  {
  }

  /** Without a bound service every call throws, whatever the time. */
  lemma {:induction false} UnboundAlwaysThrows(c: Client, now: int)
    requires !c.bound
    ensures GetService(c, now).0 == Failure(NotConnected)
  {
  }
}

=== FILE: posix_fs.dfy ===
/** The part of a POSIX filesystem the workspace generator touches. A
    filesystem maps normalized absolute paths (component lists below the
    root) to nodes; the root is always a directory and is not stored. A
    symbolic link is followed one level, and links in the middle of a path
    are not followed. */
module PosixFs {
  import opened Wrappers
  import opened Text
  import opened PyPath

  datatype Node = Dir | File(contents: string) | Symlink(target: string)

  type Fs = map<seq<string>, Node>

  const OSError := "OSError"
  const IOError := "IOError"

  function Parent(c: seq<string>): seq<string>
    requires c != []
  {
    c[..|c| - 1]
  }

  /** Where a link at `at` with text `target` points: an absolute target
      from the root, a relative one from the link's directory. */
  function LinkTarget(at: seq<string>, target: string): seq<string>
    requires at != []
  {
    Resolve(if IsAbs(target) then [] else Parent(at), SplitAll(target, Sep))
  }

  /** The node stored at `c`, without following a link there. */
  function Lookup(fs: Fs, c: seq<string>): Option<Node> {
    if c == [] then Some(Dir) else if c in fs then Some(fs[c]) else None
  }

  /** `stat`: the node at `c`, through a link at `c`. */
  function Stat(fs: Fs, c: seq<string>): (r: Option<Node>)
    ensures r.Some? ==> !r.value.Symlink?
    ensures c == [] ==> r == Some(Dir)
    ensures c != [] && c !in fs ==> r.None?
    ensures c != [] && c in fs && !fs[c].Symlink? ==> r == Some(fs[c])
  {
    match Lookup(fs, c)
    case None => None
    case Some(Symlink(t)) =>
      (match Lookup(fs, LinkTarget(c, t))
       case Some(Symlink(_)) => None
       case other => other)
    case other => other
  }

  /** `os.path.exists`: false for a dangling link. */
  predicate Exists(fs: Fs, c: seq<string>) {
    Stat(fs, c).Some?
  }

  /** `os.path.isdir`. */
  predicate IsDir(fs: Fs, c: seq<string>) {
    Stat(fs, c) == Some(Dir)
  }

  /** `os.path.isfile`. */
  predicate IsFile(fs: Fs, c: seq<string>) {
    Stat(fs, c).Some? && Stat(fs, c).value.File?
  }

  /** `os.path.islink`. */
  predicate IsLink(fs: Fs, c: seq<string>) {
    c != [] && c in fs && fs[c].Symlink?
  }

  /** A directory stored at `c` itself, not reached through a link. */
  predicate DirAt(fs: Fs, c: seq<string>) {
    Lookup(fs, c) == Some(Dir)
  }

  // ---------------------------------------------------------------------------
  // Operations.

  /** `os.unlink`: removes anything but a directory. */
  function Unlink(fs: Fs, c: seq<string>): (r: Result<Fs, string>)
    ensures r.Success? <==> c != [] && c in fs && fs[c] != Dir
    ensures r.Failure? ==> r.error == OSError
    ensures r.Success? ==> c !in r.value
    ensures r.Success? ==> forall k :: k != c ==> (k in r.value <==> k in fs)
    ensures r.Success? ==> forall k :: k != c && k in fs ==> r.value[k] == fs[k]
  {
    if c == [] || c !in fs || fs[c] == Dir then Failure(OSError) else Success(fs - {c})
  }

  /** The prefixes of `c` below the root, `c` included. */
  function Prefixes(c: seq<string>): set<seq<string>> {
    set i | 1 <= i <= |c| :: c[..i]
  }

  /** Some directory on the way to `c` is something else. */
  predicate Blocked(fs: Fs, c: seq<string>) {
    exists i :: 1 <= i < |c| && c[..i] in fs && fs[c[..i]] != Dir
  }

  /** `os.makedirs`: creates `c` and every missing directory above it; it
      raises when `c` is already there, even as a dangling link, or when
      something on the way is not a directory. */
  function MakeDirs(fs: Fs, c: seq<string>): (r: Result<Fs, string>)
    ensures r.Success? <==> c != [] && c !in fs && !Blocked(fs, c)
    ensures r.Failure? ==> r.error == OSError
    ensures r.Success? ==> IsDir(r.value, c) && forall i :: 0 <= i <= |c| ==> DirAt(r.value, c[..i])
    ensures r.Success? ==> forall k :: k in fs ==> k in r.value && r.value[k] == fs[k]
    ensures r.Success? ==> forall k :: k in r.value && k !in fs ==> k in Prefixes(c)
  {
    if c == [] || c in fs || Blocked(fs, c) then Failure(OSError)
    else
      var made := map k | k in Prefixes(c) :: Dir;
      var r := fs + made;
      assert forall i :: 1 <= i <= |c| ==> c[..i] in Prefixes(c);
      assert forall i :: 1 <= i < |c| ==> c[..i] !in fs || fs[c[..i]] == Dir;
      assert c[..|c|] == c;
      Success(r)
  }

  /** `os.symlink(target, c)`: a new link; it fails when `c` is taken or
      its directory is missing. */
  function MakeSymlink(fs: Fs, target: string, c: seq<string>): (r: Result<Fs, string>)
    ensures r.Success? <==> c != [] && c !in fs && DirAt(fs, Parent(c))
    ensures r.Success? ==> IsLink(r.value, c) && r.value[c] == Symlink(target)
    ensures r.Success? ==> forall k :: k in fs ==> k in r.value && r.value[k] == fs[k]
    ensures r.Success? ==> forall k :: k in r.value ==> k in fs || k == c
  {
    if c == [] || c in fs || !DirAt(fs, Parent(c)) then Failure(OSError)
    else Success(fs[c := Symlink(target)])
  }

  /** Where `open(c, 'w')` writes: `c` itself, or the target of a link at
      `c`. */
  function WriteLocation(fs: Fs, c: seq<string>): seq<string> {
    if c != [] && c in fs && fs[c].Symlink? then LinkTarget(c, fs[c].target) else c
  }

  /** Whether `open(c, 'w')` succeeds at the location it writes: an
      existing file, or a new name in an existing directory. */
  predicate Writable(fs: Fs, w: seq<string>) {
    w != [] && (if w in fs then fs[w].File? else DirAt(fs, Parent(w)))
  }

  /** `open(c, 'w').write(contents)`: the file, or the file a link at `c`
      points to, holds `contents` afterwards. */
  function WriteFile(fs: Fs, c: seq<string>, contents: string): (r: Result<Fs, string>)
    ensures r.Success? <==> Writable(fs, WriteLocation(fs, c))
    ensures r.Failure? ==> r.error == IOError
    ensures r.Success? ==> Stat(r.value, c) == Some(File(contents))
    ensures r.Success? ==> forall k :: k in fs && k != WriteLocation(fs, c) ==> k in r.value && r.value[k] == fs[k]
  {
    var w := WriteLocation(fs, c);
    if !Writable(fs, w) then Failure(IOError)
    else Success(fs[w := File(contents)])
  }

  /** Reading a file: its contents, through a link. */
  function ReadFile(fs: Fs, c: seq<string>): (r: Option<string>)
    ensures r.Some? <==> IsFile(fs, c)
    ensures r.Some? ==> Stat(fs, c) == Some(File(r.value))
  {
    match Stat(fs, c)
    case Some(File(t)) => Some(t)
    case _ => None
  }

  // ---------------------------------------------------------------------------
  // Facts.

  /** `fs2` keeps every node of `fs`, and may hold more. */
  ghost predicate Extends(fs2: Fs, fs: Fs) {
    forall k :: k in fs ==> k in fs2 && fs2[k] == fs[k]
  }

  /** Adding nodes does not change what an existing path shows. */
  lemma {:induction false} StatKept(fs: Fs, fs2: Fs, c: seq<string>)
    requires Extends(fs2, fs) && Exists(fs, c)
    ensures Stat(fs2, c) == Stat(fs, c)
  {
    if c != [] && fs[c].Symlink? {
      var t := LinkTarget(c, fs[c].target);
      assert Lookup(fs, t).Some?;
      assert Lookup(fs2, t) == Lookup(fs, t);
    }
  }
}

=== FILE: print_pages.dfy ===
/** The sample print adapter's `onWrite`: the pages of the document that lie
    in a requested range are drawn in ascending order, and the pages drawn are
    reported back as page ranges. */
module PrintPages {
  import opened Wrappers

  /** `android.print.PageRange`: the pages from `start` to `end`, both
      included. */
  datatype PageRange = PageRange(start: int, end: int)

  /** The document's page count. */
  const PageCount := 5

  /** Some range of `ranges` holds `page`. */
  predicate Covers(ranges: seq<PageRange>, page: int) {
    exists k :: 0 <= k < |ranges| && ranges[k].start <= page <= ranges[k].end
  }

  predicate Increasing(w: seq<int>) {
    forall i, j :: 0 <= i < j < |w| ==> w[i] < w[j]
  }

  /** `containsPage`, with its loop over the ranges. */
  method ContainsPage(ranges: seq<PageRange>, page: int) returns (r: bool)
    ensures r <==> Covers(ranges, page)
  {
    for i := 0 to |ranges|
      invariant forall k :: 0 <= k < i ==> !(ranges[k].start <= page <= ranges[k].end)
    {
      if ranges[i].start <= page && ranges[i].end >= page {
        return true;
      }
    }
    return false;
  }

  /** How many of the document's pages the drawing loop gets to. The loop
      tests `isCancelled()` before each page: `cancelledAt == Some(c)` says
      the test first holds before page `c`, so a `c` at or past the page
      count is a cancellation that arrives after the last page was drawn;
      `None` is a task that is never cancelled. */
  function DrawLimit(cancelledAt: Option<nat>): (n: nat)
    ensures n <= PageCount
    ensures cancelledAt.None? ==> n == PageCount
    ensures cancelledAt.Some? ==> n == PageCount || n == cancelledAt.value
    ensures cancelledAt.Some? ==> n <= cancelledAt.value
  {
    if cancelledAt.Some? && cancelledAt.value < PageCount then cancelledAt.value else PageCount
  }

  /** The drawing loop of `onWrite`: each page of the document, in order, is
      written when a requested range holds it, until the task is cancelled. */
  method SelectPages(ranges: seq<PageRange>, cancelledAt: Option<nat>) returns (written: seq<int>)
    ensures Increasing(written)
    ensures forall p :: p in written <==> 0 <= p < DrawLimit(cancelledAt) && Covers(ranges, p)
  {
    written := [];
    for i := 0 to PageCount
      invariant Increasing(written)
      invariant forall k :: 0 <= k < |written| ==> 0 <= written[k] < i
      invariant forall p :: p in written <==> 0 <= p < i && Covers(ranges, p)
      invariant cancelledAt.Some? ==> i <= cancelledAt.value
    {
      if cancelledAt == Some(i) {
        return;
      }
      var c := ContainsPage(ranges, i);
      if c {
        written := written + [i];
      }
    }
  }

  // ---------------------------------------------------------------------------
  // Reporting the written pages as ranges.

  /** The reporting loop as the source has it. The inner loop reads the page
      that breaks a run before it tests the gap, so that page ends the
      current range, and the outer loop's increment then skips the page
      after it. */
  function CoalesceAsWritten(w: seq<int>): seq<PageRange> {
    OuterAsWritten(w, 0)
  }

  function OuterAsWritten(w: seq<int>, i: nat): seq<PageRange>
    decreases |w| - i
  {
    if i >= |w| then []
    else
      var start := w[i];
      var (end, j) := InnerAsWritten(w, i, start, start);
      [PageRange(start, end)] + OuterAsWritten(w, j + 1)
  }

  /** The inner `while`: returns the range end and the index it stopped at. */
  function InnerAsWritten(w: seq<int>, i: nat, oldEnd: int, end: int): (r: (int, nat))
    ensures r.1 >= i
    decreases |w| - i
  {
    if i < |w| && end - oldEnd <= 1 then InnerAsWritten(w, i + 1, end, w[i]) else (end, i)
  }

  /** Two separate runs come out as one range. */
  lemma {:induction false} AsWrittenJoinsRuns()
    ensures CoalesceAsWritten([0, 1, 3, 4]) == [PageRange(0, 3)]
  {
    assert InnerAsWritten([0, 1, 3, 4], 3, 1, 3) == (3, 3);
    assert InnerAsWritten([0, 1, 3, 4], 0, 0, 0) == (3, 3);
  }

  /** Requesting pages 0 and 2 reports page 1, which was never written. */
  lemma {:induction false} AsWrittenReportsUnwritten()
    ensures CoalesceAsWritten([0, 2]) == [PageRange(0, 2)]
    ensures Covers(CoalesceAsWritten([0, 2]), 1) && 1 !in [0, 2]
  {
    assert InnerAsWritten([0, 2], 0, 0, 0) == (2, 2);
    assert CoalesceAsWritten([0, 2])[0] == PageRange(0, 2);
  }

  /** The intended reporting: one range per maximal run of consecutive
      written pages. */
  function Coalesce(w: seq<int>): (r: seq<PageRange>)
    ensures |r| <= |w|
    ensures w != [] ==> r != [] && r[0].start == w[0]
  {
    if w == [] then []
    else
      var rest := Coalesce(w[1..]);
      if rest != [] && rest[0].start == w[0] + 1 then [PageRange(w[0], rest[0].end)] + rest[1..]
      else [PageRange(w[0], w[0])] + rest
  }

  /** Ranges in ascending order, each non-empty, with a page missing between
      any two. */
  predicate Separated(r: seq<PageRange>) {
    (forall k :: 0 <= k < |r| ==> r[k].start <= r[k].end)
    && forall k :: 0 <= k < |r| - 1 ==> r[k].end + 1 < r[k + 1].start
  }

  lemma {:induction false} CoversCons(x: PageRange, rs: seq<PageRange>, p: int)
    ensures Covers([x] + rs, p) <==> (x.start <= p <= x.end || Covers(rs, p))
  {
    var all := [x] + rs;
    if Covers(rs, p) {
      var k :| 0 <= k < |rs| && rs[k].start <= p <= rs[k].end;
      assert all[k + 1] == rs[k];
    }
    if Covers(all, p) {
      var k :| 0 <= k < |all| && all[k].start <= p <= all[k].end;
      if k > 0 {
        assert rs[k - 1] == all[k];
      }
    }
    if x.start <= p <= x.end {
      assert all[0] == x;
    }
  }

  lemma {:induction false} InCons(w: seq<int>, p: int)
    requires w != []
    ensures p in w <==> p == w[0] || p in w[1..]
  {
    assert w == [w[0]] + w[1..];
  }

  /** Every page after the first written page is higher than it. */
  lemma {:induction false} TailAbove(w: seq<int>)
    requires Increasing(w) && w != []
    ensures Increasing(w[1..])
    ensures forall x :: x in w[1..] ==> w[0] < x
  {
    forall x | x in w[1..] ensures w[0] < x {
      var j :| 0 <= j < |w[1..]| && w[1..][j] == x;
      assert w[j + 1] == x;
    }
  }

  /** Every range of `r` begins and ends at a page of `w`. */
  predicate Within(r: seq<PageRange>, w: seq<int>) {
    forall k :: 0 <= k < |r| ==> r[k].start in w && r[k].end in w
  }

  /** Every range reported begins and ends at a written page. */
  lemma {:induction false} CoalesceInside(w: seq<int>)
    ensures Within(Coalesce(w), w)
  {
    if w != [] {
      var rest := Coalesce(w[1..]);
      var r := Coalesce(w);
      CoalesceInside(w[1..]);
      forall x | x in w[1..] ensures x in w {
        InCons(w, x);
      }
      assert w[0] in w;
      if rest != [] && rest[0].start == w[0] + 1 {
        assert r[0] == PageRange(w[0], rest[0].end);
        assert rest[0].end in w[1..];
        forall k | 0 < k < |r| ensures r[k].start in w && r[k].end in w {
          assert r[k] == rest[k];
          assert rest[k].start in w[1..] && rest[k].end in w[1..];
        }
      } else {
        assert forall k :: 0 < k < |r| ==> r[k] == rest[k - 1];
      }
    }
  }

  /** The last range reported ends at the last written page. */
  lemma {:induction false} CoalesceLast(w: seq<int>)
    ensures var r := Coalesce(w); r != [] ==> r[|r| - 1].end == w[|w| - 1]
  {
    if w != [] {
      CoalesceLast(w[1..]);
    }
  }

  /** Widening the first range downwards keeps the ranges apart. */
  lemma {:induction false} SeparatedMerge(x: int, rest: seq<PageRange>)
    requires Separated(rest) && rest != [] && x < rest[0].start
    ensures Separated([PageRange(x, rest[0].end)] + rest[1..])
  {
    var r := [PageRange(x, rest[0].end)] + rest[1..];
    assert forall k :: 0 < k < |r| ==> r[k] == rest[k];
  }

  /** A single page below the first range, with a gap, keeps the ranges
      apart. */
  lemma {:induction false} SeparatedPrepend(x: int, rest: seq<PageRange>)
    requires Separated(rest) && (rest != [] ==> x + 1 < rest[0].start)
    ensures Separated([PageRange(x, x)] + rest)
  {
    var r := [PageRange(x, x)] + rest;
    assert forall k :: 0 < k < |r| ==> r[k] == rest[k - 1];
  }

  /** The ranges reported are ascending, non-empty, and apart. */
  lemma {:induction false} CoalesceSeparated(w: seq<int>)
    requires Increasing(w)
    ensures Separated(Coalesce(w))
  {
    if w != [] {
      var rest := Coalesce(w[1..]);
      TailAbove(w);
      CoalesceSeparated(w[1..]);
      CoalesceInside(w[1..]);
      if rest != [] {
        assert rest[0].start in w[1..];
      }
      if rest != [] && rest[0].start == w[0] + 1 {
        SeparatedMerge(w[0], rest);
      } else {
        SeparatedPrepend(w[0], rest);
      }
    }
  }

  /** The ranges reported hold exactly the written pages. */
  lemma {:induction false} CoalesceCovers(w: seq<int>)
    requires Increasing(w)
    ensures forall p :: Covers(Coalesce(w), p) <==> p in w
  {
    if w != [] {
      var rest := Coalesce(w[1..]);
      CoalesceCovers(w[1..]);
      forall p ensures Covers(Coalesce(w), p) <==> p in w {
        InCons(w, p);
        if rest != [] && rest[0].start == w[0] + 1 {
          TailAbove(w);
          CoalesceSeparated(w[1..]);
          var head := PageRange(w[0], rest[0].end);
          assert rest == [rest[0]] + rest[1..];
          CoversCons(head, rest[1..], p);
          CoversCons(rest[0], rest[1..], p);
        } else {
          CoversCons(PageRange(w[0], w[0]), rest, p);
        }
      }
    }
  }

  /** Consecutive written pages give the single range from the first to the
      last. */
  lemma {:induction false} ContiguousIsOneRange(w: seq<int>)
    requires w != [] && forall i :: 0 <= i < |w| - 1 ==> w[i + 1] == w[i] + 1
    ensures Coalesce(w) == [PageRange(w[0], w[|w| - 1])]
  {
    if |w| > 1 {
      assert forall i :: 0 <= i < |w[1..]| - 1 ==> w[1..][i + 1] == w[1..][i] + 1;
      ContiguousIsOneRange(w[1..]);
    }
  }

  // ---------------------------------------------------------------------------
  // The callback of `onPostExecute`.

  /** What the write task reports through the write callback: `onPostExecute`
      reports a finished or a failed write, and `onCancelled` a cancelled
      one. */
  datatype WriteResult = WriteFinished(pages: seq<PageRange>) | WriteFailed | WriteCancelled

  /** A page of the document that some requested range holds. */
  predicate Requested(ranges: seq<PageRange>, p: int) {
    0 <= p < PageCount && Covers(ranges, p)
  }

  /** Where the reporting loop's inner `while` stops: where it began, or past
      the page that became the range end. */
  lemma {:induction false} InnerAsWrittenEnd(w: seq<int>, i: nat, oldEnd: int, end: int)
    requires i <= |w|
    ensures var r := InnerAsWritten(w, i, oldEnd, end);
      r.1 <= |w| && (r == (end, i) || (i < r.1 && r.0 == w[r.1 - 1]))
    decreases |w| - i
  {
    if i < |w| && end - oldEnd <= 1 {
      InnerAsWrittenEnd(w, i + 1, end, w[i]);
    }
  }

  /** Every range the source's loop reports from index `i` on is ordered and
      begins and ends at a written page; none is reported past the end. */
  lemma {:induction false} OuterAsWrittenInside(w: seq<int>, i: nat)
    requires Increasing(w)
    ensures var r := OuterAsWritten(w, i);
      Within(r, w) && (forall k :: 0 <= k < |r| ==> r[k].start <= r[k].end) && (r == [] <==> i >= |w|)
    decreases |w| - i
  {
    if i < |w| {
      var start := w[i];
      InnerAsWrittenEnd(w, i + 1, start, w[i]);
      var (end, j) := InnerAsWritten(w, i, start, start);
      assert InnerAsWritten(w, i, start, start) == InnerAsWritten(w, i + 1, start, w[i]);
      assert i < j <= |w| && end == w[j - 1];
      assert start <= end;
      OuterAsWrittenInside(w, j + 1);
      var rest := OuterAsWritten(w, j + 1);
      var r := OuterAsWritten(w, i);
      assert r == [PageRange(start, end)] + rest;
      assert forall k :: 0 < k < |r| ==> r[k] == rest[k - 1];
    }
  }

  /** On a run of consecutive pages the inner `while` reaches the end of the
      written pages. */
  lemma {:induction false} InnerContiguous(w: seq<int>, i: nat, oldEnd: int)
    requires 1 <= i <= |w| && forall k :: 0 <= k < |w| - 1 ==> w[k + 1] == w[k] + 1
    requires w[i - 1] - oldEnd <= 1
    ensures InnerAsWritten(w, i, oldEnd, w[i - 1]) == (w[|w| - 1], |w|)
    decreases |w| - i
  {
    if i < |w| {
      InnerContiguous(w, i + 1, w[i - 1]);
    }
  }

  /** When the written pages are consecutive, the source's loop reports what
      the intended reporting does. */
  lemma {:induction false} AsWrittenContiguousAgrees(w: seq<int>)
    requires w != [] && forall k :: 0 <= k < |w| - 1 ==> w[k + 1] == w[k] + 1
    ensures CoalesceAsWritten(w) == Coalesce(w)
  {
    InnerContiguous(w, 1, w[0]);
    assert InnerAsWritten(w, 0, w[0], w[0]) == (w[|w| - 1], |w|);
    assert OuterAsWritten(w, |w| + 1) == [];
    ContiguousIsOneRange(w);
  }

  /** `onWrite` as the source reports. A cancelled task reports
      `onWriteCancelled` from `onCancelled`, and `onPostExecute` never runs;
      otherwise a failed write of the document reports `onWriteFailed`, and
      a finished one reports the drawn pages through the source's reporting
      loop. Each range reported is ordered and begins and ends at a
      requested page, and none is reported exactly when no requested page
      lies in the document. */
  method OnPostExecute(ranges: seq<PageRange>, cancelledAt: Option<nat>, writeSucceeded: bool) returns (r: WriteResult)
    ensures r.WriteCancelled? <==> cancelledAt.Some?
    ensures r.WriteFailed? <==> cancelledAt.None? && !writeSucceeded
    ensures r.WriteFinished? ==> (r.pages == [] <==> forall p :: 0 <= p < PageCount ==> !Covers(ranges, p))
    ensures r.WriteFinished? ==> forall k :: 0 <= k < |r.pages| ==>
      r.pages[k].start <= r.pages[k].end && Requested(ranges, r.pages[k].start) && Requested(ranges, r.pages[k].end)
  {
    var written := SelectPages(ranges, cancelledAt);
    if cancelledAt.Some? {
      return WriteCancelled;
    }
    if !writeSucceeded {
      return WriteFailed;
    }
    assert DrawLimit(cancelledAt) == PageCount;
    OuterAsWrittenInside(written, 0);
    if written != [] {
      assert written[0] in written;
    }
    r := WriteFinished(CoalesceAsWritten(written));
  }

  /** `onWrite` with the intended reporting: cancellation and a failed write
      report as the source does, and the ranges of a finished write hold
      exactly the requested pages of the document, in ascending order. */
  method OnPostExecuteIntended(ranges: seq<PageRange>, cancelledAt: Option<nat>, writeSucceeded: bool) returns (r: WriteResult)
    ensures r.WriteCancelled? <==> cancelledAt.Some?
    ensures r.WriteFailed? <==> cancelledAt.None? && !writeSucceeded
    ensures r.WriteFinished? ==> forall p :: Covers(r.pages, p) <==> Requested(ranges, p)
    ensures r.WriteFinished? ==> Separated(r.pages)
    ensures r.WriteFinished? ==> forall k :: 0 <= k < |r.pages| ==> 0 <= r.pages[k].start && r.pages[k].end < PageCount
  {
    var written := SelectPages(ranges, cancelledAt);
    if cancelledAt.Some? {
      return WriteCancelled;
    }
    if !writeSucceeded {
      return WriteFailed;
    }
    assert DrawLimit(cancelledAt) == PageCount;
    var reported := Coalesce(written);
    CoalesceCovers(written);
    CoalesceSeparated(written);
    CoalesceInside(written);
    r := WriteFinished(reported);
  }
}

=== FILE: procstatlog.dfy ===
/** procstatlog: snapshots of files under /proc as name/value records, and the
    log of what changed between two snapshots. File contents are given as
    parameters (`None` when the file cannot be opened or read); the records of
    a snapshot are sorted by name, and the end-of-array record with a NULL name
    is the end of the sequence. Strings are byte strings without NUL bytes. */
module ProcStatLog {
  import opened Wrappers
  import opened Text

  /** `struct data`: a name and a value that may be NULL. */
  datatype Data = Data(name: string, value: Option<string>)

  const FileBuffer := 4096
  const StatBuffer := 4096
  const YaffsBuffer := 8192
  const MaxPids := 4096
  /** Slots `read_stats` leaves for the /proc/stat and /proc/yaffs records. */
  const SharedSlots := 200
  const StatPrefix := "/proc/stat:"
  const YaffsPrefix := "/proc/yaffs:"
  const DeviceTag := "Device "
  const TooManyRecords := "assertion failed: next < stats + stats_count"

  /** What one `read` of at most `max` bytes returns of a file. */
  function ReadAtMost(s: string, max: nat): (r: string)
    ensures IsPrefix(r, s) && |r| <= max
    ensures |r| < max ==> r == s
  {
    if |s| <= max then s else s[..max]
  }

  /** `read_data`: the file's name, and its contents (up to the buffer size)
      without trailing whitespace, or NULL when the file cannot be read. */
  function ReadData(filename: string, contents: Option<string>): (r: Data)
    ensures r.name == filename
    ensures r.value.None? <==> contents.None?
    ensures contents.Some? ==>
      var got := ReadAtMost(contents.value, FileBuffer);
      IsPrefix(r.value.value, got)
      && (r.value.value != "" ==> !IsCSpace(r.value.value[|r.value.value| - 1]))
      && forall i :: |r.value.value| <= i < |got| ==> IsCSpace(got[i])
  {
    Data(filename, if contents.None? then None else Some(TrimEnd(ReadAtMost(contents.value, FileBuffer), IsCSpace)))
  }

  /** `strtok(buf, "\n")`: the non-empty runs of characters between newlines. */
  function Lines(s: string): (r: seq<string>)
    ensures forall k :: 0 <= k < |r| ==> r[k] != "" && '\n' !in r[k]
    decreases |s|
  {
    if '\n' !in s then (if s == "" then [] else [s])
    else
      var i := IndexOfChar(s, '\n');
      (if i == 0 then [] else [s[..i]]) + Lines(s[i + 1..])
  }

  /** Lines each followed by a newline, as a file holds them. */
  function Terminated(lines: seq<string>): string {
    if lines == [] then "" else lines[0] + "\n" + Terminated(lines[1..])
  }

  // ---------------------------------------------------------------------------
  // /proc/stat

  /** One /proc/stat line: the name is the text before the first space, the
      value what follows once the whitespace is skipped. */
  function StatEntry(line: string): (r: Data)
    requires ' ' in line
  {
    var i := IndexOfChar(line, ' ');
    Data(StatPrefix + line[..i], Some(TrimStart(line[i..], IsCSpace)))
  }

  /** Every line with a space gives a record; no capacity limit. */
  function AllStatEntries(lines: seq<string>): (r: seq<Data>)
    ensures |r| <= |lines|
  {
    if lines == [] then []
    else if ' ' !in lines[0] then AllStatEntries(lines[1..])
    else [StatEntry(lines[0])] + AllStatEntries(lines[1..])
  }

  /** The loop of `read_proc_stat`: lines without a space are skipped, and
      the loop stops once `capacity` records are written. */
  function StatEntries(lines: seq<string>, capacity: int): (r: seq<Data>)
    ensures |r| <= |lines| && (capacity >= 0 ==> |r| <= capacity)
    ensures forall k :: 0 <= k < |r| ==> IsPrefix(StatPrefix, r[k].name) && r[k].value.Some?
    ensures capacity <= 0 ==> r == []
  {
    if lines == [] || capacity <= 0 then []
    else if ' ' !in lines[0] then StatEntries(lines[1..], capacity)
    else [StatEntry(lines[0])] + StatEntries(lines[1..], capacity - 1)
  }

  /** `read_proc_stat`: nothing when /proc/stat cannot be read. */
  function ReadProcStat(contents: Option<string>, capacity: int): (r: seq<Data>)
    ensures contents.None? ==> r == []
    ensures capacity >= 0 ==> |r| <= capacity
  {
    if contents.None? then [] else StatEntries(Lines(ReadAtMost(contents.value, StatBuffer - 1)), capacity)
  }

  // ---------------------------------------------------------------------------
  // /proc/yaffs

  /** The device a `Device` line names: the text after its first double quote,
      up to the next one; none when the line has no quote. */
  function DeviceName(line: string): (r: Option<string>)
    ensures r.Some? <==> '"' in line
    ensures r.Some? ==> '"' !in r.value
  {
    if '"' !in line then None
    else
      var rest := line[IndexOfChar(line, '"') + 1..];
      Some(if '"' in rest then rest[..IndexOfChar(rest, '"')] else rest)
  }

  predicate IsFieldEnd(c: char) {
    c == ' ' || c == '.'
  }

  predicate IsValueLead(c: char) {
    c == '.' || IsCSpace(c)
  }

  /** `strcspn(line, " .")`. */
  function FieldEnd(line: string): (i: nat)
    ensures i <= |line|
    ensures forall j :: 0 <= j < i ==> !IsFieldEnd(line[j])
    ensures i < |line| ==> IsFieldEnd(line[i])
  {
    if line == [] || IsFieldEnd(line[0]) then 0 else 1 + FieldEnd(line[1..])
  }

  /** One field line of a device: `/proc/yaffs:<device>:<field>`, and the
      value after the dots and spaces. */
  function YaffsEntry(device: string, line: string, i: nat): (r: Data)
    requires i <= |line|
  {
    Data(YaffsPrefix + device + ":" + line[..i], Some(TrimStart(line[i..], IsValueLead)))
  }

  /** The loop of `read_proc_yaffs`, with the current device (`None` before
      the first `Device` line, or after one without a quote). A field line
      must have a non-empty name followed by a space or a dot. */
  function YaffsEntries(lines: seq<string>, device: Option<string>, capacity: int): (r: seq<Data>)
    ensures |r| <= |lines| && (capacity >= 0 ==> |r| <= capacity)
    ensures forall k :: 0 <= k < |r| ==> IsPrefix(YaffsPrefix, r[k].name) && r[k].value.Some?
  {
    if lines == [] || capacity <= 0 then []
    else if IsPrefix(DeviceTag, lines[0]) then YaffsEntries(lines[1..], DeviceName(lines[0]), capacity)
    else if device.None? then YaffsEntries(lines[1..], device, capacity)
    else
      var i := FieldEnd(lines[0]);
      if i == 0 || i == |lines[0]| then YaffsEntries(lines[1..], device, capacity)
      else
        assert IsPrefix(YaffsPrefix, YaffsEntry(device.value, lines[0], i).name);
        [YaffsEntry(device.value, lines[0], i)] + YaffsEntries(lines[1..], device, capacity - 1)
  }

  /** `read_proc_yaffs`. */
  function ReadProcYaffs(contents: Option<string>, capacity: int): (r: seq<Data>)
    ensures contents.None? ==> r == []
    ensures capacity >= 0 ==> |r| <= capacity
  {
    if contents.None? then [] else YaffsEntries(Lines(ReadAtMost(contents.value, YaffsBuffer - 1)), None, capacity)
  }

  // ---------------------------------------------------------------------------
  // Facts about the parsers.

  lemma {:induction false} LinesOfTerminated(lines: seq<string>)
    requires forall k :: 0 <= k < |lines| ==> lines[k] != "" && '\n' !in lines[k]
    ensures Lines(Terminated(lines)) == lines
  {
    if lines != [] {
      var s := Terminated(lines);
      var l := lines[0];
      assert s == l + "\n" + Terminated(lines[1..]);
      assert s[..|l|] == l;
      IndexOfCharAt(s, '\n', |l|);
      assert s[|l| + 1..] == Terminated(lines[1..]);
      LinesOfTerminated(lines[1..]);
      assert [l] + lines[1..] == lines;
    }
  }

  /** `key value` gives the record `/proc/stat:key` with value `value`. */
  lemma {:induction false} StatEntryOf(key: string, value: string)
    requires ' ' !in key
    requires value == "" || !IsCSpace(value[0])
    ensures StatEntry(key + " " + value) == Data(StatPrefix + key, Some(value))
  {
    var line := key + " " + value;
    assert line[..|key|] == key;
    IndexOfCharAt(line, ' ', |key|);
    assert line[|key|..] == " " + value;
    assert LeadingCount(" " + value, IsCSpace) == 1 by {
      assert (" " + value)[1..] == value;
    }
  }

  /** With a capacity, the records are the first `capacity` of those every
      line with a space would give. */
  lemma {:induction false} StatEntriesCapped(lines: seq<string>, capacity: nat)
    ensures StatEntries(lines, capacity) ==
      AllStatEntries(lines)[..if capacity < |AllStatEntries(lines)| then capacity else |AllStatEntries(lines)|]
  {
    if lines != [] && capacity > 0 {
      StatEntriesCapped(lines[1..], if ' ' in lines[0] then capacity - 1 else capacity);
    }
  }

  /** A `Device` line quoting `dev` makes `dev` the current device. */
  lemma {:induction false} DeviceNameOf(before: string, dev: string, after: string)
    requires '"' !in before && '"' !in dev
    ensures DeviceName(before + "\"" + dev + "\"" + after) == Some(dev)
  {
    var line := before + "\"" + dev + "\"" + after;
    assert line[..|before|] == before;
    IndexOfCharAt(line, '"', |before|);
    var rest := line[|before| + 1..];
    assert rest == dev + "\"" + after;
    assert rest[..|dev|] == dev;
    IndexOfCharAt(rest, '"', |dev|);
  }

  /** Field lines before the first `Device` line give nothing. */
  lemma {:induction false} YaffsSkipsBeforeDevice(before: seq<string>, rest: seq<string>, capacity: int)
    requires forall k :: 0 <= k < |before| ==> !IsPrefix(DeviceTag, before[k])
    ensures YaffsEntries(before + rest, None, capacity) == YaffsEntries(rest, None, capacity)
  {
    if before != [] && capacity > 0 {
      assert (before + rest)[0] == before[0];
      assert (before + rest)[1..] == before[1..] + rest;
      YaffsSkipsBeforeDevice(before[1..], rest, capacity);
    } else if before == [] {
      assert before + rest == rest;
    }
  }

  /** `field` then dots or spaces then `value` gives
      `/proc/yaffs:<dev>:<field>` with value `value`. */
  lemma {:induction false} YaffsFieldOf(dev: string, field: string, sep: string, value: string)
    requires forall j :: 0 <= j < |field| ==> !IsFieldEnd(field[j])
    requires |sep| > 0 && IsFieldEnd(sep[0]) && forall j :: 0 <= j < |sep| ==> IsValueLead(sep[j])
    requires value == "" || !IsValueLead(value[0])
    ensures FieldEnd(field + sep + value) == |field|
    ensures YaffsEntry(dev, field + sep + value, |field|) == Data(YaffsPrefix + dev + ":" + field, Some(value))
  {
    var line := field + sep + value;
    FieldEndAt(line, |field|);
    assert line[..|field|] == field;
    assert line[|field|..] == sep + value;
    LeadingAll(sep, value);
  }

  lemma {:induction false} FieldEndAt(line: string, i: nat)
    requires i < |line| && IsFieldEnd(line[i]) && forall j :: 0 <= j < i ==> !IsFieldEnd(line[j])
    ensures FieldEnd(line) == i
  {
    if i > 0 {
      assert forall j :: 0 <= j < i - 1 ==> line[1..][j] == line[j + 1];
      FieldEndAt(line[1..], i - 1);
    }
  }

  lemma {:induction false} LeadingAll(sep: string, value: string)
    requires forall j :: 0 <= j < |sep| ==> IsValueLead(sep[j])
    requires value == "" || !IsValueLead(value[0])
    ensures TrimStart(sep + value, IsValueLead) == value
  {
    var s := sep + value;
    var k := LeadingCount(s, IsValueLead);
    assert forall j :: 0 <= j < |sep| ==> s[j] == sep[j];
    assert |value| > 0 ==> s[|sep|] == value[0];
    assert k == |sep|;
    assert s[|sep|..] == value;
  }

  // ---------------------------------------------------------------------------
  // Record order: `compare_data` is `strcmp` on the names.

  /** The sign of `strcmp(a, b)`. */
  function StrCmp(a: string, b: string): (r: int)
    ensures -1 <= r <= 1
  {
    if a == [] && b == [] then 0
    else if a == [] then -1
    else if b == [] then 1
    else if a[0] < b[0] then -1
    else if a[0] > b[0] then 1
    else StrCmp(a[1..], b[1..])
  }

  lemma {:induction false} StrCmpZero(a: string, b: string)
    ensures StrCmp(a, b) == 0 <==> a == b
  {
    if a != [] && b != [] && a[0] == b[0] {
      StrCmpZero(a[1..], b[1..]);
      assert a == [a[0]] + a[1..] && b == [b[0]] + b[1..];
    }
  }

  lemma {:induction false} StrCmpFlip(a: string, b: string)
    ensures StrCmp(b, a) == -StrCmp(a, b)
  {
    if a != [] && b != [] && a[0] == b[0] {
      StrCmpFlip(a[1..], b[1..]);
    }
  }

  lemma {:induction false} StrCmpTrans(a: string, b: string, c: string)
    requires StrCmp(a, b) < 0 && StrCmp(b, c) < 0
    ensures StrCmp(a, c) < 0
  {
    if a != [] && b != [] && c != [] && a[0] == b[0] && b[0] == c[0] {
      StrCmpTrans(a[1..], b[1..], c[1..]);
    }
  }

  lemma {:induction false} StrCmpTransLe(a: string, b: string, c: string)
    requires StrCmp(a, b) <= 0 && StrCmp(b, c) <= 0
    ensures StrCmp(a, c) <= 0
  {
    StrCmpZero(a, b);
    StrCmpZero(b, c);
    if StrCmp(a, b) < 0 && StrCmp(b, c) < 0 {
      StrCmpTrans(a, b, c);
    }
  }

  /** A name sorts before every longer name it is a prefix of. */
  lemma {:induction false} StrCmpPrefix(a: string, b: string)
    requires IsPrefix(a, b) && a != b
    ensures StrCmp(a, b) < 0
  {
    if a != [] {
      assert a[0] == b[0];
      assert a[1..] == b[1..][..|a| - 1];
      StrCmpPrefix(a[1..], b[1..]);
    }
  }

  ghost predicate Sorted(s: seq<Data>) {
    forall i, j :: 0 <= i < j < |s| ==> StrCmp(s[i].name, s[j].name) <= 0
  }

  /** Sorted with no name twice. */
  ghost predicate StrictlySorted(s: seq<Data>) {
    forall i, j :: 0 <= i < j < |s| ==> StrCmp(s[i].name, s[j].name) < 0
  }

  /** Places `x` before the first record whose name is not smaller. */
  function Insert(x: Data, s: seq<Data>): (r: seq<Data>)
    ensures multiset(r) == multiset(s) + multiset{x}
  {
    if s == [] then [x]
    else if StrCmp(x.name, s[0].name) <= 0 then [x] + s
    else
      assert s == [s[0]] + s[1..];
      [s[0]] + Insert(x, s[1..])
  }

  /** The order `qsort` leaves the records in; records with equal names may
      come out in any order there, and here come out in one of them. */
  function Sort(s: seq<Data>): (r: seq<Data>)
    ensures multiset(r) == multiset(s)
  {
    if s == [] then []
    else
      assert s == [s[0]] + s[1..];
      Insert(s[0], Sort(s[1..]))
  }

  lemma {:induction false} InsertSorted(x: Data, s: seq<Data>)
    requires Sorted(s)
    ensures Sorted(Insert(x, s))
  {
    if s != [] && StrCmp(x.name, s[0].name) <= 0 {
      var r := [x] + s;
      forall i, j | 0 <= i < j < |r| ensures StrCmp(r[i].name, r[j].name) <= 0 {
        if i == 0 && j > 1 {
          StrCmpTransLe(x.name, s[0].name, s[j - 1].name);
        }
      }
    } else if s != [] {
      var t := Insert(x, s[1..]);
      InsertSorted(x, s[1..]);
      StrCmpFlip(x.name, s[0].name);
      var r := [s[0]] + t;
      forall i, j | 0 <= i < j < |r| ensures StrCmp(r[i].name, r[j].name) <= 0 {
        if i == 0 {
          assert r[j] in multiset(t);
          if r[j] != x {
            assert r[j] in multiset(s[1..]);
            var k :| 0 <= k < |s[1..]| && s[1..][k] == r[j];
            assert s[k + 1] == r[j];
          }
        }
      }
    }
  }

  lemma {:induction false} SortSorted(s: seq<Data>)
    ensures Sorted(Sort(s))
  {
    if s != [] {
      SortSorted(s[1..]);
      InsertSorted(s[0], Sort(s[1..]));
    }
  }

  /** Sorting keeps every record and adds none. */
  lemma {:induction false} SortKeeps(s: seq<Data>)
    ensures Sorted(Sort(s)) && |Sort(s)| == |s|
    ensures forall k :: 0 <= k < |s| ==> s[k] in Sort(s)
  {
    SortSorted(s);
    var r := Sort(s);
    assert |r| == |multiset(r)| == |multiset(s)| == |s|;
    forall k | 0 <= k < |s| ensures s[k] in r {
      assert s[k] in multiset(s);
    }
  }

  // ---------------------------------------------------------------------------
  // read_stats

  predicate IsDigit(c: char) {
    '0' <= c <= '9'
  }

  /** The number a string of decimal digits spells. */
  function DigitsValue(d: string): (n: nat)
    requires forall i :: 0 <= i < |d| ==> IsDigit(d[i])
  {
    if d == [] then 0
    else
      assert IsDigit(d[|d| - 1]);
      10 * DigitsValue(d[..|d| - 1]) + (d[|d| - 1] as int - '0' as int)
  }

  /** C `atoi`: leading whitespace, an optional sign, then as many digits as
      follow. */
  function Atoi(s: string): int {
    var t := TrimStart(s, IsCSpace);
    var signed := t != [] && (t[0] == '-' || t[0] == '+');
    var digits := if signed then t[1..] else t;
    var k := LeadingCount(digits, IsDigit);
    var v: int := DigitsValue(digits[..k]);
    if signed && t[0] == '-' then -v else v
  }

  /** `sprintf("%d")` of a non-negative number. */
  function DecimalString(n: nat): (r: string)
    ensures r != [] && forall i :: 0 <= i < |r| ==> IsDigit(r[i])
  {
    if n < 10 then ['0' + n as char] else DecimalString(n / 10) + ['0' + (n % 10) as char]
  }

  lemma {:induction false} DecimalValue(n: nat)
    ensures DigitsValue(DecimalString(n)) == n
  {
    if n >= 10 {
      var d := DecimalString(n);
      assert d[..|d| - 1] == DecimalString(n / 10);
      DecimalValue(n / 10);
    }
  }

  /** `atoi` reads back what `%d` writes. */
  lemma {:induction false} AtoiDecimal(n: nat)
    ensures Atoi(DecimalString(n)) == n
  {
    var d := DecimalString(n);
    assert LeadingCount(d, IsCSpace) == 0;
    assert d[LeadingCount(d, IsCSpace)..] == d;
    LeadingAllDigits(d);
    assert d[..|d|] == d;
    DecimalValue(n);
  }

  lemma {:induction false} LeadingAllDigits(d: string)
    requires forall i :: 0 <= i < |d| ==> IsDigit(d[i])
    ensures LeadingCount(d, IsDigit) == |d|
  {
    if d != [] {
      assert forall i :: 0 <= i < |d| - 1 ==> d[1..][i] == d[i + 1];
      LeadingAllDigits(d[1..]);
    }
  }

  /** The positive `atoi` values of the directory entries, in order. */
  function PositivePids(entries: seq<string>): (r: seq<int>)
    ensures |r| <= |entries|
    ensures forall k :: 0 <= k < |r| ==> r[k] > 0
  {
    if entries == [] then []
    else
      var last := Atoi(entries[|entries| - 1]);
      PositivePids(entries[..|entries| - 1]) + (if last > 0 then [last] else [])
  }

  function Take(s: seq<int>, n: nat): (r: seq<int>)
    ensures |r| == (if |s| < n then |s| else n) && r == s[..|r|]
  {
    if |s| < n then s else s[..n]
  }

  /** The scan of /proc in `read_stats`: the directory entries whose name
      starts with a positive number, stopping at the size of the pid array. */
  method ScanPids(entries: seq<string>) returns (pids: seq<int>)
    ensures pids == Take(PositivePids(entries), MaxPids)
    ensures |pids| <= MaxPids && forall k :: 0 <= k < |pids| ==> pids[k] > 0
  {
    pids := [];
    var i := 0;
    while i < |entries|
      invariant 0 <= i <= |entries|
      invariant pids == PositivePids(entries[..i]) && |pids| <= MaxPids
    {
      var pid := Atoi(entries[i]);
      PositiveStep(entries, i);
      if pid > 0 {
        if |pids| >= MaxPids {
          PidsFull(entries, i);
          return;
        }
        pids := pids + [pid];
      }
      i := i + 1;
    }
    assert entries[..i] == entries;
  }

  lemma {:induction false} PositiveStep(entries: seq<string>, i: nat)
    requires i < |entries|
    ensures PositivePids(entries[..i + 1])
      == PositivePids(entries[..i]) + (if Atoi(entries[i]) > 0 then [Atoi(entries[i])] else [])
  {
    assert entries[..i + 1][..i] == entries[..i];
  }

  /** Once the array is full, the pids found so far are all that is kept. */
  lemma {:induction false} PidsFull(entries: seq<string>, i: nat)
    requires i <= |entries| && |PositivePids(entries[..i])| == MaxPids
    ensures Take(PositivePids(entries), MaxPids) == PositivePids(entries[..i])
  {
    PositivePrefix(entries, i);
  }

  /** The pids of the first entries are the first pids of all entries. */
  lemma {:induction false} PositivePrefix(entries: seq<string>, i: nat)
    requires i <= |entries|
    ensures |PositivePids(entries[..i])| <= |PositivePids(entries)|
    ensures PositivePids(entries[..i]) == PositivePids(entries)[..|PositivePids(entries[..i])|]
    decreases |entries|
  {
    if i == |entries| {
      assert entries[..i] == entries;
    } else {
      var front := entries[..|entries| - 1];
      assert entries[..i] == front[..i];
      PositivePrefix(front, i);
    }
  }

  function Pids(entries: seq<string>): seq<int> {
    Take(PositivePids(entries), MaxPids)
  }

  function StatFile(pid: nat): string {
    "/proc/" + DecimalString(pid) + "/stat"
  }

  function WchanFile(pid: nat): string {
    "/proc/" + DecimalString(pid) + "/wchan"
  }

  /** What the model can see of /proc: the directory listing (`None` when it
      cannot be opened) and the readable files by path. */
  datatype Proc = Proc(entries: Option<seq<string>>, files: map<string, string>)

  function FileAt(proc: Proc, path: string): Option<string> {
    if path in proc.files then Some(proc.files[path]) else None
  }

  /** The stat and wchan records of each pid, in pid order. */
  function PidRecords(proc: Proc, pids: seq<int>): (r: seq<Data>)
    requires forall k :: 0 <= k < |pids| ==> pids[k] > 0
    ensures |r| == 2 * |pids|
    ensures forall k :: 0 <= k < |pids| ==>
      r[2 * k] == ReadData(StatFile(pids[k]), FileAt(proc, StatFile(pids[k])))
      && r[2 * k + 1] == ReadData(WchanFile(pids[k]), FileAt(proc, WchanFile(pids[k])))
  {
    if pids == [] then []
    else
      var pid := pids[|pids| - 1];
      PidRecords(proc, pids[..|pids| - 1])
        + [ReadData(StatFile(pid), FileAt(proc, StatFile(pid))), ReadData(WchanFile(pid), FileAt(proc, WchanFile(pid)))]
  }

  const CannotScan := "Can't scan /proc"

  /** The /proc/stat records, in the 200 slots after the per-pid ones. */
  function StatRecords(proc: Proc): (r: seq<Data>)
    ensures |r| <= SharedSlots
  {
    ReadProcStat(FileAt(proc, "/proc/stat"), SharedSlots)
  }

  /** The /proc/yaffs records, in the slots /proc/stat left. */
  function YaffsRecords(proc: Proc): (r: seq<Data>)
    ensures |StatRecords(proc)| + |r| <= SharedSlots
  {
    ReadProcYaffs(FileAt(proc, "/proc/yaffs"), SharedSlots - |StatRecords(proc)|)
  }

  /** The records of a snapshot in the order they are read. */
  function Unsorted(proc: Proc): (r: seq<Data>)
    requires proc.entries.Some?
  {
    PidRecords(proc, Pids(proc.entries.value)) + StatRecords(proc) + YaffsRecords(proc)
  }

  /** `read_stats`: per-pid records, then /proc/stat and /proc/yaffs in the
      200 slots left, sorted by name. A /proc that cannot be listed ends the
      program, and so does filling every slot (the `assert`). */
  function ReadStats(proc: Proc): (r: Result<seq<Data>, string>)
  {
    if proc.entries.None? then Failure(CannotScan)
    else if |StatRecords(proc)| + |YaffsRecords(proc)| >= SharedSlots then Failure(TooManyRecords)
    else Success(Sort(Unsorted(proc)))
  }

  /** A snapshot fails only when /proc cannot be listed or the two shared
      files fill every one of their slots. */
  lemma {:induction false} ReadStatsFailure(proc: Proc)
    ensures proc.entries.None? ==> ReadStats(proc) == Failure(CannotScan)
    ensures ReadStats(proc).Failure? && proc.entries.Some? ==>
      ReadStats(proc).error == TooManyRecords && |StatRecords(proc)| + |YaffsRecords(proc)| == SharedSlots
  {
  }

  /** A snapshot is in name order and holds exactly the records read
      (`Unsorted`: the two of each pid, then /proc/stat, then /proc/yaffs). */
  lemma {:induction false} ReadStatsSorted(proc: Proc)
    requires ReadStats(proc).Success?
    ensures Sorted(ReadStats(proc).value)
    ensures multiset(ReadStats(proc).value) == multiset(Unsorted(proc))
    ensures |ReadStats(proc).value| < 2 * |Pids(proc.entries.value)| + SharedSlots
  {
    SortKeeps(Unsorted(proc));
  }

  // ---------------------------------------------------------------------------
  // diff_stats

  /** One line of the change log. */
  datatype Change =
    | Removed(name: string)
    | Added(name: string, value: string)
    | Changed(name: string, value: string)

  /** The log line of a change, without its newline. */
  function Render(c: Change): string {
    match c
    case Removed(n) => n + " -"
    case Added(n, v) => n + " + " + v
    case Changed(n, v) => n + " = " + v
  }

  /** Reads a log line back: the name up to the first space, the marker, and
      for `+` and `=` the value after one more space. */
  function ParseLine(line: string): (r: Option<Change>)
    ensures r.Some? ==> ' ' !in r.value.name
  {
    if ' ' !in line then None
    else
      var i := IndexOfChar(line, ' ');
      var name := line[..i];
      var rest := line[i + 1..];
      if rest == "-" then Some(Removed(name))
      else if |rest| >= 2 && rest[1] == ' ' && rest[0] == '+' then Some(Added(name, rest[2..]))
      else if |rest| >= 2 && rest[1] == ' ' && rest[0] == '=' then Some(Changed(name, rest[2..]))
      else None
  }

  /** The log can be read back, as long as names have no space (names from
      /proc/stat and the per-process files never do; a yaffs device name may). */
  lemma {:induction false} ParseRender(c: Change)
    requires ' ' !in c.name
    ensures ParseLine(Render(c)) == Some(c)
  {
    var line := Render(c);
    assert line[..|c.name|] == c.name;
    IndexOfCharAt(line, ' ', |c.name|);
    match c
    case Removed(n) =>
      assert line[|n| + 1..] == "-";
    case Added(n, v) =>
      assert line[|n| + 1..] == "+ " + v;
      assert ("+ " + v)[2..] == v;
    case Changed(n, v) =>
      assert line[|n| + 1..] == "= " + v;
      assert ("= " + v)[2..] == v;
  }

  /** The lines printed for a name present in both snapshots. */
  function Compared(o: Data, n: Data): (r: seq<Change>)
    ensures |r| <= 1
  {
    if n.value.None? then (if o.value.Some? then [Removed(o.name)] else [])
    else if o.value.None? then [Added(n.name, n.value.value)]
    else if StrCmp(o.value.value, n.value.value) != 0 then [Changed(n.name, n.value.value)]
    else []
  }

  /** `diff_stats`: the merge of two snapshots by name. */
  function Diff(before: seq<Data>, after: seq<Data>): (r: seq<Change>)
    ensures |r| <= |before| + |after|
    decreases |before| + |after|
  {
    if before == [] && after == [] then []
    else
      var compare := if before == [] then 1 else if after == [] then -1 else StrCmp(before[0].name, after[0].name);
      if compare < 0 then (if before[0].value.Some? then [Removed(before[0].name)] else []) + Diff(before[1..], after)
      else if compare > 0 then (if after[0].value.Some? then [Added(after[0].name, after[0].value.value)] else []) + Diff(before, after[1..])
      else Compared(before[0], after[0]) + Diff(before[1..], after[1..])
  }

  /** What a snapshot says: the value of each name whose value is not NULL. */
  function Values(s: seq<Data>): map<string, string> {
    if s == [] then map[]
    else
      var m := Values(s[1..]);
      if s[0].value.Some? then m[s[0].name := s[0].value.value] else m - {s[0].name}
  }

  function ApplyChange(m: map<string, string>, c: Change): map<string, string> {
    match c
    case Removed(n) => m - {n}
    case Added(n, v) => m[n := v]
    case Changed(n, v) => m[n := v]
  }

  /** Replays a change log on the values it started from. */
  function Apply(m: map<string, string>, log: seq<Change>): map<string, string>
    decreases |log|
  {
    if log == [] then m else Apply(ApplyChange(m, log[0]), log[1..])
  }

  lemma {:induction false} ApplyAppend(m: map<string, string>, a: seq<Change>, b: seq<Change>)
    ensures Apply(m, a + b) == Apply(Apply(m, a), b)
    decreases |a|
  {
    if a == [] {
      assert a + b == b;
    } else {
      assert (a + b)[0] == a[0] && (a + b)[1..] == a[1..] + b;
      ApplyAppend(ApplyChange(m, a[0]), a[1..], b);
    }
  }

  /** Nothing changes between a snapshot and itself. */
  lemma {:induction false} DiffSelf(s: seq<Data>)
    ensures Diff(s, s) == []
  {
    if s != [] {
      StrCmpZero(s[0].name, s[0].name);
      if s[0].value.Some? {
        StrCmpZero(s[0].value.value, s[0].value.value);
      }
      DiffSelf(s[1..]);
    }
  }

  /** The first snapshot is compared with the empty one: every record with a
      value is logged as added. */
  lemma {:induction false} DiffFromEmpty(s: seq<Data>)
    ensures Diff([], s) == AllAdded(s)
  {
    if s != [] {
      DiffFromEmpty(s[1..]);
    }
  }

  function AllAdded(s: seq<Data>): (r: seq<Change>)
    ensures forall k :: 0 <= k < |r| ==> r[k].Added?
  {
    if s == [] then []
    else (if s[0].value.Some? then [Added(s[0].name, s[0].value.value)] else []) + AllAdded(s[1..])
  }

  predicate NameIn(n: string, s: seq<Data>) {
    exists k :: 0 <= k < |s| && s[k].name == n
  }

  lemma {:induction false} StrictTail(s: seq<Data>)
    requires StrictlySorted(s) && s != []
    ensures StrictlySorted(s[1..]) && !NameIn(s[0].name, s[1..])
  {
    StrCmpZero(s[0].name, s[0].name);
    forall k | 0 <= k < |s[1..]| ensures s[1..][k].name != s[0].name {
      assert StrCmp(s[0].name, s[k + 1].name) < 0;
    }
  }

  /** A name smaller than the first of a sorted snapshot is not in it. */
  lemma {:induction false} BelowFirst(n: string, s: seq<Data>)
    requires StrictlySorted(s) && s != [] && StrCmp(n, s[0].name) < 0
    ensures !NameIn(n, s)
  {
    StrCmpZero(n, s[0].name);
    forall k | 1 <= k < |s| ensures s[k].name != n {
      StrCmpTrans(n, s[0].name, s[k].name);
      StrCmpZero(n, s[k].name);
    }
  }

  /** A base map extended by a record's value, when it has one. */
  function WithValue(base: map<string, string>, d: Data): map<string, string> {
    if d.value.Some? then base[d.name := d.value.value] else base
  }

  /** The generalisation of `DiffReplays`: values of names in neither
      snapshot are carried through. */
  lemma {:induction false} DiffReplaysOver(base: map<string, string>, before: seq<Data>, after: seq<Data>)
    requires StrictlySorted(before) && StrictlySorted(after)
    requires forall n :: n in base ==> !NameIn(n, before) && !NameIn(n, after)
    ensures Apply(base + Values(before), Diff(before, after)) == base + Values(after)
    decreases |before| + |after|
  {
    if before == [] && after == [] {
    } else {
      var compare := if before == [] then 1 else if after == [] then -1 else StrCmp(before[0].name, after[0].name);
      if compare < 0 {
        StrictTail(before);
        if after != [] { BelowFirst(before[0].name, after); }
        assert NameIn(before[0].name, before);
        forall n | n in base ensures !NameIn(n, before[1..]) {
          NameInTail(n, before);
        }
        DiffReplaysOver(base, before[1..], after);
        RemovedStep(base, before, after);
      } else if compare > 0 {
        var d := after[0];
        StrictTail(after);
        if before != [] {
          StrCmpFlip(before[0].name, d.name);
          BelowFirst(d.name, before);
        }
        assert NameIn(d.name, after);
        forall n | n in WithValue(base, d) ensures !NameIn(n, before) && !NameIn(n, after[1..]) {
          NameInTail(n, after);
        }
        DiffReplaysOver(WithValue(base, d), before, after[1..]);
        AddedStep(base, before, after);
      } else {
        var d := after[0];
        StrCmpZero(before[0].name, d.name);
        StrictTail(before);
        StrictTail(after);
        assert NameIn(d.name, after);
        forall n | n in WithValue(base, d) ensures !NameIn(n, before[1..]) && !NameIn(n, after[1..]) {
          NameInTail(n, before);
          NameInTail(n, after);
        }
        DiffReplaysOver(WithValue(base, d), before[1..], after[1..]);
        ComparedStep(base, before, after);
      }
    }
  }

  lemma {:induction false} NameInTail(n: string, s: seq<Data>)
    requires s != []
    ensures NameIn(n, s[1..]) ==> NameIn(n, s)
  {
    if NameIn(n, s[1..]) {
      var k :| 0 <= k < |s[1..]| && s[1..][k].name == n;
      assert s[k + 1].name == n;
    }
  }

  /** A record only in the older snapshot: its value goes. */
  lemma {:induction false} RemovedStep(base: map<string, string>, before: seq<Data>, after: seq<Data>)
    requires before != [] && !NameIn(before[0].name, before[1..]) && before[0].name !in base
    requires after == [] || StrCmp(before[0].name, after[0].name) < 0
    requires Apply(base + Values(before[1..]), Diff(before[1..], after)) == base + Values(after)
    ensures Apply(base + Values(before), Diff(before, after)) == base + Values(after)
  {
    var o := before[0];
    var head := if o.value.Some? then [Removed(o.name)] else [];
    assert Diff(before, after) == head + Diff(before[1..], after);
    ApplyAppend(base + Values(before), head, Diff(before[1..], after));
    ValuesTail(before);
    RemovedApply(base, Values(before[1..]), o);
  }

  /** A record only in the newer snapshot: its value comes. */
  lemma {:induction false} AddedStep(base: map<string, string>, before: seq<Data>, after: seq<Data>)
    requires after != [] && !NameIn(after[0].name, after[1..]) && after[0].name !in base
    requires !NameIn(after[0].name, before)
    requires before != [] ==> StrCmp(before[0].name, after[0].name) > 0
    requires Apply(WithValue(base, after[0]) + Values(before), Diff(before, after[1..]))
      == WithValue(base, after[0]) + Values(after[1..])
    ensures Apply(base + Values(before), Diff(before, after)) == base + Values(after)
  {
    var d := after[0];
    var head := if d.value.Some? then [Added(d.name, d.value.value)] else [];
    assert Diff(before, after) == head + Diff(before, after[1..]);
    ApplyAppend(base + Values(before), head, Diff(before, after[1..]));
    ValuesTail(after);
    ValuesOutside(d.name, before);
    AddedApply(base, Values(before), d);
    WithValueShift(base, Values(after[1..]), d);
  }

  /** A name in both snapshots: its value becomes the newer one. */
  lemma {:induction false} ComparedStep(base: map<string, string>, before: seq<Data>, after: seq<Data>)
    requires before != [] && after != [] && before[0].name == after[0].name
    requires !NameIn(before[0].name, before[1..]) && !NameIn(after[0].name, after[1..]) && after[0].name !in base
    requires Apply(WithValue(base, after[0]) + Values(before[1..]), Diff(before[1..], after[1..]))
      == WithValue(base, after[0]) + Values(after[1..])
    ensures Apply(base + Values(before), Diff(before, after)) == base + Values(after)
  {
    var o, d := before[0], after[0];
    DiffSameName(before, after);
    ApplyAppend(base + Values(before), Compared(o, d), Diff(before[1..], after[1..]));
    ValuesTail(before);
    ValuesTail(after);
    ComparedApply(base, Values(before[1..]), o, d);
    WithValueShift(base, Values(after[1..]), d);
  }

  lemma {:induction false} DiffSameName(before: seq<Data>, after: seq<Data>)
    requires before != [] && after != [] && before[0].name == after[0].name
    ensures Diff(before, after) == Compared(before[0], after[0]) + Diff(before[1..], after[1..])
  {
    StrCmpZero(before[0].name, after[0].name);
  }

  lemma {:induction false} RemovedApply(base: map<string, string>, m: map<string, string>, o: Data)
    requires o.name !in base && o.name !in m
    ensures Apply(base + WithValue(m, o), if o.value.Some? then [Removed(o.name)] else []) == base + m
  {
    if o.value.Some? {
      assert Apply(base + WithValue(m, o), [Removed(o.name)]) == (base + WithValue(m, o)) - {o.name};
      assert (base + WithValue(m, o)) - {o.name} == base + m;
    }
  }

  lemma {:induction false} AddedApply(base: map<string, string>, m: map<string, string>, d: Data)
    requires d.name !in base && d.name !in m
    ensures Apply(base + m, if d.value.Some? then [Added(d.name, d.value.value)] else []) == WithValue(base, d) + m
  {
    if d.value.Some? {
      assert Apply(base + m, [Added(d.name, d.value.value)]) == (base + m)[d.name := d.value.value];
      assert (base + m)[d.name := d.value.value] == WithValue(base, d) + m;
    }
  }

  lemma {:induction false} ComparedApply(base: map<string, string>, m: map<string, string>, o: Data, d: Data)
    requires o.name == d.name && d.name !in base && d.name !in m
    ensures Apply(base + WithValue(m, o), Compared(o, d)) == WithValue(base, d) + m
  {
    var c := Compared(o, d);
    if c != [] {
      assert Apply(base + WithValue(m, o), c) == ApplyChange(base + WithValue(m, o), c[0]);
    }
    if o.value.Some? && d.value.Some? {
      StrCmpZero(o.value.value, d.value.value);
    }
    if d.value.None? {
      if o.value.Some? {
        assert (base + WithValue(m, o)) - {o.name} == base + m;
      }
    } else {
      assert (base + WithValue(m, o))[d.name := d.value.value] == WithValue(base, d) + m;
    }
  }

  lemma {:induction false} WithValueShift(base: map<string, string>, m: map<string, string>, d: Data)
    requires d.name !in base && d.name !in m
    ensures WithValue(base, d) + m == base + WithValue(m, d)
  {
  }

  /** The head record of a snapshot with no name twice. */
  lemma {:induction false} ValuesTail(s: seq<Data>)
    requires s != [] && !NameIn(s[0].name, s[1..])
    ensures s[0].name !in Values(s[1..])
    ensures Values(s) == WithValue(Values(s[1..]), s[0])
  {
    ValuesOutside(s[0].name, s[1..]);
    var m := Values(s[1..]);
    if s[0].value.None? {
      assert m - {s[0].name} == m;
    }
  }

  /** Only names of the snapshot have values. */
  lemma {:induction false} ValuesOutside(n: string, s: seq<Data>)
    requires !NameIn(n, s)
    ensures n !in Values(s)
  {
    if s != [] {
      NameInTail(n, s);
      ValuesOutside(n, s[1..]);
    }
  }

  /** Replaying the log of two snapshots (sorted, no name twice) on the
      values of the older one gives the values of the newer one. */
  lemma {:induction false} DiffReplays(before: seq<Data>, after: seq<Data>)
    requires StrictlySorted(before) && StrictlySorted(after)
    ensures Apply(Values(before), Diff(before, after)) == Values(after)
  {
    var base: map<string, string> := map[];
    DiffReplaysOver(base, before, after);
    assert base + Values(before) == Values(before);
    assert base + Values(after) == Values(after);
  }
}

=== FILE: py_path.dfy ===
/** Python's POSIX path functions as the workspace generator uses them.
    A normalized absolute path is its list of components below the root;
    the process's working directory is such a list, given as a parameter. */
module PyPath {
  import opened Text

  const Sep := '/'

  /** A component a normalized path can hold. */
  predicate Proper(c: string) {
    c != "" && c != "." && c != ".." && Sep !in c
  }

  predicate AllProper(cs: seq<string>) {
    forall i :: 0 <= i < |cs| ==> Proper(cs[i])
  }

  predicate IsAbs(p: string) {
    |p| > 0 && p[0] == Sep
  }

  /** `os.path.join(a, b)`. */
  function Join2(a: string, b: string): string {
    if IsAbs(b) then b
    else if a == "" || a[|a| - 1] == Sep then a + b
    else a + [Sep] + b
  }

  /** `os.path.join(*parts)`, joined left to right. */
  function JoinAll(parts: seq<string>): string
    requires parts != []
    decreases |parts|
  {
    if |parts| == 1 then parts[0] else Join2(JoinAll(parts[..|parts| - 1]), parts[|parts| - 1])
  }

  // ---------------------------------------------------------------------------
  // normpath and abspath.

  /** One component of `normpath` on an absolute path: empty and `.`
      components vanish, `..` goes up, but never above the root. */
  function Step(acc: seq<string>, c: string): seq<string> {
    if c == "" || c == "." then acc
    else if c == ".." then (if acc == [] then [] else acc[..|acc| - 1])
    else acc + [c]
  }

  /** The components `comps` resolved, left to right, from the directory
      `acc`. */
  function Resolve(acc: seq<string>, comps: seq<string>): (r: seq<string>)
    decreases |comps|
  {
    if comps == [] then acc else Resolve(Step(acc, comps[0]), comps[1..])
  }

  /** `normpath(abspath(p))` as a component list, with `cwd` the working
      directory. */
  function AbsComponents(cwd: seq<string>, p: string): seq<string> {
    Resolve(if IsAbs(p) then [] else cwd, SplitAll(p, Sep))
  }

  /** The string form of a normalized absolute path. */
  function Render(cs: seq<string>): string {
    [Sep] + Text.Join([Sep], cs)
  }

  // ---------------------------------------------------------------------------
  // dirname and basename.

  /** One past the last separator, or 0. */
  function AfterLastSep(p: string): (i: nat)
    ensures i <= |p|
    ensures i > 0 ==> p[i - 1] == Sep
    ensures forall k :: i <= k < |p| ==> p[k] != Sep
  {
    if p == [] then 0
    else if p[|p| - 1] == Sep then |p|
    else AfterLastSep(p[..|p| - 1])
  }

  predicate AllSeps(s: string) {
    forall k :: 0 <= k < |s| ==> s[k] == Sep
  }

  function StripTrailingSeps(s: string): (r: string)
    ensures IsPrefix(r, s)
    ensures forall k :: |r| <= k < |s| ==> s[k] == Sep
    ensures r != [] ==> r[|r| - 1] != Sep
  {
    if s == [] || s[|s| - 1] != Sep then s else StripTrailingSeps(s[..|s| - 1])
  }

  /** `os.path.dirname`: everything before the last separator, without
      trailing separators unless the head is nothing but separators. */
  function Dirname(p: string): string {
    var head := p[..AfterLastSep(p)];
    if head != [] && !AllSeps(head) then StripTrailingSeps(head) else head
  }

  /** `os.path.basename`: everything after the last separator. */
  function Basename(p: string): (r: string)
    ensures Sep !in r
  {
    p[AfterLastSep(p)..]
  }

  // ---------------------------------------------------------------------------
  // Facts.

  lemma {:induction false} StepProper(acc: seq<string>, c: string)
    requires AllProper(acc) && Sep !in c
    ensures AllProper(Step(acc, c))
  {
  }

  /** A normalized path holds only proper components. */
  lemma {:induction false} ResolveProper(acc: seq<string>, comps: seq<string>)
    requires AllProper(acc) && forall i :: 0 <= i < |comps| ==> Sep !in comps[i]
    ensures AllProper(Resolve(acc, comps))
    decreases |comps|
  {
    if comps != [] {
      StepProper(acc, comps[0]);
      assert forall i :: 0 <= i < |comps[1..]| ==> comps[1..][i] == comps[i + 1];
      ResolveProper(Step(acc, comps[0]), comps[1..]);
    }
  }

  lemma {:induction false} AbsComponentsProper(cwd: seq<string>, p: string)
    requires AllProper(cwd)
    ensures AllProper(AbsComponents(cwd, p))
  {
    ResolveProper(if IsAbs(p) then [] else cwd, SplitAll(p, Sep));
  }

  /** Resolving two lists in turn is resolving their concatenation. */
  lemma {:induction false} ResolveAppend(acc: seq<string>, a: seq<string>, b: seq<string>)
    ensures Resolve(acc, a + b) == Resolve(Resolve(acc, a), b)
    decreases |a|
  {
    if a == [] {
      assert a + b == b;
    } else {
      assert (a + b)[0] == a[0] && (a + b)[1..] == a[1..] + b;
      ResolveAppend(Step(acc, a[0]), a[1..], b);
    }
  }

  /** `n` times `..`. */
  function Ups(n: nat): (r: seq<string>)
    ensures |r| == n && forall i :: 0 <= i < n ==> r[i] == ".."
  {
    seq(n, _ => "..")
  }

  /** Going up `n` times drops the last `n` components, stopping at the
      root. */
  lemma {:induction false} ResolveUps(acc: seq<string>, n: nat)
    ensures Resolve(acc, Ups(n)) == if n <= |acc| then acc[..|acc| - n] else []
    decreases n
  {
    if n > 0 {
      assert Ups(n)[0] == ".." && Ups(n)[1..] == Ups(n - 1);
      ResolveUps(Step(acc, ".."), n - 1);
      if n <= |acc| {
        assert acc[..|acc| - 1][..|acc| - 1 - (n - 1)] == acc[..|acc| - n];
      }
    }
  }

  /** Proper components are appended as they are. */
  lemma {:induction false} ResolveNames(acc: seq<string>, names: seq<string>)
    requires AllProper(names)
    ensures Resolve(acc, names) == acc + names
    decreases |names|
  {
    if names != [] {
      ResolveNames(acc + [names[0]], names[1..]);
      assert acc + [names[0]] + names[1..] == acc + names;
    }
  }

  /** A path of proper components, split, gives its components after the
      empty one before the root. */
  lemma {:induction false} RenderSplits(cs: seq<string>)
    requires AllProper(cs)
    ensures SplitAll(Render(cs), Sep) == [""] + (if cs == [] then [""] else cs)
  {
    var parts := [""] + (if cs == [] then [""] else cs);
    assert Text.Join([Sep], parts) == Render(cs) by {
      JoinCons([Sep], "", if cs == [] then [""] else cs);
    }
    SplitAllJoin(parts, Sep);
  }

  /** `normpath(abspath(p))` of a normalized absolute path is the path
      itself, from any working directory. */
  lemma {:induction false} AbsComponentsRendered(cwd: seq<string>, cs: seq<string>)
    requires AllProper(cs)
    ensures AbsComponents(cwd, Render(cs)) == cs
  {
    RenderSplits(cs);
    var split := [""] + (if cs == [] then [""] else cs);
    assert Resolve([], split) == Resolve([], split[1..]);
    if cs == [] {
      assert Resolve([], [""]) == Resolve([], []);
    } else {
      assert split[1..] == cs;
      ResolveNames([], cs);
    }
  }

  /** Empty components change nothing. */
  lemma {:induction false} ResolveEmpties(acc: seq<string>, comps: seq<string>)
    requires forall k :: 0 <= k < |comps| ==> comps[k] == ""
    ensures Resolve(acc, comps) == acc
    decreases |comps|
  {
    if comps != [] {
      ResolveEmpties(acc, comps[1..]);
    }
  }

  /** Separators at the end of a path change nothing. */
  lemma {:induction false} TrailingSeps(start: seq<string>, d: string, t: string)
    requires forall k :: 0 <= k < |t| ==> t[k] == Sep
    ensures Resolve(start, SplitAll(d + [Sep] + t, Sep)) == Resolve(start, SplitAll(d, Sep))
  {
    SplitAllSep(d, t, Sep);
    SplitAllSeps(t, Sep);
    ResolveAppend(start, SplitAll(d, Sep), SplitAll(t, Sep));
    ResolveEmpties(Resolve(start, SplitAll(d, Sep)), SplitAll(t, Sep));
  }

  /** The last component of a path with a separator. */
  lemma {:induction false} LastComponent(start: seq<string>, p: string)
    requires AfterLastSep(p) > 0 && Proper(Basename(p))
    ensures Resolve(start, SplitAll(p, Sep)) == Resolve(start, SplitAll(p[..AfterLastSep(p)], Sep)) + [Basename(p)]
  {
    var i := AfterLastSep(p);
    var base := Basename(p);
    var h := p[..i - 1];
    assert SplitAll(base, Sep) == [base];
    assert p == h + [Sep] + base;
    SplitAllSep(h, base, Sep);
    ResolveAppend(start, SplitAll(h, Sep), [base]);
    assert p[..i] == h + [Sep] + "";
    TrailingSeps(start, h, "");
  }

  /** `dirname` drops the separators that end the head. */
  lemma {:induction false} DirnameHead(start: seq<string>, p: string)
    requires AfterLastSep(p) > 0
    ensures IsAbs(Dirname(p)) == IsAbs(p)
    ensures Resolve(start, SplitAll(Dirname(p), Sep)) == Resolve(start, SplitAll(p[..AfterLastSep(p)], Sep))
  {
    var head := p[..AfterLastSep(p)];
    var d := Dirname(p);
    if !AllSeps(head) {
      assert head == d + [Sep] + head[|d| + 1..];
      TrailingSeps(start, d, head[|d| + 1..]);
    }
    assert d[0] == head[0] == p[0];
  }

  /** A path whose last component is a proper name is its directory with
      that name below it: `dirname` and `basename` split the normalized path
      at its last component. */
  lemma {:induction false} AbsComponentsDirname(cwd: seq<string>, p: string)
    requires Proper(Basename(p))
    ensures AbsComponents(cwd, p) == AbsComponents(cwd, Dirname(p)) + [Basename(p)]
  {
    var base := Basename(p);
    if AfterLastSep(p) == 0 {
      assert SplitAll(base, Sep) == [base];
      assert p == base && p[..0] == "";
      assert !IsAbs(p) by { assert p[0] == base[0]; }
      assert SplitAll("", Sep) == [""];
      assert Resolve(cwd, [base]) == Resolve(cwd + [base], []);
      assert Dirname(p) == "";
      assert AbsComponents(cwd, "") == Resolve(cwd, [""]) == cwd;
      assert AbsComponents(cwd, p) == Resolve(cwd, [base]);
    } else {
      var start := if IsAbs(p) then [] else cwd;
      LastComponent(start, p);
      DirnameHead(start, p);
    }
  }

  /** Joining with `Join2` where no part holds a separator and all but the
      last are non-empty puts exactly one separator between parts. */
  lemma {:induction false} JoinAllIsJoin(parts: seq<string>)
    requires parts != []
    requires forall i :: 0 <= i < |parts| ==> Sep !in parts[i]
    requires forall i :: 0 <= i < |parts| - 1 ==> parts[i] != ""
    ensures JoinAll(parts) == Text.Join([Sep], parts)
    ensures |parts| > 1 ==> JoinAll(parts) != ""
    ensures parts[|parts| - 1] != "" ==> JoinAll(parts) != "" && JoinAll(parts)[|JoinAll(parts)| - 1] != Sep
    decreases |parts|
  {
    var last := parts[|parts| - 1];
    if last != "" {
      assert last[|last| - 1] in last;
    }
    if |parts| > 1 {
      var init := parts[..|parts| - 1];
      assert forall i :: 0 <= i < |init| ==> init[i] == parts[i];
      JoinAllIsJoin(init);
      JoinSnoc([Sep], init, last);
      var j := JoinAll(init);
      assert init[|init| - 1] != "";
      assert j != "" && j[|j| - 1] != Sep;
      assert last != "" ==> last[0] in last;
      assert JoinAll(parts) == Join2(j, last) == j + [Sep] + last;
      assert parts == init + [last];
    }
  }

  /** Joining with one more part at the end. */
  lemma {:induction false} JoinSnoc(sep: string, init: seq<string>, last: string)
    requires init != []
    ensures Text.Join(sep, init + [last]) == Text.Join(sep, init) + sep + last
    decreases |init|
  {
    if |init| == 1 {
      assert init + [last] == [init[0], last];
      assert [init[0], last][1..] == [last];
    } else {
      var all := init + [last];
      assert all[0] == init[0] && all[1..] == init[1..] + [last];
      JoinSnoc(sep, init[1..], last);
    }
  }

  /** Normalizing `os.path.join(a, b)` resolves `b`'s components from the
      normalized `a`, unless `b` is absolute. */
  lemma {:induction false} JoinResolves(cwd: seq<string>, a: string, b: string)
    ensures AbsComponents(cwd, Join2(a, b))
      == if IsAbs(b) then AbsComponents(cwd, b) else Resolve(AbsComponents(cwd, a), SplitAll(b, Sep))
  {
    if !IsAbs(b) {
      if a == "" {
        assert SplitAll(a, Sep) == [""];
        assert Resolve(cwd, [""]) == Resolve(cwd, []);
        assert Join2(a, b) == b;
      } else {
        var start := if IsAbs(a) then [] else cwd;
        if a[|a| - 1] == Sep {
          var a' := a[..|a| - 1];
          assert a + b == a' + [Sep] + b;
          assert a == a' + [Sep] + "";
          SplitAllSep(a', b, Sep);
          SplitAllSep(a', "", Sep);
          assert SplitAll("", Sep) == [""];
          ResolveAppend(start, SplitAll(a', Sep), SplitAll(b, Sep));
          ResolveAppend(start, SplitAll(a', Sep), [""]);
        } else {
          SplitAllSep(a, b, Sep);
          ResolveAppend(start, SplitAll(a, Sep), SplitAll(b, Sep));
        }
        assert IsAbs(Join2(a, b)) == IsAbs(a);
      }
    }
  }
}

=== FILE: query_backoff.dfy ===
/** The query thread's wait between two rounds of mDNS queries: a Fibonacci
    backoff in seconds over the number of queries sent so far, capped at a
    minute, where reaching the cap ends active discovery. */
module QueryBackoff {

  const MaxActiveQueries := 10
  const MaxDelaySeconds := 60

  /** The part of the query thread the delay reads and writes. */
  datatype QueryThread = QueryThread(queriesSent: int, activeDiscovery: bool)

  /** The Fibonacci numbers 0, 1, 1, 2, 3, 5, ... */
  function Fib(n: nat): (r: nat)
    ensures n >= 1 ==> r >= 1
  {
    if n < 2 then n else Fib(n - 1) + Fib(n - 2)
  }

  /** The reference the thread is meant to follow: one second for the first
      two queries, then the Fibonacci numbers. */
  function BackoffSeconds(queriesSent: int): (r: nat)
  {
    if queriesSent > MaxActiveQueries then MaxDelaySeconds
    else if queriesSent <= 1 then 1
    else Fib(queriesSent)
  }

  /** `getQueryDelayInMillis`, with its loop. */
  method QueryDelayInMillis(t: QueryThread) returns (delay: int, t': QueryThread)
    ensures t.queriesSent > MaxActiveQueries ==> delay == 60000 && !t'.activeDiscovery
    ensures t.queriesSent <= MaxActiveQueries ==> delay == 1000 * BackoffSeconds(t.queriesSent) && t' == t
    ensures t'.queriesSent == t.queriesSent
    ensures delay % 1000 == 0 && 1000 <= delay <= 60000
  {
    var delayInSeconds := 1;
    var first := 1;
    var second := 1;
    if t.queriesSent > MaxActiveQueries {
      delayInSeconds := MaxDelaySeconds;
    } else {
      var index := 1;
      while index < t.queriesSent
        invariant 1 <= index <= if t.queriesSent >= 1 then t.queriesSent else 1
        invariant index == 1 ==> delayInSeconds == 1 && first == 1 && second == 1
        invariant index >= 2 ==> first == Fib(index - 1) && second == Fib(index) && delayInSeconds == Fib(index)
        decreases t.queriesSent - index
      {
        if index <= 1 {
          delayInSeconds := index;
        } else {
          delayInSeconds := first + second;
          first := second;
          second := delayInSeconds;
        }
        index := index + 1;
      }
      FibBelowCap(t.queriesSent);
    }
    t' := t;
    if delayInSeconds >= MaxDelaySeconds {
      delayInSeconds := MaxDelaySeconds;
      if t'.activeDiscovery {
        t' := t'.(activeDiscovery := false);
      }
    }
    delay := delayInSeconds * 1000;
  }

  /** The count `run` starts from: passive discovery begins past the active
      queries. */
  function StartCount(activeDiscovery: bool): (r: int)
    ensures activeDiscovery ==> r == 0
    ensures !activeDiscovery ==> r == MaxActiveQueries
  {
    if activeDiscovery then 0 else MaxActiveQueries
  }

  // ---------------------------------------------------------------------------

  lemma {:induction false} FibBelowCap(n: int)
    ensures 2 <= n <= MaxActiveQueries ==> Fib(n) < MaxDelaySeconds
  {
    assert Fib(2) == 1 && Fib(3) == 2 && Fib(4) == 3 && Fib(5) == 5 && Fib(6) == 8;
    assert Fib(7) == 13 && Fib(8) == 21 && Fib(9) == 34 && Fib(10) == 55;
  }

  /** The delays of the first eleven query counts, in seconds. */
  lemma {:induction false} ActiveSchedule()
    ensures seq(11, n requires 0 <= n < 11 => BackoffSeconds(n)) == [1, 1, 1, 2, 3, 5, 8, 13, 21, 34, 55]
  {
    FibBelowCap(10);
  }

  lemma {:induction false} FibMonotone(m: nat, n: nat)
    requires 1 <= m <= n
    ensures Fib(m) <= Fib(n)
    decreases n - m
  {
    if m < n {
      FibMonotone(m, n - 1);
      assert Fib(n) == Fib(n - 1) + Fib(n - 2);
    }
  }

  /** More queries never shorten the wait. */
  lemma {:induction false} BackoffMonotone(m: int, n: int)
    requires m <= n
    ensures BackoffSeconds(m) <= BackoffSeconds(n)
  {
    if n <= MaxActiveQueries && m >= 2 {
      FibMonotone(m, n);
    } else if n <= MaxActiveQueries && n >= 2 {
      FibMonotone(1, n);
    } else if n > MaxActiveQueries && 2 <= m <= MaxActiveQueries {
      FibBelowCap(m);
    }
  }

  /** In passive discovery the first round already waits the full minute. */
  lemma {:induction false} PassiveStartsCapped()
    ensures BackoffSeconds(StartCount(false) + 1) == MaxDelaySeconds
  {
  }
}

=== FILE: remote_plugin.dfy ===
/** The wrapper the printer discovery app puts around each vendor plugin: it
    caches the plugin's name and action, tracks whether the plugin runs, and
    passes on the printer count the plugin reports. Whether a call into the
    plugin succeeds is a parameter; the action intent is its URI. */
module RemotePlugin {
  import opened Wrappers

  const CannotCache := "PluginException: Cannot cache simple properties "
  const CannotStart := "PluginException: Cannot start"
  const CannotStop := "PluginException: Cannot stop"
  const NotRunning := "IllegalStateException"
  const NegativeCount := "IllegalArgumentException: numDiscoveredPrinters"

  datatype Remote = Remote(
    name: string,
    action: string,
    numPrinters: int,
    running: bool,
    /** How many times the listener has been told of a change. */
    notified: nat)

  /** The constructor: the plugin's name and action must both be there (a
      `None` stands for null or a throw); the wrapper starts stopped. */
  function New(name: Option<string>, action: Option<string>): (r: Result<Remote, string>)
    ensures r.Success? <==> name.Some? && action.Some?
    ensures r.Failure? ==> r.error == CannotCache
    ensures r.Success? ==> r.value.name == name.value && r.value.action == action.value
    ensures r.Success? ==> !r.value.running && r.value.numPrinters == 0 && r.value.notified == 0
  {
    if name.None? || action.None? then Failure(CannotCache)
    else Success(Remote(name.value, action.value, 0, false, 0))
  }

  /** `start`: running once the plugin has started. */
  function Start(w: Remote, pluginOk: bool): (r: Result<Remote, string>)
    ensures r.Success? <==> pluginOk
    ensures r.Success? ==> r.value == w.(running := true)
    ensures r.Failure? ==> r.error == CannotStart
  {
    if pluginOk then Success(w.(running := true)) else Failure(CannotStart)
  }

  /** `stop`: not running once the plugin has stopped. */
  function Stop(w: Remote, pluginOk: bool): (r: Result<Remote, string>)
    ensures r.Success? <==> pluginOk
    ensures r.Success? ==> r.value == w.(running := false)
    ensures r.Failure? ==> r.error == CannotStop
  {
    if pluginOk then Success(w.(running := false)) else Failure(CannotStop)
  }

  /** `onChanged`: only while running, only a count of at least zero; the
      count is kept and the listener told once. */
  function OnChanged(w: Remote, count: int): (r: Result<Remote, string>)
    ensures r.Success? <==> w.running && count >= 0
    ensures !w.running ==> r == Failure(NotRunning)
    ensures w.running && count < 0 ==> r == Failure(NegativeCount)
    ensures r.Success? ==> r.value.numPrinters == count && r.value.notified == w.notified + 1
    ensures r.Success? ==> r.value.(numPrinters := w.numPrinters, notified := w.notified) == w
  {
    if !w.running then Failure(NotRunning)
    else if count < 0 then Failure(NegativeCount)
    else Success(w.(numPrinters := count, notified := w.notified + 1))
  }

  // ---------------------------------------------------------------------------

  /** A wrapper that has been stopped refuses every report until started
      again. */
  lemma {:induction false} StoppedRefuses(w: Remote, count: int)
    requires Stop(w, true).Success?
    ensures OnChanged(Stop(w, true).value, count) == Failure(NotRunning)
  {
  }

  /** A new wrapper takes reports only once started, and then reports the
      last count it was given. */
  lemma {:induction false} StartThenReport(name: string, action: string, a: nat, b: nat)
    ensures var w := New(Some(name), Some(action)).value;
      OnChanged(w, a).Failure?
      && var s := Start(w, true).value;
      OnChanged(s, a).Success?
      && var t := OnChanged(OnChanged(s, a).value, b).value;
      t.numPrinters == b && t.notified == 2 && t.running
  {
  }
}

=== FILE: seqs.dfy ===
/** Facts about finding a piece at a known offset of a concatenation, used to
    read fields back out of encoded messages. */
module Seqs {

  /** `x` occurs in `p` starting at `off`. */
  predicate At<T(==)>(p: seq<T>, off: nat, x: seq<T>) {
    off + |x| <= |p| && p[off..off + |x|] == x
  }

  lemma {:induction false} AtLeft<T>(a: seq<T>, b: seq<T>)
    ensures At(a + b, 0, a)
  {
    assert (a + b)[0..|a|] == a;
  }

  lemma {:induction false} AtRight<T>(a: seq<T>, b: seq<T>)
    ensures At(a + b, |a|, b)
  {
    assert (a + b)[|a|..|a| + |b|] == b;
  }

  /** A piece made of two parts gives each part at its own offset. */
  lemma {:induction false} AtSplit<T>(p: seq<T>, off: nat, x: seq<T>, y: seq<T>)
    requires At(p, off, x + y)
    ensures At(p, off, x) && At(p, off + |x|, y)
  {
    assert p[off..off + |x|] == (x + y)[..|x|];
    assert p[off + |x|..off + |x| + |y|] == (x + y)[|x|..];
  }

  /** A piece of a piece is a piece of the whole. */
  lemma {:induction false} AtNested<T>(p: seq<T>, off: nat, x: seq<T>, k: nat, y: seq<T>)
    requires At(p, off, x) && At(x, k, y)
    ensures At(p, off + k, y)
  {
    forall i | 0 <= i < |y|
      ensures p[off + k..off + k + |y|][i] == y[i]
    {
      assert p[off + k + i] == p[off..off + |x|][k + i];
      assert y[i] == x[k..k + |y|][i];
    }
  }

  lemma {:induction false} AtIndex<T>(p: seq<T>, off: nat, x: seq<T>, i: nat)
    requires At(p, off, x) && i < |x|
    ensures p[off + i] == x[i]
  {
    assert p[off..off + |x|][i] == x[i];
  }

  /** `At`, stated item by item: the verifier unfolds it only as far as a
      proof asks, which keeps long encodings out of unrelated proofs. */
  predicate Placed<T(==)>(p: seq<T>, off: nat, x: seq<T>)
    decreases |x|
  {
    if |x| == 0 then off <= |p| else off < |p| && p[off] == x[0] && Placed(p, off + 1, x[1..])
  }

  lemma {:induction false} PlacedAt<T>(p: seq<T>, off: nat, x: seq<T>)
    ensures Placed(p, off, x) <==> At(p, off, x)
    decreases |x|
  {
    if |x| > 0 {
      PlacedAt(p, off + 1, x[1..]);
      if At(p, off, x) {
        assert p[off] == p[off..off + |x|][0];
        assert p[off + 1..off + 1 + |x[1..]|] == p[off..off + |x|][1..];
      }
      if off < |p| && p[off] == x[0] && At(p, off + 1, x[1..]) {
        assert p[off..off + |x|] == [p[off]] + p[off + 1..off + 1 + |x[1..]|];
      }
    }
  }

  lemma {:induction false} PlacedSplit<T>(p: seq<T>, off: nat, x: seq<T>, y: seq<T>)
    requires Placed(p, off, x + y)
    ensures Placed(p, off, x) && Placed(p, off + |x|, y)
  {
    PlacedAt(p, off, x + y);
    AtSplit(p, off, x, y);
    PlacedAt(p, off, x);
    PlacedAt(p, off + |x|, y);
  }

  lemma {:induction false} PlacedIndex<T>(p: seq<T>, off: nat, x: seq<T>, i: nat)
    requires Placed(p, off, x) && i < |x|
    ensures off + i < |p| && p[off + i] == x[i]
  {
    PlacedAt(p, off, x);
    AtIndex(p, off, x, i);
  }
}

=== FILE: stub_provider.dfy ===
/** The print service stubs' content provider: one fixed query returns a row
    per stub that has found printers, most printers first; every mutation is
    refused. The constants of the provider's contract class (`CONTENT_URI`,
    `ALL_COLUMNS`, `DEFAULT_SORT_ORDER`) are passed in as a `Contract`. */
module StubProvider {
  import opened Wrappers

  const IllegalArgument := "IllegalArgumentException"
  const CannotInsert := "IllegalAccessError: Data cannot be inserted"
  const CannotDelete := "IllegalAccessError: Data cannot be deleted"

  datatype Contract = Contract(contentUri: string, allColumns: seq<string>, defaultSortOrder: string)

  datatype QueryArgs = QueryArgs(
    uri: string,
    projection: Option<seq<string>>,
    selection: Option<string>,
    selectionArgs: Option<seq<string>>,
    sortOrder: Option<string>)

  /** What `query` reads of a started stub. */
  datatype Stub = Stub(name: string, multiVendor: bool, numPrinters: int, installUri: string)

  /** A cursor row; `id` is the stub's position in the list, which the
      `_ID` column holds in decimal. */
  datatype Row = Row(name: string, multiVendor: int, numPrinters: int, installUri: string, id: nat)

  /** The `checkArgument` calls at the top of `query`. */
  predicate Accepted(c: Contract, a: QueryArgs) {
    a.uri == c.contentUri
    && a.projection == Some(c.allColumns)
    && a.selection.None?
    && a.selectionArgs.None?
    && a.sortOrder == Some(c.defaultSortOrder)
  }

  function RowOf(s: Stub, i: nat): (r: Row)
    ensures r.name == s.name && r.numPrinters == s.numPrinters && r.installUri == s.installUri && r.id == i
    ensures r.multiVendor == 1 <==> s.multiVendor
    ensures r.multiVendor == 0 <==> !s.multiVendor
  {
    Row(s.name, if s.multiVendor then 1 else 0, s.numPrinters, s.installUri, i)
  }

  /** The row-building loop from position `i` on: stubs that found no
      printer are skipped. */
  function RowsFrom(stubs: seq<Stub>, i: nat): (r: seq<Row>)
    ensures forall k :: 0 <= k < |r| ==> i <= r[k].id < |stubs| && r[k] == RowOf(stubs[r[k].id], r[k].id)
    ensures forall k :: 0 <= k < |r| ==> r[k].numPrinters != 0
    ensures forall k, m :: 0 <= k < m < |r| ==> r[k].id < r[m].id
    decreases |stubs| - i
  {
    if i >= |stubs| then []
    else if stubs[i].numPrinters != 0 then [RowOf(stubs[i], i)] + RowsFrom(stubs, i + 1)
    else RowsFrom(stubs, i + 1)
  }

  /** The sort comparator: more printers first, then single-vendor before
      multi-vendor. */
  function Compare(a: Row, b: Row): int {
    var ret := b.numPrinters - a.numPrinters;
    if ret == 0 then a.multiVendor - b.multiVendor else ret
  }

  /** `a` comes before `b` in a stable sort of rows listed by position. */
  predicate Before(a: Row, b: Row) {
    Compare(a, b) < 0 || (Compare(a, b) == 0 && a.id < b.id)
  }

  predicate SortedRows(r: seq<Row>) {
    forall k, m :: 0 <= k < m < |r| ==> Before(r[k], r[m])
  }

  /** One insertion step of the stable sort: `x` goes before the first row it
      does not sort after. */
  function Insert(x: Row, r: seq<Row>): (out: seq<Row>)
    ensures multiset(out) == multiset(r) + multiset{x}
    ensures |out| == |r| + 1
  {
    if r == [] || Compare(x, r[0]) <= 0 then [x] + r
    else
      assert r == [r[0]] + r[1..];
      [r[0]] + Insert(x, r[1..])
  }

  /** `Collections.sort`, a stable sort, as insertion from the back. */
  function Sort(r: seq<Row>): (out: seq<Row>)
    ensures multiset(out) == multiset(r)
  {
    if r == [] then []
    else
      assert r == [r[0]] + r[1..];
      Insert(r[0], Sort(r[1..]))
  }

  /** `query`. */
  function Query(c: Contract, stubs: seq<Stub>, a: QueryArgs): (r: Result<seq<Row>, string>)
    ensures r.Failure? <==> !Accepted(c, a)
    ensures r.Failure? ==> r.error == IllegalArgument
    ensures r.Success? ==> multiset(r.value) == multiset(RowsFrom(stubs, 0))
  {
    if !Accepted(c, a) then Failure(IllegalArgument) else Success(Sort(RowsFrom(stubs, 0)))
  }

  /** `insert`. */
  function InsertRow(uri: string, values: map<string, string>): (r: Result<string, string>)
    ensures r == Failure(CannotInsert)
  {
    Failure(CannotInsert)
  }

  /** `delete`. */
  function Delete(uri: string, selection: Option<string>): (r: Result<int, string>)
    ensures r == Failure(CannotDelete)
  {
    Failure(CannotDelete)
  }

  /** `update`; its message is the one `delete` uses. */
  function Update(uri: string, values: map<string, string>, selection: Option<string>): (r: Result<int, string>)
    ensures r == Failure(CannotDelete)
  {
    Failure(CannotDelete)
  }

  // ---------------------------------------------------------------------------

  lemma {:induction false} BeforeTransitive(a: Row, b: Row, c: Row)
    requires Before(a, b) && Before(b, c)
    ensures Before(a, c)
  {
  }

  lemma {:induction false} InsertMembers(x: Row, r: seq<Row>)
    ensures forall y :: y in Insert(x, r) <==> y == x || y in r
  {
    forall y ensures y in Insert(x, r) <==> y == x || y in r {
      assert (y in Insert(x, r)) == (y in multiset(Insert(x, r)));
      assert (y in r) == (y in multiset(r));
    }
  }

  /** `x` sorts before every row of `r` once it sorts before the first. */
  lemma {:induction false} BeforeAll(x: Row, r: seq<Row>)
    requires SortedRows(r) && r != [] && Before(x, r[0])
    ensures forall k :: 0 <= k < |r| ==> Before(x, r[k])
  {
    forall k | 0 < k < |r| ensures Before(x, r[k]) {
      BeforeTransitive(x, r[0], r[k]);
    }
  }

  /** Inserting a row whose position precedes every row already sorted keeps
      the rows sorted. */
  lemma {:induction false} InsertSorted(x: Row, r: seq<Row>)
    requires SortedRows(r)
    requires forall k :: 0 <= k < |r| ==> x.id < r[k].id
    ensures SortedRows(Insert(x, r))
  {
    if r != [] && Compare(x, r[0]) > 0 {
      var tail := Insert(x, r[1..]);
      InsertSorted(x, r[1..]);
      InsertMembers(x, r[1..]);
      assert Before(r[0], x);
      assert forall y :: y in r[1..] ==> Before(r[0], y);
      assert forall k :: 0 <= k < |tail| ==> Before(r[0], tail[k]);
    } else if r != [] {
      BeforeAll(x, r);
    }
  }

  lemma {:induction false} SortSorted(r: seq<Row>)
    requires forall k, m :: 0 <= k < m < |r| ==> r[k].id < r[m].id
    ensures SortedRows(Sort(r))
  {
    if r != [] {
      SortSorted(r[1..]);
      var s := Sort(r[1..]);
      forall k | 0 <= k < |s| ensures r[0].id < s[k].id {
        assert s[k] in multiset(r[1..]);
        var j :| 0 <= j < |r[1..]| && r[1..][j] == s[k];
        assert r[j + 1] == s[k];
      }
      InsertSorted(r[0], s);
    }
  }

  /** The rows `query` returns: each stub with printers, once, sorted by
      printer count descending, then multi-vendor flag ascending, stubs that
      tie keeping their list order. */
  lemma {:induction false} QueryRows(c: Contract, stubs: seq<Stub>, a: QueryArgs)
    requires Accepted(c, a)
    ensures var rows := Query(c, stubs, a).value;
      SortedRows(rows)
      && (forall k :: 0 <= k < |rows| ==> rows[k].id < |stubs| && rows[k] == RowOf(stubs[rows[k].id], rows[k].id))
      && forall i :: 0 <= i < |stubs| && stubs[i].numPrinters != 0 ==> RowOf(stubs[i], i) in rows
  {
    var all := RowsFrom(stubs, 0);
    var rows := Query(c, stubs, a).value;
    SortSorted(all);
    forall k | 0 <= k < |rows| ensures rows[k].id < |stubs| && rows[k] == RowOf(stubs[rows[k].id], rows[k].id) {
      assert rows[k] in multiset(all);
    }
    forall i | 0 <= i < |stubs| && stubs[i].numPrinters != 0 ensures RowOf(stubs[i], i) in rows {
      RowsFromHas(stubs, 0, i);
      assert RowOf(stubs[i], i) in multiset(all);
    }
  }

  /** Every stub with printers from position `i` on has its row. */
  lemma {:induction false} RowsFromHas(stubs: seq<Stub>, i: nat, j: nat)
    requires i <= j < |stubs| && stubs[j].numPrinters != 0
    ensures RowOf(stubs[j], j) in RowsFrom(stubs, i)
    decreases j - i
  {
    if i < j {
      RowsFromHas(stubs, i + 1, j);
    }
  }

  /** Sorted rows put more printers first, and on a tie single-vendor rows
      first. */
  lemma {:induction false} SortedOrder(rows: seq<Row>, k: int, m: int)
    requires SortedRows(rows) && 0 <= k < m < |rows|
    ensures rows[k].numPrinters >= rows[m].numPrinters
    ensures rows[k].numPrinters == rows[m].numPrinters ==> rows[k].multiVendor <= rows[m].multiVendor
  {
  }
}

=== FILE: text.dfy ===
/** String helpers shared by the modules that model Java, C and Python string
    handling. Strings are `seq<char>`; case mapping covers ASCII letters only. */
module Text {
  import opened Wrappers

  /** C `isspace` in the "C" locale. */
  predicate IsCSpace(c: char) {
    c == ' ' || c == '\t' || c == '\n' || c == '\U{000B}' || c == '\U{000C}' || c == '\r'
  }

  /** Characters Java's `String.trim` removes: everything up to U+0020. */
  predicate IsJavaTrimmed(c: char) {
    c <= ' '
  }

  function LowerChar(c: char): char {
    if 'A' <= c <= 'Z' then (c as int + 32) as char else c
  }

  function UpperChar(c: char): char {
    if 'a' <= c <= 'z' then (c as int - 32) as char else c
  }

  /** `toLowerCase` (ASCII letters). */
  function Lower(s: string): (r: string)
    ensures |r| == |s|
    ensures forall i :: 0 <= i < |s| ==> r[i] == LowerChar(s[i])
  {
    if s == [] then [] else [LowerChar(s[0])] + Lower(s[1..])
  }

  /** `toUpperCase` (ASCII letters). */
  function Upper(s: string): (r: string)
    ensures |r| == |s|
    ensures forall i :: 0 <= i < |s| ==> r[i] == UpperChar(s[i])
  {
    if s == [] then [] else [UpperChar(s[0])] + Upper(s[1..])
  }

  /** Java's `String.equalsIgnoreCase`: same length, and each pair of characters
      is equal or equal after upper-casing or lower-casing. */
  predicate EqualsIgnoreCase(a: string, b: string) {
    |a| == |b| &&
    forall i :: 0 <= i < |a| ==>
      a[i] == b[i] || UpperChar(a[i]) == UpperChar(b[i]) || LowerChar(a[i]) == LowerChar(b[i])
  }

  predicate IsPrefix(p: string, s: string) {
    |p| <= |s| && s[..|p|] == p
  }

  /** `s.contains(sub)`: `sub` occurs at some position of `s`. */
  predicate Contains(s: string, sub: string) {
    exists i :: 0 <= i <= |s| - |sub| && OccursAt(s, sub, i)
  }

  predicate OccursAt(s: string, sub: string, i: int) {
    0 <= i <= |s| - |sub| && s[i..i + |sub|] == sub
  }

  /** `TextUtils.isEmpty`: null or the empty string. */
  predicate IsEmptyText(s: Option<string>) {
    s.None? || s.value == ""
  }

  /** Joins `parts` with `sep` between consecutive parts, as `TextUtils.join`
      and Python's `str.join` do. */
  function Join(sep: string, parts: seq<string>): string {
    if |parts| == 0 then ""
    else if |parts| == 1 then parts[0]
    else parts[0] + sep + Join(sep, parts[1..])
  }

  /** Splits `s` at every occurrence of `c`, keeping empty pieces. */
  function SplitAll(s: string, c: char): (r: seq<string>)
    ensures |r| >= 1
    ensures forall k :: 0 <= k < |r| ==> c !in r[k]
    decreases |s|
  {
    if c !in s then [s]
    else
      var i := IndexOfChar(s, c);
      [s[..i]] + SplitAll(s[i + 1..], c)
  }

  /** Index of the first occurrence of `c` in `s`. */
  function IndexOfChar(s: string, c: char): (i: nat)
    requires c in s
    ensures i < |s| && s[i] == c && c !in s[..i]
  {
    if s[0] == c then 0 else 1 + IndexOfChar(s[1..], c)
  }

  function DropTrailingEmpty(parts: seq<string>): (r: seq<string>)
    ensures |r| <= |parts| && r == parts[..|r|]
    ensures |r| > 0 ==> r[|r| - 1] != ""
    ensures forall k :: |r| <= k < |parts| ==> parts[k] == ""
  {
    if |parts| == 0 then []
    else if parts[|parts| - 1] == "" then DropTrailingEmpty(parts[..|parts| - 1])
    else parts
  }

  /** Java's `String.split` with a one-character literal separator and no limit:
      a string without the separator gives itself; otherwise the pieces between
      separators, with trailing empty pieces removed. */
  function JavaSplit(s: string, c: char): seq<string> {
    if c !in s then [s] else DropTrailingEmpty(SplitAll(s, c))
  }

  /** Python's `str.replace(pat, rep)`: every non-overlapping occurrence of
      `pat`, scanning left to right. */
  function ReplaceAll(s: string, pat: string, rep: string): string
    requires |pat| > 0
    decreases |s|
  {
    if |s| == 0 then ""
    else if IsPrefix(pat, s) then rep + ReplaceAll(s[|pat|..], pat, rep)
    else [s[0]] + ReplaceAll(s[1..], pat, rep)
  }

  /** Replaces every occurrence of the character `a` by `b`. */
  function ReplaceChar(s: string, a: char, b: char): (r: string)
    ensures |r| == |s|
    ensures forall i :: 0 <= i < |s| ==> r[i] == (if s[i] == a then b else s[i])
  {
    if s == [] then [] else [if s[0] == a then b else s[0]] + ReplaceChar(s[1..], a, b)
  }

  /** Java's `String.trim`: removes leading and trailing characters up to U+0020. */
  function JavaTrim(s: string): string {
    TrimEnd(TrimStart(s, IsJavaTrimmed), IsJavaTrimmed)
  }

  /** Number of leading characters of `s` that `drop` accepts. */
  function LeadingCount(s: string, drop: char -> bool): (k: nat)
    ensures k <= |s|
    ensures forall i :: 0 <= i < k ==> drop(s[i])
    ensures k < |s| ==> !drop(s[k])
  {
    if |s| > 0 && drop(s[0]) then 1 + LeadingCount(s[1..], drop) else 0
  }

  /** Number of trailing characters of `s` that `drop` accepts. */
  function TrailingCount(s: string, drop: char -> bool): (k: nat)
    ensures k <= |s|
    ensures forall i :: |s| - k <= i < |s| ==> drop(s[i])
    ensures k < |s| ==> !drop(s[|s| - k - 1])
  {
    if |s| > 0 && drop(s[|s| - 1]) then 1 + TrailingCount(s[..|s| - 1], drop) else 0
  }

  function TrimStart(s: string, drop: char -> bool): string {
    s[LeadingCount(s, drop)..]
  }

  function TrimEnd(s: string, drop: char -> bool): string {
    s[..|s| - TrailingCount(s, drop)]
  }

  // ---------------------------------------------------------------------------
  // Facts about the helpers that several modules rely on.

  lemma {:induction false} JoinCons(sep: string, p: string, rest: seq<string>)
    requires |rest| > 0
    ensures Join(sep, [p] + rest) == p + sep + Join(sep, rest)
  {
    assert ([p] + rest)[1..] == rest;
  }

  /** `IndexOfChar` finds the first occurrence. */
  lemma {:induction false} IndexOfCharAt(s: string, c: char, j: nat)
    requires j < |s| && s[j] == c && c !in s[..j]
    ensures IndexOfChar(s, c) == j
  {
    if j > 0 {
      assert s[0] != c by { assert s[..j][0] == s[0]; }
      assert s[1..][..j - 1] == s[1..j];
      assert forall k :: 1 <= k < j ==> s[k] == s[..j][k];
      IndexOfCharAt(s[1..], c, j - 1);
    }
  }

  lemma {:induction false} SplitAllJoin(parts: seq<string>, c: char)
    requires |parts| >= 1
    requires forall k :: 0 <= k < |parts| ==> c !in parts[k]
    ensures SplitAll(Join([c], parts), c) == parts
    decreases |parts|
  {
    if |parts| > 1 {
      var s := Join([c], parts);
      var tail := Join([c], parts[1..]);
      var n := |parts[0]|;
      assert s == parts[0] + [c] + tail;
      assert s[..n] == parts[0];
      IndexOfCharAt(s, c, n);
      assert s[n + 1..] == tail;
      SplitAllJoin(parts[1..], c);
      assert [parts[0]] + parts[1..] == parts;
    }
  }

  /** Splitting a joined list gives the list back, provided the list is not empty,
      no part contains the separator and the last part is not empty. */
  lemma {:induction false} JavaSplitJoin(parts: seq<string>, c: char)
    requires |parts| >= 1
    requires forall k :: 0 <= k < |parts| ==> c !in parts[k]
    requires parts[|parts| - 1] != ""
    ensures JavaSplit(Join([c], parts), c) == parts
  {
    var s := Join([c], parts);
    SplitAllJoin(parts, c);
    if |parts| > 1 {
      assert s == parts[0] + [c] + Join([c], parts[1..]);
      assert s[|parts[0]|] == c;
    }
  }

  lemma {:induction false} ContainsAt(s: string, sub: string, i: int)
    requires OccursAt(s, sub, i)
    ensures Contains(s, sub)
  {
  }

  /** Splitting at a separator between two strings splits each side. */
  lemma {:induction false} SplitAllSep(x: string, y: string, c: char)
    ensures SplitAll(x + [c] + y, c) == SplitAll(x, c) + SplitAll(y, c)
    decreases |x|
  {
    var s := x + [c] + y;
    if c !in x {
      assert s[..|x|] == x;
      IndexOfCharAt(s, c, |x|);
      assert s[|x| + 1..] == y;
    } else {
      var i := IndexOfChar(x, c);
      assert s[..i] == x[..i];
      IndexOfCharAt(s, c, i);
      assert s[i + 1..] == x[i + 1..] + [c] + y;
      SplitAllSep(x[i + 1..], y, c);
    }
  }

  /** A string of separators splits into empty pieces only. */
  lemma {:induction false} SplitAllSeps(s: string, c: char)
    requires forall k :: 0 <= k < |s| ==> s[k] == c
    ensures forall k :: 0 <= k < |SplitAll(s, c)| ==> SplitAll(s, c)[k] == ""
    decreases |s|
  {
    if s != [] {
      IndexOfCharAt(s, c, 0);
      SplitAllSeps(s[1..], c);
    }
  }

  /** Replacing in a text without the pattern changes nothing. */
  lemma {:induction false} ReplaceAbsent(s: string, pat: string, rep: string)
    requires |pat| > 0 && forall i :: 0 <= i < |s| ==> !OccursAt(s, pat, i)
    ensures ReplaceAll(s, pat, rep) == s
    decreases |s|
  {
    if s != [] {
      assert !IsPrefix(pat, s) by {
        assert !OccursAt(s, pat, 0);
      }
      var t := s[1..];
      forall i | 0 <= i < |t| ensures !OccursAt(t, pat, i) {
        assert !OccursAt(s, pat, i + 1);
      }
      ReplaceAbsent(t, pat, rep);
    }
  }

  /** A pattern that occurs only at the end is replaced there. */
  lemma {:induction false} ReplaceSuffix(stem: string, pat: string, rep: string)
    requires |pat| > 0 && forall i :: 0 <= i < |stem| ==> !OccursAt(stem + pat, pat, i)
    ensures ReplaceAll(stem + pat, pat, rep) == stem + rep
    decreases |stem|
  {
    var s := stem + pat;
    if stem == [] {
      assert s == pat && s[|pat|..] == [];
      assert IsPrefix(pat, s);
    } else {
      assert !IsPrefix(pat, s) by {
        assert !OccursAt(s, pat, 0);
      }
      var t := stem[1..];
      assert s[1..] == t + pat;
      forall i | 0 <= i < |t| ensures !OccursAt(t + pat, pat, i) {
        assert !OccursAt(s, pat, i + 1);
      }
      ReplaceSuffix(t, pat, rep);
      assert [stem[0]] + (t + rep) == stem + rep;
    }
  }
}

=== FILE: trace_logger.dfy ===
/** The UI automation client's trace logger: each call through the provider
    is logged as one line naming the function, its arguments and its result,
    and a call logged exactly like the previous one prints a dot instead.
    The writer is an output string that grows, and the timestamp `now()`
    produces is a parameter. */
module TraceLogger {
  import opened Wrappers
  import opened Text

  /** A logged value: null, an object shown by its `toString`, or an
      exception, with its class name and message. */
  datatype Value = Null | Obj(text: string) | Thrown(className: string, message: Option<string>)

  /** The logger: whether a writer is set, what has been written to it, the
      previous log line, and whether the last thing written was a dot. */
  datatype Logger = Logger(hasWriter: bool, out: string, lastLog: Option<string>, wroteDot: bool)

  const FuncClick := 0
  const FuncSetTextByLabel := 10

  /** `getFunctionName`. */
  function FunctionName(f: int): string {
    if f == 0 then "click"
    else if f == 1 then "getChildCount"
    else if f == 2 then "getClassName"
    else if f == 3 then "getCurrentActivityClass"
    else if f == 4 then "getCurrentActivityName"
    else if f == 5 then "getCurrentActivityPackage"
    else if f == 6 then "getText"
    else if f == 7 then "inputText"
    else if f == 8 then "isEnabled"
    else if f == 9 then "isFocused"
    else if f == 10 then "setTextFieldByLabel"
    else "unknown"
  }

  /** Each function id of the provider has a name of its own, and only ids
      outside them are "unknown". */
  lemma {:induction false} FunctionNamesDistinct(f: int, g: int)
    ensures FunctionName(f) == "unknown" <==> !(FuncClick <= f <= FuncSetTextByLabel)
    ensures FuncClick <= f <= FuncSetTextByLabel && f != g ==> FunctionName(f) != FunctionName(g)
  {
  }

  /** An argument as `toString` shows it, or "null". */
  function ArgText(v: Value): string {
    match v
    case Null => "null"
    case Obj(t) => t
    case Thrown(name, msg) => if msg.Some? then name + ": " + msg.value else name
  }

  /** The arguments, each followed by a comma. */
  function Rendered(args: seq<Value>): string {
    if args == [] then "" else ArgText(args[0]) + "," + Rendered(args[1..])
  }

  /** The bracketed argument list: every value but the last, the result. */
  function ArgList(args: Option<seq<Value>>): string {
    if args.None? || |args.value| <= 1 then "[]"
    else "[" + Rendered(args.value[..|args.value| - 1]) + "]"
  }

  /** The result: the last value; an exception is shown by its class and its
      message. */
  function ResultText(args: Option<seq<Value>>): string {
    if args.None? || args.value == [] then "null"
    else match args.value[|args.value| - 1]
      case Null => "null"
      case Obj(t) => t
      case Thrown(name, msg) => "class " + name + "(" + msg.GetOr("null") + ")"
  }

  /** The log line of one call. */
  function LogLine(func: int, args: Option<seq<Value>>): string {
    "func:[" + FunctionName(func) + "] args:" + ArgList(args) + " return:[" + ResultText(args) + "]"
  }

  /** `setOutput`: later lines go to the new writer; the previous line and
      the dot flag are kept. */
  function SetOutput(l: Logger): (r: Logger)
    ensures r.hasWriter && r.out == [] && r.lastLog == l.lastLog && r.wroteDot == l.wroteDot
  {
    l.(hasWriter := true, out := [])
  }

  /** Writing the line `log` at time `now`: a dot when it repeats the
      previous line, else the timestamped line, after a newline ending any
      run of dots. */
  function Emit(l: Logger, now: string, log: string): (r: Logger)
    ensures r.hasWriter == l.hasWriter && r.lastLog == Some(log)
    ensures IsPrefix(l.out, r.out)
    ensures l.lastLog == Some(log) ==> r.out == l.out + "." && r.wroteDot
    ensures l.lastLog != Some(log) ==> !r.wroteDot && |r.out| > |l.out| + 1
  {
    if Some(log) == l.lastLog then l.(out := l.out + ".", wroteDot := true, lastLog := Some(log))
    else
      var sep := if l.wroteDot then "\n" else "";
      l.(out := l.out + sep + now + " " + log + "\n", wroteDot := false, lastLog := Some(log))
  }

  /** `logTrace`, with `now` the timestamp of the call: nothing without a
      writer. */
  function LogTrace(l: Logger, now: string, func: int, args: Option<seq<Value>>): (r: Logger)
    ensures !l.hasWriter ==> r == l
    ensures l.hasWriter ==> r == Emit(l, now, LogLine(func, args))
  {
    if !l.hasWriter then l else Emit(l, now, LogLine(func, args))
  }

  // ---------------------------------------------------------------------------

  /** The rendered list holds each text and its comma. */
  lemma {:induction false} RenderedLength(args: seq<Value>)
    ensures |Rendered(args)| == |args| + SumLengths(args)
    decreases |args|
  {
    if args != [] {
      RenderedLength(args[1..]);
    }
  }

  /** The `k`th argument's text, followed by a comma, sits at its offset in
      the rendered list. */
  lemma {:induction false} RenderedPlaces(args: seq<Value>)
    ensures forall k :: 0 <= k < |args| ==> OccursAt(Rendered(args), ArgText(args[k]) + ",", Offset(args, k))
    decreases |args|
  {
    if args != [] {
      RenderedPlaces(args[1..]);
      var head := ArgText(args[0]) + ",";
      var rest := Rendered(args[1..]);
      assert Rendered(args) == head + rest;
      forall k | 0 <= k < |args|
        ensures OccursAt(Rendered(args), ArgText(args[k]) + ",", Offset(args, k))
      {
        if k == 0 {
          OccursFirst(head, rest);
        } else {
          assert args[1..][k - 1] == args[k];
          OccursAfter(head, rest, ArgText(args[k]) + ",", Offset(args[1..], k - 1));
        }
      }
    }
  }

  lemma {:induction false} OccursFirst(a: string, b: string)
    ensures OccursAt(a + b, a, 0)
  {
    assert (a + b)[0..|a|] == a;
  }

  lemma {:induction false} OccursAfter(a: string, b: string, sub: string, i: int)
    requires OccursAt(b, sub, i)
    ensures OccursAt(a + b, sub, |a| + i)
  {
    assert (a + b)[|a| + i..|a| + i + |sub|] == b[i..i + |sub|];
  }

  /** Total length of the argument texts. */
  function SumLengths(args: seq<Value>): nat {
    if args == [] then 0 else |ArgText(args[0])| + SumLengths(args[1..])
  }

  /** Where the `k`th argument's text starts in the rendered list. */
  function Offset(args: seq<Value>, k: nat): nat
    requires k < |args|
  {
    if k == 0 then 0 else |ArgText(args[0])| + 1 + Offset(args[1..], k - 1)
  }

  /** Whether the output ends a line or a run of dots, and the dot flag says
      which. */
  ghost predicate Tidy(l: Logger) {
    l.out != [] ==>
      (l.out[|l.out| - 1] == '\n' || l.out[|l.out| - 1] == '.')
      && (l.wroteDot <==> l.out[|l.out| - 1] == '.')
  }

  /** Every line written keeps the output tidy: what follows a run of dots
      starts on a new line. */
  lemma {:induction false} EmitTidy(l: Logger, now: string, log: string)
    requires Tidy(l)
    ensures Tidy(Emit(l, now, log))
  {
  }

  /** Every call keeps the output tidy. */
  lemma {:induction false} LogTraceTidy(l: Logger, now: string, func: int, args: Option<seq<Value>>)
    requires Tidy(l)
    ensures Tidy(LogTrace(l, now, func, args))
  {
    if l.hasWriter {
      EmitTidy(l, now, LogLine(func, args));
    }
  }

  /** The same line written at each time of `stamps`. */
  function EmitAll(l: Logger, stamps: seq<string>, log: string): (r: Logger)
    ensures r.hasWriter == l.hasWriter
    decreases |stamps|
  {
    if stamps == [] then l
    else Emit(EmitAll(l, stamps[..|stamps| - 1], log), stamps[|stamps| - 1], log)
  }

  function Dots(n: nat): (r: string)
    ensures |r| == n && forall i :: 0 <= i < n ==> r[i] == '.'
  {
    seq(n, _ => '.')
  }

  /** A line repeated: it is written once, with the first timestamp, and
      each repeat adds one dot. */
  lemma {:induction false} RepeatsAreDots(l: Logger, stamps: seq<string>, log: string)
    requires l.lastLog != Some(log) && stamps != []
    ensures var r := EmitAll(l, stamps, log);
      r.out == l.out + (if l.wroteDot then "\n" else "") + stamps[0] + " " + log + "\n" + Dots(|stamps| - 1)
      && r.wroteDot == (|stamps| > 1) && r.lastLog == Some(log)
    decreases |stamps|
  {
    var init := stamps[..|stamps| - 1];
    if |stamps| == 1 {
      assert init == [];
    } else {
      RepeatsAreDots(l, init, log);
      assert init[0] == stamps[0];
      var prev := EmitAll(l, init, log);
      assert EmitAll(l, stamps, log) == Emit(prev, stamps[|stamps| - 1], log);
      assert Dots(|init| - 1) + "." == Dots(|stamps| - 1);
    }
  }

  /** `n` calls in a row, at the times `stamps`, logged the same way. */
  function Calls(l: Logger, stamps: seq<string>, func: int, args: Option<seq<Value>>): Logger
    decreases |stamps|
  {
    if stamps == [] then l
    else LogTrace(Calls(l, stamps[..|stamps| - 1], func, args), stamps[|stamps| - 1], func, args)
  }

  /** With a writer, repeated calls write their line as `EmitAll` does; with
      none, nothing at all. */
  lemma {:induction false} CallsEmit(l: Logger, stamps: seq<string>, func: int, args: Option<seq<Value>>)
    ensures l.hasWriter ==> Calls(l, stamps, func, args) == EmitAll(l, stamps, LogLine(func, args))
    ensures !l.hasWriter ==> Calls(l, stamps, func, args) == l
    decreases |stamps|
  {
    if stamps != [] {
      CallsEmit(l, stamps[..|stamps| - 1], func, args);
    }
  }

  /** A call repeated with a writer set: its line once, then one dot per
      repeat. */
  lemma {:induction false} RepeatedCallDots(l: Logger, stamps: seq<string>, func: int, args: Option<seq<Value>>)
    requires l.hasWriter && l.lastLog != Some(LogLine(func, args)) && stamps != []
    ensures Calls(l, stamps, func, args).out
      == l.out + (if l.wroteDot then "\n" else "") + stamps[0] + " " + LogLine(func, args) + "\n" + Dots(|stamps| - 1)
  {
    CallsEmit(l, stamps, func, args);
    RepeatsAreDots(l, stamps, LogLine(func, args));
  }

  /** Two different lines in a row, after a run of dots, each get a line of
      their own, the first preceded by the newline ending the dots. */
  lemma {:induction false} NewLineAfterDots(l: Logger, t1: string, t2: string, x: string, y: string)
    requires l.wroteDot && l.lastLog != Some(x) && x != y
    ensures Emit(Emit(l, t1, x), t2, y).out == l.out + "\n" + t1 + " " + x + "\n" + t2 + " " + y + "\n"
  {
    var first := Emit(l, t1, x);
    assert first.out == l.out + "\n" + t1 + " " + x + "\n" && !first.wroteDot;
    assert first.lastLog != Some(y);
    var o := first.out;
    assert o + "" == o;
    assert Emit(first, t2, y).out == o + "" + t2 + " " + y + "\n";
  }

  /** `isEnabled(selector)` returning true lists the selector alone. */
  lemma {:induction false} ArgListExample()
    ensures ArgList(Some([Obj("sel"), Obj("true")])) == "[sel,]"
  {
    var one := [Obj("sel"), Obj("true")][..1];
    assert one == [Obj("sel")] && one[1..] == [];
    assert Rendered(one) == "sel" + "," + "";
  }

  /** An exception is shown by its class and its message, "null" when it
      has none, whatever the arguments before it. */
  lemma {:induction false} ThrownResult(before: seq<Value>, name: string, msg: Option<string>)
    ensures ResultText(Some(before + [Thrown(name, msg)])) == "class " + name + "(" + msg.GetOr("null") + ")"
  {
    var all := before + [Thrown(name, msg)];
    assert all[|all| - 1] == Thrown(name, msg);
  }
}

=== FILE: vendor_match.dfy ===
/** The vendor test shared by both mDNS utility classes: a TXT attribute
    "contains" a vendor name when it equals the name ignoring case, or when the
    name followed by a space occurs in it; the classes try the test on the
    attribute as given, lower-cased and upper-cased. */
module VendorMatch {
  import opened Wrappers
  import opened Text
  import opened AndroidTypes

  const Product := "product"
  const Ty := "ty"
  const UsbMfg := "usb_MFG"
  const Mfg := "mfg"

  /** The four attributes a vendor name is looked for in, in the order tried. */
  function VendorAttributes(b: Bundle): (r: seq<Option<string>>)
    ensures |r| == 4
    ensures r[0] == GetString(b, Product) && r[1] == GetString(b, Ty)
    ensures r[2] == GetString(b, UsbMfg) && r[3] == GetString(b, Mfg)
  {
    [GetString(b, Product), GetString(b, Ty), GetString(b, UsbMfg), GetString(b, Mfg)]
  }

  /** `containsString` on two non-null strings. */
  predicate ContainsString(container: string, contained: string) {
    EqualsIgnoreCase(container, contained) || Contains(container, contained + " ")
  }

  /** One vendor name against one attribute: the three `containsString` calls
      of `containsVendor`'s loop body. */
  predicate Matches(attr: string, name: string) {
    ContainsString(attr, name)
    || ContainsString(Lower(attr), Lower(name))
    || ContainsString(Upper(attr), Upper(name))
  }

  /** What the three attempts add up to: the attribute equals the name ignoring
      case, or contains the name and a space ignoring case. */
  predicate MatchesCaseless(attr: string, name: string) {
    EqualsIgnoreCase(attr, name) || Contains(Lower(attr), Lower(name) + " ")
  }

  // ---------------------------------------------------------------------------

  lemma {:induction false} LowerUpperChar(c: char)
    ensures LowerChar(LowerChar(c)) == LowerChar(c) && UpperChar(LowerChar(c)) == UpperChar(c)
    ensures LowerChar(UpperChar(c)) == LowerChar(c) && UpperChar(UpperChar(c)) == UpperChar(c)
  {
  }

  lemma {:induction false} LowerSpace(s: string)
    ensures Lower(s + " ") == Lower(s) + " " && Upper(s + " ") == Upper(s) + " "
  {
    assert Lower(s + " ")[|s|] == LowerChar(' ');
    assert Upper(s + " ")[|s|] == UpperChar(' ');
  }

  lemma {:induction false} LowerIdempotent(s: string)
    ensures Lower(Lower(s)) == Lower(s) && Lower(Upper(s)) == Lower(s)
  {
    forall i | 0 <= i < |s| ensures Lower(Lower(s))[i] == Lower(s)[i] && Lower(Upper(s))[i] == Lower(s)[i] {
      LowerUpperChar(s[i]);
    }
  }

  /** Case mapping a string maps each of its pieces. */
  lemma {:induction false} LowerOccurs(s: string, sub: string, i: int)
    requires OccursAt(s, sub, i)
    ensures OccursAt(Lower(s), Lower(sub), i)
  {
    var piece := Lower(s)[i..i + |sub|];
    forall k | 0 <= k < |sub| ensures piece[k] == Lower(sub)[k] {
      assert s[i..i + |sub|][k] == sub[k];
    }
  }

  lemma {:induction false} LowerContains(s: string, sub: string)
    requires Contains(s, sub)
    ensures Contains(Lower(s), Lower(sub))
  {
    var i :| 0 <= i <= |s| - |sub| && OccursAt(s, sub, i);
    LowerOccurs(s, sub, i);
  }

  /** Comparing ignoring case is blind to case mapping either side first. */
  lemma {:induction false} EqualsIgnoreCaseMapped(a: string, b: string)
    ensures EqualsIgnoreCase(Lower(a), Lower(b)) ==> EqualsIgnoreCase(a, b)
    ensures EqualsIgnoreCase(Upper(a), Upper(b)) ==> EqualsIgnoreCase(a, b)
  {
    forall i | 0 <= i < |a| && i < |b|
      ensures UpperChar(LowerChar(a[i])) == UpperChar(a[i]) && UpperChar(LowerChar(b[i])) == UpperChar(b[i])
      ensures LowerChar(UpperChar(a[i])) == LowerChar(a[i]) && LowerChar(UpperChar(b[i])) == LowerChar(b[i])
    {
      LowerUpperChar(a[i]);
      LowerUpperChar(b[i]);
    }
  }

  /** The three `containsString` attempts amount to one case-insensitive test. */
  lemma {:induction false} MatchesIsCaseless(attr: string, name: string)
    ensures Matches(attr, name) <==> MatchesCaseless(attr, name)
  {
    LowerSpace(name);
    LowerSpace(Upper(name));
    LowerIdempotent(attr);
    LowerIdempotent(name);
    EqualsIgnoreCaseMapped(attr, name);
    if Contains(attr, name + " ") {
      LowerContains(attr, name + " ");
    }
    if Contains(Upper(attr), Upper(name) + " ") {
      LowerContains(Upper(attr), Upper(name) + " ");
    }
    if MatchesCaseless(attr, name) && !EqualsIgnoreCase(attr, name) {
      assert ContainsString(Lower(attr), Lower(name));
    }
  }
}

=== FILE: wrappers.dfy ===
/** Failure-compatible wrappers shared by every module of the model: `Option`
    stands for a Java/Python reference that may be null (or None), `Result` for
    an operation that either returns a value or raises. */
module Wrappers {

  datatype Option<+T> = None | Some(value: T) {

    /** The value, or `default` when there is none. */
    function GetOr(default: T): T {
      match this
      case Some(v) => v
      case None => default
    }
  }

  datatype Result<+T, +E> = Success(value: T) | Failure(error: E) {

    predicate IsFailure() {
      Failure?
    }

    function PropagateFailure<U>(): Result<U, E>
      requires Failure?
    {
      Failure(error)
    }

    function Extract(): T
      requires Success?
    {
      value
    }
  }
}
